=== FILE: README.md ===
# Tasks and requirements store

A model of the two document stores of the MCP server: work items (`mcp/modules/tasks.js`) and
requirements — PRDs, technical specs, user stories, epics and features
(`mcp/modules/requirements.js`). Each store is a folder of markdown documents, split into one
sub-folder per lifecycle status: `backlog`, `in-progress`, `completed`, `blocked` and `archive`
for tasks, and `draft`, `review`, `approved`, `implemented` and `deprecated` for requirements.

Each module has four parts, and the model follows them:

- **Id allocator.** It scans every status folder for the largest number of a prefix and numbers
  the new document one past it (`Store.NewId`, `ReqOps.GenerateRequirementId`).
- **Codec.** The generator renders a record into a fixed layout of metadata lines and sections.
  The parser reads a record back with one independent extractor per field. The model writes each
  regular expression as a small extractor or replacer over the lines of the text (`Pattern`,
  `Layout`). It then proves what the parser reads from what the generator writes (`TaskRead`,
  `ReqRead`), and from what each handler's rewrite leaves (`TaskEdit`, `ReqEdit`, `SubtaskEdit`).
- **Lookup.** The lookup searches the status folders in a fixed order for the first file whose
  name starts with the id (`Store.Find`).
- **Handlers.** Each tool handler becomes a pure function from the store to an `Outcome`: the
  file system calls it makes, in order, and its reply. `Store.Run` applies the calls in order and
  stops at the first one that throws. A write into a missing folder throws.

The store is a `map` from folder name to the folder's listing: a sequence of files, each with a
name and a text. The date of the day and the archive cutoff are parameters, since the model has
no clock. Dates are compared as strings, as the source does.

Module layout: `Common`, `Text`, `Numbers`, `Order` and `Prose` hold shared helpers. `Pattern`,
`Layout` and `Outline` model the regular expressions and the document shape. `Store` models the
folders. `TaskDoc`, `TaskRead`, `TaskEdit`, `Checkbox`, `SubtaskEdit`, `TaskCreate`, `TaskOps`,
`TaskQuery` and `TaskStats` model `tasks.js`. `ReqDoc`, `ReqRead`, `ReqEdit`, `ReqOps` and
`ReqQuery` model `requirements.js`.

## Model

| member | source | states |
|---|---|---|
| Store.NewIdFresh | mcp/modules/tasks.js:26-47 | The new task number is one past the largest `TASK-` number in all five folders, archive included, zero-padded to at least three digits. No existing file name starts with the new id, so a lookup by it cannot land on an older file. |
| Numbers.PaddedRoundTrip | mcp/modules/tasks.js:46 | The zero-padded number reads back as the number and has at least the padding width in digits. |
| Store.FindFirst | mcp/modules/tasks.js:190-208 | The lookup lands in the first folder, in status order, that holds a file whose name starts with the id, and on the first such file listed there. |
| TaskOps.FoundIn | mcp/modules/tasks.js:187-209 | `findTask` first creates the missing status folders; what it finds is a file of a status folder of that prepared store. |
| TaskCreate.PrefixAmbiguity | mcp/modules/tasks.js:195 | The lookup is by name prefix: with `TASK-1000-a.md` in `backlog` and `TASK-100-b.md` in `in-progress`, a lookup of `TASK-100` lands on `TASK-1000-a.md`, because the backlog is searched first. |
| TaskRead.TaskRoundTrip | mcp/modules/tasks.js:49-185 | Parsing the generated document gives the task back as the generator completed it. Every field written is read back, `updated` is the day of writing, and the placeholders read back as no subtasks and one unchecked criterion. |
| TaskRead.NoCriteriaRead | mcp/modules/tasks.js:109-118 | A task written without criteria reads back with one unchecked criterion, `_Add criteria_`, not with an empty list. |
| TaskRead.NoSubtasksRead | mcp/modules/tasks.js:85-95 | A task written without subtasks reads back with an empty subtask list. |
| TaskRead.ZeroEstimateOmitted | mcp/modules/tasks.js:139-140 | An estimate of 0 hours is falsy, so no Estimate line is written. |
| Naming.DashedKeeps | mcp/modules/tasks.js:390 | Replacing each run of characters outside `[a-z0-9]` with one dash keeps every letter and digit, in order, and adds none. |
| Naming.SlugOfSlug | mcp/modules/tasks.js:390 | A title of at most 50 characters drawn from `[a-z0-9]` is its own slug. |
| TaskCreate.CreateEffect | mcp/modules/tasks.js:350-401 | task_create writes the new document to the backlog under `<id>-<slug>.md`, where a lookup by the new id finds it. A parent found by its id is rewritten in place. No other file changes. |
| TaskCreate.CreatedRead | mcp/modules/tasks.js:353-368 | The new document reads back as a backlog task of the day with the given title, priority (P2 by default) and parent, each given criterion unchecked, and no subtasks. Without criteria it reads back with the one placeholder criterion. |
| SubtaskEdit.ParentRead | mcp/modules/tasks.js:370-386 | The parent reads back with the new subtask last, unchecked, and today's Updated date; nothing else it reads changes. |
| SubtaskEdit.PlaceholderRead | mcp/modules/tasks.js:376-377 | Where the `_No subtasks_` placeholder was, the new line reads back as the one subtask, unchecked. |
| TaskOps.Start | mcp/modules/tasks.js:486-493 | A task that is not found gives the not-found error with no call. A task already in in-progress gives success with no call. |
| TaskOps.StartEffect | mcp/modules/tasks.js:495-506 | Any other task is written into in-progress and then unlinked from its folder, with the Status and Updated lines rewritten. Nothing else changes. |
| TaskEdit.StartRead | mcp/modules/tasks.js:496-498 | After task_start the parser reads the same task, with status `in-progress` and today's Updated date. |
| TaskOps.CompleteEffect | mcp/modules/tasks.js:521-549 | A task outside completed moves there with its new text. A task already in completed is deleted, because the unlink removes the file that the write has just rewritten. |
| TaskEdit.CompleteRead | mcp/modules/tasks.js:525-540 | After task_complete the parser reads status `completed` and today's Updated date. The Completed date becomes today only when there was none. The actual hours change only when a non-zero number is given. |
| TaskOps.BlockEffect | mcp/modules/tasks.js:563-585 | A task outside blocked moves there with its new text. A task already in blocked is deleted. |
| TaskEdit.BlockRead | mcp/modules/tasks.js:567-576 | After task_block the parser reads status `blocked`, today's Updated date and the new blocker. The new blocker replaces any earlier one instead of adding a second line. |
| TaskOps.UnblockEffect | mcp/modules/tasks.js:598-615 | A task outside the backlog moves there with its new text. A task already in the backlog is deleted. |
| TaskEdit.UnblockRead | mcp/modules/tasks.js:602-606 | After task_unblock the parser reads status `backlog`, today's Updated date, and no blocker. |
| TaskOps.RelocateEffect | mcp/modules/tasks.js:545-546 | The move every status handler makes: into another folder the task lands with its new text and leaves its folder. Into its own folder, the write and then the unlink of the same path leave no file. |
| Store.MoveAsWrittenLoses | mcp/modules/tasks.js:581-582 | Writing a file into the folder it already sits in and then unlinking it deletes it. |
| TaskOps.CheckCriterionEffect | mcp/modules/tasks.js:661-679 | task_check_criterion rewrites the found task in place. Among the unchecked boxes of the whole document, counted in document order, the one numbered `index` is ticked and the Updated date is stamped. Checked criteria are not counted; boxes outside the criteria section are. With no such box only the date changes. |
| Checkbox.TickSpec | mcp/modules/tasks.js:667-674 | The global replace ticks the unchecked box numbered `index` and changes nothing else. An index out of range leaves the text unchanged. |
| Checkbox.CheckedShiftsIndex | mcp/modules/tasks.js:669-671 | With `- [x] a` above `- [ ] b`, asking for criterion 1 leaves `b` unchecked and the document unchanged. |
| TaskOps.RewriteEffect | mcp/modules/tasks.js:645 | A handler that edits in place rewrites only the found file, in its folder, with its new text. |
| TaskOps.RewritesEffect | mcp/modules/tasks.js:629-647 | task_add_note, task_link_worktree and task_update each rewrite only the found file, each with its own rewrite. |
| TaskEdit.NoteRead | mcp/modules/tasks.js:633-643 | After task_add_note the parser reads nothing new but today's Updated date. |
| TaskEdit.LinkRead | mcp/modules/tasks.js:781-798 | After task_link_worktree the parser reads the new worktree in place of any earlier one, and today's Updated date. |
| TaskEdit.UpdateRead | mcp/modules/tasks.js:421-473 | After task_update each given argument is read back and everything else stays the same. The one exception is the priority, which changes only where the document has a Priority line. A non-empty label list replaces the labels read. The Updated date is today. |
| TaskOps.Archive | mcp/modules/tasks.js:811-858 | task_archive first creates the missing folders. It answers with the swept list exactly when no task id is given. |
| TaskOps.ArchiveOne | mcp/modules/tasks.js:814-825 | A task id that is not found gives the not-found error. A task outside completed gives an error and no call. A completed task is written to the archive with its text unchanged and unlinked from completed. |
| TaskOps.ArchiveOld | mcp/modules/tasks.js:831-857 | The bulk archive moves exactly the documents of the completed folder whose Completed date sorts before the cutoff, each with its text unchanged. The others stay in place and nothing outside the two folders changes. |
| TaskQuery.MatchingMembers | mcp/modules/tasks.js:252-291 | A row is listed exactly when a document of a requested folder reads as a task that passes the status, priority, label, search and worktree filters. By default every folder but archive is searched. |
| TaskQuery.ShownSpec | mcp/modules/tasks.js:293-302 | The reply counts every match. It shows the first `limit` of them (a negative limit counts from the end, as `slice` does), sorted by priority and then by Updated date, newest first. The rows left out come no earlier than any row shown. Of rows that tie on both keys, the ones shown are the first in listing order. |
| Order.SortOrdered | mcp/modules/tasks.js:293-296 | The sort returns a permutation of its input in which no element comes before one ahead of it. |
| Order.SortStable | mcp/modules/requirements.js:341-344 | The sort is stable, as `Array.prototype.sort` is: the elements with any one key keep their relative input order. |
| TaskStats.StatisticsAsWrittenSpec | mcp/modules/tasks.js:729-766 | task_stats counts the documents of the four active folders, per folder and per label. The estimated and actual hours are the sums of the non-zero estimates and actual hours read. Priorities P0 to P3 are counted, but the counter of any other priority in use is NaN. |
| TaskStats.PriorityNaN | mcp/modules/tasks.js:752 | A single backlog task of priority `P4` gets the counter NaN in the handler and 1 in the corrected counter. |
| TaskStats.StatisticsSpec | mcp/modules/tasks.js:737-757 | The corrected statistics: every priority counter is the number of documents of that priority. Folders, labels and hours are counted as the handler counts them. |
| ReqDoc.TypeOfPrefix | mcp/modules/requirements.js:73-77 | The type the parser infers from an id written with a type's prefix is that type, so inference inverts the prefix table. An id written with the default prefix `REQ` has no type. |
| ReqOps.GenerateRequirementIdSpec | mcp/modules/requirements.js:43-65 | A new id is `<PREFIX>-<digits>`, and its type read back is the type asked for (`REQ` and no type for an unknown one). It is numbered past every id of that prefix in all five folders, deprecated included, and no file name there starts with it. |
| ReqOps.FindRequirementSpec | mcp/modules/requirements.js:247-269 | The lookup finds nothing exactly when no file of a status folder has a name that starts with the id and ends in `.md`. Otherwise it lands on the first such file of the first folder, in status order. |
| ReqRead.ReqRoundTrip | mcp/modules/requirements.js:67-245 | Parsing the generated document gives the requirement back as the generator completed it. The id and type come from the file name and the author defaults to `Unknown`. The criteria placeholder reads back as one criterion and the other placeholders as empty lists. Dependencies and notes are written but never read. |
| ReqOps.CreateEffect | mcp/modules/requirements.js:395-424 | req_create writes one new document to the draft folder, where a lookup by the new id finds it. No other file changes. |
| ReqOps.CreatedRead | mcp/modules/requirements.js:398-411 | The new document reads back as a draft of the day with the type its prefix names, priority P2 and author `Unknown` by default, and the criteria given or the placeholder. It has no links or questions. |
| ReqOps.UpdateStatus | mcp/modules/requirements.js:441-448 | A requirement that is not found gives the not-found error. A requirement already in the folder named by the status gives success with no call. |
| ReqOps.UpdateStatusEffect | mcp/modules/requirements.js:450-459 | Into another existing folder, the document is written with the Status and Updated lines rewritten and is then unlinked from where it was. Nothing else changes. |
| ReqOps.UpdateStatusUnknown | mcp/modules/requirements.js:455-459 | The status is not validated: a status that is a plain name (not empty, `.` or `..`, and without `/`) and names no folder makes the write throw, and every document stays where it was. |
| ReqEdit.StatusRead | mcp/modules/requirements.js:451-453 | After the rewrite the parser reads the new status and today's Updated date, and nothing else changes. |
| ReqOps.RewritesEffect | mcp/modules/requirements.js:476-592 | Each in-place requirement handler rewrites only the found file. A second lookup by the same id finds it with the new text. |
| ReqEdit.LinkTaskRead | mcp/modules/requirements.js:481-491 | The task id replaces the placeholder. If the section text already holds the id, even inside a longer id, the list is kept. Otherwise the id is added last. Only the linked tasks and the Updated date change. |
| ReqEdit.LinkTaskSettles | mcp/modules/requirements.js:481-490 | After req_link_task the section is again in the shape the handler expects, so linking the same id twice keeps the list. |
| ReqEdit.LinkRequirementRead | mcp/modules/requirements.js:514-524 | The same as req_link_task, on the Related Requirements section. |
| ReqEdit.AskRead | mcp/modules/requirements.js:547-556 | The question replaces the placeholder or is added last, without de-duplication. The list of open questions grows by exactly one. |
| ReqEdit.CriterionRead | mcp/modules/requirements.js:579-588 | The criterion replaces the placeholder criterion or is added last, without de-duplication. The criteria grow by exactly one. |
| ReqOps.GenerateSpec | mcp/modules/requirements.js:605-609 | A missing id, or one whose file name does not read as a PRD, gives the error and no call. |
| ReqOps.GenerateSpecEffect | mcp/modules/requirements.js:611-643 | For a PRD, the spec is written to the draft folder, where a lookup by the spec id finds it. The PRD itself is then rewritten with the link back. Nothing else changes. |
| ReqOps.GeneratedSpecRead | mcp/modules/requirements.js:612-622 | The spec reads back as a draft tech-spec with the PRD's priority (P2 when it has none) and criteria. Its one related requirement is the PRD. |
| ReqEdit.LinkBackRead | mcp/modules/requirements.js:632-641 | The PRD's Related Requirements gain the spec id last, even when the section already lists it. |
| ReqQuery.MatchingMembers | mcp/modules/requirements.js:300-339 | A row is listed exactly when a document of a requested folder reads as a requirement that passes the filters. By default every folder but deprecated is searched. |
| ReqQuery.ShownSpec | mcp/modules/requirements.js:341-347 | The reply counts every match and lists each of them once, ordered by priority and then by id. Rows that tie on both keys keep their listing order. |
| ReqQuery.TraceabilitySpec | mcp/modules/requirements.js:661-702 | The matrix has one row per document of the status folders. The status counters are the folder sizes and add up to the total. `withTasks` is the number of documents that link at least one task, and `withOpenQuestions` the number with at least one open question. |
| ReqQuery.MatrixMembers | mcp/modules/requirements.js:667-686 | The matrix has a row for every document of every status folder, and no other row. |

## Left out

- File system errors other than a write into a missing folder are not modelled. This covers `readdir`, `readFile` and `unlink` failures and the `catch {}` blocks that swallow them. `mkdirSync` is modelled as `Store.Ensure`.
- Concurrency: two handlers that interleave their reads and writes are not modelled. Neither are two allocations of the same id.
- The clock: `getToday()` and `Date.now()` are parameters. The bulk archive takes its cutoff date as given, not as `daysOld` days before now (tasks.js:828-829).
- task_get, task_current and req_get only read and project one record or a folder. They are not modelled.
- TaskEdit.UpdateText: `String.replace` expands `$&`, `$1`, `$$`, `` $` `` and `$'` in its replacement. The model inserts user values literally. This affects the title, priority, description, labels and worktree of task_update (tasks.js:429, 432, 437, 442, 444, 449, 451). It also affects TaskOps.Update and TaskEdit.UpdateRead.
- TaskEdit.BlockText: the same literal insertion for the blocker (tasks.js:573, 575). It also affects TaskOps.Block and TaskEdit.BlockRead.
- TaskEdit.LinkText: the same literal insertion for the worktree (tasks.js:790, 792). It also affects TaskOps.LinkWorktree and TaskEdit.LinkRead.
- ReqEdit.StatusText: the same literal insertion for the status (requirements.js:452). It also affects ReqOps.UpdateStatus and ReqEdit.StatusRead.
- TaskEdit.CompleteText: hours are whole numbers (`Option<int>`). The handlers take any JSON number (tasks.js:346, 416-417, 517), so `1.5h` cannot be expressed. This also holds for TaskEdit.UpdateText and the `Changes` record.
- TaskQuery.MatchingMembers: the label and search filters lower-case with `Text.ToLower`, which covers ASCII, the Kelvin sign and the dotted capital I. JavaScript's `toLowerCase` covers all of Unicode (tasks.js:254, 266, 269-273), so a search for `é` that finds `Étude` in the source finds nothing in the model.
- ReqQuery.MatchingMembers: the same lower-casing for the search filter (requirements.js:318-322).
- ReqOps.SpecName: the same lower-casing for the PRD id in the spec's file name (requirements.js:625). For slugs the lower-casing is exact, since the slug keeps only `[a-z0-9]`.
- Order.SortOrdered: `localeCompare` is taken as code-point order, on Unicode scalar values (tasks.js:293-296, requirements.js:341-344). The two agree on the ids, priorities and dates the generator writes. They can differ on other text.
- TaskEdit.StartRead: the read-back lemmas of TaskEdit and ReqEdit hold for documents in the shape the generator writes, with one metadata line per name. On other text the handlers apply the same rewrite, and the handler lemmas of TaskOps and ReqOps state its effect on the store. What the parser then reads is not stated.
- TaskEdit.UpdateRead: the lemma covers a non-empty label list whose items are non-empty, trimmed, single-line, and free of `,`, `*` and `#`. It also covers single-line titles and worktrees and positive hours. An empty list is applied by the handler, since `[]` is truthy (tasks.js:440-445). It writes `**Labels**: ` with nothing after it. The parser's `(.+)` then reads no labels (tasks.js:103), and a later update's `.+` replace no longer matches the line.
- SubtaskEdit.PlaceholderRead: the placeholder branch of the parent update is stated line by line, not for the whole parent document.
- ReqOps.GenerateRequirementIdSpec: types are looked up in a table, and an unknown type gets `REQ`. The source indexes a plain object (`TYPE_PREFIXES[type] || "REQ"`, requirements.js:46). A type named after an `Object.prototype` member takes the inherited value instead. For `constructor` the prefix becomes `function Object() { [native code] }`, and for `__proto__` it becomes `[object Object]`. The same applies to `TYPE_LABELS` in the generator (requirements.js:144) and to ReqDoc.PrefixOf and ReqDoc.LabelOf.
- ReqOps.CreatedRead: the same inherited-member types are outside the model. Their documents do not read back with no type and a `REQ` id.
- TaskStats.StatisticsAsWrittenSpec: label counters are a map from label to count. The source keeps them on a plain object (tasks.js:757). A label `constructor` or `toString` then counts as a string, `function … }1`. A label `__proto__` gets no counter. The same holds for TaskStats.StatisticsSpec.
- ReqQuery.ShownSpec: a row without an id, from a file name that does not start with `<LETTERS>-<digits>`, sorts as `""` in the model. In the source, `a.id.localeCompare(b.id)` throws a `TypeError` when that row is the left argument of a tie on priority. When it is the right argument, the other id is compared with the text `undefined` (requirements.js:342). Which pairs V8's sort compares is not modelled. With such a row tied on priority, the model replies where the source may throw.
- ReqOps.UpdateStatusUnknown: folders are map keys, so every status names its folder literally. The source joins the status into a path (requirements.js:455-459), and `path.join` normalises it. `draft/` names the draft folder, and `""` or `.` name the store root. So a document moved to `review/` does move, and one set to `draft/` while in draft is deleted. With `""` or `.` the document is written to the store root and unlinked from its folder. ReqOps.UpdateStatus models a throw for these statuses.
- TaskQuery.MatchingMembers: status items such as `backlog/` or `./backlog` read the backlog folder in the source (tasks.js:257), with `status` set to the item as given. The model finds no folder under that key and lists nothing.
- ReqQuery.MatchingMembers: the same for the status argument (requirements.js:305).
- Store.NewId: numbers are unbounded integers. The source parses them with `parseInt` and prints them with `String()`, both on IEEE doubles (tasks.js:38-46). Numbers above 2^53 lose precision, and from 10^21 on the id is printed as `TASK-1e+21`. The same holds for ReqOps.GenerateRequirementId (requirements.js:57-64).

## Findings

| source | as written | input that shows it | evidently intended | confidence | as-written member | corrected member |
|---|---|---|---|---|---|---|
| mcp/modules/tasks.js:545-546 (also 581-582, 611-612) | The new file is written into the target folder and the old path is then unlinked, even when both are the same path. | task_complete on a task already in `completed/`, task_block on a task in `blocked/`, or task_unblock on a task in `backlog/`: the task file is deleted. | The task stays in its folder with its new text. | not executed | TaskOps.RelocateEffect | TaskOps.RelocateIntendedEffect |
| mcp/modules/tasks.js:666-675 | The index counts the unchecked `- [ ] ` lines of the whole document. | `- [x] a` then `- [ ] b`, index 1: nothing is ticked, although the schema calls the index the criterion's 0-based index. Subtask lines are counted too. | The criterion numbered `index` of the criteria list is checked. | not executed | Checkbox.CheckedShiftsIndex | Checkbox.TickCriterionSpec |
| mcp/modules/tasks.js:752 | `stats.byPriority[task.priority]++` on a priority other than P0 to P3 increments a missing key. | One backlog task with priority `P4`: `byPriority.P4` is NaN. | The counter counts the documents of that priority. | not executed | TaskStats.PriorityNaN | TaskStats.StatisticsSpec |

=== FILE: checkbox.dfy ===
/** task_check_criterion (tasks.js:666-675): `replace(/- \[ \] (.+)/g, ...)` with a counter that
    turns the match numbered `index` into `- [x] <criterion>`, then the updated date. The
    pattern cannot cross a line terminator, so its matches are found line by line, each search
    in a line resuming where the previous match ended. */
module Checkbox {
  import opened Common
  import opened Text
  import opened Pattern
  import opened TaskDoc
  import opened TaskEdit

  /** An unchecked box `- [ ] ` at position `i` of line `l`. */
  predicate IsBox(l: string, i: nat) { OccursAt(l, i, "- [ ] ") }

  /** Matches of the box pattern in a line, in order from `p`: each an unchecked box whose
      captured group runs from after the box to the end of the match, none overlapping. */
  predicate GoodHits(l: string, p: nat, ms: seq<Hit>) {
    && (forall k :: 0 <= k < |ms| ==>
          && p <= ms[k].start && ms[k].groupStart == ms[k].start + 6
          && ms[k].start + 6 < ms[k].groupEnd == ms[k].matchEnd <= |l| && IsBox(l, ms[k].start))
    && (forall i, j :: 0 <= i < j < |ms| ==> ms[i].matchEnd <= ms[j].start)
  }

  lemma BoxHit(l: string, p: nat)
    requires FirstIn(BoxPat, l, p).Some?
    ensures var h := FirstIn(BoxPat, l, p).value;
      && p <= h.start && h.groupStart == h.start + 6 && h.start + 6 < h.groupEnd == h.matchEnd <= |l|
      && IsBox(l, h.start)
  {
    FirstInSpec(BoxPat, l, p);
  }

  /** The matches the global replacement visits in `l` from `p`: the leftmost match, then the
      matches after its end. */
  function Matches(l: string, p: nat): (ms: seq<Hit>)
    requires p <= |l|
    ensures GoodHits(l, p, ms)
    decreases |l| - p
  {
    match FirstIn(BoxPat, l, p)
    case None => []
    case Some(h) =>
      BoxHit(l, p);
      var rest := Matches(l, h.matchEnd);
      var ms := [h] + rest;
      assert forall k :: 0 < k < |ms| ==> ms[k] == rest[k - 1];
      ms
  }

  lemma HitsRest(l: string, p: nat, ms: seq<Hit>)
    requires GoodHits(l, p, ms) && |ms| > 0
    ensures GoodHits(l, ms[0].matchEnd, ms[1..])
  {
    assert forall k :: 0 <= k < |ms| - 1 ==> ms[1..][k] == ms[k + 1];
  }

  /** The replacement over the matches of one line from `p`, with the counter at `idx` on
      entry: each match numbered `index` becomes `- [x] <criterion>`, every other match stays;
      the result is the rewritten rest of the line and the counter on exit. */
  function TickHits(l: string, p: nat, ms: seq<Hit>, idx: int, index: int): (string, int)
    requires p <= |l| && GoodHits(l, p, ms)
    decreases |ms|
  {
    if |ms| == 0 then (l[p..], idx)
    else
      var h := ms[0];
      HitsRest(l, p, ms);
      var rest := TickHits(l, h.matchEnd, ms[1..], idx + 1, index);
      var rep := if idx == index then "- [x] " + l[h.groupStart..h.groupEnd] else l[h.start..h.matchEnd];
      (l[p..h.start] + rep + rest.0, rest.1)
  }

  /** Every line's matches, found from its start. */
  predicate AllGood(ls: seq<string>, hs: seq<seq<Hit>>) {
    |hs| == |ls| && forall i :: 0 <= i < |ls| ==> GoodHits(ls[i], 0, hs[i])
  }

  function AllHits(ls: seq<string>): (hs: seq<seq<Hit>>)
    ensures AllGood(ls, hs)
  {
    seq(|ls|, i requires 0 <= i < |ls| => Matches(ls[i], 0))
  }

  /** The replacement over the lines, given each line's matches, the counter carried from line
      to line. */
  function TickLines(ls: seq<string>, hs: seq<seq<Hit>>, idx: int, index: int): (seq<string>, int)
    requires AllGood(ls, hs)
    decreases |ls|
  {
    if |ls| == 0 then ([], idx)
    else
      var first := TickHits(ls[0], 0, hs[0], idx, index);
      var rest := TickLines(ls[1..], hs[1..], first.1, index);
      ([first.0] + rest.0, rest.1)
  }

  /** The first replacement of task_check_criterion. */
  function Tick(c: string, index: int): string {
    var ls := Lines(c);
    Unlines(TickLines(ls, AllHits(ls), 0, index).0)
  }

  /** task_check_criterion's new content: the box ticked, then the updated date. */
  function CheckText(c: string, index: int, today: string): string {
    Stamp(Tick(c, index), today)
  }

  // ---------------------------------------------------------------------------------------
  // What the replacement does in one line.

  /** The rest of `l` from `p` with the box of the match numbered `index` ticked, when that
      match is among `ms`, numbered from `idx`. */
  function Flipped(l: string, p: nat, ms: seq<Hit>, idx: int, index: int): string
    requires p <= |l| && GoodHits(l, p, ms)
  {
    if idx <= index < idx + |ms| then l[p..][ms[index - idx].start - p + 3 := 'x'] else l[p..]
  }

  /** The counter advances by the number of matches, and the match numbered `index`, if it is
      in this line, is ticked: the space of its box becomes `x`. Nothing else changes. */
  lemma {:induction false} TickHitsSpec(l: string, p: nat, ms: seq<Hit>, idx: int, index: int)
    requires p <= |l| && GoodHits(l, p, ms)
    ensures TickHits(l, p, ms, idx, index).1 == idx + |ms|
    ensures TickHits(l, p, ms, idx, index).0 == Flipped(l, p, ms, idx, index)
    decreases |ms|
  {
    TickHitsCount(l, p, ms, idx, index);
    if |ms| > 0 {
      var h := ms[0];
      var rest := ms[1..];
      var next := idx + 1;
      HitsRest(l, p, ms);
      TickHitsSpec(l, h.matchEnd, rest, next, index);
      var tail := TickHits(l, h.matchEnd, rest, next, index).0;
      TickStep(l, p, ms, idx, index, next, tail);
    }
  }

  /** One match further: the first match, ticked when it is the one numbered `index`, before the
      rest of the line as the later matches leave it. */
  lemma TickStep(l: string, p: nat, ms: seq<Hit>, idx: int, index: int, next: int, tail: string)
    requires p <= |l| && GoodHits(l, p, ms) && |ms| > 0 && next == idx + 1
    requires GoodHits(l, ms[0].matchEnd, ms[1..]) && tail == Flipped(l, ms[0].matchEnd, ms[1..], next, index)
    ensures var h := ms[0];
      l[p..h.start] + (if idx == index then "- [x] " + l[h.groupStart..h.groupEnd] else l[h.start..h.matchEnd]) + tail
        == Flipped(l, p, ms, idx, index)
  {
    var h := ms[0];
    var rest := ms[1..];
    if idx == index {
      TickFirst(l, p, h, tail);
    } else if idx < index < idx + |ms| {
      assert ms[index - idx] == rest[index - next];
      TickLater(l, p, h, ms[index - idx].start, tail);
    } else {
      TickNone(l, p, h, tail);
    }
  }

  /** The counter advances by the number of matches. */
  lemma {:induction false} TickHitsCount(l: string, p: nat, ms: seq<Hit>, idx: int, index: int)
    requires p <= |l| && GoodHits(l, p, ms)
    ensures TickHits(l, p, ms, idx, index).1 == idx + |ms|
    decreases |ms|
  {
    if |ms| > 0 {
      var next := idx + 1;
      HitsRest(l, p, ms);
      TickHitsCount(l, ms[0].matchEnd, ms[1..], next, index);
    }
  }

  lemma TickFirst(l: string, p: nat, h: Hit, tail: string)
    requires p <= h.start && h.groupStart == h.start + 6 && h.start + 6 < h.groupEnd == h.matchEnd <= |l|
    requires IsBox(l, h.start) && tail == l[h.matchEnd..]
    ensures l[p..h.start] + ("- [x] " + l[h.groupStart..h.groupEnd]) + tail == l[p..][h.start - p + 3 := 'x']
  {
    var m := l[h.start..h.matchEnd];
    assert m == "- [ ] " + l[h.groupStart..h.groupEnd] by {
      assert l[h.start..h.start + 6] == "- [ ] ";
    }
    assert "- [x] " + l[h.groupStart..h.groupEnd] == m[3 := 'x'];
    SpliceFlip(l, p, h.start, h.matchEnd, h.start + 3);
  }

  lemma TickLater(l: string, p: nat, h: Hit, k: nat, tail: string)
    requires p <= h.start < h.matchEnd <= k && k + 3 < |l|
    requires tail == l[h.matchEnd..][k - h.matchEnd + 3 := 'x']
    ensures l[p..h.start] + l[h.start..h.matchEnd] + tail == l[p..][k - p + 3 := 'x']
  {
    SpliceFlip(l, p, h.start, h.matchEnd, k + 3);
  }

  lemma TickNone(l: string, p: nat, h: Hit, tail: string)
    requires p <= h.start <= h.matchEnd <= |l| && tail == l[h.matchEnd..]
    ensures l[p..h.start] + l[h.start..h.matchEnd] + tail == l[p..]
  {
  }

  /** Flipping a character of a text cut in three pieces flips it in the piece that holds it. */
  lemma SpliceFlip(l: string, p: nat, s: nat, e: nat, j: nat)
    requires p <= s < e <= |l| && p <= j < |l|
    ensures j < e ==> s <= j ==> l[p..][j - p := 'x'] == l[p..s] + l[s..e][j - s := 'x'] + l[e..]
    ensures e <= j ==> l[p..][j - p := 'x'] == l[p..s] + l[s..e] + l[e..][j - e := 'x']
  {
  }

  // ---------------------------------------------------------------------------------------
  // Over the document.

  /** A box in a document: the line and the position in it. */
  datatype Site = Site(line: nat, pos: nat)

  function Shift(ss: seq<Site>): (r: seq<Site>)
    ensures |r| == |ss| && forall k :: 0 <= k < |ss| ==> r[k] == Site(ss[k].line + 1, ss[k].pos)
  {
    seq(|ss|, k requires 0 <= k < |ss| => Site(ss[k].line + 1, ss[k].pos))
  }

  function OnLine(i: nat, ms: seq<Hit>): (r: seq<Site>)
    ensures |r| == |ms| && forall k :: 0 <= k < |ms| ==> r[k] == Site(i, ms[k].start)
  {
    seq(|ms|, k requires 0 <= k < |ms| => Site(i, ms[k].start))
  }

  /** Every match of the box pattern in the document, given each line's matches, in the order
      the global replacement meets them. */
  function Sites(hs: seq<seq<Hit>>): (r: seq<Site>)
    decreases |hs|
  {
    if |hs| == 0 then [] else OnLine(0, hs[0]) + Shift(Sites(hs[1..]))
  }

  predicate Before(s: Site, t: Site) { s.line < t.line || (s.line == t.line && s.pos < t.pos) }

  /** Every site names an unchecked box of the document. */
  predicate Boxed(ls: seq<string>, r: seq<Site>) {
    forall k :: 0 <= k < |r| ==> r[k].line < |ls| && IsBox(ls[r[k].line], r[k].pos)
  }

  /** The sites come in document order: by line, then by position in the line. */
  predicate InOrder(r: seq<Site>) {
    forall k :: 0 < k < |r| ==> Before(r[k - 1], r[k])
  }

  lemma BoxedCons(l: string, ms: seq<Hit>, ls: seq<string>, t: seq<Site>)
    requires GoodHits(l, 0, ms) && Boxed(ls, t)
    ensures Boxed([l] + ls, OnLine(0, ms) + Shift(t))
  {
    var a, b, r := OnLine(0, ms), Shift(t), OnLine(0, ms) + Shift(t);
    forall k | 0 <= k < |r| ensures r[k].line < |[l] + ls| && IsBox(([l] + ls)[r[k].line], r[k].pos) {
      if k < |a| {
        assert r[k] == Site(0, ms[k].start);
      } else {
        var j := k - |a|;
        assert r[k] == b[j] == Site(t[j].line + 1, t[j].pos);
        assert ([l] + ls)[t[j].line + 1] == ls[t[j].line];
      }
    }
  }

  lemma InOrderCons(l: string, ms: seq<Hit>, t: seq<Site>)
    requires GoodHits(l, 0, ms) && InOrder(t)
    ensures InOrder(OnLine(0, ms) + Shift(t))
  {
    var a, b, r := OnLine(0, ms), Shift(t), OnLine(0, ms) + Shift(t);
    forall k | 0 < k < |r| ensures Before(r[k - 1], r[k]) {
      if k < |a| {
        assert ms[k - 1].matchEnd <= ms[k].start;
      } else if k > |a| {
        assert r[k - 1] == b[k - 1 - |a|] && r[k] == b[k - |a|];
        assert Before(t[k - 1 - |a|], t[k - |a|]);
      }
    }
  }

  lemma GoodRest(ls: seq<string>, hs: seq<seq<Hit>>)
    requires AllGood(ls, hs) && |ls| > 0
    ensures AllGood(ls[1..], hs[1..]) && GoodHits(ls[0], 0, hs[0])
  {
    assert forall i :: 0 <= i < |ls| - 1 ==> ls[1..][i] == ls[i + 1] && hs[1..][i] == hs[i + 1];
  }

  /** Each site is an unchecked box, and the sites come in document order. */
  lemma {:induction false} SitesAre(ls: seq<string>, hs: seq<seq<Hit>>)
    requires AllGood(ls, hs)
    ensures Boxed(ls, Sites(hs)) && InOrder(Sites(hs))
    decreases |ls|
  {
    if |ls| > 0 {
      GoodRest(ls, hs);
      SitesAre(ls[1..], hs[1..]);
      BoxedCons(ls[0], hs[0], ls[1..], Sites(hs[1..]));
      InOrderCons(ls[0], hs[0], Sites(hs[1..]));
      assert [ls[0]] + ls[1..] == ls;
    }
  }

  /** The sites lie inside the document, with room for the box's space. */
  predicate Fits(ls: seq<string>, ss: seq<Site>) {
    forall k :: 0 <= k < |ss| ==> ss[k].line < |ls| && ss[k].pos + 3 < |ls[ss[k].line]|
  }

  lemma BoxedFits(ls: seq<string>, ss: seq<Site>)
    requires Boxed(ls, ss)
    ensures Fits(ls, ss)
  {
  }

  lemma SitesFit(ls: seq<string>, hs: seq<seq<Hit>>)
    requires AllGood(ls, hs)
    ensures Fits(ls, Sites(hs))
  {
    SitesAre(ls, hs);
    BoxedFits(ls, Sites(hs));
  }

  /** The document with the site numbered `j` ticked, or unchanged when there is none. */
  function Ticked(ls: seq<string>, ss: seq<Site>, j: int): (r: seq<string>)
    requires Fits(ls, ss)
    ensures |r| == |ls|
  {
    if 0 <= j < |ss| then ls[ss[j].line := ls[ss[j].line][ss[j].pos + 3 := 'x']] else ls
  }

  lemma TickedCons(l: string, ms: seq<Hit>, ls: seq<string>, t: seq<Site>, j: int)
    requires GoodHits(l, 0, ms) && Fits(ls, t)
    ensures Fits([l] + ls, OnLine(0, ms) + Shift(t))
    ensures Ticked([l] + ls, OnLine(0, ms) + Shift(t), j)
         == [if 0 <= j < |ms| then l[ms[j].start + 3 := 'x'] else l] + Ticked(ls, t, j - |ms|)
  {
    var r := OnLine(0, ms) + Shift(t);
    ConsFits(l, ms, ls, t);
    if 0 <= j < |ms| {
      assert r[j] == Site(0, ms[j].start);
    } else if |ms| <= j < |r| {
      var k := j - |ms|;
      TickedLater(l, ms, ls, t, j, k);
    }
  }

  /** The sites of a line put before the shifted sites of the lines after it fit the lines. */
  lemma ConsFits(l: string, ms: seq<Hit>, ls: seq<string>, t: seq<Site>)
    requires GoodHits(l, 0, ms) && Fits(ls, t)
    ensures Fits([l] + ls, OnLine(0, ms) + Shift(t))
  {
    var a, b, r := OnLine(0, ms), Shift(t), OnLine(0, ms) + Shift(t);
    forall k | 0 <= k < |r| ensures r[k].line < |[l] + ls| && r[k].pos + 3 < |([l] + ls)[r[k].line]| {
      if k < |a| {
        assert r[k] == Site(0, ms[k].start);
      } else {
        assert r[k] == b[k - |a|];
      }
    }
  }

  /** A site on a later line is ticked in the later lines. */
  lemma TickedLater(l: string, ms: seq<Hit>, ls: seq<string>, t: seq<Site>, j: int, k: int)
    requires GoodHits(l, 0, ms) && Fits(ls, t) && Fits([l] + ls, OnLine(0, ms) + Shift(t))
    requires k == j - |ms| && 0 <= k < |t|
    ensures Ticked([l] + ls, OnLine(0, ms) + Shift(t), j) == [l] + Ticked(ls, t, k)
  {
    var b, r := Shift(t), OnLine(0, ms) + Shift(t);
    var s := t[k];
    assert r[j] == b[k] == Site(s.line + 1, s.pos);
    assert ([l] + ls)[s.line + 1 := ls[s.line][s.pos + 3 := 'x']]
        == [l] + ls[s.line := ls[s.line][s.pos + 3 := 'x']];
  }

  /** The replacement over one whole line: the ticked line, if the match is in it, and the
      advanced counter. */
  lemma TickOpening(l: string, ms: seq<Hit>, idx: int, index: int, j: int, next: int, line: string)
    requires GoodHits(l, 0, ms) && j == index - idx && next == idx + |ms|
    requires line == if 0 <= j < |ms| then l[ms[j].start + 3 := 'x'] else l
    ensures TickHits(l, 0, ms, idx, index) == (line, next)
  {
    TickHitsSpec(l, 0, ms, idx, index);
    assert l[0..] == l;
    if 0 <= j < |ms| {
      assert Flipped(l, 0, ms, idx, index) == l[ms[j].start + 3 := 'x'];
    } else {
      assert Flipped(l, 0, ms, idx, index) == l;
    }
  }

  lemma TickLinesCons(ls: seq<string>, hs: seq<seq<Hit>>, idx: int, index: int)
    requires AllGood(ls, hs) && |ls| > 0
    ensures AllGood(ls[1..], hs[1..]) && GoodHits(ls[0], 0, hs[0])
    ensures var first := TickHits(ls[0], 0, hs[0], idx, index);
      var rest := TickLines(ls[1..], hs[1..], first.1, index);
      TickLines(ls, hs, idx, index) == ([first.0] + rest.0, rest.1)
  {
    GoodRest(ls, hs);
  }

  /** Over the lines: the site numbered `index - idx`, if there is one, is ticked, and the
      counter advances by the number of sites. */
  lemma {:induction false} TickLinesSpec(ls: seq<string>, hs: seq<seq<Hit>>, idx: int, index: int)
    requires AllGood(ls, hs)
    ensures Fits(ls, Sites(hs))
    ensures TickLines(ls, hs, idx, index).0 == Ticked(ls, Sites(hs), index - idx)
    ensures TickLines(ls, hs, idx, index).1 == idx + |Sites(hs)|
    decreases |ls|
  {
    SitesFit(ls, hs);
    if |ls| > 0 {
      GoodRest(ls, hs);
      var next := idx + |hs[0]|;
      TickLinesSpec(ls[1..], hs[1..], next, index);
      TickLinesStep(ls, hs, idx, index, next, Sites(hs[1..]));
    }
  }

  /** The step of `TickLinesSpec`: the first line, then the rest from the advanced counter. */
  lemma TickLinesStep(ls: seq<string>, hs: seq<seq<Hit>>, idx: int, index: int, next: int, t: seq<Site>)
    requires AllGood(ls, hs) && |ls| > 0 && AllGood(ls[1..], hs[1..])
    requires next == idx + |hs[0]| && t == Sites(hs[1..]) && Fits(ls[1..], t)
    requires TickLines(ls[1..], hs[1..], next, index).0 == Ticked(ls[1..], t, index - next)
    requires TickLines(ls[1..], hs[1..], next, index).1 == next + |t|
    ensures TickLines(ls, hs, idx, index).0 == Ticked(ls, Sites(hs), index - idx)
    ensures TickLines(ls, hs, idx, index).1 == idx + |Sites(hs)|
  {
    var l, rest, ms := ls[0], ls[1..], hs[0];
    var j := index - idx;
    var k := index - next;
    var line := if 0 <= j < |ms| then l[ms[j].start + 3 := 'x'] else l;
    TickOpening(l, ms, idx, index, j, next, line);
    TickLinesCons(ls, hs, idx, index);
    var after := TickLines(rest, hs[1..], next, index);
    assert TickLines(ls, hs, idx, index) == ([line] + after.0, after.1);
    assert Sites(hs) == OnLine(0, ms) + Shift(t);
    TickedCons(l, ms, rest, t, j);
    assert k == j - |ms|;
    assert [l] + rest == ls;
    assert Ticked(ls, Sites(hs), j) == [line] + Ticked(rest, t, k);
  }

  /** task_check_criterion's replacement ticks the unchecked box numbered `index` in the whole
      document (counting from 0, in document order, over every `- [ ] ` followed by text,
      inside the acceptance criteria or not) and changes nothing else; with no such box the
      text is unchanged. */
  lemma TickSpec(c: string, index: int)
    ensures var ls := Lines(c); var ss := Sites(AllHits(ls));
      && Boxed(ls, ss) && InOrder(ss) && Fits(ls, ss)
      && Tick(c, index) == Unlines(Ticked(ls, ss, index))
      && (!(0 <= index < |ss|) ==> Tick(c, index) == c)
  {
    var ls := Lines(c);
    var hs := AllHits(ls);
    SitesAre(ls, hs);
    TickLinesSpec(ls, hs, 0, index);
    UnlinesLines(c);
  }

  /** The ticked box reads `- [x] ` where `- [ ] ` was, and the line keeps every other character. */
  lemma TickedLine(l: string, pos: nat)
    requires IsBox(l, pos)
    ensures OccursAt(l[pos + 3 := 'x'], pos, "- [x] ") && |l[pos + 3 := 'x']| == |l|
    ensures forall j :: 0 <= j < |l| && j != pos + 3 ==> l[pos + 3 := 'x'][j] == l[j]
  {
    var l' := l[pos + 3 := 'x'];
    assert l'[pos..pos + 6] == l[pos..pos + 6][3 := 'x'];
  }

  // ---------------------------------------------------------------------------------------
  // The index counts unchecked boxes, not criteria.

  function SiteCount(hs: seq<seq<Hit>>): (n: nat)
    ensures n == |Sites(hs)|
    decreases |hs|
  {
    if |hs| == 0 then 0 else |hs[0]| + SiteCount(hs[1..])
  }

  /** Two matches of a line cannot share their start. */
  lemma StartsDiffer(l: string, ms: seq<Hit>, i: nat, j: nat)
    requires GoodHits(l, 0, ms) && i < j < |ms|
    ensures ms[i].start < ms[j].start
  {
  }

  /** Each match takes at least seven characters: the box and one of text. */
  lemma {:induction false} HitsSpan(l: string, p: nat, ms: seq<Hit>)
    requires p <= |l| && GoodHits(l, p, ms)
    ensures p + 7 * |ms| <= |l|
    decreases |ms|
  {
    if |ms| > 0 {
      HitsRest(l, p, ms);
      HitsSpan(l, ms[0].matchEnd, ms[1..]);
    }
  }

  lemma BoxSpace(l: string, i: nat)
    requires IsBox(l, i)
    ensures l[i + 3] == ' '
  {
    assert l[i..i + 6][3] == l[i + 3];
  }

  lemma NoBoxIn(ms: seq<Hit>)
    requires GoodHits("- [x] a", 0, ms)
    ensures |ms| == 0
  {
    if |ms| > 0 {
      BoxSpace("- [x] a", ms[0].start);
      assert false;
    }
  }

  lemma OneBoxIn(ms: seq<Hit>)
    requires GoodHits("- [ ] b", 0, ms)
    ensures |ms| <= 1
  {
    HitsSpan("- [ ] b", 0, ms);
  }

  lemma CheckedLines()
    ensures Lines(Unlines(["- [x] a", "- [ ] b"])) == ["- [x] a", "- [ ] b"]
  {
    var ls := ["- [x] a", "- [ ] b"];
    assert FlatLines(ls);
    LinesUnlines(ls);
  }

  lemma CheckedCriteria()
    ensures ParseCriteria(["- [x] a", "- [ ] b"]) == [Criterion("a", true), Criterion("b", false)]
  {
    var ls := ["- [x] a", "- [ ] b"];
    assert IsBoxLine(ls[0]) && IsBoxLine(ls[1]) && ls[1..][1..] == [];
    assert Contains(ls[0], "[x]") by { assert OccursAt(ls[0], 2, "[x]"); }
    assert !Contains(ls[1], "[x]");
  }

  /** Whatever the matches, only one box of these lines is unchecked, so the one numbered 1
      does not exist. */
  lemma CheckedHits(hs: seq<seq<Hit>>)
    requires AllGood(["- [x] a", "- [ ] b"], hs)
    ensures |Sites(hs)| <= 1
  {
    NoBoxIn(hs[0]);
    OneBoxIn(hs[1]);
    assert hs[1..][1..] == [];
    assert SiteCount(hs) <= 1;
  }

  /** A criterion already checked shifts the index: with `- [x] a` above `- [ ] b`, asking for
      criterion 1 leaves `b` unchecked, and the document unchanged. */
  lemma CheckedShiftsIndex()
    ensures var c := Unlines(["- [x] a", "- [ ] b"]);
      && ParseCriteria(Lines(c)) == [Criterion("a", true), Criterion("b", false)]
      && Tick(c, 1) == c
  {
    var c := Unlines(["- [x] a", "- [ ] b"]);
    CheckedLines();
    CheckedCriteria();
    TickSpec(c, 1);
    CheckedHits(AllHits(Lines(c)));
  }

  /** The evident intent: the criterion numbered `index` among the criterion lines, checked or
      not, is checked; every other line stays. */
  function TickCriterion(ls: seq<string>, index: int): (r: seq<string>)
    ensures |r| == |ls|
    decreases |ls|
  {
    if |ls| == 0 then []
    else if IsBoxLine(ls[0]) then
      [if index == 0 then ls[0][3 := 'x'] else ls[0]] + TickCriterion(ls[1..], index - 1)
    else [ls[0]] + TickCriterion(ls[1..], index)
  }

  /** A criterion line whose box is followed by a space, as the generator writes them. */
  predicate Spaced(l: string) { |l| >= 6 && l[5] == ' ' }

  lemma CheckedLine(l: string)
    requires IsBoxLine(l) && Spaced(l)
    ensures IsBoxLine(l[3 := 'x']) && CriterionOf(l[3 := 'x']) == Criterion(CriterionOf(l).text, true)
  {
    var l' := l[3 := 'x'];
    assert l'[..3] == l[..3];
    assert OccursAt(l', 2, "[x]");
    assert l'[6..] == l[6..];
  }

  /** The corrected tick reads back as the same criteria with the one numbered `index` checked,
      and as the same criteria when there is no such criterion. */
  lemma {:induction false} TickCriterionSpec(ls: seq<string>, index: int)
    requires forall i :: 0 <= i < |ls| && IsBoxLine(ls[i]) ==> Spaced(ls[i])
    ensures var cs := ParseCriteria(ls);
      ParseCriteria(TickCriterion(ls, index))
        == if 0 <= index < |cs| then cs[index := Criterion(cs[index].text, true)] else cs
    decreases |ls|
  {
    if |ls| > 0 {
      assert forall i :: 0 <= i < |ls| - 1 ==> ls[1..][i] == ls[i + 1];
      TickCriterionSpec(ls[1..], if IsBoxLine(ls[0]) then index - 1 else index);
      var r := TickCriterion(ls, index);
      assert r[1..] == TickCriterion(ls[1..], if IsBoxLine(ls[0]) then index - 1 else index);
      if IsBoxLine(ls[0]) && index == 0 {
        CheckedLine(ls[0]);
      }
    }
  }

  /** The corrected task_check_criterion: the criterion numbered `index` in the acceptance
      criteria section is checked, then the updated date. */
  function CheckCriterionText(c: string, index: int, today: string): string {
    Stamp(ReplaceSection(c, "## Acceptance Criteria", NextHeader, b => Unlines(TickCriterion(Lines(b), index))), today)
  }
}

=== FILE: common.dfy ===
/** Small shared vocabulary: optional values and JavaScript-style truthiness. */
module Common {

  /** A value that may be absent (a JavaScript property that is `undefined`). */
  datatype Option<+T> = None | Some(value: T) {
    function GetOr(default: T): T {
      match this
      case Some(v) => v
      case None => default
    }
  }

  /** `x || d` for a string-valued property: `undefined` and the empty string fall back to `d`. */
  function OrElse(x: Option<string>, d: string): string {
    if x.Some? && x.value != "" then x.value else d
  }

  /** Truthiness of an optional string (`if (task.completed)`). */
  predicate Truthy(x: Option<string>) {
    x.Some? && x.value != ""
  }

  /** Truthiness of an optional number (`if (task.estimate)`): zero is falsy. */
  predicate TruthyNum(x: Option<int>) {
    x.Some? && x.value != 0
  }

  /** Truthiness of `list?.length`: absent and empty lists are falsy. */
  predicate NonEmpty<T>(x: Option<seq<T>>) {
    x.Some? && |x.value| > 0
  }

  /** Template interpolation of a possibly missing string: `${undefined}` renders "undefined". */
  function Show(x: Option<string>): string {
    x.GetOr("undefined")
  }
}

=== FILE: layout.dfy ===
/** Documents laid out the way the two codecs write them, as a list of rows: a title line,
    `- **Name**: value` metadata lines, `## Name` section headers and free text lines. The lemmas
    here say where each key pattern and each section pattern matches in such a document, and what
    each kind of rewrite does to its rows; the codec and handler proofs are built on them. */
module Layout {
  import opened Common
  import opened Text
  import opened Pattern

  predicate StarFree(s: string) { forall i :: 0 <= i < |s| ==> s[i] != '*' }

  predicate HashFree(s: string) { forall i :: 0 <= i < |s| ==> s[i] != '#' }

  /** No `##` inside, so no section header can end or start this line. */
  predicate NoHeaderMark(s: string) {
    forall i :: 0 <= i < |s| - 1 ==> !(s[i] == '#' && s[i + 1] == '#')
  }

  predicate OneLine(s: string) { forall i :: 0 <= i < |s| ==> !IsLineTerminator(s[i]) }

  /** Free text that stays inert inside a document: on one line, without the bold marker `*`
      and without the header marker `##`. */
  predicate Inert(s: string) { OneLine(s) && StarFree(s) && NoHeaderMark(s) }

  /** One metadata line `<bullet>**<name>**: <value>`; the bullet is `- ` or `> `. */
  datatype Entry = Entry(bullet: string, name: string, value: string)

  function MetaLine(e: Entry): string { e.bullet + Key(e.name) + e.value }

  predicate GoodEntry(e: Entry) {
    |e.bullet| == 2 && Inert(e.bullet) && e.name != "" && Inert(e.name) && Inert(e.value)
  }

  /** Where each character of a metadata line comes from. */
  lemma MetaLineChar(e: Entry, i: nat)
    requires |e.bullet| == 2 && i < |MetaLine(e)|
    ensures var l := MetaLine(e); var m := |e.name|;
      (i < 2 ==> l[i] == e.bullet[i]) &&
      (i == 2 || i == 3 || i == 4 + m || i == 5 + m ==> l[i] == '*') &&
      (4 <= i < 4 + m ==> l[i] == e.name[i - 4]) &&
      (i == 6 + m ==> l[i] == ':') &&
      (i == 7 + m ==> l[i] == ' ') &&
      (8 + m <= i ==> l[i] == e.value[i - 8 - m])
  {
    assert MetaLine(e) == e.bullet + "**" + e.name + "**: " + e.value;
  }

  lemma MetaLineInert(e: Entry)
    requires GoodEntry(e)
    ensures OneLine(MetaLine(e)) && NoHeaderMark(MetaLine(e))
  {
    var l := MetaLine(e);
    forall i | 0 <= i < |l| ensures !IsLineTerminator(l[i]) && (i + 1 < |l| ==> !(l[i] == '#' && l[i + 1] == '#')) {
      MetaLineChar(e, i);
      if i + 1 < |l| {
        MetaLineChar(e, i + 1);
      }
    }
  }

  lemma MetaLineStars(e: Entry, i: nat)
    requires GoodEntry(e)
    requires i < |MetaLine(e)|
    ensures MetaLine(e)[i] == '*' ==> i == 2 || i == 3 || i == 4 + |e.name| || i == 5 + |e.name|
  {
    MetaLineChar(e, i);
  }

  /** The bold name `**<name>**` every key pattern opens with. */
  function Bold(name: string): string { "**" + name + "**" }

  lemma KeyOpensBold(name: string)
    ensures Key(name) == Bold(name) + ": "
    ensures "- " + Key(name) == "- " + Bold(name) + ": "
  {
  }

  /** In a metadata line, the bold name of another entry never occurs, and its own bold name
      occurs only right after the bullet. */
  lemma MetaLineBoldAt(e: Entry, name: string, q: nat)
    requires GoodEntry(e) && name != "" && StarFree(name)
    requires OccursAt(MetaLine(e), q, Bold(name))
    ensures q == 2 && name == e.name
  {
    var l := MetaLine(e);
    var k := Bold(name);
    var m := |e.name|;
    var n := |name|;
    assert l[q..q + |k|] == k;
    assert k[0] == '*' && k[1] == '*' && k[2 + n] == '*' && k[3 + n] == '*';
    assert l[q] == '*' && l[q + 1] == '*' && l[q + 2 + n] == '*' && l[q + 3 + n] == '*';
    MetaLineStars(e, q);
    MetaLineStars(e, q + 1);
    MetaLineStars(e, q + 2 + n);
    MetaLineStars(e, q + 3 + n);
    assert q == 2;
    assert n == m;
    assert k[2..2 + n] == name;
    assert l[4..4 + n] == l[q..q + |k|][2..2 + n];
    assert l[4..4 + m] == e.name;
  }

  /** A text that holds `k` at `q` holds every prefix of `k` there. */
  lemma OccursPrefix(s: string, q: nat, k: string, j: nat)
    requires OccursAt(s, q, k) && j <= |k|
    ensures OccursAt(s, q, k[..j])
  {
    assert s[q..q + j] == s[q..q + |k|][..j];
  }

  /** No `**:` inside: the closing marker of a key never occurs, though bold text may. */
  predicate KeyMarkFree(s: string) {
    forall i :: 0 <= i < |s| - 2 ==> !(s[i] == '*' && s[i + 1] == '*' && s[i + 2] == ':')
  }

  /** Where `**<name>**:` occurs, the key marker `**:` closes it. */
  lemma BoldColonAt(s: string, name: string, q: nat)
    requires OccursAt(s, q, Bold(name) + ":")
    ensures q + 4 + |name| < |s|
    ensures s[q + 2 + |name|] == '*' && s[q + 3 + |name|] == '*' && s[q + 4 + |name|] == ':'
  {
    var k := Bold(name) + ":";
    assert s[q..q + |k|] == k;
    assert s[q + 2 + |name|] == s[q..q + |k|][2 + |name|];
    assert s[q + 3 + |name|] == s[q..q + |k|][3 + |name|];
    assert s[q + 4 + |name|] == s[q..q + |k|][4 + |name|];
  }

  /** A key opens with its bold name and a colon. */
  lemma KeyHasBoldColon(s: string, name: string, q: nat)
    requires OccursAt(s, q, Key(name))
    ensures OccursAt(s, q, Bold(name) + ":")
    ensures OccursAt(s, q, Bold(name))
  {
    assert Key(name)[..|Bold(name)| + 1] == Bold(name) + ":";
    assert Key(name)[..|Bold(name)|] == Bold(name);
    OccursPrefix(s, q, Key(name), |Bold(name)| + 1);
    OccursPrefix(s, q, Key(name), |Bold(name)|);
  }

  /** A text without the key marker holds neither a key nor a bold name followed by a colon. */
  lemma MarkFreeNoKey(s: string, name: string, q: nat)
    requires KeyMarkFree(s)
    ensures !OccursAt(s, q, Bold(name) + ":")
    ensures !OccursAt(s, q, Key(name))
  {
    if OccursAt(s, q, Key(name)) {
      KeyHasBoldColon(s, name, q);
      BoldColonAt(s, name, q);
    }
    if OccursAt(s, q, Bold(name) + ":") {
      BoldColonAt(s, name, q);
    }
  }

  // ---------------------------------------------------------------------------------------
  // Rows.

  datatype Row =
    | Title(id: string, text: string)   // # <id>: <text>
    | Meta(entry: Entry)                // - **<name>**: <value>
    | Header(name: string)              // ## <name>
    | Text(line: string)                // anything else

  function RowText(r: Row): string {
    match r
    case Title(id, t) => "# " + id + ": " + t
    case Meta(e) => MetaLine(e)
    case Header(n) => "## " + n
    case Text(s) => s
  }

  predicate GoodRow(r: Row) {
    match r
    case Title(id, t) => Inert(id) && HashFree(id) && Inert(t)
    case Meta(e) => GoodEntry(e)
    case Header(n) => Inert(n) && HashFree(n)
    case Text(s) => '\n' !in s && NoHeaderMark(s)
  }

  predicate GoodRows(rows: seq<Row>) { forall i :: 0 <= i < |rows| ==> GoodRow(rows[i]) }

  /** A row that cannot hold a bold name unless it is a metadata row. */
  predicate KeyQuiet(r: Row) { r.Text? ==> KeyMarkFree(r.line) }

  predicate Named(r: Row, name: string) { r.Meta? && r.entry.name == name }

  function Rendered(rows: seq<Row>): (r: seq<string>)
    ensures |r| == |rows|
    ensures forall i :: 0 <= i < |rows| ==> r[i] == RowText(rows[i])
  {
    seq(|rows|, i requires 0 <= i < |rows| => RowText(rows[i]))
  }

  /** The text of a document: its rows joined by newlines. */
  function Doc(rows: seq<Row>): string { Unlines(Rendered(rows)) }

  lemma RenderedSlice(rows: seq<Row>, i: nat, j: nat)
    requires i <= j <= |rows|
    ensures Rendered(rows)[i..j] == Rendered(rows[i..j])
  {
  }

  lemma RenderedConcat(a: seq<Row>, b: seq<Row>)
    ensures Rendered(a + b) == Rendered(a) + Rendered(b)
  {
  }

  lemma TitleInert(id: string, t: string)
    requires Inert(id) && HashFree(id) && Inert(t)
    ensures OneLine(RowText(Title(id, t))) && NoHeaderMark(RowText(Title(id, t)))
    ensures StarFree(RowText(Title(id, t)))
  {
    var l := RowText(Title(id, t));
    assert l == "# " + id + ": " + t;
    var n := |id|;
    assert forall i :: 2 <= i < 2 + n ==> l[i] == id[i - 2];
    assert forall i :: 4 + n <= i < |l| ==> l[i] == t[i - 4 - n];
  }

  lemma HeaderLine(n: string)
    requires Inert(n) && HashFree(n)
    ensures OneLine(RowText(Header(n))) && StarFree(RowText(Header(n)))
  {
    var l := RowText(Header(n));
    assert forall i :: 3 <= i < |l| ==> l[i] == n[i - 3];
  }

  /** What each good row guarantees about its line. */
  lemma RowFacts(r: Row)
    requires GoodRow(r)
    ensures '\n' !in RowText(r)
    ensures !r.Header? ==> NoHeaderMark(RowText(r))
    ensures KeyQuiet(r) && !r.Meta? ==> KeyMarkFree(RowText(r))
  {
    match r
    case Title(id, t) =>
      TitleInert(id, t);
      assert forall i :: 0 <= i < |RowText(r)| ==> RowText(r)[i] != '\n';
    case Meta(e) =>
      MetaLineInert(e);
      assert forall i :: 0 <= i < |RowText(r)| ==> RowText(r)[i] != '\n';
    case Header(n) =>
      HeaderLine(n);
      assert forall i :: 0 <= i < |RowText(r)| ==> RowText(r)[i] != '\n';
    case Text(s) =>
  }

  /** Splitting a document on newlines gives back its rows. */
  lemma DocLines(rows: seq<Row>)
    requires |rows| >= 1 && GoodRows(rows)
    ensures Lines(Doc(rows)) == Rendered(rows)
  {
    forall i | 0 <= i < |rows| ensures '\n' !in Rendered(rows)[i] {
      RowFacts(rows[i]);
    }
    LinesUnlines(Rendered(rows));
  }

  // ---------------------------------------------------------------------------------------
  // Key patterns `\*\*<name>\*\*: (<value>)`.

  lemma MetaLineFirst(e: Entry, name: string, v: Val)
    requires GoodEntry(e) && name != "" && StarFree(name)
    ensures FirstIn(KeyPat(Key(name), v), MetaLine(e), 0) ==
      if name == e.name then MatchAt(KeyPat(Key(name), v), MetaLine(e), 2) else None
  {
    var pat := KeyPat(Key(name), v);
    var r := FirstIn(pat, MetaLine(e), 0);
    FirstInSpec(pat, MetaLine(e), 0);
    if r.Some? {
      assert OccursAt(MetaLine(e), r.value.start, Key(name));
      OccursPrefix(MetaLine(e), r.value.start, Key(name), |Bold(name)|);
      assert Key(name)[..|Bold(name)|] == Bold(name);
      MetaLineBoldAt(e, name, r.value.start);
    } else if name == e.name {
      assert MatchAt(pat, MetaLine(e), 2).None?;
    }
  }

  /** Whether row `r` is a metadata row of `name` whose value the key pattern matches. */
  predicate RowMatches(r: Row, name: string, v: Val) {
    Named(r, name) && MatchAt(KeyPat(Key(name), v), MetaLine(r.entry), 2).Some?
  }

  /** A quiet row holds a match of a key pattern only if it is a matching metadata row, and then
      right after its bullet. */
  lemma RowFirst(r: Row, name: string, v: Val)
    requires GoodRow(r) && KeyQuiet(r) && name != "" && StarFree(name)
    ensures FirstIn(KeyPat(Key(name), v), RowText(r), 0) ==
      if RowMatches(r, name, v) then MatchAt(KeyPat(Key(name), v), RowText(r), 2) else None
  {
    var pat := KeyPat(Key(name), v);
    if r.Meta? {
      MetaLineFirst(r.entry, name, v);
    } else {
      RowFacts(r);
      var f := FirstIn(pat, RowText(r), 0);
      FirstInSpec(pat, RowText(r), 0);
      if f.Some? {
        MarkFreeNoKey(RowText(r), name, f.value.start);
      }
    }
  }

  lemma {:induction false} NoneFromAll(pat: Pat, lines: seq<string>, i: nat)
    requires forall j :: i <= j < |lines| ==> FirstIn(pat, lines[j], 0).None?
    ensures FindFrom(pat, lines, i).None?
    decreases |lines| - i
  {
    if i < |lines| {
      NoneFromAll(pat, lines, i + 1);
    }
  }

  lemma {:induction false} SkipNone(pat: Pat, lines: seq<string>, i: nat, j: nat)
    requires i <= j <= |lines|
    requires forall k :: i <= k < j ==> FirstIn(pat, lines[k], 0).None?
    ensures FindFrom(pat, lines, i) == FindFrom(pat, lines, j)
    decreases j - i
  {
    if i < j {
      FindFromSkip(pat, lines, i);
      SkipNone(pat, lines, i + 1, j);
    }
  }

  lemma FindFromSkip(pat: Pat, lines: seq<string>, i: nat)
    requires i < |lines| && FirstIn(pat, lines[i], 0).None?
    ensures FindFrom(pat, lines, i) == FindFrom(pat, lines, i + 1)
  {
  }

  lemma FoundAfterNone(pat: Pat, lines: seq<string>, i: nat)
    requires i < |lines|
    requires forall k :: 0 <= k < i ==> FirstIn(pat, lines[k], 0).None?
    requires FirstIn(pat, lines[i], 0).Some?
    ensures Find(pat, lines) == Some(Found(i, FirstIn(pat, lines[i], 0).value))
  {
    SkipNone(pat, lines, 0, i);
  }

  /** The key pattern for `name` finds the first metadata row of that name whose value it
      matches, provided the rows before it are quiet. */
  lemma KeyRow(rows: seq<Row>, name: string, v: Val, i: nat)
    requires GoodRows(rows) && name != "" && StarFree(name)
    requires i < |rows| && RowMatches(rows[i], name, v)
    requires forall j :: 0 <= j < i ==> KeyQuiet(rows[j]) && !RowMatches(rows[j], name, v)
    ensures Find(KeyPat(Key(name), v), Rendered(rows))
      == Some(Found(i, MatchAt(KeyPat(Key(name), v), RowText(rows[i]), 2).value))
  {
    var lines := Rendered(rows);
    var pat := KeyPat(Key(name), v);
    forall j | 0 <= j < i ensures FirstIn(pat, lines[j], 0).None? {
      RowFirst(rows[j], name, v);
    }
    RowFirst(rows[i], name, v);
    FoundAfterNone(pat, lines, i);
  }

  /** ... and nothing when no quiet row matches. */
  lemma NoKeyRow(rows: seq<Row>, name: string, v: Val)
    requires GoodRows(rows) && name != "" && StarFree(name)
    requires forall j :: 0 <= j < |rows| ==> KeyQuiet(rows[j]) && !RowMatches(rows[j], name, v)
    ensures Find(KeyPat(Key(name), v), Rendered(rows)).None?
  {
    var lines := Rendered(rows);
    var pat := KeyPat(Key(name), v);
    forall j | 0 <= j < |rows| ensures FirstIn(pat, lines[j], 0).None? {
      RowFirst(rows[j], name, v);
    }
    NoneFromAll(pat, lines, 0);
  }

  /** A metadata row whose value is a complete match is matched from its key to its end. */
  lemma MetaMatch(e: Entry, v: Val)
    requires Full(v, e.value) && |e.bullet| == 2
    ensures MatchAt(KeyPat(Key(e.name), v), MetaLine(e), 2)
      == Some(Hit(2, 2 + |Key(e.name)|, 2 + |Key(e.name)| + |Captured(v, e.value)|, |MetaLine(e)|))
  {
    var p := e.bullet + Key(e.name);
    ValFull(v, p, e.value, "");
    assert p + e.value + "" == MetaLine(e);
    assert MetaLine(e)[2..2 + |Key(e.name)|] == Key(e.name);
  }

  /** Row `i` is the first metadata row of `name`, and no row before it can hold that name's
      key: where a key pattern of `name` first matches. */
  predicate KeyFirst(rows: seq<Row>, name: string, i: nat) {
    && GoodRows(rows) && name != "" && StarFree(name)
    && i < |rows| && Named(rows[i], name)
    && forall j :: 0 <= j < i ==> KeyQuiet(rows[j]) && !Named(rows[j], name)
  }

  /** The key pattern of `name` first matches on its first metadata row, right after the bullet. */
  lemma KeyFirstFound(rows: seq<Row>, name: string, v: Val, i: nat)
    requires KeyFirst(rows, name, i) && Full(v, rows[i].entry.value)
    ensures Lines(Doc(rows)) == Rendered(rows)
    ensures MatchAt(KeyPat(Key(name), v), MetaLine(rows[i].entry), 2).Some?
    ensures Find(KeyPat(Key(name), v), Lines(Doc(rows)))
      == Some(Found(i, MatchAt(KeyPat(Key(name), v), MetaLine(rows[i].entry), 2).value))
  {
    MetaMatch(rows[i].entry, v);
    KeyRow(rows, name, v, i);
    DocLines(rows);
  }

  /** The first metadata row of `name` provides the parsed value of the field. */
  lemma ExtractKey(rows: seq<Row>, name: string, v: Val, i: nat)
    requires KeyFirst(rows, name, i) && Full(v, rows[i].entry.value)
    ensures Extract(KeyPat(Key(name), v), Doc(rows)) == Some(Captured(v, rows[i].entry.value))
  {
    var e := rows[i].entry;
    var pat := KeyPat(Key(name), v);
    KeyFirstFound(rows, name, v, i);
    MetaCaptured(e, v);
    var h := MatchAt(pat, MetaLine(e), 2).value;
    ExtractFound(pat, Doc(rows), i, h);
    assert Lines(Doc(rows))[i] == RowText(rows[i]) == MetaLine(e);
  }

  /** The group of the key pattern's match on a metadata line is the captured value. */
  lemma MetaCaptured(e: Entry, v: Val)
    requires Full(v, e.value) && |e.bullet| == 2
    ensures MatchAt(KeyPat(Key(e.name), v), MetaLine(e), 2).Some?
    ensures var h := MatchAt(KeyPat(Key(e.name), v), MetaLine(e), 2).value;
      h.groupStart <= h.groupEnd <= |MetaLine(e)| && MetaLine(e)[h.groupStart..h.groupEnd] == Captured(v, e.value)
  {
    MetaMatch(e, v);
    var l := MetaLine(e);
    var c := Captured(v, e.value);
    var g := 2 + |Key(e.name)|;
    assert l[g..] == e.value;
    assert l[g..g + |c|] == c;
  }

  lemma ExtractFound(pat: Pat, t: string, i: nat, h: Hit)
    requires Find(pat, Lines(t)) == Some(Found(i, h))
    ensures Extract(pat, t) == Some(Lines(t)[i][h.groupStart..h.groupEnd])
  {
  }

  /** No row is a metadata row of `name`, and none can hold that name's key. */
  predicate KeyAbsent(rows: seq<Row>, name: string) {
    && |rows| >= 1 && GoodRows(rows) && name != "" && StarFree(name)
    && forall j :: 0 <= j < |rows| ==> KeyQuiet(rows[j]) && !Named(rows[j], name)
  }

  /** Without a metadata row of `name` the field is not found. */
  lemma ExtractNoKey(rows: seq<Row>, name: string, v: Val)
    requires KeyAbsent(rows, name)
    ensures Extract(KeyPat(Key(name), v), Doc(rows)).None?
  {
    NoKeyRow(rows, name, v);
    DocLines(rows);
  }

  /** ... and replacing its key pattern changes nothing. */
  lemma ReplaceNoKey(rows: seq<Row>, name: string, v: Val, sub: Subst)
    requires KeyAbsent(rows, name)
    ensures Replace(KeyPat(Key(name), v), Doc(rows), sub) == Doc(rows)
  {
    NoKeyRow(rows, name, v);
    DocLines(rows);
  }

  // ---------------------------------------------------------------------------------------
  // The title line `^# (<id>): (.+)$` (multi-line flag).

  /** The title pattern matches the whole first row when that row is a title with a
      well-formed id and a non-empty text. */
  lemma TitleMatch(rows: seq<Row>, idv: Val)
    requires |rows| >= 1 && GoodRows(rows) && rows[0].Title?
    requires (idv == TaskRef || idv == ReqRef) && Full(idv, rows[0].id) && rows[0].text != ""
    ensures Lines(Doc(rows)) == Rendered(rows)
    ensures Find(TitlePat(idv), Rendered(rows))
      == Some(Found(0, Hit(0, 4 + |rows[0].id|, |RowText(rows[0])|, |RowText(rows[0])|)))
  {
    var l := RowText(rows[0]);
    TitleLine(rows[0].id, rows[0].text, idv);
    assert FirstIn(TitlePat(idv), Rendered(rows)[0], 0) == Some(Hit(0, 4 + |rows[0].id|, |l|, |l|));
    DocLines(rows);
  }

  lemma TitleLine(id: string, t: string, idv: Val)
    requires (idv == TaskRef || idv == ReqRef) && Full(idv, id) && t != ""
    requires OneLine(t)
    ensures MatchAt(TitlePat(idv), RowText(Title(id, t)), 0)
      == Some(Hit(0, 4 + |id|, |RowText(Title(id, t))|, |RowText(Title(id, t))|))
  {
    var l := RowText(Title(id, t));
    var n := 2 + |id|;
    TitleId(id, t, idv);
    TitleMarks(id, t);
    TitleRest(id, t);
    TitleMatchAt(idv, l, Span(n, n), Span(|l|, |l|));
  }

  lemma TitleId(id: string, t: string, idv: Val)
    requires (idv == TaskRef || idv == ReqRef) && Full(idv, id) && OneLine(t)
    ensures ValAt(idv, RowText(Title(id, t)), 2) == Some(Span(2 + |id|, 2 + |id|))
  {
    CatAssoc("# " + id, ": ", t);
    ValFull(idv, "# ", id, ": " + t);
  }

  lemma TitleMarks(id: string, t: string)
    ensures OccursAt(RowText(Title(id, t)), 0, "# ") && OccursAt(RowText(Title(id, t)), 2 + |id|, ": ")
  {
    OccursIn("", "# ", id + ": " + t);
    assert "" + "# " + (id + ": " + t) == RowText(Title(id, t));
    OccursIn("# " + id, ": ", t);
  }

  lemma TitleRest(id: string, t: string)
    requires t != "" && OneLine(t)
    ensures var l := RowText(Title(id, t)); ValAt(Rest, l, 4 + |id|) == Some(Span(|l|, |l|))
  {
    var l := RowText(Title(id, t));
    assert l + "" == l;
    ValFull(Rest, "# " + id + ": ", t, "");
  }

  /** The title pattern captures the text of the first row. */
  lemma ExtractTitle(rows: seq<Row>, idv: Val)
    requires |rows| >= 1 && GoodRows(rows) && rows[0].Title?
    requires (idv == TaskRef || idv == ReqRef) && Full(idv, rows[0].id) && rows[0].text != ""
    ensures Extract(TitlePat(idv), Doc(rows)) == Some(rows[0].text)
  {
    TitleMatch(rows, idv);
    var l := RowText(rows[0]);
    assert l[4 + |rows[0].id|..|l|] == rows[0].text;
  }

  /** `replace(/^# (<id>): .+$/m, "# <id2>: <t2>")` rewrites the first row. */
  lemma SetTitle(rows: seq<Row>, idv: Val, id2: string, t2: string)
    requires |rows| >= 1 && GoodRows(rows) && rows[0].Title?
    requires (idv == TaskRef || idv == ReqRef) && Full(idv, rows[0].id) && rows[0].text != ""
    ensures Replace(TitlePat(idv), Doc(rows), Put("# " + id2 + ": " + t2)) == Doc(rows[0 := Title(id2, t2)])
  {
    TitleMatch(rows, idv);
    var l := RowText(rows[0]);
    var h := Hit(0, 4 + |rows[0].id|, |l|, |l|);
    ReplaceFound(TitlePat(idv), Doc(rows), Put("# " + id2 + ": " + t2), 0, h);
    assert Spliced(l, h, Put("# " + id2 + ": " + t2)) == RowText(Title(id2, t2));
    RenderedUpdate(rows, 0, Title(id2, t2));
  }

  // ---------------------------------------------------------------------------------------
  // Sections `## <name>\n([\s\S]*?)(?=<stop>)`.

  /** One section header ends with another only when the names agree. */
  lemma HeaderEnds(n1: string, n2: string)
    requires HashFree(n1)
    ensures EndsWith("## " + n1, "## " + n2) ==> n1 == n2
  {
    var a, b := "## " + n1, "## " + n2;
    if EndsWith(a, b) {
      var d := |a| - |b|;
      assert forall k :: 3 <= k < |a| ==> a[k] == n1[k - 3];
      assert a[d..][0] == b[0] && a[d..][1] == b[1];
      assert d == 0;
      assert n1 == a[3..] == b[3..] == n2;
    }
  }

  /** A line without `##` neither starts nor ends with a header. */
  lemma NoMarkNoHeader(s: string, hdr: string)
    requires NoHeaderMark(s) && StartsWith(hdr, "##")
    ensures !EndsWith(s, hdr) && !StartsWith(s, hdr)
  {
    if |hdr| <= |s| {
      var d := |s| - |hdr|;
      assert s[d..][0] == s[d] && s[d..][1] == s[d + 1];
      assert s[..|hdr|][0] == s[0] && s[..|hdr|][1] == s[1];
    }
  }

  lemma {:induction false} SectionSkip(lines: seq<string>, hdr: string, stop: Stop, i: nat, h: nat)
    requires i <= h < |lines|
    requires forall j :: i <= j < h ==> !EndsWith(lines[j], hdr)
    ensures SectionFrom(lines, hdr, stop, i) == SectionFrom(lines, hdr, stop, h)
    decreases h - i
  {
    if i < h {
      SectionSkip(lines, hdr, stop, i + 1, h);
    }
  }

  lemma {:induction false} StopSkip(lines: seq<string>, stop: Stop, k: nat, last: nat)
    requires k <= last < |lines|
    requires forall j :: k < j <= last ==> !StartsWith(lines[j], StopPrefix(stop))
    ensures StopFrom(lines, stop, k) == StopFrom(lines, stop, last)
    decreases last - k
  {
    if k < last {
      StopSkip(lines, stop, k + 1, last);
    }
  }

  /** Whether the row after `last` closes a section that started before it. */
  predicate ClosesAt(rows: seq<Row>, stop: Stop, last: nat) {
    (last + 1 < |rows| && rows[last + 1].Header? && StartsWith(RowText(rows[last + 1]), StopPrefix(stop)))
    || (stop == NextHeaderOrEnd && last + 1 == |rows|)
  }

  /** The section search in terms of lines: the header ends line `h` and no earlier line, no
      line of the body after the first opens the next section, and line `last + 1` does (or the
      text ends there and the end also closes the section). */
  lemma SectionAtLines(lines: seq<string>, hdr: string, stop: Stop, h: nat, last: nat)
    requires h < last < |lines| && EndsWith(lines[h], hdr)
    requires forall j :: 0 <= j < h ==> !EndsWith(lines[j], hdr)
    requires forall j :: h + 1 < j <= last ==> !StartsWith(lines[j], StopPrefix(stop))
    requires (last + 1 < |lines| && StartsWith(lines[last + 1], StopPrefix(stop)))
      || (stop == NextHeaderOrEnd && last + 1 == |lines|)
    ensures FindSection(lines, hdr, stop) == Some(Sec(h, last))
  {
    SectionSkip(lines, hdr, stop, 0, h);
    StopSkip(lines, stop, h + 1, last);
  }

  /** No row before `h` ends with the header of row `h`. */
  lemma HeaderFirst(rows: seq<Row>, name: string, h: nat)
    requires GoodRows(rows) && h <= |rows|
    requires forall j :: 0 <= j < h ==> rows[j] != Header(name)
    ensures forall j :: 0 <= j < h ==> !EndsWith(Rendered(rows)[j], "## " + name)
  {
    forall j | 0 <= j < h ensures !EndsWith(Rendered(rows)[j], "## " + name) {
      if rows[j].Header? {
        HeaderEnds(rows[j].name, name);
      } else {
        RowFacts(rows[j]);
        NoMarkNoHeader(RowText(rows[j]), "## " + name);
      }
    }
  }

  lemma StartsWithTrans(s: string, p: string, q: string)
    ensures StartsWith(s, p) && StartsWith(p, q) ==> StartsWith(s, q)
  {
    if StartsWith(s, p) && StartsWith(p, q) {
      assert s[..|q|] == s[..|p|][..|q|];
    }
  }

  /** No non-header row opens a section. */
  lemma BodyQuiet(rows: seq<Row>, stop: Stop, h: nat, last: nat)
    requires GoodRows(rows) && StartsWith(StopPrefix(stop), "##") && h < last < |rows|
    requires forall j :: h < j <= last ==> !rows[j].Header?
    ensures forall j :: h + 1 < j <= last ==> !StartsWith(Rendered(rows)[j], StopPrefix(stop))
  {
    var pre := StopPrefix(stop);
    forall j | h + 1 < j <= last ensures !StartsWith(Rendered(rows)[j], pre) {
      var l := RowText(rows[j]);
      RowFacts(rows[j]);
      StartsWithTrans(l, pre, "##");
      NoMarkNoHeader(l, "##");
    }
  }

  /** Header row `h` is the first row of that header, no header comes between it and row
      `last`, and the row after `last` satisfies the lookahead. */
  predicate Placed(rows: seq<Row>, name: string, stop: Stop, h: nat, last: nat) {
    && h < last < |rows| && rows[h] == Header(name)
    && (forall j :: 0 <= j < h ==> rows[j] != Header(name))
    && (forall j :: h < j <= last ==> !rows[j].Header?)
    && ClosesAt(rows, stop, last)
  }

  /** The section pattern for header row `h` captures rows `h + 1 .. last`: no earlier row is
      that header, no header comes between, and the row after `last` satisfies the lookahead. */
  lemma SectionAt(rows: seq<Row>, name: string, stop: Stop, h: nat, last: nat)
    requires GoodRows(rows) && StartsWith(StopPrefix(stop), "##")
    requires Placed(rows, name, stop, h, last)
    ensures FindSection(Rendered(rows), "## " + name, stop) == Some(Sec(h, last))
  {
    HeaderFirst(rows, name, h);
    BodyQuiet(rows, stop, h, last);
    assert Rendered(rows)[h] == "## " + name;
    SectionAtLines(Rendered(rows), "## " + name, stop, h, last);
  }

  /** The captured body of that section, as text. */
  lemma SectionTextAt(rows: seq<Row>, name: string, stop: Stop, h: nat, last: nat)
    requires GoodRows(rows) && StartsWith(StopPrefix(stop), "##")
    requires Placed(rows, name, stop, h, last)
    ensures SectionText(Doc(rows), "## " + name, stop) == Some(Doc(rows[h + 1..last + 1]))
  {
    var lines := Rendered(rows);
    DocLines(rows);
    SectionAt(rows, name, stop, h, last);
    SectionTextFound(Doc(rows), "## " + name, stop, h, last);
    BodyDoc(rows, h, last);
  }

  lemma SectionTextFound(t: string, hdr: string, stop: Stop, h: nat, last: nat)
    requires FindSection(Lines(t), hdr, stop) == Some(Sec(h, last)) && h < last < |Lines(t)|
    ensures SectionText(t, hdr, stop) == Some(Unlines(Lines(t)[h + 1..last + 1]))
  {
  }

  /** Rewriting the body of a located section, in terms of lines. */
  lemma ReplaceSectionLines(t: string, lines: seq<string>, hdr: string, stop: Stop, h: nat, last: nat, f: string -> string, body: seq<string>)
    requires Lines(t) == lines && Lines(Unlines(body)) == body
    requires FindSection(lines, hdr, stop) == Some(Sec(h, last)) && h < last < |lines|
    requires f(Unlines(lines[h + 1..last + 1])) == Unlines(body)
    ensures ReplaceSection(t, hdr, stop, f) == Unlines(lines[..h + 1] + body + lines[last + 1..])
  {
    var sec := Sec(h, last);
    assert Body(lines, sec) == lines[h + 1..last + 1];
    var nb := f(Unlines(Body(lines, sec)));
    assert Lines(nb) == body;
    assert Splice(lines, sec, nb) == lines[..h + 1] + body + lines[last + 1..];
    assert ReplaceSection(t, hdr, stop, f) == Unlines(Splice(lines, sec, nb));
  }

  /** Rewriting the body of that section replaces its rows by the rows of the new body. */
  lemma ReplaceSectionAt(rows: seq<Row>, name: string, stop: Stop, h: nat, last: nat, f: string -> string, body: seq<Row>)
    requires GoodRows(rows) && StartsWith(StopPrefix(stop), "##")
    requires Placed(rows, name, stop, h, last)
    requires |body| >= 1 && GoodRows(body)
    requires f(Doc(rows[h + 1..last + 1])) == Doc(body)
    ensures ReplaceSection(Doc(rows), "## " + name, stop, f) == Doc(rows[..h + 1] + body + rows[last + 1..])
  {
    var lines := Rendered(rows);
    DocLines(rows);
    DocLines(body);
    SectionAt(rows, name, stop, h, last);
    BodyDoc(rows, h, last);
    ReplaceSectionLines(Doc(rows), lines, "## " + name, stop, h, last, f, Rendered(body));
    DocSplice(rows, h, last, body);
  }

  /** The lines of rows `h + 1 .. last` join to the document of those rows. */
  lemma BodyDoc(rows: seq<Row>, h: nat, last: nat)
    requires h < last < |rows|
    ensures Unlines(Rendered(rows)[h + 1..last + 1]) == Doc(rows[h + 1..last + 1])
  {
    RenderedSlice(rows, h + 1, last + 1);
  }

  /** Rows `h + 1 .. last` replaced by `mid`, in terms of lines. */
  lemma DocSplice(rows: seq<Row>, h: nat, last: nat, mid: seq<Row>)
    requires h < last < |rows|
    ensures Unlines(Rendered(rows)[..h + 1] + Rendered(mid) + Rendered(rows)[last + 1..]) == Doc(rows[..h + 1] + mid + rows[last + 1..])
  {
    assert Rendered(rows)[..h + 1] + Rendered(mid) + Rendered(rows)[last + 1..] == Rendered(rows[..h + 1] + mid + rows[last + 1..]);
  }

  // ---------------------------------------------------------------------------------------
  // Rewrites of one metadata row.

  lemma RenderedUpdate(rows: seq<Row>, i: nat, r: Row)
    requires i < |rows|
    ensures Rendered(rows)[i := RowText(r)] == Rendered(rows[i := r])
  {
  }

  /** What `replace` does once the leftmost match is known. */
  lemma ReplaceFound(pat: Pat, t: string, sub: Subst, i: nat, h: Hit)
    requires Find(pat, Lines(t)) == Some(Found(i, h))
    ensures h.start <= h.matchEnd <= |Lines(t)[i]|
    ensures Replace(pat, t, sub) == Unlines(Lines(t)[i := Spliced(Lines(t)[i], h, sub)])
  {
  }

  /** Putting the key and a new value in place of the match of a complete value gives the
      metadata line with the new value. */
  lemma SplicedPut(e: Entry, v: Val, x: string)
    requires Full(v, e.value) && |e.bullet| == 2
    ensures MatchAt(KeyPat(Key(e.name), v), MetaLine(e), 2).Some?
    ensures Spliced(MetaLine(e), MatchAt(KeyPat(Key(e.name), v), MetaLine(e), 2).value, Put(Key(e.name) + x))
      == MetaLine(e.(value := x))
  {
    MetaMatch(e, v);
    var l := MetaLine(e);
    var k := Key(e.name);
    var hit := MatchAt(KeyPat(k, v), l, 2).value;
    assert hit.start == 2 && hit.matchEnd == |l|;
    assert l[..2] == e.bullet;
    assert l[|l|..] == [];
    assert Spliced(l, hit, Put(k + x)) == e.bullet + (k + x);
    CatAssoc(e.bullet, k, x);
  }

  /** Keeping the match and adding text after it appends that text to the metadata line. */
  lemma SplicedKeep(e: Entry, v: Val, x: string)
    requires Full(v, e.value) && |e.bullet| == 2
    ensures MatchAt(KeyPat(Key(e.name), v), MetaLine(e), 2).Some?
    ensures Spliced(MetaLine(e), MatchAt(KeyPat(Key(e.name), v), MetaLine(e), 2).value, KeepThen(x))
      == MetaLine(e) + x
  {
    MetaMatch(e, v);
    var l := MetaLine(e);
    var hit := MatchAt(KeyPat(Key(e.name), v), l, 2).value;
    assert hit.start == 2 && hit.matchEnd == |l|;
    assert l[..2] + l[2..|l|] == l;
    assert l[|l|..] == [];
    assert Spliced(l, hit, KeepThen(x)) == l[..2] + (l[2..|l|] + x);
    CatAssoc(l[..2], l[2..|l|], x);
  }

  /** Replacing the match of a key pattern with the key and a new value sets that row's value. */
  lemma SetKey(rows: seq<Row>, name: string, v: Val, i: nat, x: string)
    requires KeyFirst(rows, name, i) && Full(v, rows[i].entry.value)
    ensures Replace(KeyPat(Key(name), v), Doc(rows), Put(Key(name) + x))
      == Doc(rows[i := Meta(rows[i].entry.(value := x))])
  {
    var e := rows[i].entry;
    var pat := KeyPat(Key(name), v);
    SplicedPut(e, v, x);
    KeyFirstFound(rows, name, v, i);
    ReplaceFound(pat, Doc(rows), Put(Key(name) + x), i, MatchAt(pat, MetaLine(e), 2).value);
    RenderedUpdate(rows, i, Meta(e.(value := x)));
  }

  lemma RenderedInsert(rows: seq<Row>, i: nat, r: Row)
    requires i < |rows|
    ensures Rendered(rows)[..i] + [RowText(rows[i]), RowText(r)] + Rendered(rows)[i + 1..]
      == Rendered(rows[..i + 1] + [r] + rows[i + 1..])
  {
  }

  /** `replace(/(<key>)/, "$1\n<line>")`: a new metadata row right after the matched one. */
  lemma InsertAfterKey(rows: seq<Row>, name: string, v: Val, i: nat, e: Entry)
    requires KeyFirst(rows, name, i) && Full(v, rows[i].entry.value)
    ensures Replace(KeyPat(Key(name), v), Doc(rows), KeepThen("\n" + MetaLine(e)))
      == Doc(rows[..i + 1] + [Meta(e)] + rows[i + 1..])
  {
    var l := MetaLine(rows[i].entry);
    var x := MetaLine(e);
    var lines := Rendered(rows);
    var pat := KeyPat(Key(name), v);
    var sub := KeepThen("\n" + x);
    SplicedKeep(rows[i].entry, v, "\n" + x);
    KeyFirstFound(rows, name, v, i);
    var h := MatchAt(pat, l, 2).value;
    ReplaceFound(pat, Doc(rows), sub, i, h);
    assert lines[i] == l;
    assert Spliced(lines[i], h, sub) == l + "\n" + x by {
      CatAssoc(l, "\n", x);
    }
    JoinBreak(lines, i, l, x, "\n");
    RenderedInsert(rows, i, Meta(e));
    assert Replace(pat, Doc(rows), sub) == Unlines(lines[..i] + [l, x] + lines[i + 1..]);
  }

  lemma {:induction false} OpeningSkip(lines: seq<string>, prefix: string, k: nat, i: nat)
    requires k <= i <= |lines|
    requires forall j :: k <= j < i ==> !StartsWith(lines[j], prefix)
    ensures LineOpening(lines, prefix, k) == LineOpening(lines, prefix, i)
    decreases i - k
  {
    if k < i {
      OpeningSkip(lines, prefix, k + 1, i);
    }
  }

  /** A quiet row that does not belong to `name` does not open with `- **<name>**: `. */
  lemma NotOpening(r: Row, name: string)
    requires GoodRow(r) && KeyQuiet(r) && !Named(r, name) && name != "" && StarFree(name)
    ensures !StartsWith(RowText(r), "- " + Key(name))
  {
    var l := RowText(r);
    var p := "- " + Key(name);
    if StartsWith(l, p) {
      assert l[2..2 + |Key(name)|] == l[..|p|][2..] == p[2..] == Key(name);
      KeyHasBoldColon(l, name, 2);
      if r.Meta? {
        MetaLineBoldAt(r.entry, name, 2);
      } else {
        RowFacts(r);
        MarkFreeNoKey(l, name, 2);
      }
    }
  }

  /** Dropping a line that `.+` covers to its end removes exactly that line. */
  lemma DropLineAt(t: string, prefix: string, i: nat)
    requires LineOpening(Lines(t), prefix, 1) == Some(i)
    requires ValAt(Rest, Lines(t)[i], |prefix|).value.matchEnd == |Lines(t)[i]|
    ensures DropLine(t, prefix) == Unlines(Lines(t)[..i] + Lines(t)[i + 1..])
  {
    var lines := Lines(t);
    JoinEmptyTail(lines, i);
  }

  lemma JoinEmptyTail(lines: seq<string>, i: nat)
    requires 1 <= i < |lines|
    ensures lines[..i - 1] + [lines[i - 1] + lines[i][|lines[i]|..]] + lines[i + 1..] == lines[..i] + lines[i + 1..]
  {
    assert lines[i][|lines[i]|..] == "";
    assert lines[i - 1] + "" == lines[i - 1];
  }

  /** A `- ` metadata line with a one-line value opens with its key and `.+` runs to its end. */
  lemma MetaOpening(e: Entry)
    requires e.bullet == "- " && Full(Rest, e.value)
    ensures StartsWith(MetaLine(e), "- " + Key(e.name))
    ensures ValAt(Rest, MetaLine(e), |"- " + Key(e.name)|) == Some(Span(|MetaLine(e)|, |MetaLine(e)|))
  {
    assert MetaLine(e) == "- " + Key(e.name) + e.value + "";
    ValFull(Rest, "- " + Key(e.name), e.value, "");
  }

  lemma RenderedDrop(rows: seq<Row>, i: nat)
    requires i < |rows|
    ensures Rendered(rows)[..i] + Rendered(rows)[i + 1..] == Rendered(rows[..i] + rows[i + 1..])
  {
  }

  /** `replace(/\n- \*\*<name>\*\*: .+/, "")` removes the metadata row of `name`. */
  lemma DropKey(rows: seq<Row>, name: string, i: nat)
    requires KeyFirst(rows, name, i) && 1 <= i
    requires rows[i].entry.bullet == "- " && Full(Rest, rows[i].entry.value)
    ensures DropLine(Doc(rows), "- " + Key(name)) == Doc(rows[..i] + rows[i + 1..])
  {
    var lines := Rendered(rows);
    var p := "- " + Key(name);
    DocLines(rows);
    forall j | 1 <= j < i ensures !StartsWith(lines[j], p) {
      NotOpening(rows[j], name);
    }
    OpeningSkip(lines, p, 1, i);
    MetaOpening(rows[i].entry);
    DropLineAt(Doc(rows), p, i);
    RenderedDrop(rows, i);
  }

  /** Where a quiet row holds `**<name>**:`, it is the metadata row of `name`. */
  lemma RowBoldAt(r: Row, name: string, q: nat)
    requires GoodRow(r) && KeyQuiet(r) && name != "" && StarFree(name)
    requires OccursAt(RowText(r), q, Bold(name) + ":")
    ensures Named(r, name)
  {
    OccursPrefix(RowText(r), q, Bold(name) + ":", |Bold(name)|);
    assert (Bold(name) + ":")[..|Bold(name)|] == Bold(name);
    if r.Meta? {
      MetaLineBoldAt(r.entry, name, q);
    } else {
      RowFacts(r);
      MarkFreeNoKey(RowText(r), name, q);
    }
  }

  lemma MetaHoldsBold(e: Entry)
    requires |e.bullet| == 2
    ensures MatchAt(LitPat(Bold(e.name) + ":"), MetaLine(e), 2).Some?
  {
    var l := MetaLine(e);
    var lit := Bold(e.name) + ":";
    assert l == e.bullet + lit + " " + e.value;
    assert l[2..2 + |lit|] == lit;
  }

  lemma FoundSome(pat: Pat, lines: seq<string>, j: nat, p: nat)
    requires j < |lines| && MatchAt(pat, lines[j], p).Some?
    ensures Find(pat, lines).Some?
  {
    FirstInSpec(pat, lines[j], 0);
    assert FirstIn(pat, lines[j], 0).Some?;
    FindFromSpec(pat, lines, 0);
  }

  /** `t.includes("**<name>**:")` holds exactly when some row is a metadata row of `name`. */
  lemma HasBold(rows: seq<Row>, name: string)
    requires |rows| >= 1 && GoodRows(rows) && name != "" && StarFree(name)
    requires forall j :: 0 <= j < |rows| ==> KeyQuiet(rows[j])
    ensures HasLit(Doc(rows), Bold(name) + ":") <==> exists j :: 0 <= j < |rows| && Named(rows[j], name)
  {
    var lines := Rendered(rows);
    var pat := LitPat(Bold(name) + ":");
    DocLines(rows);
    if j :| 0 <= j < |rows| && Named(rows[j], name) {
      MetaHoldsBold(rows[j].entry);
      FoundSome(pat, lines, j, 2);
    }
    FindFromSpec(pat, lines, 0);
    match Find(pat, lines)
    case Some(f) =>
      FirstInSpec(pat, lines[f.line], 0);
      RowBoldAt(rows[f.line], name, f.hit.start);
    case None =>
  }
}

=== FILE: naming.dfy ===
/** The file names the create handlers give new documents: `<id>-<slug>.md`, where the slug is
    the title lower-cased, each run of characters outside `[a-z0-9]` turned into one `-`, and cut
    to its first 50 characters. */
module Naming {
  import opened Text

  predicate SlugChar(c: char) { 'a' <= c <= 'z' || '0' <= c <= '9' }

  /** `s.replace(/[^a-z0-9]+/g, "-")`, read left to right; `inRun` says that the character
      before was outside the class and the dash for its run is already written. */
  function Dashed(s: string, inRun: bool): (r: string)
    ensures forall i :: 0 <= i < |r| ==> SlugChar(r[i]) || r[i] == '-'
    ensures |r| <= |s|
  {
    if |s| == 0 then ""
    else if SlugChar(s[0]) then [s[0]] + Dashed(s[1..], false)
    else if inRun then Dashed(s[1..], true)
    else "-" + Dashed(s[1..], true)
  }

  /** `title.toLowerCase().replace(/[^a-z0-9]+/g, "-").slice(0, 50)`. */
  function Slug(title: string): (r: string)
    ensures |r| <= 50
    ensures forall i :: 0 <= i < |r| ==> SlugChar(r[i]) || r[i] == '-'
  {
    var d := Dashed(ToLower(title), false);
    if |d| <= 50 then d else d[..50]
  }

  /** `${id}-${slug}.md`. */
  function FileName(id: string, title: string): string { id + "-" + Slug(title) + ".md" }

  /** A lookup by the id finds the named file: the name starts with the id and is markdown. */
  lemma NameOpens(id: string, title: string)
    ensures StartsWith(FileName(id, title), id) && EndsWith(FileName(id, title), ".md")
  {
    var name := FileName(id, title);
    assert name[..|id|] == id;
    assert name[|name| - 3..] == ".md";
  }

  /** The characters of the class, in order: what the replacement keeps. */
  function Kept(s: string): (r: string)
    ensures |r| <= |s|
  {
    if |s| == 0 then "" else (if SlugChar(s[0]) then [s[0]] else "") + Kept(s[1..])
  }

  lemma KeptCat(a: string, b: string)
    ensures Kept(a + b) == Kept(a) + Kept(b)
    decreases |a|
  {
    if |a| > 0 {
      assert (a + b)[1..] == a[1..] + b;
      KeptCat(a[1..], b);
    } else {
      assert a + b == b;
    }
  }

  /** The replacement keeps every letter and digit, in order, and adds none. */
  lemma {:induction false} DashedKeeps(s: string, inRun: bool)
    ensures Kept(Dashed(s, inRun)) == Kept(s)
    decreases |s|
  {
    if |s| > 0 {
      DashedKeeps(s[1..], !SlugChar(s[0]));
      var rest := Dashed(s[1..], !SlugChar(s[0]));
      if SlugChar(s[0]) {
        KeptCat([s[0]], rest);
      } else if !inRun {
        KeptCat("-", rest);
      }
    }
  }

  /** A run of replaced characters becomes one dash: no two dashes are adjacent, and the text
      written while a run is open does not start with one. */
  lemma {:induction false} DashedSingle(s: string, inRun: bool)
    ensures forall i :: 0 <= i < |Dashed(s, inRun)| - 1 ==> !(Dashed(s, inRun)[i] == '-' && Dashed(s, inRun)[i + 1] == '-')
    ensures inRun && |Dashed(s, inRun)| > 0 ==> Dashed(s, inRun)[0] != '-'
    decreases |s|
  {
    if |s| > 0 {
      DashedSingle(s[1..], !SlugChar(s[0]));
      var rest := Dashed(s[1..], !SlugChar(s[0]));
      assert forall i :: 0 <= i < |rest| - 1 ==> !(rest[i] == '-' && rest[i + 1] == '-');
      var r := Dashed(s, inRun);
      if SlugChar(s[0]) {
        assert r == [s[0]] + rest;
        forall i | 0 <= i < |r| - 1 ensures !(r[i] == '-' && r[i + 1] == '-') {
          if i > 0 {
            assert r[i] == rest[i - 1] && r[i + 1] == rest[i];
          } else {
            assert r[0] == s[0];
          }
        }
      } else if !inRun {
        assert r == "-" + rest;
        assert forall i :: 1 <= i < |r| ==> r[i] == rest[i - 1];
      }
    }
  }

  /** A title that is already a slug, and not longer than 50, is its own slug. */
  lemma {:induction false} DashedClean(s: string, inRun: bool)
    requires forall i :: 0 <= i < |s| ==> SlugChar(s[i])
    ensures Dashed(s, inRun) == s
    decreases |s|
  {
    if |s| > 0 {
      DashedClean(s[1..], false);
      assert s == [s[0]] + s[1..];
    }
  }

  lemma {:induction false} LowerClean(s: string)
    requires forall i :: 0 <= i < |s| ==> SlugChar(s[i])
    ensures ToLower(s) == s
    decreases |s|
  {
    if |s| > 0 {
      LowerClean(s[1..]);
      assert s == [s[0]] + s[1..];
    }
  }

  lemma SlugOfSlug(title: string)
    requires |title| <= 50 && forall i :: 0 <= i < |title| ==> SlugChar(title[i])
    ensures Slug(title) == title
  {
    LowerClean(title);
    DashedClean(title, false);
  }
}

=== FILE: numbers.dfy ===
/** Decimal digit strings: `parseInt(digits, 10)`, `String(n)` and `padStart(3, "0")`. */
module Numbers {
  import opened Text

  predicate AllDigits(s: string) { forall i :: 0 <= i < |s| ==> IsDigit(s[i]) }

  function DigitValue(c: char): nat requires IsDigit(c) { c as int - '0' as int }

  function DigitChar(d: nat): (c: char)
    requires d < 10
    ensures IsDigit(c) && DigitValue(c) == d
  {
    ('0' as int + d) as char
  }

  /** The number a digit string denotes (`parseInt(s, 10)` on `\d+`). */
  function ParseDigits(s: string): nat
    requires AllDigits(s)
  {
    if |s| == 0 then 0 else ParseDigits(s[..|s| - 1]) * 10 + DigitValue(s[|s| - 1])
  }

  /** `String(n)` for a non-negative integer: its decimal digits, without leading zeros. */
  function NatToString(n: nat): (r: string)
    ensures |r| >= 1 && AllDigits(r)
    ensures |r| > 1 ==> r[0] != '0'
  {
    if n < 10 then [DigitChar(n)] else NatToString(n / 10) + [DigitChar(n % 10)]
  }

  /** `String(i)` for any integer: a minus sign before the digits of a negative one. */
  function IntToString(i: int): string {
    if i < 0 then "-" + NatToString(-i) else NatToString(i)
  }

  /** Reading back what NatToString wrote gives the number. */
  lemma {:induction false} ParseNatToString(n: nat)
    ensures ParseDigits(NatToString(n)) == n
  {
    if n >= 10 {
      var s := NatToString(n);
      ParseNatToString(n / 10);
      assert s[..|s| - 1] == NatToString(n / 10);
    }
  }

  /** `s.padStart(w, "0")`: zeros in front up to width `w`. */
  function PadZeros(s: string, w: nat): (r: string)
    ensures |r| == if |s| >= w then |s| else w
    ensures EndsWith(r, s)
    ensures forall i :: 0 <= i < |r| - |s| ==> r[i] == '0'
  {
    if |s| >= w then s
    else
      var z := seq(w - |s|, _ => '0');
      assert (z + s)[|z + s| - |s|..] == s;
      z + s
  }

  /** Leading zeros do not change the value read. */
  lemma {:induction false} ParseLeadingZeros(z: string, s: string)
    requires forall i :: 0 <= i < |z| ==> z[i] == '0'
    requires AllDigits(s)
    ensures AllDigits(z + s)
    ensures ParseDigits(z + s) == ParseDigits(s)
    decreases |s|
  {
    if |s| == 0 {
      assert z + s == z;
      ZerosParseToZero(z);
    } else {
      assert (z + s)[..|z + s| - 1] == z + s[..|s| - 1];
      ParseLeadingZeros(z, s[..|s| - 1]);
    }
  }

  lemma {:induction false} ZerosParseToZero(z: string)
    requires forall i :: 0 <= i < |z| ==> z[i] == '0'
    ensures AllDigits(z) && ParseDigits(z) == 0
    decreases |z|
  {
    if |z| > 0 {
      ZerosParseToZero(z[..|z| - 1]);
    }
  }

  /** The zero-padded rendering of `n` reads back as `n` and has at least `w` digits. */
  lemma PaddedRoundTrip(n: nat, w: nat)
    ensures AllDigits(PadZeros(NatToString(n), w))
    ensures |PadZeros(NatToString(n), w)| >= w
    ensures ParseDigits(PadZeros(NatToString(n), w)) == n
  {
    var s := NatToString(n);
    var r := PadZeros(s, w);
    var z := r[..|r| - |s|];
    assert r == z + s;
    ParseLeadingZeros(z, s);
    ParseNatToString(n);
  }
}

=== FILE: order.dfy ===
/** The order both list handlers sort by: a first key ascending, ties broken by a second key in
    a given direction, keys compared as `localeCompare` is taken to compare them (LexLess); and
    the insertion sort that puts a sequence in that order. */
module Order {
  import opened Text

  /** The direction of the tie-breaking key. */
  datatype Way = Up | Down

  /** `a` is placed strictly before `b`: a comparator returning a negative number. */
  predicate Before(a: (string, string), b: (string, string), w: Way) {
    if a.0 != b.0 then LexLess(a.0, b.0)
    else if w == Up then LexLess(a.1, b.1)
    else LexLess(b.1, a.1)
  }

  lemma {:induction false} LexIrreflexive(a: string)
    ensures !LexLess(a, a)
    decreases |a|
  {
    if |a| > 0 {
      LexIrreflexive(a[1..]);
    }
  }

  lemma {:induction false} LexAsymmetric(a: string, b: string)
    ensures LexLess(a, b) ==> !LexLess(b, a)
    decreases |a|
  {
    if |a| > 0 && |b| > 0 && a[0] == b[0] {
      LexAsymmetric(a[1..], b[1..]);
    }
  }

  lemma {:induction false} LexTotal(a: string, b: string)
    ensures a != b ==> LexLess(a, b) || LexLess(b, a)
    decreases |a|
  {
    if |a| > 0 && |b| > 0 && a[0] == b[0] {
      LexTotal(a[1..], b[1..]);
      if a[1..] == b[1..] {
        assert a == [a[0]] + a[1..] && b == [b[0]] + b[1..];
      }
    }
  }

  lemma {:induction false} LexTransitive(a: string, b: string, c: string)
    ensures LexLess(a, b) && LexLess(b, c) ==> LexLess(a, c)
    decreases |a|
  {
    if |a| > 0 && |b| > 0 && |c| > 0 && a[0] == b[0] && b[0] == c[0] {
      LexTransitive(a[1..], b[1..], c[1..]);
    }
  }

  /** The comparator never places two elements each before the other. */
  lemma BeforeAsymmetric(a: (string, string), b: (string, string), w: Way)
    ensures Before(a, b, w) ==> !Before(b, a, w)
  {
    LexAsymmetric(a.0, b.0);
    LexAsymmetric(a.1, b.1);
    LexAsymmetric(b.1, a.1);
  }

  /** "Not after" is transitive, so an order sorted pair by pair is sorted throughout. */
  lemma NotBeforeTransitive(a: (string, string), b: (string, string), c: (string, string), w: Way)
    requires !Before(b, a, w) && !Before(c, b, w)
    ensures !Before(c, a, w)
  {
    LexTotal(a.0, b.0);
    LexTotal(b.0, c.0);
    LexTotal(a.1, b.1);
    LexTotal(b.1, c.1);
    LexTransitive(a.0, b.0, c.0);
    LexTransitive(a.1, b.1, c.1);
    LexTransitive(c.1, b.1, a.1);
    LexAsymmetric(a.0, c.0);
    LexAsymmetric(a.1, c.1);
    LexAsymmetric(c.1, a.1);
    LexIrreflexive(a.0);
  }

  /** Each element is not placed before its predecessor. */
  ghost predicate Sorted<T>(s: seq<T>, key: T -> (string, string), w: Way) {
    forall i :: 0 < i < |s| ==> !Before(key(s[i]), key(s[i - 1]), w)
  }

  /** No element is placed before any element ahead of it. */
  ghost predicate Ordered<T>(s: seq<T>, key: T -> (string, string), w: Way) {
    forall i, j :: 0 <= i < j < |s| ==> !Before(key(s[j]), key(s[i]), w)
  }

  /** `x` placed ahead of the first element it comes strictly before; elements it ties with
      stay ahead of it. */
  function Insert<T>(x: T, s: seq<T>, key: T -> (string, string), w: Way): (r: seq<T>)
    ensures multiset(r) == multiset(s) + multiset{x} && |r| == |s| + 1
  {
    if |s| == 0 then [x]
    else if Before(key(x), key(s[0]), w) then [x] + s
    else
      assert s == [s[0]] + s[1..];
      [s[0]] + Insert(x, s[1..], key, w)
  }

  /** A stable sort: each element in turn inserted behind those already placed that it does
      not come before. */
  function Sort<T>(s: seq<T>, key: T -> (string, string), w: Way): (r: seq<T>)
    ensures multiset(r) == multiset(s) && |r| == |s|
  {
    if |s| == 0 then []
    else
      assert s == s[..|s| - 1] + [s[|s| - 1]];
      Insert(s[|s| - 1], Sort(s[..|s| - 1], key, w), key, w)
  }

  lemma {:induction false} InsertSorted<T>(x: T, s: seq<T>, key: T -> (string, string), w: Way)
    requires Sorted(s, key, w)
    ensures Sorted(Insert(x, s, key, w), key, w)
    ensures |s| > 0 ==> var r := Insert(x, s, key, w); r[0] == x || r[0] == s[0]
    decreases |s|
  {
    if |s| > 0 {
      if Before(key(x), key(s[0]), w) {
        BeforeAsymmetric(key(x), key(s[0]), w);
      } else {
        var rest := Insert(x, s[1..], key, w);
        InsertSorted(x, s[1..], key, w);
        var r := [s[0]] + rest;
        forall i | 0 < i < |r| ensures !Before(key(r[i]), key(r[i - 1]), w) {
          if i == 1 {
            if |s| > 1 {
              assert rest[0] == x || rest[0] == s[1];
            }
          } else {
            assert r[i] == rest[i - 1] && r[i - 1] == rest[i - 2];
          }
        }
      }
    }
  }

  lemma {:induction false} SortSorted<T>(s: seq<T>, key: T -> (string, string), w: Way)
    ensures Sorted(Sort(s, key, w), key, w)
    decreases |s|
  {
    if |s| > 0 {
      SortSorted(s[..|s| - 1], key, w);
      InsertSorted(s[|s| - 1], Sort(s[..|s| - 1], key, w), key, w);
    }
  }

  lemma {:induction false} SortedOrdered<T>(s: seq<T>, key: T -> (string, string), w: Way)
    requires Sorted(s, key, w)
    ensures Ordered(s, key, w)
    decreases |s|
  {
    if |s| > 1 {
      var s' := s[..|s| - 1];
      SortedOrdered(s', key, w);
      forall i, j | 0 <= i < j < |s| ensures !Before(key(s[j]), key(s[i]), w) {
        if j < |s| - 1 {
          assert s[i] == s'[i] && s[j] == s'[j];
        } else if i < j - 1 {
          assert s[i] == s'[i] && s[j - 1] == s'[j - 1];
          NotBeforeTransitive(key(s[i]), key(s[j - 1]), key(s[j]), w);
        }
      }
    }
  }

  /** The sort returns a permutation of its input in which no element comes before one
      ahead of it. */
  lemma SortOrdered<T>(s: seq<T>, key: T -> (string, string), w: Way)
    ensures multiset(Sort(s, key, w)) == multiset(s)
    ensures Ordered(Sort(s, key, w), key, w)
  {
    SortSorted(s, key, w);
    SortedOrdered(Sort(s, key, w), key, w);
  }

  // ---------------------------------------------------------------------------------------
  // Stability.

  /** The elements of `s` whose key is `k`, in the order of `s`. */
  function Keyed<T>(s: seq<T>, key: T -> (string, string), k: (string, string)): (r: seq<T>)
    ensures |r| <= |s|
  {
    if |s| == 0 then []
    else (if key(s[0]) == k then [s[0]] else []) + Keyed(s[1..], key, k)
  }

  lemma {:induction false} KeyedConcat<T>(a: seq<T>, b: seq<T>, key: T -> (string, string), k: (string, string))
    ensures Keyed(a + b, key, k) == Keyed(a, key, k) + Keyed(b, key, k)
    decreases |a|
  {
    if |a| > 0 {
      var ab := a + b;
      assert ab[0] == a[0] && ab[1..] == a[1..] + b;
      KeyedConcat(a[1..], b, key, k);
    } else {
      assert a + b == b;
    }
  }

  /** The comparator is transitive. */
  lemma BeforeTransitive(a: (string, string), b: (string, string), c: (string, string), w: Way)
    requires Before(a, b, w) && Before(b, c, w)
    ensures Before(a, c, w)
  {
    LexTransitive(a.0, b.0, c.0);
    LexTransitive(a.1, b.1, c.1);
    LexTransitive(c.1, b.1, a.1);
    LexAsymmetric(a.0, b.0);
  }

  /** Keys a comparator never separates are equal: a strict total order on keys. */
  lemma BeforeTotal(a: (string, string), b: (string, string), w: Way)
    ensures a != b ==> Before(a, b, w) || Before(b, a, w)
  {
    LexTotal(a.0, b.0);
    LexTotal(a.1, b.1);
  }

  lemma SortedTail<T>(s: seq<T>, key: T -> (string, string), w: Way)
    requires Sorted(s, key, w) && |s| > 0
    ensures Sorted(s[1..], key, w)
  {
    var t := s[1..];
    forall i | 0 < i < |t| ensures !Before(key(t[i]), key(t[i - 1]), w) {
      assert t[i] == s[i + 1] && t[i - 1] == s[i];
    }
  }

  /** An element placed before the head of a sorted sequence shares its key with none of it. */
  lemma {:induction false} AheadOfAll<T>(x: T, s: seq<T>, key: T -> (string, string), w: Way)
    requires Sorted(s, key, w) && |s| > 0 && Before(key(x), key(s[0]), w)
    ensures Keyed(s, key, key(x)) == []
    decreases |s|
  {
    LexIrreflexive(key(x).0);
    LexIrreflexive(key(x).1);
    if |s| > 1 {
      var t := s[1..];
      assert t[0] == s[1];
      assert !Before(key(s[1]), key(s[0]), w);
      BeforeTotal(key(s[0]), key(s[1]), w);
      if key(s[0]) != key(s[1]) {
        BeforeTransitive(key(x), key(s[0]), key(s[1]), w);
      }
      SortedTail(s, key, w);
      AheadOfAll(x, t, key, w);
    }
  }

  /** Inserting `x` into a sorted sequence puts it behind every element of its own key. */
  lemma {:induction false} InsertKeyed<T>(x: T, s: seq<T>, key: T -> (string, string), w: Way, k: (string, string))
    requires Sorted(s, key, w)
    ensures Keyed(Insert(x, s, key, w), key, k) == Keyed(s, key, k) + Keyed([x], key, k)
    decreases |s|
  {
    if |s| == 0 {
      assert Insert(x, s, key, w) == [x];
      assert Keyed(s, key, k) == [];
    } else if Before(key(x), key(s[0]), w) {
      InsertAhead(x, s, key, w, k);
    } else {
      SortedTail(s, key, w);
      InsertKeyed(x, s[1..], key, w, k);
      InsertBehind(x, s, key, w, k);
    }
  }

  lemma InsertAhead<T>(x: T, s: seq<T>, key: T -> (string, string), w: Way, k: (string, string))
    requires Sorted(s, key, w) && |s| > 0 && Before(key(x), key(s[0]), w)
    ensures Keyed(Insert(x, s, key, w), key, k) == Keyed(s, key, k) + Keyed([x], key, k)
  {
    assert Insert(x, s, key, w) == [x] + s;
    KeyedConcat([x], s, key, k);
    if key(x) == k {
      AheadOfAll(x, s, key, w);
    } else {
      assert Keyed([x], key, k) == [];
    }
  }

  lemma InsertBehind<T>(x: T, s: seq<T>, key: T -> (string, string), w: Way, k: (string, string))
    requires |s| > 0 && !Before(key(x), key(s[0]), w)
    requires Keyed(Insert(x, s[1..], key, w), key, k) == Keyed(s[1..], key, k) + Keyed([x], key, k)
    ensures Keyed(Insert(x, s, key, w), key, k) == Keyed(s, key, k) + Keyed([x], key, k)
  {
    var h, t := s[0], s[1..];
    HeadSplit(s);
    var r := Insert(x, t, key, w);
    assert Insert(x, s, key, w) == [h] + r;
    KeyedConcat([h], r, key, k);
    KeyedConcat([h], t, key, k);
  }

  /** The sort is stable: the elements of each key keep their order. */
  lemma {:induction false} SortStable<T>(s: seq<T>, key: T -> (string, string), w: Way, k: (string, string))
    ensures Keyed(Sort(s, key, w), key, k) == Keyed(s, key, k)
    decreases |s|
  {
    if |s| > 0 {
      var front, x := s[..|s| - 1], s[|s| - 1];
      SortStable(front, key, w, k);
      SortStep(s, front, x, key, w, k);
    }
  }

  lemma HeadSplit<T>(s: seq<T>)
    requires |s| > 0
    ensures s == [s[0]] + s[1..]
  {
  }

  lemma LastSplit<T>(s: seq<T>)
    requires |s| > 0
    ensures s == s[..|s| - 1] + [s[|s| - 1]]
  {
  }

  lemma SortStep<T>(s: seq<T>, front: seq<T>, x: T, key: T -> (string, string), w: Way, k: (string, string))
    requires |s| > 0 && front == s[..|s| - 1] && x == s[|s| - 1]
    requires Keyed(Sort(front, key, w), key, k) == Keyed(front, key, k)
    ensures Keyed(Sort(s, key, w), key, k) == Keyed(s, key, k)
  {
    LastSplit(s);
    var sf := Sort(front, key, w);
    assert Sort(s, key, w) == Insert(x, sf, key, w);
    SortSorted(front, key, w);
    InsertKeyed(x, sf, key, w, k);
    KeyedConcat(front, [x], key, k);
  }

  /** The front of a stably sorted copy holds, of each key, the first elements of that key in
      the original order. */
  lemma StableFront<T>(s: seq<T>, e: nat, key: T -> (string, string), w: Way, k: (string, string))
    requires e <= |s|
    ensures Keyed(Sort(s, key, w)[..e], key, k) <= Keyed(s, key, k)
  {
    var sorted := Sort(s, key, w);
    SortStable(s, key, w, k);
    assert sorted == sorted[..e] + sorted[e..];
    KeyedConcat(sorted[..e], sorted[e..], key, k);
  }

  /** Cutting an ordered sequence keeps the front ordered, and nothing cut off comes before
      anything kept. */
  lemma OrderedCut<T>(s: seq<T>, e: nat, key: T -> (string, string), w: Way)
    requires Ordered(s, key, w) && e <= |s|
    ensures Ordered(s[..e], key, w)
    ensures forall i, x :: 0 <= i < e && x in multiset(s[e..]) ==> !Before(key(x), key(s[i]), w)
  {
    forall i, x | 0 <= i < e && x in multiset(s[e..]) ensures !Before(key(x), key(s[i]), w) {
      var j :| 0 <= j < |s[e..]| && s[e..][j] == x;
      assert s[e + j] == x;
    }
  }

  /** The front of a sorted copy: ordered, drawn from the original, all of it when the cut is
      at the end, and nothing left out comes before anything kept. */
  lemma SortedFront<T>(s: seq<T>, sorted: seq<T>, e: nat, key: T -> (string, string), w: Way)
    requires multiset(sorted) == multiset(s) && Ordered(sorted, key, w) && e <= |sorted|
    ensures Ordered(sorted[..e], key, w)
    ensures multiset(sorted[..e]) <= multiset(s)
    ensures e == |s| ==> multiset(sorted[..e]) == multiset(s)
    ensures forall i, x :: 0 <= i < e && x in multiset(s) - multiset(sorted[..e]) ==> !Before(key(x), key(sorted[i]), w)
  {
    OrderedCut(sorted, e, key, w);
    assert sorted == sorted[..e] + sorted[e..];
    assert multiset(sorted) == multiset(sorted[..e]) + multiset(sorted[e..]);
    if e == |s| {
      assert |sorted| == |multiset(sorted)| == |multiset(s)| == |s|;
      assert sorted[..e] == sorted;
    }
  }
}

=== FILE: outline.dfy ===
/** The shape both kinds of document share: a head (the title and blank lines, for requirements
    also the type line), the metadata block, a blank line, then sections `## <name>` each
    followed by plain lines. On documents of this shape each regular-expression rewrite the
    handlers use is an edit of one component: a metadata value, the title, or a section body. */
module Outline {
  import opened Common
  import opened Text
  import opened Pattern
  import opened Layout

  /** A section: its header name and its body rows. */
  datatype Part = Part(name: string, body: seq<Row>)

  /** A document: head rows, metadata entries under `## Metadata`, and sections. */
  datatype Sheet = Sheet(head: seq<Row>, meta: seq<Entry>, parts: seq<Part>)

  function MetaRows(es: seq<Entry>): (r: seq<Row>)
    ensures |r| == |es| && forall i :: 0 <= i < |es| ==> r[i] == Meta(es[i])
  {
    seq(|es|, i requires 0 <= i < |es| => Meta(es[i]))
  }

  function PartRows(ps: seq<Part>): seq<Row> {
    if |ps| == 0 then [] else [Header(ps[0].name)] + ps[0].body + PartRows(ps[1..])
  }

  /** Everything above the first section. */
  function Front(sh: Sheet): seq<Row> {
    sh.head + [Header("Metadata")] + MetaRows(sh.meta) + [Text("")]
  }

  function Rows(sh: Sheet): seq<Row> { Front(sh) + PartRows(sh.parts) }

  /** The text of the document. */
  function Render(sh: Sheet): string { Doc(Rows(sh)) }

  function Names(ps: seq<Part>): (r: seq<string>)
    ensures |r| == |ps| && forall k :: 0 <= k < |ps| ==> r[k] == ps[k].name
  {
    seq(|ps|, k requires 0 <= k < |ps| => ps[k].name)
  }

  /** Body rows: plain lines without the header mark `##` or the key mark `**:`. */
  predicate PlainRows(rows: seq<Row>) {
    forall i :: 0 <= i < |rows| ==> rows[i].Text? && GoodRow(rows[i]) && KeyQuiet(rows[i])
  }

  predicate GoodHead(rows: seq<Row>) {
    forall i :: 0 <= i < |rows| ==> GoodRow(rows[i]) && KeyQuiet(rows[i]) && !rows[i].Header?
  }

  predicate GoodPart(p: Part) {
    Inert(p.name) && HashFree(p.name) && p.name != "Metadata" && |p.body| >= 1 && PlainRows(p.body)
  }

  predicate WellFormed(sh: Sheet) {
    && GoodHead(sh.head)
    && (forall i :: 0 <= i < |sh.meta| ==> GoodEntry(sh.meta[i]))
    && (forall k :: 0 <= k < |sh.parts| ==> GoodPart(sh.parts[k]))
    && (forall j, k :: 0 <= j < k < |sh.parts| ==> sh.parts[j].name != sh.parts[k].name)
  }

  // ---------------------------------------------------------------------------------------
  // The rows of a sheet.

  lemma {:induction false} PartRowsFacts(ps: seq<Part>)
    requires forall k :: 0 <= k < |ps| ==> GoodPart(ps[k])
    ensures forall i :: 0 <= i < |PartRows(ps)| ==> GoodRow(PartRows(ps)[i]) && KeyQuiet(PartRows(ps)[i])
    ensures forall i :: 0 <= i < |PartRows(ps)| ==> !PartRows(ps)[i].Meta?
    ensures forall i :: 0 <= i < |PartRows(ps)| && PartRows(ps)[i].Header? ==> PartRows(ps)[i].name in Names(ps)
    decreases |ps|
  {
    if |ps| > 0 {
      PartRowsFacts(ps[1..]);
      var rest := PartRows(ps[1..]);
      assert PartRows(ps) == [Header(ps[0].name)] + ps[0].body + rest;
      forall i | 0 <= i < |rest| && rest[i].Header? ensures rest[i].name in Names(ps) {
        var k :| 0 <= k < |ps[1..]| && Names(ps[1..])[k] == rest[i].name;
        assert Names(ps)[k + 1] == rest[i].name;
      }
      assert Names(ps)[0] == ps[0].name;
    }
  }

  lemma RowsGood(sh: Sheet)
    requires WellFormed(sh)
    ensures |Rows(sh)| >= 1 && GoodRows(Rows(sh))
    ensures forall i :: 0 <= i < |Rows(sh)| ==> KeyQuiet(Rows(sh)[i])
  {
    PartRowsFacts(sh.parts);
    assert GoodRow(Header("Metadata"));
    assert GoodRow(Text(""));
  }

  /** The rows of a list of sections, cut around section `k`. */
  lemma {:induction false} PartRowsSplit(ps: seq<Part>, k: nat)
    requires k < |ps|
    ensures PartRows(ps) == PartRows(ps[..k]) + [Header(ps[k].name)] + ps[k].body + PartRows(ps[k + 1..])
    decreases k
  {
    if k > 0 {
      PartRowsSplit(ps[1..], k - 1);
      assert ps[1..][..k - 1] == ps[..k][1..];
      assert ps[1..][k - 1] == ps[k];
      assert ps[1..][k..] == ps[k + 1..];
      assert PartRows(ps[..k]) == [Header(ps[0].name)] + ps[0].body + PartRows(ps[..k][1..]);
    } else {
      assert ps[..0] == [];
      assert ps[1..] == ps[k + 1..];
    }
  }

  /** Where the header of section `k` sits among the rows. */
  function HeaderIndex(sh: Sheet, k: nat): nat
    requires k < |sh.parts|
  {
    |Front(sh)| + |PartRows(sh.parts[..k])|
  }

  /** The index of the last row of section `k`. */
  function SectionLast(sh: Sheet, k: nat): nat
    requires k < |sh.parts|
  {
    HeaderIndex(sh, k) + |sh.parts[k].body|
  }

  /** Whether the lookahead `stop` closes section `k`: the next section's header opens with it,
      or section `k` is the last and the lookahead also accepts the end of the text. */
  predicate Closes(sh: Sheet, k: nat, stop: Stop)
    requires k < |sh.parts|
  {
    if k + 1 < |sh.parts| then StartsWith("## " + sh.parts[k + 1].name, StopPrefix(stop))
    else stop == NextHeaderOrEnd
  }

  /** The facts about the rows around section `k` that the section pattern needs. */
  lemma PartPlace(sh: Sheet, k: nat, stop: Stop)
    requires WellFormed(sh) && k < |sh.parts| && Closes(sh, k, stop)
    ensures var rows, h, last, p := Rows(sh), HeaderIndex(sh, k), SectionLast(sh, k), sh.parts[k];
      && Placed(rows, p.name, stop, h, last)
      && rows[h + 1..last + 1] == p.body
      && rows[..h + 1] == Front(sh) + PartRows(sh.parts[..k]) + [Header(p.name)]
      && rows[last + 1..] == PartRows(sh.parts[k + 1..])
  {
    var ps := sh.parts;
    var p := ps[k];
    PartRowsSplit(ps, k);
    var pre := Front(sh) + PartRows(ps[..k]);
    var after := PartRows(ps[k + 1..]);
    assert Rows(sh) == pre + [Header(p.name)] + p.body + after;
    BeforeAbsent(sh, k);
    AfterCloses(sh, k, stop);
    PlacedJoin(pre, p.name, p.body, after, stop);
  }

  /** No row before section `k` is that section's header. */
  lemma BeforeAbsent(sh: Sheet, k: nat)
    requires WellFormed(sh) && k < |sh.parts|
    ensures var pre := Front(sh) + PartRows(sh.parts[..k]);
      forall j :: 0 <= j < |pre| ==> pre[j] != Header(sh.parts[k].name)
  {
    var ps := sh.parts;
    var f := Front(sh);
    var before := PartRows(ps[..k]);
    var name := ps[k].name;
    PartRowsFacts(ps[..k]);
    forall j | 0 <= j < |before| ensures before[j] != Header(name) {
      if before[j].Header? {
        var q :| 0 <= q < k && Names(ps[..k])[q] == before[j].name;
        assert ps[q].name == before[j].name;
      }
    }
    forall j | 0 <= j < |f + before| ensures (f + before)[j] != Header(name) {
      if j >= |f| {
        assert (f + before)[j] == before[j - |f|];
      }
    }
  }

  /** What follows section `k` satisfies the lookahead that closes it. */
  lemma AfterCloses(sh: Sheet, k: nat, stop: Stop)
    requires WellFormed(sh) && k < |sh.parts| && Closes(sh, k, stop)
    ensures var after := PartRows(sh.parts[k + 1..]);
      || (|after| > 0 && after[0].Header? && StartsWith(RowText(after[0]), StopPrefix(stop)))
      || (stop == NextHeaderOrEnd && after == [])
  {
    var ps := sh.parts;
    if k + 1 < |ps| {
      PartRowsSplit(ps[k + 1..], 0);
      assert ps[k + 1..][0] == ps[k + 1];
    } else {
      assert ps[k + 1..] == [];
    }
  }

  /** A header between rows with no copy of it before and no header after, up to a closing row. */
  lemma PlacedJoin(pre: seq<Row>, name: string, body: seq<Row>, after: seq<Row>, stop: Stop)
    requires forall j :: 0 <= j < |pre| ==> pre[j] != Header(name)
    requires |body| >= 1 && PlainRows(body)
    requires || (|after| > 0 && after[0].Header? && StartsWith(RowText(after[0]), StopPrefix(stop)))
             || (stop == NextHeaderOrEnd && after == [])
    ensures var rows, h, last := pre + [Header(name)] + body + after, |pre|, |pre| + |body|;
      && Placed(rows, name, stop, h, last)
      && rows[h + 1..last + 1] == body
      && rows[..h + 1] == pre + [Header(name)]
      && rows[last + 1..] == after
  {
    var rows := pre + [Header(name)] + body + after;
    var h, last := |pre|, |pre| + |body|;
    assert rows[h] == Header(name);
    forall j | 0 <= j < h ensures rows[j] != Header(name) {
      assert rows[j] == pre[j];
    }
    forall j | h < j <= last ensures !rows[j].Header? {
      assert rows[j] == body[j - h - 1];
    }
    if |after| > 0 {
      assert rows[last + 1] == after[0];
    }
    assert rows[h + 1..last + 1] == body;
    assert rows[..h + 1] == pre + [Header(name)];
    assert rows[last + 1..] == after;
  }

  /** Section `k` is what the section pattern captures. */
  lemma PartSection(sh: Sheet, k: nat, stop: Stop)
    requires WellFormed(sh) && k < |sh.parts| && Closes(sh, k, stop)
    requires StartsWith(StopPrefix(stop), "##")
    ensures SectionText(Render(sh), "## " + sh.parts[k].name, stop) == Some(Doc(sh.parts[k].body))
  {
    PartAround(sh, k, stop);
    BodyAt(Rows(sh), Front(sh) + PartRows(sh.parts[..k]) + [Header(sh.parts[k].name)], sh.parts[k].body,
           PartRows(sh.parts[k + 1..]), sh.parts[k].name, stop, HeaderIndex(sh, k), SectionLast(sh, k));
  }

  /** SectionTextAt, with the rows of the section named. */
  lemma BodyAt(rows: seq<Row>, pre: seq<Row>, mid: seq<Row>, post: seq<Row>, name: string, stop: Stop, h: nat, last: nat)
    requires Around(rows, pre, mid, post, name, stop, h, last)
    ensures SectionText(Doc(rows), "## " + name, stop) == Some(Doc(mid))
  {
    SectionTextAt(rows, name, stop, h, last);
  }

  /** Rewriting the captured body of section `k` replaces that section's body and nothing else. */
  lemma PartReplace(sh: Sheet, k: nat, stop: Stop, f: string -> string, body: seq<Row>)
    requires WellFormed(sh) && k < |sh.parts| && Closes(sh, k, stop)
    requires StartsWith(StopPrefix(stop), "##")
    requires |body| >= 1 && PlainRows(body)
    requires f(Doc(sh.parts[k].body)) == Doc(body)
    ensures ReplaceSection(Render(sh), "## " + sh.parts[k].name, stop, f)
      == Render(sh.(parts := sh.parts[k := Part(sh.parts[k].name, body)]))
  {
    PartSpliced(sh, k, stop, f, body);
    RowsReplaced(sh, k, body);
  }

  lemma PartSpliced(sh: Sheet, k: nat, stop: Stop, f: string -> string, body: seq<Row>)
    requires WellFormed(sh) && k < |sh.parts| && Closes(sh, k, stop)
    requires StartsWith(StopPrefix(stop), "##")
    requires |body| >= 1 && PlainRows(body)
    requires f(Doc(sh.parts[k].body)) == Doc(body)
    ensures ReplaceSection(Render(sh), "## " + sh.parts[k].name, stop, f)
      == Doc(Front(sh) + PartRows(sh.parts[..k]) + [Header(sh.parts[k].name)] + body + PartRows(sh.parts[k + 1..]))
  {
    PartAround(sh, k, stop);
    SplicedAt(Rows(sh), Front(sh) + PartRows(sh.parts[..k]) + [Header(sh.parts[k].name)], sh.parts[k].body,
              PartRows(sh.parts[k + 1..]), sh.parts[k].name, stop, HeaderIndex(sh, k), SectionLast(sh, k), f, body);
  }

  /** Section `k` with the rows before and after it. */
  lemma PartAround(sh: Sheet, k: nat, stop: Stop)
    requires WellFormed(sh) && k < |sh.parts| && Closes(sh, k, stop)
    requires StartsWith(StopPrefix(stop), "##")
    ensures Around(Rows(sh), Front(sh) + PartRows(sh.parts[..k]) + [Header(sh.parts[k].name)], sh.parts[k].body,
                   PartRows(sh.parts[k + 1..]), sh.parts[k].name, stop, HeaderIndex(sh, k), SectionLast(sh, k))
  {
    RowsGood(sh);
    PartPlace(sh, k, stop);
  }

  /** Rows `h + 1 .. last` are the located section `mid` of header `name`, between `pre` and
      `post`. */
  predicate Around(rows: seq<Row>, pre: seq<Row>, mid: seq<Row>, post: seq<Row>, name: string, stop: Stop, h: nat, last: nat) {
    && GoodRows(rows) && StartsWith(StopPrefix(stop), "##")
    && Placed(rows, name, stop, h, last)
    && rows[..h + 1] == pre && rows[h + 1..last + 1] == mid && rows[last + 1..] == post
  }

  /** ReplaceSectionAt, with the rows around the section named. */
  lemma SplicedAt(rows: seq<Row>, pre: seq<Row>, mid: seq<Row>, post: seq<Row>, name: string, stop: Stop,
                  h: nat, last: nat, f: string -> string, body: seq<Row>)
    requires Around(rows, pre, mid, post, name, stop, h, last)
    requires |body| >= 1 && GoodRows(body)
    requires f(Doc(mid)) == Doc(body)
    ensures ReplaceSection(Doc(rows), "## " + name, stop, f) == Doc(pre + body + post)
  {
    ReplaceSectionAt(rows, name, stop, h, last, f, body);
  }

  lemma RowsReplaced(sh: Sheet, k: nat, body: seq<Row>)
    requires k < |sh.parts|
    ensures Rows(sh.(parts := sh.parts[k := Part(sh.parts[k].name, body)]))
      == Front(sh) + PartRows(sh.parts[..k]) + [Header(sh.parts[k].name)] + body + PartRows(sh.parts[k + 1..])
  {
    var ps := sh.parts;
    var ps' := ps[k := Part(ps[k].name, body)];
    PartRowsSplit(ps', k);
    assert ps'[..k] == ps[..k] && ps'[k + 1..] == ps[k + 1..];
  }

  lemma ReplacedWellFormed(sh: Sheet, k: nat, body: seq<Row>)
    requires WellFormed(sh) && k < |sh.parts|
    requires |body| >= 1 && PlainRows(body)
    ensures WellFormed(sh.(parts := sh.parts[k := Part(sh.parts[k].name, body)]))
  {
  }

  // ---------------------------------------------------------------------------------------
  // Metadata values.

  /** The first entry of a name. */
  function Slot(es: seq<Entry>, name: string): (r: Option<nat>)
    ensures r.Some? ==> r.value < |es| && es[r.value].name == name
    ensures r.Some? ==> forall j :: 0 <= j < r.value ==> es[j].name != name
    ensures r.None? ==> forall j :: 0 <= j < |es| ==> es[j].name != name
  {
    if |es| == 0 then None
    else if es[0].name == name then Some(0)
    else match Slot(es[1..], name)
      case Some(i) => Some(i + 1)
      case None => None
  }

  /** The value of the first entry of a name: what the key pattern of that name reads. */
  function Lookup(es: seq<Entry>, name: string): Option<string> {
    match Slot(es, name)
    case Some(i) => Some(es[i].value)
    case None => None
  }

  /** The entries with the first one of `name` given the value `x`. */
  function SetEntry(es: seq<Entry>, name: string, x: string): seq<Entry> {
    match Slot(es, name)
    case Some(i) => es[i := es[i].(value := x)]
    case None => es
  }

  /** The entries with `e` inserted after the first one of `name`. */
  function InsertAfter(es: seq<Entry>, name: string, e: Entry): seq<Entry> {
    match Slot(es, name)
    case Some(i) => es[..i + 1] + [e] + es[i + 1..]
    case None => es
  }

  /** The entries without the first one of `name`. */
  function DropEntry(es: seq<Entry>, name: string): seq<Entry> {
    match Slot(es, name)
    case Some(i) => es[..i] + es[i + 1..]
    case None => es
  }

  /** The head holds no metadata row of this name (the type line of a requirement is `Type`). */
  predicate HeadFree(sh: Sheet, name: string) {
    forall i :: 0 <= i < |sh.head| ==> !Named(sh.head[i], name)
  }

  /** A key name as the patterns spell it: non-empty and without `*`. */
  predicate KeyName(name: string) { name != "" && StarFree(name) }

  /** Where the first row of `name` sits, in terms of the entries. */
  lemma RowOfSlot(sh: Sheet, name: string)
    requires WellFormed(sh) && HeadFree(sh, name)
    ensures var rows := Rows(sh); var m := |sh.head| + 1;
      match Slot(sh.meta, name)
      case Some(i) =>
        m + i < |rows| && rows[m + i] == Meta(sh.meta[i])
        && (forall j :: 0 <= j < m + i ==> !Named(rows[j], name))
      case None => forall j :: 0 <= j < |rows| ==> !Named(rows[j], name)
  {
    PartRowsFacts(sh.parts);
    var rows := Rows(sh);
    var m := |sh.head| + 1;
    assert forall j :: m <= j < m + |sh.meta| ==> rows[j] == Meta(sh.meta[j - m]);
    assert forall j :: m + |sh.meta| <= j < |rows| ==> !rows[j].Meta?;
  }

  /** The row of the `i`-th entry. */
  function SlotRow(sh: Sheet, i: nat): nat { |sh.head| + 1 + i }

  /** The row of the first entry of `name` is where its key pattern first matches. */
  lemma SlotFirst(sh: Sheet, name: string, i: nat)
    requires WellFormed(sh) && HeadFree(sh, name) && KeyName(name) && Slot(sh.meta, name) == Some(i)
    ensures KeyFirst(Rows(sh), name, SlotRow(sh, i)) && SlotRow(sh, i) >= 1
    ensures Rows(sh)[SlotRow(sh, i)] == Meta(sh.meta[i])
    ensures Lookup(sh.meta, name) == Some(Rows(sh)[SlotRow(sh, i)].entry.value)
  {
    RowsGood(sh);
    RowOfSlot(sh, name);
  }

  /** Without an entry of `name`, no row can hold its key. */
  lemma NoSlotRows(sh: Sheet, name: string)
    requires WellFormed(sh) && HeadFree(sh, name) && KeyName(name) && Slot(sh.meta, name).None?
    ensures KeyAbsent(Rows(sh), name)
  {
    RowsGood(sh);
    RowOfSlot(sh, name);
  }

  lemma RowsDropEntry(sh: Sheet, name: string, i: nat)
    requires Slot(sh.meta, name) == Some(i)
    ensures var m := SlotRow(sh, i);
      m < |Rows(sh)| && Rows(sh)[..m] + Rows(sh)[m + 1..] == Rows(sh.(meta := DropEntry(sh.meta, name)))
  {
    var es := sh.meta;
    var m := SlotRow(sh, i);
    assert es == es[..i] + [es[i]] + es[i + 1..];
    RowsMetaAt(sh, es[..i], es[i], es[i + 1..]);
    RowsMetaSplit(sh.(meta := DropEntry(es, name)), es[..i], es[i + 1..]);
    SliceOut(Rows(sh), sh.head + [Header("Metadata")] + MetaRows(es[..i]), Meta(es[i]),
             MetaRows(es[i + 1..]) + [Text("")] + PartRows(sh.parts), m);
  }

  /** The rows of a sheet whose entries are `l + r`, cut between the two. */
  lemma RowsMetaSplit(sh: Sheet, l: seq<Entry>, r: seq<Entry>)
    requires sh.meta == l + r
    ensures Rows(sh) == (sh.head + [Header("Metadata")] + MetaRows(l)) + (MetaRows(r) + [Text("")] + PartRows(sh.parts))
  {
    assert MetaRows(l + r) == MetaRows(l) + MetaRows(r);
  }

  /** The rows of a sheet whose entries are `l + [x] + r`, around the row of `x`. */
  lemma RowsMetaAt(sh: Sheet, l: seq<Entry>, x: Entry, r: seq<Entry>)
    requires sh.meta == l + [x] + r
    ensures Rows(sh) == (sh.head + [Header("Metadata")] + MetaRows(l)) + [Meta(x)] + (MetaRows(r) + [Text("")] + PartRows(sh.parts))
  {
    assert MetaRows(l + [x] + r) == MetaRows(l) + [Meta(x)] + MetaRows(r);
  }

  lemma SliceOut<T>(s: seq<T>, a: seq<T>, x: T, b: seq<T>, m: nat)
    requires s == a + [x] + b && |a| == m
    ensures m < |s| && s[..m] + s[m + 1..] == a + b
  {
    assert s[..m] == a;
    assert s[m + 1..] == b;
  }

  lemma SliceIn<T>(s: seq<T>, a: seq<T>, x: T, b: seq<T>, m: nat)
    requires s == a + b && |a| == m
    ensures m <= |s| && s[..m] + [x] + s[m..] == a + [x] + b
  {
    assert s[..m] == a;
    assert s[m..] == b;
  }

  /** The key pattern of `name` reads the value of the first entry of `name`, when that value is
      a complete match of the pattern, and nothing when there is no such entry. */
  lemma ExtractEntry(sh: Sheet, name: string, v: Val)
    requires WellFormed(sh) && HeadFree(sh, name) && KeyName(name)
    requires Lookup(sh.meta, name).Some? ==> Full(v, Lookup(sh.meta, name).value)
    ensures Extract(KeyPat(Key(name), v), Render(sh)) ==
      match Lookup(sh.meta, name)
      case Some(x) => Some(Captured(v, x))
      case None => None
  {
    match Slot(sh.meta, name) {
      case Some(i) =>
        SlotFirst(sh, name, i);
        ExtractKey(Rows(sh), name, v, SlotRow(sh, i));
      case None =>
        NoSlotRows(sh, name);
        ExtractNoKey(Rows(sh), name, v);
    }
  }

  lemma RowsSetEntry(sh: Sheet, name: string, i: nat, x: string)
    requires Slot(sh.meta, name) == Some(i)
    ensures Rows(sh)[SlotRow(sh, i) := Meta(sh.meta[i].(value := x))] == Rows(sh.(meta := SetEntry(sh.meta, name, x)))
  {
  }

  /** `replace(/\*\*<name>\*\*: <value>/, "**<name>**: <x>")` sets the value of the first entry
      of `name`; without one the text is unchanged. */
  lemma SetValue(sh: Sheet, name: string, v: Val, x: string)
    requires WellFormed(sh) && HeadFree(sh, name) && KeyName(name)
    requires Lookup(sh.meta, name).Some? ==> Full(v, Lookup(sh.meta, name).value)
    ensures Replace(KeyPat(Key(name), v), Render(sh), Put(Key(name) + x)) == Render(sh.(meta := SetEntry(sh.meta, name, x)))
  {
    match Slot(sh.meta, name) {
      case Some(i) =>
        SlotFirst(sh, name, i);
        SetKey(Rows(sh), name, v, SlotRow(sh, i), x);
        RowsSetEntry(sh, name, i, x);
      case None =>
        NoSlotRows(sh, name);
        ReplaceNoKey(Rows(sh), name, v, Put(Key(name) + x));
    }
  }

  lemma RowsInsertAfter(sh: Sheet, name: string, i: nat, e: Entry)
    requires Slot(sh.meta, name) == Some(i)
    ensures var rows, m := Rows(sh), SlotRow(sh, i);
      m < |rows| && rows[..m + 1] + [Meta(e)] + rows[m + 1..] == Rows(sh.(meta := InsertAfter(sh.meta, name, e)))
  {
    var es := sh.meta;
    var n := SlotRow(sh, i) + 1;
    assert es == es[..i + 1] + es[i + 1..];
    RowsMetaSplit(sh, es[..i + 1], es[i + 1..]);
    RowsMetaAt(sh.(meta := InsertAfter(es, name, e)), es[..i + 1], e, es[i + 1..]);
    SliceIn(Rows(sh), sh.head + [Header("Metadata")] + MetaRows(es[..i + 1]), Meta(e),
            MetaRows(es[i + 1..]) + [Text("")] + PartRows(sh.parts), n);
  }

  /** `replace(/(\*\*<name>\*\*: <value>)/, "$1\n<line>")` adds the entry `e` after the first
      entry of `name`; without one the text is unchanged. */
  lemma InsertValue(sh: Sheet, name: string, v: Val, e: Entry)
    requires WellFormed(sh) && HeadFree(sh, name) && KeyName(name)
    requires Lookup(sh.meta, name).Some? ==> Full(v, Lookup(sh.meta, name).value)
    ensures Replace(KeyPat(Key(name), v), Render(sh), KeepThen("\n" + MetaLine(e)))
      == Render(sh.(meta := InsertAfter(sh.meta, name, e)))
  {
    match Slot(sh.meta, name) {
      case Some(i) =>
        InsertValueAt(sh, name, v, e, i);
      case None =>
        NoSlotRows(sh, name);
        ReplaceNoKey(Rows(sh), name, v, KeepThen("\n" + MetaLine(e)));
    }
  }

  lemma InsertValueAt(sh: Sheet, name: string, v: Val, e: Entry, i: nat)
    requires WellFormed(sh) && HeadFree(sh, name) && KeyName(name) && Slot(sh.meta, name) == Some(i)
    requires Full(v, sh.meta[i].value)
    ensures Replace(KeyPat(Key(name), v), Render(sh), KeepThen("\n" + MetaLine(e)))
      == Render(sh.(meta := InsertAfter(sh.meta, name, e)))
  {
    var rows := Rows(sh);
    var m := SlotRow(sh, i);
    var sh' := sh.(meta := InsertAfter(sh.meta, name, e));
    var rows' := rows[..m + 1] + [Meta(e)] + rows[m + 1..];
    SlotFirst(sh, name, i);
    InsertedRender(sh, sh', name, i, e, rows, m, rows');
    InsertAfterKeyAt(rows, name, v, m, e, sh.meta[i]);
    assert Render(sh) == Doc(rows);
  }

  /** The sheet with `e` inserted after the entry in slot `i` renders as its rows with the row
      of `e` after that entry's row. */
  lemma InsertedRender(sh: Sheet, sh': Sheet, name: string, i: nat, e: Entry, rows: seq<Row>, m: nat, rows': seq<Row>)
    requires Slot(sh.meta, name) == Some(i) && sh' == sh.(meta := InsertAfter(sh.meta, name, e))
    requires rows == Rows(sh) && m == SlotRow(sh, i) && m < |rows|
    requires rows' == rows[..m + 1] + [Meta(e)] + rows[m + 1..]
    ensures Render(sh') == Doc(rows')
  {
    RowsInsertAfter(sh, name, i, e);
  }

  /** InsertAfterKey for the row of a known entry. */
  lemma InsertAfterKeyAt(rows: seq<Row>, name: string, v: Val, m: nat, e: Entry, x: Entry)
    requires KeyFirst(rows, name, m) && rows[m] == Meta(x) && Full(v, x.value)
    ensures Replace(KeyPat(Key(name), v), Doc(rows), KeepThen("\n" + MetaLine(e)))
      == Doc(rows[..m + 1] + [Meta(e)] + rows[m + 1..])
  {
    InsertAfterKey(rows, name, v, m, e);
  }

  /** `replace(/\n- \*\*<name>\*\*: .+/, "")` removes the first entry of `name`, which is a
      `- ` entry with a one-line value; without one the text is unchanged. */
  lemma DropValue(sh: Sheet, name: string)
    requires WellFormed(sh) && HeadFree(sh, name) && KeyName(name)
    requires Slot(sh.meta, name).Some? ==>
      sh.meta[Slot(sh.meta, name).value].bullet == "- " && Full(Rest, sh.meta[Slot(sh.meta, name).value].value)
    ensures DropLine(Render(sh), "- " + Key(name)) == Render(sh.(meta := DropEntry(sh.meta, name)))
  {
    match Slot(sh.meta, name) {
      case Some(i) =>
        DropValueAt(sh, name, i);
      case None =>
        NoSlotRows(sh, name);
        NoOpening(Rows(sh), name);
    }
  }

  lemma DropValueAt(sh: Sheet, name: string, i: nat)
    requires WellFormed(sh) && HeadFree(sh, name) && KeyName(name) && Slot(sh.meta, name) == Some(i)
    requires sh.meta[i].bullet == "- " && Full(Rest, sh.meta[i].value)
    ensures DropLine(Render(sh), "- " + Key(name)) == Render(sh.(meta := DropEntry(sh.meta, name)))
  {
    var rows := Rows(sh);
    var m := SlotRow(sh, i);
    SlotFirst(sh, name, i);
    RowsDropEntry(sh, name, i);
    DropKey(rows, name, m);
  }

  /** Without a row of `name`, no line after the first opens with its key. */
  lemma NoOpening(rows: seq<Row>, name: string)
    requires KeyAbsent(rows, name)
    ensures DropLine(Doc(rows), "- " + Key(name)) == Doc(rows)
  {
    DocLines(rows);
    var p := "- " + Key(name);
    forall j | 1 <= j < |rows| ensures !StartsWith(Rendered(rows)[j], p) {
      NotOpening(rows[j], name);
    }
    OpeningSkip(Rendered(rows), p, 1, |rows|);
  }

  /** `t.includes("**<name>**:")` tells whether an entry of `name` exists. */
  lemma HasValue(sh: Sheet, name: string)
    requires WellFormed(sh) && HeadFree(sh, name) && KeyName(name)
    ensures HasLit(Render(sh), Bold(name) + ":") <==> Slot(sh.meta, name).Some?
  {
    RowsGood(sh);
    RowOfSlot(sh, name);
    HasBold(Rows(sh), name);
  }

  /** `replace(/^# (<id>): .+$/m, "# <id2>: <t2>")` on a sheet whose head opens with its title. */
  lemma SetHeadTitle(sh: Sheet, idv: Val, id2: string, t2: string)
    requires WellFormed(sh) && |sh.head| >= 1 && sh.head[0].Title?
    requires (idv == TaskRef || idv == ReqRef) && Full(idv, sh.head[0].id) && sh.head[0].text != ""
    ensures Replace(TitlePat(idv), Render(sh), Put("# " + id2 + ": " + t2))
      == Render(sh.(head := sh.head[0 := Title(id2, t2)]))
  {
    RowsGood(sh);
    SetTitle(Rows(sh), idv, id2, t2);
    assert Rows(sh)[0 := Title(id2, t2)] == Rows(sh.(head := sh.head[0 := Title(id2, t2)]));
  }

  lemma HeadTitle(sh: Sheet, idv: Val)
    requires WellFormed(sh) && |sh.head| >= 1 && sh.head[0].Title?
    requires (idv == TaskRef || idv == ReqRef) && Full(idv, sh.head[0].id) && sh.head[0].text != ""
    ensures Extract(TitlePat(idv), Render(sh)) == Some(sh.head[0].text)
  {
    RowsGood(sh);
    ExtractTitle(Rows(sh), idv);
  }

  // ---------------------------------------------------------------------------------------
  // What the entry edits do to the values read back.

  lemma LookupSet(es: seq<Entry>, name: string, x: string, other: string)
    ensures Slot(SetEntry(es, name, x), other) == Slot(es, other)
    ensures Lookup(SetEntry(es, name, x), other) ==
      if other == name && Slot(es, name).Some? then Some(x) else Lookup(es, other)
  {
    var es' := SetEntry(es, name, x);
    assert |es'| == |es| && forall j :: 0 <= j < |es| ==> es'[j].name == es[j].name;
    SlotNames(es, es', other);
  }

  lemma {:induction false} SlotNames(a: seq<Entry>, b: seq<Entry>, name: string)
    requires |a| == |b| && forall j :: 0 <= j < |a| ==> a[j].name == b[j].name
    ensures Slot(a, name) == Slot(b, name)
    decreases |a|
  {
    if |a| > 0 {
      SlotNames(a[1..], b[1..], name);
    }
  }

  lemma LookupInsert(es: seq<Entry>, name: string, e: Entry, other: string)
    requires Lookup(es, e.name).None?
    ensures Lookup(InsertAfter(es, name, e), other) ==
      if other == e.name && Slot(es, name).Some? then Some(e.value) else Lookup(es, other)
  {
    match Slot(es, name) {
      case Some(i) =>
        if other == e.name {
          LookupInserted(es, i, e);
        } else {
          LookupBeside(es, i, e, other);
        }
      case None =>
    }
  }

  lemma LookupInserted(es: seq<Entry>, i: nat, e: Entry)
    requires i < |es| && Slot(es, e.name).None?
    ensures Lookup(es[..i + 1] + [e] + es[i + 1..], e.name) == Some(e.value)
  {
    var es' := es[..i + 1] + [e] + es[i + 1..];
    assert es'[i + 1] == e;
    forall j | 0 <= j < i + 1 ensures es'[j].name != e.name {
      assert es'[j] == es[j];
    }
    SlotAt(es', e.name, i + 1);
  }

  lemma LookupBeside(es: seq<Entry>, i: nat, e: Entry, other: string)
    requires i < |es| && other != e.name
    ensures Lookup(es[..i + 1] + [e] + es[i + 1..], other) == Lookup(es, other)
  {
    var es' := es[..i + 1] + [e] + es[i + 1..];
    assert forall j :: 0 <= j < |es'| ==> es'[j] == if j <= i then es[j] else if j == i + 1 then e else es[j - 1];
    match Slot(es, other) {
      case Some(k) =>
        var k' := if k <= i then k else k + 1;
        assert es'[k'] == es[k];
      case None =>
    }
  }

  lemma LookupDrop(es: seq<Entry>, name: string, other: string)
    ensures other != name ==> Lookup(DropEntry(es, name), other) == Lookup(es, other)
    ensures Slot(es, name).Some? && (forall j, k :: 0 <= j < k < |es| ==> es[j].name != es[k].name) ==>
      Lookup(DropEntry(es, name), name).None?
  {
    match Slot(es, name) {
      case Some(i) =>
        assert DropEntry(es, name) == es[..i] + es[i + 1..];
        if other != name {
          LookupDropOther(es, i, other);
        }
        if forall j, k :: 0 <= j < k < |es| ==> es[j].name != es[k].name {
          LookupDropSame(es, i);
        }
      case None =>
    }
  }

  /** The first entry of a name, recognised by where it sits. */
  lemma SlotAt(es: seq<Entry>, name: string, r: nat)
    requires r < |es| && es[r].name == name && forall j :: 0 <= j < r ==> es[j].name != name
    ensures Slot(es, name) == Some(r)
  {
  }

  lemma SlotNone(es: seq<Entry>, name: string)
    requires forall j :: 0 <= j < |es| ==> es[j].name != name
    ensures Slot(es, name) == None
  {
  }

  /** Dropping entry `i` keeps the lookup of any other name. */
  lemma LookupDropOther(es: seq<Entry>, i: nat, other: string)
    requires i < |es| && es[i].name != other
    ensures Lookup(es[..i] + es[i + 1..], other) == Lookup(es, other)
  {
    var es' := es[..i] + es[i + 1..];
    assert forall j :: 0 <= j < |es'| ==> es'[j] == if j < i then es[j] else es[j + 1];
    match Slot(es, other) {
      case Some(k) =>
        var k' := if k < i then k else k - 1;
        assert es'[k'] == es[k];
        SlotAt(es', other, k');
      case None =>
        SlotNone(es', other);
    }
  }

  /** With distinct names, dropping the entry of a name leaves none of that name. */
  lemma LookupDropSame(es: seq<Entry>, i: nat)
    requires i < |es| && forall j, k :: 0 <= j < k < |es| ==> es[j].name != es[k].name
    ensures Lookup(es[..i] + es[i + 1..], es[i].name).None?
  {
    var es' := es[..i] + es[i + 1..];
    forall j | 0 <= j < |es'| ensures es'[j].name != es[i].name {
      if j < i {
        assert es'[j] == es[j];
      } else {
        assert es'[j] == es[j + 1];
      }
    }
    SlotNone(es', es[i].name);
  }
}

=== FILE: pattern.dfy ===
/** The handful of regular expressions the two stores use, each as a small matcher over the
    `\n`-separated lines of a document. A JavaScript regex without the `g` flag finds its leftmost
    match; every pattern here except the section patterns cannot cross a line break, so the
    leftmost match is the first match in the first line that has one. */
module Pattern {
  import opened Common
  import opened Text

  /** Character classes that appear repeated (`\d+`, `\w+`, `[A-Z]+`, `[\d-]+`, `.+`). */
  datatype Class = DigitChars | WordChars | UpperChars | DateChars | LineChars

  predicate InClass(c: char, k: Class) {
    match k
    case DigitChars => IsDigit(c)
    case WordChars => IsWordChar(c)
    case UpperChars => IsUpper(c)
    case DateChars => IsDigit(c) || c == '-'
    case LineChars => !IsLineTerminator(c)
  }

  /** End of the longest run of class `k` starting at `i` (greedy repetition). */
  function RunEnd(s: string, i: nat, k: Class): (e: nat)
    requires i <= |s|
    ensures i <= e <= |s|
    ensures forall j :: i <= j < e ==> InClass(s[j], k)
    ensures e == |s| || !InClass(s[e], k)
    decreases |s| - i
  {
    if i < |s| && InClass(s[i], k) then RunEnd(s, i + 1, k) else i
  }

  /** The captured part of a key pattern, after its literal key. */
  datatype Val =
    | Word      // (\w+)
    | WordDash  // (\w+(-\w+)?)
    | Prio      // (P\d)
    | DateRun   // ([\d-]+)
    | Rest      // (.+)
    | TaskRef   // (TASK-\d+)
    | ReqRef    // ([A-Z]+-\d+)
    | Hours     // (\d+)h

  /** Where a match of a value ends: the captured group ends at `groupEnd`, the whole match at
      `matchEnd` (they differ only for `(\d+)h`). */
  datatype Span = Span(groupEnd: nat, matchEnd: nat)

  function ValAt(v: Val, s: string, i: nat): (r: Option<Span>)
    ensures r.Some? ==> i < r.value.groupEnd <= r.value.matchEnd <= |s|
  {
    if i > |s| then None
    else
      match v
      case Word =>
        var e := RunEnd(s, i, WordChars);
        if e > i then Some(Span(e, e)) else None
      case WordDash =>
        var e := RunEnd(s, i, WordChars);
        if e == i then None
        else if e < |s| && s[e] == '-' && RunEnd(s, e + 1, WordChars) > e + 1 then
          var e2 := RunEnd(s, e + 1, WordChars);
          Some(Span(e2, e2))
        else Some(Span(e, e))
      case Prio =>
        if i + 2 <= |s| && s[i] == 'P' && IsDigit(s[i + 1]) then Some(Span(i + 2, i + 2)) else None
      case DateRun =>
        var e := RunEnd(s, i, DateChars);
        if e > i then Some(Span(e, e)) else None
      case Rest =>
        var e := RunEnd(s, i, LineChars);
        if e > i then Some(Span(e, e)) else None
      case TaskRef =>
        if OccursAt(s, i, "TASK-") then
          var e := RunEnd(s, i + 5, DigitChars);
          if e > i + 5 then Some(Span(e, e)) else None
        else None
      case ReqRef =>
        var e := RunEnd(s, i, UpperChars);
        if e > i && e < |s| && s[e] == '-' then
          var e2 := RunEnd(s, e + 1, DigitChars);
          if e2 > e + 1 then Some(Span(e2, e2)) else None
        else None
      case Hours =>
        var e := RunEnd(s, i, DigitChars);
        if e > i && e < |s| && s[e] == 'h' then Some(Span(e, e + 1)) else None
  }

  /** The run of class `k` from `i` is exactly `s[i..e]`: RunEnd is pinned down by its contract. */
  lemma RunEndIs(s: string, i: nat, k: Class, e: nat)
    requires i <= e <= |s|
    requires forall j :: i <= j < e ==> InClass(s[j], k)
    requires e == |s| || !InClass(s[e], k)
    ensures RunEnd(s, i, k) == e
  {
  }

  /** `x` is a complete match of the value pattern `v`, as the codecs write it. */
  predicate Full(v: Val, x: string) {
    match v
    case Word => |x| > 0 && forall i :: 0 <= i < |x| ==> IsWordChar(x[i])
    case WordDash =>
      var k := RunEnd(x, 0, WordChars);
      k > 0 && (k == |x| || (x[k] == '-' && k + 1 < |x| && forall i :: k < i < |x| ==> IsWordChar(x[i])))
    case Prio => |x| == 2 && x[0] == 'P' && IsDigit(x[1])
    case DateRun => |x| > 0 && forall i :: 0 <= i < |x| ==> IsDigit(x[i]) || x[i] == '-'
    case Rest => |x| > 0 && forall i :: 0 <= i < |x| ==> !IsLineTerminator(x[i])
    case TaskRef => |x| > 5 && x[..5] == "TASK-" && forall i :: 5 <= i < |x| ==> IsDigit(x[i])
    case ReqRef =>
      var k := RunEnd(x, 0, UpperChars);
      0 < k && k + 1 < |x| && x[k] == '-' && forall i :: k < i < |x| ==> IsDigit(x[i])
    case Hours => |x| >= 2 && x[|x| - 1] == 'h' && forall i :: 0 <= i < |x| - 1 ==> IsDigit(x[i])
  }

  /** What a complete match of `v` captures: all of it, except the unit of `(\d+)h`. */
  function Captured(v: Val, x: string): string {
    if v == Hours && |x| > 0 then x[..|x| - 1] else x
  }

  /** Text after a complete value that cannot extend the match: the end of the line, or for the
      patterns that end in a digit run (or a fixed last character) anything that is not a digit. */
  predicate Closes(v: Val, q: string) {
    |q| == 0 ||
    match v
    case TaskRef => !IsDigit(q[0])
    case ReqRef => !IsDigit(q[0])
    case Prio => true
    case Hours => true
    case _ => false
  }

  /** A complete value, followed by text that closes it, is matched exactly. */
  lemma ValFull(v: Val, p: string, x: string, q: string)
    requires Full(v, x) && Closes(v, q)
    ensures ValAt(v, p + x + q, |p|) == Some(Span(|p| + |Captured(v, x)|, |p| + |x|))
  {
    var s := p + x + q;
    var n := |p|;
    assert forall j :: n <= j < n + |x| ==> s[j] == x[j - n];
    assert forall j :: n + |x| <= j < |s| ==> s[j] == q[j - n - |x|];
    match v
    case Word => RunEndIs(s, n, WordChars, n + |x|);
    case WordDash => WordDashFull(s, n, x);
    case Prio =>
    case DateRun => RunEndIs(s, n, DateChars, n + |x|);
    case Rest => RunEndIs(s, n, LineChars, n + |x|);
    case TaskRef => TaskRefFull(s, n, x);
    case ReqRef => ReqRefFull(s, n, x);
    case Hours => RunEndIs(s, n, DigitChars, n + |x| - 1);
  }

  lemma WordDashFull(s: string, n: nat, x: string)
    requires Full(WordDash, x) && n + |x| == |s|
    requires forall j :: n <= j < n + |x| ==> s[j] == x[j - n]
    ensures ValAt(WordDash, s, n) == Some(Span(n + |x|, n + |x|))
  {
    var k := RunEnd(x, 0, WordChars);
    RunEndIs(s, n, WordChars, n + k);
    if k < |x| {
      RunEndIs(s, n + k + 1, WordChars, n + |x|);
    }
  }

  lemma TaskRefFull(s: string, n: nat, x: string)
    requires Full(TaskRef, x) && n + |x| <= |s|
    requires forall j :: n <= j < n + |x| ==> s[j] == x[j - n]
    requires n + |x| == |s| || !IsDigit(s[n + |x|])
    ensures ValAt(TaskRef, s, n) == Some(Span(n + |x|, n + |x|))
  {
    assert s[n..n + 5] == x[..5];
    RunEndIs(s, n + 5, DigitChars, n + |x|);
  }

  lemma ReqRefFull(s: string, n: nat, x: string)
    requires Full(ReqRef, x) && n + |x| <= |s|
    requires forall j :: n <= j < n + |x| ==> s[j] == x[j - n]
    requires n + |x| == |s| || !IsDigit(s[n + |x|])
    ensures ValAt(ReqRef, s, n) == Some(Span(n + |x|, n + |x|))
  {
    var k := RunEnd(x, 0, UpperChars);
    RunEndIs(s, n, UpperChars, n + k);
    RunEndIs(s, n + k + 1, DigitChars, n + |x|);
  }

  /** The bold metadata key `**Name**: ` that precedes a field value. */
  function Key(name: string): string { "**" + name + "**: " }

  /** The patterns: a key followed by a value (`\*\*Status\*\*: (\w+)`), a title line with the
      multi-line flag (`^# (TASK-\d+): (.+)$`), a literal string, and an unchecked box
      (`- \[ \] (.+)`). */
  datatype Pat =
    | KeyPat(key: string, val: Val)
    | TitlePat(idVal: Val)
    | LitPat(lit: string)
    | BoxPat

  /** A match inside one line: the pattern starts at `start`, its last group is
      `line[groupStart..groupEnd]` and the whole match ends at `matchEnd`. */
  datatype Hit = Hit(start: nat, groupStart: nat, groupEnd: nat, matchEnd: nat)

  function MatchAt(pat: Pat, line: string, p: nat): (r: Option<Hit>)
    ensures r.Some? ==> r.value.start == p <= r.value.groupStart <= r.value.groupEnd <= r.value.matchEnd <= |line|
  {
    if p > |line| then None
    else
      match pat
      case KeyPat(key, v) =>
        if OccursAt(line, p, key) then
          match ValAt(v, line, p + |key|)
          case Some(sp) => Some(Hit(p, p + |key|, sp.groupEnd, sp.matchEnd))
          case None => None
        else None
      case TitlePat(idv) =>
        if (p == 0 || IsLineTerminator(line[p - 1])) && OccursAt(line, p, "# ") then
          match ValAt(idv, line, p + 2)
          case Some(id) =>
            if OccursAt(line, id.matchEnd, ": ") then
              match ValAt(Rest, line, id.matchEnd + 2)
              case Some(t) => Some(Hit(p, id.matchEnd + 2, t.groupEnd, t.matchEnd))
              case None => None
            else None
          case None => None
        else None
      case LitPat(lit) =>
        if OccursAt(line, p, lit) then Some(Hit(p, p, p + |lit|, p + |lit|)) else None
      case BoxPat =>
        if OccursAt(line, p, "- [ ] ") then
          match ValAt(Rest, line, p + 6)
          case Some(t) => Some(Hit(p, p + 6, t.groupEnd, t.matchEnd))
          case None => None
        else None
  }

  /** The title pattern at the start of a line: `# `, the id, `: ` and the rest of the line. */
  lemma TitleMatchAt(idv: Val, line: string, a: Span, b: Span)
    requires OccursAt(line, 0, "# ") && ValAt(idv, line, 2) == Some(a)
    requires OccursAt(line, a.matchEnd, ": ") && ValAt(Rest, line, a.matchEnd + 2) == Some(b)
    ensures MatchAt(TitlePat(idv), line, 0) == Some(Hit(0, a.matchEnd + 2, b.groupEnd, b.matchEnd))
  {
  }

  /** The leftmost match in `line` starting at or after `p`. */
  function FirstIn(pat: Pat, line: string, p: nat): (r: Option<Hit>)
    ensures r.Some? ==> p <= r.value.start <= r.value.groupStart <= r.value.groupEnd <= r.value.matchEnd <= |line|
    decreases |line| - p
  {
    if p > |line| then None
    else if MatchAt(pat, line, p).Some? then MatchAt(pat, line, p)
    else FirstIn(pat, line, p + 1)
  }

  /** `r` is the match at the leftmost position from `p` on where the pattern matches, or
      nothing when it matches nowhere from `p` on. */
  ghost predicate Leftmost(pat: Pat, line: string, p: nat, r: Option<Hit>) {
    && (r.Some? ==> p <= r.value.start && MatchAt(pat, line, r.value.start) == r)
    && (r.Some? ==> forall q :: p <= q < r.value.start ==> MatchAt(pat, line, q).None?)
    && (r.None? ==> forall q :: p <= q ==> MatchAt(pat, line, q).None?)
  }

  /** The search finds the leftmost match. */
  lemma {:induction false} FirstInSpec(pat: Pat, line: string, p: nat)
    ensures Leftmost(pat, line, p, FirstIn(pat, line, p))
    decreases |line| - p
  {
    if p > |line| {
      NoMatchPast(pat, line, p);
    } else if MatchAt(pat, line, p).None? {
      FirstInSpec(pat, line, p + 1);
      LeftmostStep(pat, line, p, FirstIn(pat, line, p + 1));
    }
  }

  lemma NoMatchPast(pat: Pat, line: string, p: nat)
    requires p > |line|
    ensures Leftmost(pat, line, p, None)
  {
    forall q | p <= q ensures MatchAt(pat, line, q).None? {
      assert q > |line|;
    }
  }

  lemma LeftmostStep(pat: Pat, line: string, p: nat, r: Option<Hit>)
    requires MatchAt(pat, line, p).None? && Leftmost(pat, line, p + 1, r)
    ensures Leftmost(pat, line, p, r)
  {
  }

  /** A match located in a document: the line it is on and where in that line. */
  datatype Found = Found(line: nat, hit: Hit)

  /** The leftmost match in the lines `lines[i..]`. */
  function FindFrom(pat: Pat, lines: seq<string>, i: nat): (r: Option<Found>)
    ensures r.Some? ==> i <= r.value.line < |lines|
    ensures r.Some? ==> r.value.hit.start <= r.value.hit.groupStart <= r.value.hit.groupEnd <= r.value.hit.matchEnd <= |lines[r.value.line]|
    decreases |lines| - i
  {
    if i >= |lines| then None
    else match FirstIn(pat, lines[i], 0)
      case Some(h) => Some(Found(i, h))
      case None => FindFrom(pat, lines, i + 1)
  }

  /** The match found is on the first line, from `i` on, that holds one. */
  lemma {:induction false} FindFromSpec(pat: Pat, lines: seq<string>, i: nat)
    ensures var r := FindFrom(pat, lines, i);
      && (r.Some? ==> i <= r.value.line < |lines| && FirstIn(pat, lines[r.value.line], 0) == Some(r.value.hit))
      && (r.Some? ==> forall j :: i <= j < r.value.line ==> FirstIn(pat, lines[j], 0).None?)
      && (r.None? ==> forall j :: i <= j < |lines| ==> FirstIn(pat, lines[j], 0).None?)
    decreases |lines| - i
  {
    if i < |lines| && FirstIn(pat, lines[i], 0).None? {
      FindFromSpec(pat, lines, i + 1);
    }
  }

  function Find(pat: Pat, lines: seq<string>): Option<Found> { FindFrom(pat, lines, 0) }

  /** `t.match(pattern)?.[last group]`: the text the last group of the leftmost match captured. */
  function Extract(pat: Pat, t: string): Option<string> {
    var lines := Lines(t);
    match Find(pat, lines)
    case Some(f) => Some(lines[f.line][f.hit.groupStart..f.hit.groupEnd])
    case None => None
  }

  /** What replaces a match: a fixed text, or the matched text followed by more (`$1...` where the
      only group is the whole match). */
  datatype Subst = Put(text: string) | KeepThen(text: string)

  function Replacement(sub: Subst, matched: string): string {
    match sub
    case Put(x) => x
    case KeepThen(x) => matched + x
  }

  /** `t.replace(pattern, replacement)`: the leftmost match replaced, or `t` itself when there is
      none. The replacement text is inserted literally: the `$&`, `$1`, `$$` patterns a JavaScript
      replacement string may hold are not expanded. */
  function Replace(pat: Pat, t: string, sub: Subst): string {
    var lines := Lines(t);
    match Find(pat, lines)
    case None => t
    case Some(f) =>
      var l := lines[f.line];
      Unlines(lines[f.line := l[..f.hit.start] + Replacement(sub, l[f.hit.start..f.hit.matchEnd]) + l[f.hit.matchEnd..]])
  }

  /** The line after a replacement inside it. */
  function Spliced(l: string, h: Hit, sub: Subst): string
    requires h.start <= h.matchEnd <= |l|
  {
    l[..h.start] + Replacement(sub, l[h.start..h.matchEnd]) + l[h.matchEnd..]
  }

  /** A replacement whose text holds no newline changes exactly the line of the leftmost match
      and leaves every other line as it was; with no match the text is unchanged. */
  lemma ReplaceLines(pat: Pat, t: string, sub: Subst)
    requires '\n' !in sub.text
    ensures Find(pat, Lines(t)).None? ==> Replace(pat, t, sub) == t
    ensures Find(pat, Lines(t)).Some? ==>
      var f := Find(pat, Lines(t)).value;
      Lines(Replace(pat, t, sub)) == Lines(t)[f.line := Spliced(Lines(t)[f.line], f.hit, sub)]
  {
    var lines := Lines(t);
    UnlinesLines(t);
    match Find(pat, lines)
    case None =>
    case Some(f) =>
      var l := lines[f.line];
      var nl := Spliced(l, f.hit, sub);
      var matched := l[f.hit.start..f.hit.matchEnd];
      assert '\n' !in matched;
      assert '\n' !in Replacement(sub, matched);
      assert '\n' !in nl;
      LinesUnlines(lines[f.line := nl]);
  }

  /** The unanchored `t.includes(s)` for a needle without newlines is a line-by-line test. */
  function HasLit(t: string, s: string): bool {
    Find(LitPat(s), Lines(t)).Some?
  }

  // ---------------------------------------------------------------------------------------
  // Sections: `## Name\n([\s\S]*?)(?=\n## )` and its variants.

  /** The lookahead that ends a section: the next line starting with `## `, optionally the end
      of the text (`(?=\n## |$)`), or the next line starting with a given header. */
  datatype Stop = NextHeader | NextHeaderOrEnd | NextLine(prefix: string)

  function StopPrefix(stop: Stop): string {
    match stop
    case NextLine(p) => p
    case _ => "## "
  }

  /** The first `k >= from` such that the line after `k` opens the next section. */
  function StopFrom(lines: seq<string>, stop: Stop, k: nat): (r: Option<nat>)
    ensures r.Some? ==> k <= r.value < |lines| - 1
    decreases |lines| - k
  {
    if k + 1 >= |lines| then None
    else if StartsWith(lines[k + 1], StopPrefix(stop)) then Some(k)
    else StopFrom(lines, stop, k + 1)
  }

  /** `r` is the first line from `k` on whose next line opens the next section, or nothing when
      no line after `k` does. */
  ghost predicate FirstStop(lines: seq<string>, stop: Stop, k: nat, r: Option<nat>) {
    && (r.Some? ==> k <= r.value < |lines| - 1 && StartsWith(lines[r.value + 1], StopPrefix(stop)))
    && (r.Some? ==> forall j :: k < j <= r.value ==> !StartsWith(lines[j], StopPrefix(stop)))
    && (r.None? ==> forall j :: k < j < |lines| ==> !StartsWith(lines[j], StopPrefix(stop)))
  }

  lemma {:induction false} StopFromSpec(lines: seq<string>, stop: Stop, k: nat)
    ensures FirstStop(lines, stop, k, StopFrom(lines, stop, k))
    decreases |lines| - k
  {
    if k + 1 < |lines| && !StartsWith(lines[k + 1], StopPrefix(stop)) {
      StopFromSpec(lines, stop, k + 1);
      FirstStopStep(lines, stop, k, StopFrom(lines, stop, k + 1));
    }
  }

  lemma FirstStopStep(lines: seq<string>, stop: Stop, k: nat, r: Option<nat>)
    requires k + 1 < |lines| && !StartsWith(lines[k + 1], StopPrefix(stop)) && FirstStop(lines, stop, k + 1, r)
    ensures FirstStop(lines, stop, k, r)
  {
  }

  /** A section located in a document: its header is on line `header`, its body is
      `lines[header + 1 .. last + 1]`. */
  datatype Sec = Sec(header: nat, last: nat)

  /** Where the lazy body of a section headed on line `h` ends, if the lookahead can hold. */
  function SectionEnd(lines: seq<string>, stop: Stop, h: nat): (r: Option<nat>)
    requires h + 1 < |lines|
    ensures r.Some? ==> h + 1 <= r.value < |lines|
  {
    match StopFrom(lines, stop, h + 1)
    case Some(k) => Some(k)
    case None => if stop.NextHeaderOrEnd? then Some(|lines| - 1) else None
  }

  /** The leftmost match of `<hdr>\n([\s\S]*?)(?=...)` at or after line `h`: the header text must
      end a line that has a line after it, and the lookahead must be satisfiable. */
  function SectionFrom(lines: seq<string>, hdr: string, stop: Stop, h: nat): (r: Option<Sec>)
    ensures r.Some? ==> h <= r.value.header < r.value.last < |lines|
    ensures r.Some? ==> EndsWith(lines[r.value.header], hdr)
    decreases |lines| - h
  {
    if h + 1 >= |lines| then None
    else if EndsWith(lines[h], hdr) && SectionEnd(lines, stop, h).Some? then
      Some(Sec(h, SectionEnd(lines, stop, h).value))
    else SectionFrom(lines, hdr, stop, h + 1)
  }

  function FindSection(lines: seq<string>, hdr: string, stop: Stop): Option<Sec> {
    SectionFrom(lines, hdr, stop, 0)
  }

  function Body(lines: seq<string>, s: Sec): seq<string>
    requires s.header < s.last < |lines|
  {
    lines[s.header + 1..s.last + 1]
  }

  /** The captured body text of a section (group 1). */
  function SectionText(t: string, hdr: string, stop: Stop): Option<string> {
    var lines := Lines(t);
    match FindSection(lines, hdr, stop)
    case Some(s) => Some(Unlines(Body(lines, s)))
    case None => None
  }

  /** `t.replace(sectionPattern, (m, body) => hdr + "\n" + newBody)`: the body is replaced by
      `newBody`; the header line and everything outside the section stay. */
  function Splice(lines: seq<string>, s: Sec, newBody: string): seq<string>
    requires s.header < s.last < |lines|
  {
    lines[..s.header + 1] + Lines(newBody) + lines[s.last + 1..]
  }

  /** `t.replace(sectionPattern, (match, body) => hdr + "\n" + f(body))`: the body of the first
      section whose lookahead holds is rewritten by `f`; without such a section `t` is unchanged. */
  function ReplaceSection(t: string, hdr: string, stop: Stop, f: string -> string): string {
    var lines := Lines(t);
    match FindSection(lines, hdr, stop)
    case None => t
    case Some(s) => Unlines(Splice(lines, s, f(Unlines(Body(lines, s)))))
  }

  // ---------------------------------------------------------------------------------------
  // Removing a whole metadata line: `t.replace(/\n<prefix>.+/, "")`.

  /** The first line at or after `k` that opens with `prefix` followed by at least one character. */
  function LineOpening(lines: seq<string>, prefix: string, k: nat): (r: Option<nat>)
    ensures r.Some? ==> k <= r.value < |lines|
    ensures r.Some? ==> StartsWith(lines[r.value], prefix) && ValAt(Rest, lines[r.value], |prefix|).Some?
    ensures r.Some? ==> forall j :: k <= j < r.value ==>
      !(StartsWith(lines[j], prefix) && ValAt(Rest, lines[j], |prefix|).Some?)
    ensures r.None? ==> forall j :: k <= j < |lines| ==>
      !(StartsWith(lines[j], prefix) && ValAt(Rest, lines[j], |prefix|).Some?)
    decreases |lines| - k
  {
    if k >= |lines| then None
    else if StartsWith(lines[k], prefix) && ValAt(Rest, lines[k], |prefix|).Some? then Some(k)
    else LineOpening(lines, prefix, k + 1)
  }

  /** The match starts at the newline before the line, so the first line never qualifies, and it
      ends where `.+` stops: what follows on the same line is joined to the line before. */
  function DropLine(t: string, prefix: string): string {
    var lines := Lines(t);
    match LineOpening(lines, prefix, 1)
    case None => t
    case Some(j) =>
      var e := ValAt(Rest, lines[j], |prefix|).value.matchEnd;
      Unlines(lines[..j - 1] + [lines[j - 1] + lines[j][e..]] + lines[j + 1..])
  }
}

=== FILE: prose.dfy ===
/** Free text inside a document: lines of prose under a section, the blank lines after them,
    one-line values assembled from pieces, and comma-separated lists (`xs.join(", ")` written,
    `x.split(",").map(s => s.trim())` read back). */
module Prose {
  import opened Text
  import opened Layout
  import opened Outline

  /** Each line as a plain text row. */
  function TextRows(ls: seq<string>): (r: seq<Row>)
    ensures |r| == |ls| && forall i :: 0 <= i < |ls| ==> r[i] == Text(ls[i])
  {
    seq(|ls|, i requires 0 <= i < |ls| => Text(ls[i]))
  }

  /** `k` empty lines. */
  function Blanks(k: nat): (r: seq<Row>)
    ensures |r| == k && forall i :: 0 <= i < k ==> r[i] == Text("")
  {
    seq(k, _ => Text(""))
  }

  /** `k` newline characters. */
  function Newlines(k: nat): (r: string)
    ensures |r| == k && forall i :: 0 <= i < k ==> r[i] == '\n'
  {
    seq(k, _ => '\n')
  }

  /** A line that can sit in a section body: no newline, no `##`, no `**:`. */
  predicate PlainLine(s: string) { '\n' !in s && NoHeaderMark(s) && KeyMarkFree(s) }

  /** Text every line of which is plain; it may span several lines. */
  predicate PlainText(s: string) {
    forall i :: 0 <= i < |Lines(s)| ==> NoHeaderMark(Lines(s)[i]) && KeyMarkFree(Lines(s)[i])
  }

  lemma StarFreeMarkFree(s: string)
    requires StarFree(s)
    ensures KeyMarkFree(s)
  {
  }

  lemma InertPlain(s: string)
    requires Inert(s)
    ensures PlainLine(s)
  {
  }

  /** A text of plain lines, as rows, renders as itself. */
  lemma ProseRows(s: string)
    requires PlainText(s)
    ensures PlainRows(TextRows(Lines(s))) && |Lines(s)| >= 1
    ensures Doc(TextRows(Lines(s))) == s
  {
    UnlinesLines(s);
    var rows := TextRows(Lines(s));
    assert Rendered(rows) == Lines(s);
  }

  /** A one-line plain text splits into itself. */
  lemma PlainLineLines(s: string)
    requires PlainLine(s)
    ensures Lines(s) == [s] && PlainText(s)
  {
    LinesUnlines([s]);
  }

  lemma DocAppend(a: seq<Row>, b: seq<Row>)
    requires |a| >= 1 && |b| >= 1
    ensures Doc(a + b) == Doc(a) + "\n" + Doc(b)
  {
    RenderedConcat(a, b);
    JoinAppend(Rendered(a), Rendered(b), "\n");
  }

  lemma {:induction false} BlanksDoc(k: nat)
    requires k >= 1
    ensures Doc(Blanks(k)) == Newlines(k - 1)
    decreases k
  {
    if k > 1 {
      BlanksDoc(k - 1);
      assert Blanks(k) == Blanks(k - 1) + Blanks(1);
      DocAppend(Blanks(k - 1), Blanks(1));
      assert Doc(Blanks(1)) == "";
      assert Newlines(k - 2) + "\n" == Newlines(k - 1);
    } else {
      assert Doc(Blanks(1)) == "";
    }
  }

  /** Prose followed by `k` blank lines renders as the prose and `k` newlines. */
  lemma ProseDoc(s: string, k: nat)
    requires PlainText(s) && k >= 1
    ensures Doc(TextRows(Lines(s)) + Blanks(k)) == s + Newlines(k)
    ensures PlainRows(TextRows(Lines(s)) + Blanks(k))
  {
    ProseRows(s);
    DocAppend(TextRows(Lines(s)), Blanks(k));
    BlanksDoc(k);
    assert "\n" + Newlines(k - 1) == Newlines(k);
  }

  /** `trim()` of such a section body gives the prose back. */
  lemma TrimProse(s: string, k: nat)
    requires PlainText(s) && k >= 1 && Trimmed(s) && s != ""
    ensures Trim(Doc(TextRows(Lines(s)) + Blanks(k))) == s
  {
    ProseDoc(s, k);
    TrimPadded(s, Newlines(k));
  }

  // ---------------------------------------------------------------------------------------
  // Putting lines together.

  lemma HashFreeCat(a: string, b: string)
    requires HashFree(a) && NoHeaderMark(b)
    ensures NoHeaderMark(a + b)
  {
    var s := a + b;
    forall i | 0 <= i < |s| - 1 ensures !(s[i] == '#' && s[i + 1] == '#') {
      if i < |a| {
        assert s[i] == a[i];
      } else {
        assert s[i] == b[i - |a|] && s[i + 1] == b[i + 1 - |a|];
      }
    }
  }

  lemma StarFreeCat(a: string, b: string)
    requires StarFree(a) && KeyMarkFree(b)
    ensures KeyMarkFree(a + b)
  {
    var s := a + b;
    forall i | 0 <= i < |s| - 2 ensures !(s[i] == '*' && s[i + 1] == '*' && s[i + 2] == ':') {
      if i < |a| {
        assert s[i] == a[i];
      } else {
        assert s[i] == b[i - |a|] && s[i + 1] == b[i + 1 - |a|] && s[i + 2] == b[i + 2 - |a|];
      }
    }
  }

  /** A plain line behind a prefix without `*`, `#` or newline is still plain. */
  lemma PlainCat(a: string, b: string)
    requires StarFree(a) && HashFree(a) && '\n' !in a && PlainLine(b)
    ensures PlainLine(a + b)
  {
    HashFreeCat(a, b);
    StarFreeCat(a, b);
    assert forall i :: 0 <= i < |a + b| ==> (a + b)[i] == if i < |a| then a[i] else b[i - |a|];
  }

  /** Inert text behind an inert prefix without `#` stays inert. */
  lemma InertCat(a: string, b: string)
    requires Inert(a) && HashFree(a) && Inert(b)
    ensures Inert(a + b)
  {
    HashFreeCat(a, b);
    assert forall i :: 0 <= i < |a + b| ==> (a + b)[i] == if i < |a| then a[i] else b[i - |a|];
  }

  /** Joining lines with a string of several lines inside is joining its lines. */
  lemma UnlinesExpand(a: seq<string>, x: string, b: seq<string>)
    ensures Unlines(a + [x] + b) == Unlines(a + Lines(x) + b)
  {
    UnlinesLines(x);
    var xs := Lines(x);
    if |a| == 0 && |b| == 0 {
      assert a + [x] + b == [x];
      assert a + xs + b == xs;
    } else if |a| == 0 {
      assert a + [x] + b == [x] + b;
      assert a + xs + b == xs + b;
      JoinAppend([x], b, "\n");
      JoinAppend(xs, b, "\n");
    } else if |b| == 0 {
      assert a + [x] + b == a + [x];
      assert a + xs + b == a + xs;
      JoinAppend(a, [x], "\n");
      JoinAppend(a, xs, "\n");
    } else {
      JoinAppend(a, [x] + b, "\n");
      JoinAppend([x], b, "\n");
      JoinAppend(a, xs + b, "\n");
      JoinAppend(xs, b, "\n");
      assert a + [x] + b == a + ([x] + b);
      assert a + xs + b == a + (xs + b);
    }
  }

  // ---------------------------------------------------------------------------------------
  // Comma-separated lists.

  /** `x.split(",").map(s => s.trim())`. */
  function ParseList(x: string): (r: seq<string>)
    ensures |r| == |Split(x, ',')|
    ensures forall i :: 0 <= i < |r| ==> r[i] == Trim(Split(x, ',')[i])
  {
    var parts := Split(x, ',');
    seq(|parts|, i requires 0 <= i < |parts| => Trim(parts[i]))
  }

  /** Items that survive being written with `, ` and read back: non-empty, trimmed, inert, no
      comma. */
  predicate ListItems(xs: seq<string>) {
    forall i :: 0 <= i < |xs| ==> xs[i] != "" && Trimmed(xs[i]) && Inert(xs[i]) && HashFree(xs[i]) && ',' !in xs[i]
  }

  /** Each item after the first carries the space that followed its comma. */
  function Spaced(xs: seq<string>): (r: seq<string>)
    requires |xs| >= 1
    ensures |r| == |xs| && r[0] == xs[0] && forall i :: 1 <= i < |xs| ==> r[i] == " " + xs[i]
  {
    seq(|xs|, i requires 0 <= i < |xs| => if i == 0 then xs[0] else " " + xs[i])
  }

  lemma {:induction false} JoinSpaced(xs: seq<string>)
    requires |xs| >= 1
    ensures Join(xs, ", ") == Join(Spaced(xs), ",")
    decreases |xs|
  {
    if |xs| > 1 {
      JoinSpaced(xs[1..]);
      var s := Spaced(xs);
      var t := Spaced(xs[1..]);
      assert s[1..] == [" " + t[0]] + t[1..];
      JoinHead(t, " ", ",");
    }
  }

  lemma TrimSpaced(x: string)
    requires x != "" && Trimmed(x)
    ensures Trim(" " + x) == x
  {
    assert (" " + x)[1..] == x;
    assert TrimStart(" " + x) == TrimStart(x) == x;
  }

  /** Reading back a written list gives the items. */
  lemma ListRoundTrip(xs: seq<string>)
    requires |xs| >= 1 && ListItems(xs)
    ensures ParseList(Join(xs, ", ")) == xs
  {
    JoinSpaced(xs);
    var s := Spaced(xs);
    forall i | 0 <= i < |s| ensures ',' !in s[i] {
      if i > 0 {
        assert forall j :: 0 <= j < |s[i]| ==> s[i][j] == if j == 0 then ' ' else xs[i][j - 1];
      }
    }
    SplitJoin(s, ',');
    forall i | 1 <= i < |xs| ensures Trim(s[i]) == xs[i] {
      TrimSpaced(xs[i]);
    }
  }

  /** A written list is one inert, non-empty line. */
  lemma {:induction false} ListInert(xs: seq<string>)
    requires |xs| >= 1 && ListItems(xs)
    ensures Inert(Join(xs, ", ")) && HashFree(Join(xs, ", ")) && Join(xs, ", ") != ""
    decreases |xs|
  {
    if |xs| > 1 {
      ListInert(xs[1..]);
      var rest := Join(xs[1..], ", ");
      InertCat(", ", rest);
      InertCat(xs[0], ", " + rest);
      assert xs[0] + ", " + rest == xs[0] + (", " + rest);
      assert forall i :: 0 <= i < |xs[0] + (", " + rest)| ==>
        (xs[0] + (", " + rest))[i] == if i < |xs[0]| then xs[0][i] else (", " + rest)[i - |xs[0]|];
    }
  }

  // ---------------------------------------------------------------------------------------
  // Plain text, looked at as a whole.

  /** Neither `##` nor `**:` anywhere. Both marks lie within one line, so this is PlainText
      without the split into lines. */
  predicate Quiet(s: string) { NoHeaderMark(s) && KeyMarkFree(s) }

  lemma QuietSlice(s: string, i: nat, j: nat)
    requires Quiet(s) && i <= j <= |s|
    ensures Quiet(s[i..j])
  {
    var t := s[i..j];
    assert forall k :: 0 <= k < |t| ==> t[k] == s[i + k];
  }

  /** The first piece of a split is a prefix of the text. */
  lemma {:induction false} SplitHeadPrefix(s: string, sep: char)
    ensures StartsWith(s, Split(s, sep)[0])
    decreases |s|
  {
    if |s| > 0 && s[0] != sep {
      SplitHeadPrefix(s[1..], sep);
      var r := Split(s[1..], sep)[0];
      assert s[..1 + |r|] == [s[0]] + s[1..][..|r|];
    }
  }

  lemma {:induction false} QuietPieces(s: string, sep: char)
    requires Quiet(s)
    ensures forall i :: 0 <= i < |Split(s, sep)| ==> Quiet(Split(s, sep)[i])
    decreases |s|
  {
    if |s| > 0 {
      QuietSlice(s, 1, |s|);
      assert s[1..|s|] == s[1..];
      QuietPieces(s[1..], sep);
      if s[0] != sep {
        var rest := Split(s[1..], sep);
        SplitHeadPrefix(s[1..], sep);
        assert [s[0]] + rest[0] == s[..1 + |rest[0]|];
        QuietSlice(s, 0, 1 + |rest[0]|);
        assert s[0..1 + |rest[0]|] == s[..1 + |rest[0]|];
      }
    }
  }

  /** A quiet text is plain. */
  lemma QuietPlain(s: string)
    requires Quiet(s)
    ensures PlainText(s)
  {
    QuietPieces(s, '\n');
  }

  lemma QuietJoin(a: string, b: string)
    requires Quiet(a) && Quiet(b)
    ensures Quiet(a + "\n" + b)
  {
    var s := a + "\n" + b;
    assert forall k :: 0 <= k < |s| ==> s[k] == if k < |a| then a[k] else if k == |a| then '\n' else b[k - |a| - 1];
  }

  lemma {:induction false} UnlinesQuiet(ls: seq<string>)
    requires forall i :: 0 <= i < |ls| ==> Quiet(ls[i])
    ensures Quiet(Unlines(ls))
    decreases |ls|
  {
    if |ls| > 1 {
      UnlinesQuiet(ls[1..]);
      QuietJoin(ls[0], Unlines(ls[1..]));
    }
  }

  /** A plain text is quiet. */
  lemma PlainQuiet(s: string)
    requires PlainText(s)
    ensures Quiet(s)
  {
    UnlinesLines(s);
    UnlinesQuiet(Lines(s));
  }

  /** `trim()` keeps a text quiet. */
  lemma TrimQuiet(s: string)
    requires Quiet(s)
    ensures Quiet(Trim(s))
  {
    var a := TrimStart(s);
    var n := |s| - |a|;
    assert a == s[n..];
    QuietSlice(s, n, |s|);
    assert s[n..|s|] == s[n..];
    var b := TrimEnd(a);
    assert b == a[..|b|];
    QuietSlice(a, 0, |b|);
    assert a[0..|b|] == a[..|b|];
  }

  /** A quiet text behind a prefix without `*` or `#` stays quiet. */
  lemma QuietBehind(a: string, b: string)
    requires StarFree(a) && HashFree(a) && Quiet(b)
    ensures Quiet(a + b)
  {
    HashFreeCat(a, b);
    StarFreeCat(a, b);
  }
}

=== FILE: reqdoc.dfy ===
/** The requirement document: the record `parseRequirementFile` reads and
    `generateRequirementContent` writes, the id prefixes of the requirement types, and the sheet
    (see Outline) the generated text is. */
module ReqDoc {
  import opened Common
  import opened Text
  import opened Pattern
  import opened Layout
  import opened Outline
  import opened Prose
  import TD = TaskDoc

  /** The status folders, in the order lookups and id allocation visit them. */
  const STATUSES: seq<string> := ["draft", "review", "approved", "implemented", "deprecated"]

  /** The requirement types the id prefixes and the type labels know. */
  const TYPES: seq<string> := ["prd", "tech-spec", "user-story", "epic", "feature"]

  /** `TYPE_PREFIXES[type] || "REQ"`. */
  function PrefixOf(kind: string): (p: string)
    ensures kind !in TYPES ==> p == "REQ"
  {
    if kind == "prd" then "PRD"
    else if kind == "tech-spec" then "SPEC"
    else if kind == "user-story" then "US"
    else if kind == "epic" then "EPIC"
    else if kind == "feature" then "FEAT"
    else "REQ"
  }

  /** `TYPE_LABELS[req.type] || "Requirement"`. */
  function LabelOf(kind: Option<string>): string {
    if kind == Some("prd") then "Product Requirements Document"
    else if kind == Some("tech-spec") then "Technical Specification"
    else if kind == Some("user-story") then "User Story"
    else if kind == Some("epic") then "Epic"
    else if kind == Some("feature") then "Feature"
    else "Requirement"
  }

  /** The type the parser infers from an id, trying the prefixes PRD, SPEC, US, EPIC, FEAT in
      that order. */
  function TypeOf(id: Option<string>): (r: Option<string>)
    ensures r.Some? ==> r.value in TYPES
  {
    if id.None? then None
    else if StartsWith(id.value, "PRD") then Some("prd")
    else if StartsWith(id.value, "SPEC") then Some("tech-spec")
    else if StartsWith(id.value, "US") then Some("user-story")
    else if StartsWith(id.value, "EPIC") then Some("epic")
    else if StartsWith(id.value, "FEAT") then Some("feature")
    else None
  }

  /** A requirement as a JavaScript object: every property may be missing. `kind` is the
      `type` property. */
  datatype Req = Req(
    id: Option<string>,
    kind: Option<string>,
    title: Option<string>,
    status: Option<string>,
    priority: Option<string>,
    created: Option<string>,
    updated: Option<string>,
    author: Option<string>,
    repos: Option<seq<string>>,
    description: Option<string>,
    criteria: Option<seq<string>>,
    dependencies: Option<seq<string>>,
    linkedRequirements: Option<seq<string>>,
    linkedTasks: Option<seq<string>>,
    openQuestions: Option<seq<string>>,
    notes: Option<string>)

  /** A requirement with no properties set. */
  const Blank: Req := Req(None, None, None, None, None, None, None, None, None, None, None, None, None, None,
                          None, None)

  // ---------------------------------------------------------------------------------------
  // Writing: generateRequirementContent.

  /** The type line under the title. */
  function TypeEntry(r: Req): Entry { Entry("> ", "Type", LabelOf(r.kind)) }

  /** The metadata lines in the order the generator writes them; Repos only when it has items. */
  function Fields(r: Req, today: string): seq<TD.Field> {
    [ TD.Field("Status", Some(OrElse(r.status, "draft"))),
      TD.Field("Priority", Some(OrElse(r.priority, "P2"))),
      TD.Field("Created", Some(OrElse(r.created, today))),
      TD.Field("Updated", Some(today)),
      TD.Field("Author", Some(OrElse(r.author, "Unknown"))),
      TD.Field("Repos", TD.IfList(r.repos)) ]
  }

  function DescriptionText(r: Req): string { OrElse(r.description, "_Describe the requirement here_") }

  function NotesText(r: Req): string { OrElse(r.notes, "_Implementation notes will be added here_") }

  function CriterionLine(c: string): string { "- [ ] " + c }

  function ItemLine(x: string): string { "- " + x }

  function QuestionLine(q: string): string { "- ? " + q }

  function CriteriaLines(r: Req): seq<string> {
    if NonEmpty(r.criteria) then TD.MapLines(r.criteria.value, CriterionLine) else ["- [ ] _Add acceptance criteria_"]
  }

  /** A list written one `- ` item per line, or a placeholder line when it has no items. */
  function ListLines(xs: Option<seq<string>>, none: string): seq<string> {
    if NonEmpty(xs) then TD.MapLines(xs.value, ItemLine) else [none]
  }

  function QuestionLines(r: Req): seq<string> {
    if NonEmpty(r.openQuestions) then TD.MapLines(r.openQuestions.value, QuestionLine) else ["_No open questions_"]
  }

  /** A section as the generator pushes it: the header, the body lines and a blank line. */
  datatype Block = Block(name: string, lines: seq<string>)

  function Section(b: Block): seq<string> { ["## " + b.name] + b.lines + [""] }

  function Sections(bs: seq<Block>): seq<string> {
    if |bs| == 0 then [] else Section(bs[0]) + Sections(bs[1..])
  }

  /** The template sections written for some types only. */
  function KindBlocks(kind: Option<string>): seq<Block> {
    if kind == Some("prd") || kind == Some("epic") then
      [ Block("Problem Statement", ["_What problem does this solve?_"]),
        Block("Goals", ["- [ ] _Goal 1_"]),
        Block("Non-Goals", ["- _What is explicitly out of scope_"]) ]
    else if kind == Some("tech-spec") then
      [ Block("Technical Approach", ["_Describe the technical solution_"]),
        Block("API Design", ["```", "// Define interfaces and endpoints", "```"]) ]
    else if kind == Some("user-story") then
      [ Block("User Story", ["**As a** _[user type]_", "**I want to** _[action]_", "**So that** _[benefit]_"]) ]
    else []
  }

  /** The list sections every requirement has, between the template sections and the notes. */
  function ListBlocks(r: Req): seq<Block> {
    [ Block("Acceptance Criteria", CriteriaLines(r)),
      Block("Dependencies", ListLines(r.dependencies, "_No dependencies identified_")),
      Block("Related Requirements", ListLines(r.linkedRequirements, "_No related requirements_")),
      Block("Linked Tasks", ListLines(r.linkedTasks, "_No tasks linked yet_")),
      Block("Open Questions", QuestionLines(r)) ]
  }

  /** Everything above the description header. */
  function FrontLines(r: Req, today: string): seq<string> {
    ["# " + Show(r.id) + ": " + Show(r.title), "", MetaLine(TypeEntry(r)), "", "## Metadata"]
    + TD.MapLines(TD.MetaOf(Fields(r, today)), MetaLine) + [""]
  }

  /** The lines `generateRequirementContent` pushes, in order; the description and the notes
      are pushed as one string each, whatever lines they hold. */
  function ReqLines(r: Req, today: string): seq<string> {
    FrontLines(r, today)
    + Sections([Block("Description", [DescriptionText(r)])] + KindBlocks(r.kind) + ListBlocks(r)
               + [Block("Technical Notes", [NotesText(r)])])
  }

  /** `generateRequirementContent(req)` on the day `today`. */
  function GenerateRequirementContent(r: Req, today: string): string { Unlines(ReqLines(r, today)) }

  /** A pushed section as a sheet section. */
  function PartOf(b: Block): Part { Part(b.name, TextRows(b.lines) + [Text("")]) }

  function PartsOf(bs: seq<Block>): (ps: seq<Part>)
    ensures |ps| == |bs| && forall k :: 0 <= k < |bs| ==> ps[k] == PartOf(bs[k])
  {
    seq(|bs|, k requires 0 <= k < |bs| => PartOf(bs[k]))
  }

  /** The sections of the generated document, the description and the notes split into lines. */
  function SheetBlocks(r: Req): seq<Block> {
    [Block("Description", Lines(DescriptionText(r)))] + KindBlocks(r.kind) + ListBlocks(r)
    + [Block("Technical Notes", Lines(NotesText(r)))]
  }

  /** The generated document as a sheet. */
  function ReqSheet(r: Req, today: string): Sheet {
    Sheet([Title(Show(r.id), Show(r.title)), Text(""), Meta(TypeEntry(r)), Text("")],
          TD.MetaOf(Fields(r, today)),
          PartsOf(SheetBlocks(r)))
  }

  // ---------------------------------------------------------------------------------------
  // Reading: parseRequirementFile.

  /** `filename.match(/^([A-Z]+-\d+)/)?.[1]`. */
  function FileId(filename: string): (r: Option<string>)
    ensures r.Some? ==> StartsWith(filename, r.value)
  {
    match ValAt(ReqRef, filename, 0)
    case Some(sp) => Some(filename[..sp.groupEnd])
    case None => None
  }

  /** Which value pattern reads the metadata line of each name. */
  function KindOf(name: string): Val {
    if name == "Status" then Word
    else if name == "Priority" then Prio
    else if name == "Created" || name == "Updated" then DateRun
    else Rest
  }

  /** `content.match(/\*\*<name>\*\*: (<value>)/)?.[1]` with the value pattern of the name. */
  function Value(content: string, name: string): Option<string> {
    Extract(KeyPat(Key(name), KindOf(name)), content)
  }

  /** The lines a filter keeps, each mapped: `.filter(test).map(f)` with both folded into
      one partial function. */
  function Pick(ls: seq<string>, f: string -> Option<string>): seq<string> {
    if |ls| == 0 then []
    else
      match f(ls[0])
      case Some(x) => [x] + Pick(ls[1..], f)
      case None => Pick(ls[1..], f)
  }

  /** A criterion line: a box line (`^- \[[ x]\]`) with `- [ ] ` or `- [x] ` removed. */
  function BoxText(l: string): Option<string> {
    if TD.IsBoxLine(l) then Some(TD.CriterionOf(l).text) else None
  }

  /** `line.match(/^- (<ref>)/)` on one line, and then the leftmost reference in the line,
      which is the one after the bullet: neither `-` nor a space can start a reference. */
  function RefOf(l: string, v: Val): Option<string> {
    if |l| >= 2 && l[..2] == "- " then
      match ValAt(v, l, 2)
      case Some(sp) => Some(l[2..sp.groupEnd])
      case None => None
    else None
  }

  function TaskRefOf(l: string): Option<string> { RefOf(l, TaskRef) }

  function ReqRefOf(l: string): Option<string> { RefOf(l, ReqRef) }

  /** A line starting `- ?`, with a following `- ? ` removed. */
  function QuestionOf(l: string): Option<string> {
    if |l| >= 3 && l[..3] == "- ?" then Some(if |l| >= 4 && l[3] == ' ' then l[4..] else l) else None
  }

  /** The header line of a section. */
  function Heading(name: string): string { "## " + name }

  /** A captured section body read line by line. */
  function AsItems(x: Option<string>, f: string -> Option<string>): Option<seq<string>> {
    match x
    case Some(b) => Some(Pick(Lines(b), f))
    case None => None
  }

  /** `parseRequirementFile(content, filename)`: each property read by its own pattern, left
      out when the pattern does not match; the dependencies and the notes are not read. */
  function ParseRequirement(content: string, filename: string): Req {
    Req(
      id := FileId(filename),
      kind := TypeOf(FileId(filename)),
      title := Extract(TitlePat(ReqRef), content),
      status := Value(content, "Status"),
      priority := Value(content, "Priority"),
      created := Value(content, "Created"),
      updated := Value(content, "Updated"),
      author := Value(content, "Author"),
      repos := TD.AsList(Value(content, "Repos")),
      description := TD.AsTrimmed(SectionText(content, Heading("Description"), NextHeader)),
      criteria := AsItems(SectionText(content, Heading("Acceptance Criteria"), NextHeader), BoxText),
      dependencies := None,
      linkedRequirements := AsItems(SectionText(content, Heading("Related Requirements"), NextHeader), ReqRefOf),
      linkedTasks := AsItems(SectionText(content, Heading("Linked Tasks"), NextHeader), TaskRefOf),
      openQuestions := AsItems(SectionText(content, Heading("Open Questions"), NextHeaderOrEnd), QuestionOf),
      notes := None)
  }

  // ---------------------------------------------------------------------------------------
  // Types and prefixes.

  lemma PrefixStarts(p: string, rest: string, q: string)
    requires StartsWith(p, q)
    ensures StartsWith(p + rest, q)
  {
    assert (p + rest)[..|q|] == p[..|q|];
  }

  lemma PrefixDiffers(p: string, rest: string, q: string, i: nat)
    requires i < |p| && i < |q| && p[i] != q[i]
    ensures !StartsWith(p + rest, q)
  {
    assert (p + rest)[i] == p[i];
  }

  /** The type inferred from an id written with a type's prefix is that type; an id written
      with the default prefix `REQ` has no type. */
  lemma TypeOfPrefix(kind: string, rest: string)
    ensures kind in TYPES ==> TypeOf(Some(PrefixOf(kind) + rest)) == Some(kind)
    ensures kind !in TYPES ==> TypeOf(Some(PrefixOf(kind) + rest)) == None
  {
    var p := PrefixOf(kind);
    var x := p + rest;
    PrefixStarts(p, rest, p);
    if kind == "prd" {
    } else if kind == "tech-spec" {
      PrefixDiffers(p, rest, "PRD", 0);
    } else if kind == "user-story" {
      PrefixDiffers(p, rest, "PRD", 0);
      PrefixDiffers(p, rest, "SPEC", 0);
    } else if kind == "epic" {
      PrefixDiffers(p, rest, "PRD", 0);
      PrefixDiffers(p, rest, "SPEC", 0);
      PrefixDiffers(p, rest, "US", 0);
    } else if kind == "feature" {
      PrefixDiffers(p, rest, "PRD", 0);
      PrefixDiffers(p, rest, "SPEC", 0);
      PrefixDiffers(p, rest, "US", 0);
      PrefixDiffers(p, rest, "EPIC", 0);
    } else {
      PrefixDiffers(p, rest, "PRD", 0);
      PrefixDiffers(p, rest, "SPEC", 0);
      PrefixDiffers(p, rest, "US", 0);
      PrefixDiffers(p, rest, "EPIC", 0);
      PrefixDiffers(p, rest, "FEAT", 0);
    }
  }

  /** Conversely, an inferred type is one whose prefix the id starts with. */
  lemma TypeOfStarts(id: string)
    ensures TypeOf(Some(id)).Some? ==> StartsWith(id, PrefixOf(TypeOf(Some(id)).value))
  {
  }

  // ---------------------------------------------------------------------------------------
  // Picking lines.

  lemma {:induction false} PickAppend(a: seq<string>, b: seq<string>, f: string -> Option<string>)
    ensures Pick(a + b, f) == Pick(a, f) + Pick(b, f)
    decreases |a|
  {
    if |a| == 0 {
      assert a + b == b;
    } else {
      assert (a + b)[1..] == a[1..] + b;
      PickAppend(a[1..], b, f);
    }
  }

  /** Items written one line each by `line`, where `f` reads every written line back as its
      item, are picked back in order. */
  lemma {:induction false} PickMap(xs: seq<string>, line: string -> string, f: string -> Option<string>)
    requires forall i :: 0 <= i < |xs| ==> f(line(xs[i])) == Some(xs[i])
    ensures Pick(TD.MapLines(xs, line), f) == xs
    decreases |xs|
  {
    if |xs| > 0 {
      var ls := TD.MapLines(xs, line);
      assert ls[1..] == TD.MapLines(xs[1..], line);
      assert forall i :: 0 <= i < |xs[1..]| ==> xs[1..][i] == xs[i + 1];
      PickMap(xs[1..], line, f);
      assert f(ls[0]) == Some(xs[0]);
      assert xs == [xs[0]] + xs[1..];
    }
  }

  // ---------------------------------------------------------------------------------------
  // The generated text is the text of the sheet.

  lemma {:induction false} SectionsAppend(a: seq<Block>, b: seq<Block>)
    ensures Sections(a + b) == Sections(a) + Sections(b)
    decreases |a|
  {
    if |a| == 0 {
      assert a + b == b;
    } else {
      assert (a + b)[1..] == a[1..] + b;
      SectionsAppend(a[1..], b);
    }
  }

  lemma SectionsOne(b: Block)
    ensures Sections([b]) == ["## " + b.name] + b.lines + [""]
  {
    assert [b][1..] == [];
  }

  /** The rows of the sheet sections render as the pushed sections. */
  lemma {:induction false} RenderedParts(bs: seq<Block>)
    ensures Rendered(PartRows(PartsOf(bs))) == Sections(bs)
    decreases |bs|
  {
    if |bs| > 0 {
      var ps := PartsOf(bs);
      assert ps[1..] == PartsOf(bs[1..]);
      RenderedParts(bs[1..]);
      var b := bs[0];
      RenderedConcat([Header(b.name)] + TextRows(b.lines) + [Text("")], PartRows(ps[1..]));
      RenderedConcat([Header(b.name)] + TextRows(b.lines), [Text("")]);
      RenderedConcat([Header(b.name)], TextRows(b.lines));
      assert Rendered([Header(b.name)]) == ["## " + b.name] by {
        assert Rendered([Header(b.name)])[0] == "## " + b.name;
      }
      assert Rendered([Text("")]) == [""] by {
        assert Rendered([Text("")])[0] == "";
      }
      assert Rendered(TextRows(b.lines)) == b.lines;
    }
  }

  lemma RenderedFront(r: Req, today: string)
    ensures Rendered(Front(ReqSheet(r, today))) == FrontLines(r, today)
  {
    var sh := ReqSheet(r, today);
    var es := sh.meta;
    RenderedConcat(sh.head + [Header("Metadata")] + MetaRows(es), [Text("")]);
    RenderedConcat(sh.head + [Header("Metadata")], MetaRows(es));
    RenderedConcat(sh.head, [Header("Metadata")]);
    assert Rendered(MetaRows(es)) == TD.MapLines(es, MetaLine);
    var h := Rendered(sh.head);
    assert h[0] == "# " + Show(r.id) + ": " + Show(r.title);
    assert h == ["# " + Show(r.id) + ": " + Show(r.title), "", MetaLine(TypeEntry(r)), ""];
    assert Rendered([Header("Metadata")]) == ["## Metadata"] by {
      assert Rendered([Header("Metadata")])[0] == "## " + "Metadata";
      assert "## " + "Metadata" == "## Metadata";
    }
    assert Rendered([Text("")]) == [""] by {
      assert Rendered([Text("")])[0] == "";
    }
  }

  /** The sections with a first and a last one, regrouped around their bodies. */
  lemma ShapeEnds(h1: string, xs: seq<string>, mid: seq<Block>, h2: string, ys: seq<string>)
    ensures Sections([Block(h1, xs)] + mid + [Block(h2, ys)])
      == ["## " + h1] + xs + ([""] + Sections(mid) + ["## " + h2]) + ys + [""]
  {
    assert [Block(h1, xs)] + mid + [Block(h2, ys)] == [Block(h1, xs)] + (mid + [Block(h2, ys)]);
    SectionsAppend([Block(h1, xs)], mid + [Block(h2, ys)]);
    SectionsAppend(mid, [Block(h2, ys)]);
    SectionsOne(Block(h1, xs));
    SectionsOne(Block(h2, ys));
  }

  /** Joining with two multi-line strings inside is joining with their lines. */
  lemma ExpandTwo(p: seq<string>, d: string, t: seq<string>, n: string)
    ensures Unlines(p + [d] + t + [n] + [""]) == Unlines(p + Lines(d) + t + Lines(n) + [""])
  {
    assert p + [d] + t + [n] + [""] == p + [d] + (t + [n] + [""]);
    UnlinesExpand(p, d, t + [n] + [""]);
    assert p + Lines(d) + (t + [n] + [""]) == (p + Lines(d) + t) + [n] + [""];
    UnlinesExpand(p + Lines(d) + t, n, [""]);
  }

  lemma ShapeFront(f: seq<string>, h1: string, xs: seq<string>, mid: seq<Block>, h2: string, ys: seq<string>)
    ensures f + Sections([Block(h1, xs)] + mid + [Block(h2, ys)])
      == (f + ["## " + h1]) + xs + ([""] + Sections(mid) + ["## " + h2]) + ys + [""]
  {
    ShapeEnds(h1, xs, mid, h2, ys);
  }

  /** Pushing the first and the last section body as one string each joins to the same text
      as pushing their lines. */
  lemma ExpandEnds(f: seq<string>, h1: string, d: string, mid: seq<Block>, h2: string, n: string)
    ensures Unlines(f + Sections([Block(h1, [d])] + mid + [Block(h2, [n])]))
      == Unlines(f + Sections([Block(h1, Lines(d))] + mid + [Block(h2, Lines(n))]))
  {
    ShapeFront(f, h1, [d], mid, h2, [n]);
    ShapeFront(f, h1, Lines(d), mid, h2, Lines(n));
    ExpandTwo(f + ["## " + h1], d, [""] + Sections(mid) + ["## " + h2], n);
  }

  lemma TextSide(r: Req, today: string)
    ensures GenerateRequirementContent(r, today) == Unlines(FrontLines(r, today) + Sections(SheetBlocks(r)))
  {
    ExpandEnds(FrontLines(r, today), "Description", DescriptionText(r), KindBlocks(r.kind) + ListBlocks(r),
               "Technical Notes", NotesText(r));
    assert [Block("Description", [DescriptionText(r)])] + KindBlocks(r.kind) + ListBlocks(r) + [Block("Technical Notes", [NotesText(r)])]
      == [Block("Description", [DescriptionText(r)])] + (KindBlocks(r.kind) + ListBlocks(r)) + [Block("Technical Notes", [NotesText(r)])];
    assert SheetBlocks(r) == [Block("Description", Lines(DescriptionText(r)))] + (KindBlocks(r.kind) + ListBlocks(r))
      + [Block("Technical Notes", Lines(NotesText(r)))];
  }

  /** `generateRequirementContent` writes exactly the text of the requirement's sheet,
      whatever the requirement. */
  lemma GenerateSheet(r: Req, today: string)
    ensures GenerateRequirementContent(r, today) == Render(ReqSheet(r, today))
  {
    var sh := ReqSheet(r, today);
    TextSide(r, today);
    RenderedConcat(Front(sh), PartRows(sh.parts));
    RenderedFront(r, today);
    RenderedParts(SheetBlocks(r));
  }
}

=== FILE: reqedit.dfy ===
/** The rewrites the requirement handlers make to a requirement document, and what each does to
    a document of the shape the generator writes: every rewrite edits the Updated line and one
    metadata line or one list section, the document keeps its shape, and
    `parseRequirementFile` reads the edit back. */
module ReqEdit {
  import opened Common
  import opened Text
  import opened Pattern
  import opened Layout
  import opened Outline
  import opened Prose
  import TD = TaskDoc
  import TR = TaskRead
  import TE = TaskEdit
  import opened ReqDoc
  import RR = ReqRead

  // ---------------------------------------------------------------------------------------
  // The rewrites, on text.

  /** `replace(/\*\*<name>\*\*: <value>/, "**<name>**: <x>")`, with the value pattern of the name. */
  function Assign(c: string, name: string, x: string): string {
    Replace(KeyPat(Key(name), KindOf(name)), c, Put(Key(name) + x))
  }

  /** `replace(/\*\*Updated\*\*: [\d-]+/, "**Updated**: <today>")`, the last rewrite of every
      handler that edits a requirement. */
  function Stamp(c: string, today: string): string { Assign(c, "Updated", today) }

  /** req_update_status (requirements.js:450-453): the status word, then the date. */
  function StatusText(c: string, status: string, today: string): string {
    Stamp(Assign(c, "Status", status), today)
  }

  /** The placeholders the generator writes in the list sections the handlers extend. */
  const TASKS_NONE: string := "_No tasks linked yet_"
  const RELATED_NONE: string := "_No related requirements_"
  const QUESTIONS_NONE: string := "_No open questions_"
  const CRITERIA_NONE: string := "- [ ] _Add acceptance criteria_"

  /** A list section with one more line: the line replaces the placeholder, or follows the
      trimmed section. */
  function Grown(body: string, none: string, line: string): string {
    if Trim(body) == none then line else Trim(body) + "\n" + line
  }

  /** The new body of a list section: the grown list and two newlines to close it. */
  function Appended(body: string, none: string, line: string): string {
    Grown(body, none, line) + "\n\n"
  }

  /** The body after a link: the item replaces the placeholder; a trimmed section that already
      holds the id anywhere, even inside a longer id, is left as it was; otherwise the item
      follows it. */
  function Linked(body: string, none: string, id: string): string {
    if Trim(body) == none then Appended(body, none, ItemLine(id))
    else if Contains(Trim(body), id) then body
    else Appended(body, none, ItemLine(id))
  }

  /** req_link_task (requirements.js:481-491). */
  function LinkTaskText(c: string, taskId: string, today: string): string {
    Stamp(ReplaceSection(c, Heading("Linked Tasks"), NextHeader, b => Linked(b, TASKS_NONE, taskId)), today)
  }

  /** req_link_requirement (requirements.js:514-524). */
  function LinkRequirementText(c: string, reqId: string, today: string): string {
    Stamp(ReplaceSection(c, Heading("Related Requirements"), NextHeader, b => Linked(b, RELATED_NONE, reqId)), today)
  }

  /** req_add_question (requirements.js:547-556): no check for a question asked before. */
  function AskText(c: string, question: string, today: string): string {
    Stamp(ReplaceSection(c, Heading("Open Questions"), NextHeaderOrEnd,
                         b => Appended(b, QUESTIONS_NONE, QuestionLine(question))), today)
  }

  /** req_add_criterion (requirements.js:579-588). */
  function CriterionText(c: string, criterion: string, today: string): string {
    Stamp(ReplaceSection(c, Heading("Acceptance Criteria"), NextHeader,
                         b => Appended(b, CRITERIA_NONE, CriterionLine(criterion))), today)
  }

  /** The link back from a PRD to the spec made from it (requirements.js:632-641): unlike
      req_link_requirement, the id is appended even when the section holds it already. */
  function LinkBackText(c: string, specId: string, today: string): string {
    Stamp(ReplaceSection(c, Heading("Related Requirements"), NextHeader,
                         b => Appended(b, RELATED_NONE, ItemLine(specId))), today)
  }

  // ---------------------------------------------------------------------------------------
  // The documents the handlers find.

  /** Where the list sections sit, counted from the end: the criteria, the dependencies, the
      related requirements, the linked tasks and the open questions, then the notes. */
  const CRITERIA_AT: nat := 6
  const RELATED_AT: nat := 4
  const TASKS_AT: nat := 3
  const QUESTIONS_AT: nat := 2

  /** The index of the part `back` places from the end. */
  function At(sh: Sheet, back: nat): nat
    requires 1 <= back <= |sh.parts|
  {
    |sh.parts| - back
  }

  predicate TidyEntry(e: Entry) { GoodEntry(e) && e.bullet == "- " && Full(KindOf(e.name), e.value) }

  predicate TidyEntries(es: seq<Entry>) {
    && (forall i :: 0 <= i < |es| ==> TidyEntry(es[i]))
    && (forall i, j :: 0 <= i < j < |es| ==> es[i].name != es[j].name)
  }

  /** A requirement document as the handlers find it after the generator or an earlier handler
      wrote it: a title line first and no metadata line in the head but the type, every
      metadata line a `- ` line whose value completely matches the pattern of its name, no
      name twice, the description first and the list sections where the generator puts them. */
  predicate Tidy(sh: Sheet) {
    && WellFormed(sh)
    && |sh.head| >= 1 && sh.head[0].Title? && Full(ReqRef, sh.head[0].id) && sh.head[0].text != ""
    && (forall k :: 0 <= k < |sh.head| ==> sh.head[k].Meta? ==> sh.head[k].entry.name == "Type")
    && TidyEntries(sh.meta)
    && |sh.parts| >= 7
    && sh.parts[0].name == "Description"
    && sh.parts[At(sh, CRITERIA_AT)].name == "Acceptance Criteria"
    && sh.parts[At(sh, RELATED_AT)].name == "Related Requirements"
    && sh.parts[At(sh, TASKS_AT)].name == "Linked Tasks"
    && sh.parts[At(sh, QUESTIONS_AT)].name == "Open Questions"
  }

  /** The items of the list section `back` places from the end, each line read by `f`. */
  function Items(sh: Sheet, back: nat, f: string -> Option<string>): seq<string>
    requires 1 <= back <= |sh.parts|
  {
    Pick(Lines(Doc(sh.parts[At(sh, back)].body)), f)
  }

  /** The requirement a tidy sheet holds, in terms of the sheet. */
  function Reading(sh: Sheet, filename: string): Req
    requires |sh.parts| >= 7 && |sh.head| >= 1 && sh.head[0].Title?
  {
    var es := sh.meta;
    Req(
      id := FileId(filename),
      kind := TypeOf(FileId(filename)),
      title := Some(sh.head[0].text),
      status := Lookup(es, "Status"),
      priority := Lookup(es, "Priority"),
      created := Lookup(es, "Created"),
      updated := Lookup(es, "Updated"),
      author := Lookup(es, "Author"),
      repos := TD.AsList(Lookup(es, "Repos")),
      description := Some(Trim(Doc(sh.parts[0].body))),
      criteria := Some(Items(sh, CRITERIA_AT, BoxText)),
      dependencies := None,
      linkedRequirements := Some(Items(sh, RELATED_AT, ReqRefOf)),
      linkedTasks := Some(Items(sh, TASKS_AT, TaskRefOf)),
      openQuestions := Some(Items(sh, QUESTIONS_AT, QuestionOf)),
      notes := None)
  }

  lemma NamesFit()
    ensures TR.NameFits("Status") && TR.NameFits("Priority") && TR.NameFits("Created")
    ensures TR.NameFits("Updated") && TR.NameFits("Author") && TR.NameFits("Repos")
  {
    TR.LettersFit("Status");
    TR.LettersFit("Priority");
    TR.LettersFit("Created");
    TR.LettersFit("Updated");
    TR.LettersFit("Author");
    TR.LettersFit("Repos");
  }

  /** Under a tidy sheet the first entry of a name holds a complete match of its pattern. */
  lemma LookupFull(sh: Sheet, name: string)
    requires Tidy(sh)
    ensures Lookup(sh.meta, name).Some? ==> Full(KindOf(name), Lookup(sh.meta, name).value)
  {
    if Slot(sh.meta, name).Some? {
      assert TidyEntry(sh.meta[Slot(sh.meta, name).value]);
    }
  }

  /** The key pattern of a name other than the type reads the first entry of that name. */
  lemma ValueOf(sh: Sheet, name: string)
    requires Tidy(sh) && TR.NameFits(name) && name != "Type"
    ensures Value(Render(sh), name) == Lookup(sh.meta, name)
  {
    LookupFull(sh, name);
    ExtractEntry(sh, name, KindOf(name));
  }

  lemma ReadMeta(sh: Sheet)
    requires Tidy(sh)
    ensures var c, es := Render(sh), sh.meta;
      && Value(c, "Status") == Lookup(es, "Status") && Value(c, "Priority") == Lookup(es, "Priority")
      && Value(c, "Created") == Lookup(es, "Created") && Value(c, "Updated") == Lookup(es, "Updated")
      && Value(c, "Author") == Lookup(es, "Author") && Value(c, "Repos") == Lookup(es, "Repos")
  {
    NamesFit();
    ValueOf(sh, "Status");
    ValueOf(sh, "Priority");
    ValueOf(sh, "Created");
    ValueOf(sh, "Updated");
    ValueOf(sh, "Author");
    ValueOf(sh, "Repos");
  }

  /** The section `back` places from the end, captured up to the next header. */
  lemma SectionAt(sh: Sheet, back: nat, stop: Stop)
    requires Tidy(sh) && 2 <= back <= |sh.parts| && (stop == NextHeader || stop == NextHeaderOrEnd)
    ensures SectionText(Render(sh), Heading(sh.parts[At(sh, back)].name), stop) == Some(Doc(sh.parts[At(sh, back)].body))
  {
    RR.SectionOf(sh, At(sh, back), stop);
  }

  lemma ReadParts(sh: Sheet)
    requires Tidy(sh)
    ensures var c := Render(sh);
      && TD.AsTrimmed(SectionText(c, Heading("Description"), NextHeader)) == Some(Trim(Doc(sh.parts[0].body)))
      && AsItems(SectionText(c, Heading("Acceptance Criteria"), NextHeader), BoxText) == Some(Items(sh, CRITERIA_AT, BoxText))
      && AsItems(SectionText(c, Heading("Related Requirements"), NextHeader), ReqRefOf) == Some(Items(sh, RELATED_AT, ReqRefOf))
      && AsItems(SectionText(c, Heading("Linked Tasks"), NextHeader), TaskRefOf) == Some(Items(sh, TASKS_AT, TaskRefOf))
      && AsItems(SectionText(c, Heading("Open Questions"), NextHeaderOrEnd), QuestionOf) == Some(Items(sh, QUESTIONS_AT, QuestionOf))
  {
    RR.SectionOf(sh, 0, NextHeader);
    SectionAt(sh, CRITERIA_AT, NextHeader);
    SectionAt(sh, RELATED_AT, NextHeader);
    SectionAt(sh, TASKS_AT, NextHeader);
    SectionAt(sh, QUESTIONS_AT, NextHeaderOrEnd);
  }

  /** `parseRequirementFile` of the document of a tidy sheet reads the sheet. */
  lemma ParseSheet(sh: Sheet, filename: string)
    requires Tidy(sh)
    ensures ParseRequirement(Render(sh), filename) == Reading(sh, filename)
  {
    ReadMeta(sh);
    HeadTitle(sh, ReqRef);
    ReadParts(sh);
  }

  lemma {:induction false} MetaOfTidy(fs: seq<TD.Field>)
    requires forall j :: 0 <= j < |fs| ==> RR.FieldFits(fs[j])
    requires forall i, j :: 0 <= i < |fs| && 0 <= j < |fs| && i != j ==> fs[i].name != fs[j].name
    ensures TidyEntries(TD.MetaOf(fs))
    decreases |fs|
  {
    if |fs| > 0 {
      assert forall j :: 0 <= j < |fs[1..]| ==> fs[1..][j] == fs[j + 1];
      MetaOfTidy(fs[1..]);
      if fs[0].value.Some? {
        TR.MetaOfAbsent(fs[1..], fs[0].name);
        var e := Entry("- ", fs[0].name, fs[0].value.value);
        var rest := TD.MetaOf(fs[1..]);
        TE.DashInert();
        assert TidyEntry(e);
        var es := [e] + rest;
        assert forall j :: 0 < j < |es| ==> es[j] == rest[j - 1];
        forall j, k | 0 <= j < k < |es| ensures es[j].name != es[k].name {
          if j > 0 {
            assert es[j] == rest[j - 1] && es[k] == rest[k - 1];
          }
        }
      }
    }
  }

  /** A sheet shaped like a generated one, with the list sections in their places, is tidy. */
  lemma ShapedTidy(sh: Sheet, fs: seq<TD.Field>, bs: seq<Block>, n: nat)
    requires RR.ReqShaped(sh, fs, bs) && |bs| == n + 6 && n >= 1
    requires bs[0].name == "Description" && bs[n].name == "Acceptance Criteria"
    requires bs[n + 2].name == "Related Requirements" && bs[n + 3].name == "Linked Tasks"
    requires bs[n + 4].name == "Open Questions"
    ensures Tidy(sh)
  {
    MetaOfTidy(fs);
  }

  /** The generator writes tidy documents. */
  lemma GeneratedTidy(r: Req, today: string)
    requires RR.Writable(r, today)
    ensures Tidy(ReqSheet(r, today))
  {
    var n := 1 + |KindBlocks(r.kind)|;
    RR.ReqSheetShaped(r, today);
    RR.ListsPlaced(r);
    RR.DescriptionAt(r);
    assert |ListBlocks(r)| == 5;
    ShapedTidy(ReqSheet(r, today), Fields(r, today), SheetBlocks(r), n);
  }

  // ---------------------------------------------------------------------------------------
  // Each rewrite as an edit of the sheet.

  /** A value the handlers may write under `name` and read back. */
  predicate Settable(name: string, x: string) {
    TR.NameFits(name) && name != "Type" && Full(KindOf(name), x) && Inert(x)
  }

  /** A key line of `name` set to `x`. */
  lemma AssignSheet(sh: Sheet, name: string, x: string)
    requires Tidy(sh) && Settable(name, x)
    ensures Assign(Render(sh), name, x) == Render(sh.(meta := SetEntry(sh.meta, name, x)))
    ensures Tidy(sh.(meta := SetEntry(sh.meta, name, x)))
  {
    LookupFull(sh, name);
    SetValue(sh, name, KindOf(name), x);
    SetTidy(sh.meta, name, x);
    TidyMeta(sh, SetEntry(sh.meta, name, x));
  }

  lemma SetTidy(es: seq<Entry>, name: string, x: string)
    requires TidyEntries(es) && Full(KindOf(name), x) && Inert(x)
    ensures TidyEntries(SetEntry(es, name, x))
  {
    if Slot(es, name).Some? {
      var i := Slot(es, name).value;
      assert TidyEntry(es[i]);
    }
  }

  /** A tidy sheet with other tidy entries is tidy. */
  lemma TidyMeta(sh: Sheet, es: seq<Entry>)
    requires Tidy(sh) && TidyEntries(es)
    ensures Tidy(sh.(meta := es))
  {
  }

  /** The sheet after the Updated line is set to `today`. */
  function Stamped(sh: Sheet, today: string): Sheet { sh.(meta := SetEntry(sh.meta, "Updated", today)) }

  lemma StampSheet(sh: Sheet, today: string)
    requires Tidy(sh) && Full(DateRun, today)
    ensures Stamp(Render(sh), today) == Render(Stamped(sh, today)) && Tidy(Stamped(sh, today))
  {
    NamesFit();
    TR.FullInert(DateRun, today);
    AssignSheet(sh, "Updated", today);
  }

  lemma StampedReading(sh: Sheet, today: string, filename: string)
    requires |sh.parts| >= 7 && |sh.head| >= 1 && sh.head[0].Title? && Slot(sh.meta, "Updated").Some?
    ensures Reading(Stamped(sh, today), filename) == Reading(sh, filename).(updated := Some(today))
  {
    var es := sh.meta;
    LookupSet(es, "Updated", today, "Status");
    LookupSet(es, "Updated", today, "Priority");
    LookupSet(es, "Updated", today, "Created");
    LookupSet(es, "Updated", today, "Updated");
    LookupSet(es, "Updated", today, "Author");
    LookupSet(es, "Updated", today, "Repos");
  }

  /** The sheet with the body of the part `back` places from the end replaced. */
  function Edited(sh: Sheet, back: nat, body: seq<Row>): Sheet
    requires 1 <= back <= |sh.parts|
  {
    sh.(parts := sh.parts[At(sh, back) := Part(sh.parts[At(sh, back)].name, body)])
  }

  /** A sheet with the same head, metadata and part names as a tidy one, every part still
      good, is tidy. */
  lemma SameShapeTidy(sh: Sheet, sh': Sheet)
    requires Tidy(sh) && sh'.head == sh.head && sh'.meta == sh.meta && |sh'.parts| == |sh.parts|
    requires forall j :: 0 <= j < |sh.parts| ==> sh'.parts[j].name == sh.parts[j].name && GoodPart(sh'.parts[j])
    ensures Tidy(sh')
  {
  }

  /** Putting plain rows into one section keeps a sheet tidy. */
  lemma EditedTidy(sh: Sheet, back: nat, body: seq<Row>)
    requires Tidy(sh) && 1 <= back <= |sh.parts| && |body| >= 1 && PlainRows(body)
    ensures Tidy(Edited(sh, back, body))
  {
    var k := At(sh, back);
    var sh' := Edited(sh, back, body);
    assert GoodPart(sh.parts[k]);
    forall j | 0 <= j < |sh.parts| ensures sh'.parts[j].name == sh.parts[j].name && GoodPart(sh'.parts[j]) {
      if j != k {
        assert sh'.parts[j] == sh.parts[j];
      }
    }
    SameShapeTidy(sh, sh');
  }

  /** Replacing a list section by plain rows is that edit of the sheet, and keeps it tidy. */
  lemma PartEdit(sh: Sheet, back: nat, stop: Stop, f: string -> string, body: seq<Row>)
    requires Tidy(sh) && 2 <= back <= CRITERIA_AT && (stop == NextHeader || stop == NextHeaderOrEnd)
    requires |body| >= 1 && PlainRows(body) && f(Doc(sh.parts[At(sh, back)].body)) == Doc(body)
    ensures ReplaceSection(Render(sh), Heading(sh.parts[At(sh, back)].name), stop, f) == Render(Edited(sh, back, body))
    ensures Tidy(Edited(sh, back, body))
  {
    var k := At(sh, back);
    assert ("## " + sh.parts[k + 1].name)[..3] == "## ";
    PartReplace(sh, k, stop, f, body);
    EditedTidy(sh, back, body);
  }

  /** Editing one list section changes only what is read from it. */
  lemma EditedReading(sh: Sheet, back: nat, body: seq<Row>, filename: string)
    requires |sh.parts| >= 7 && |sh.head| >= 1 && sh.head[0].Title?
    requires back == CRITERIA_AT || back == RELATED_AT || back == TASKS_AT || back == QUESTIONS_AT
    ensures var r, after, ls := Reading(sh, filename), Reading(Edited(sh, back, body), filename), Lines(Doc(body));
      && (back == CRITERIA_AT ==> after == r.(criteria := Some(Pick(ls, BoxText))))
      && (back == RELATED_AT ==> after == r.(linkedRequirements := Some(Pick(ls, ReqRefOf))))
      && (back == TASKS_AT ==> after == r.(linkedTasks := Some(Pick(ls, TaskRefOf))))
      && (back == QUESTIONS_AT ==> after == r.(openQuestions := Some(Pick(ls, QuestionOf))))
  {
    var sh' := Edited(sh, back, body);
    var n := |sh.parts|;
    assert sh'.parts[0] == sh.parts[0];
    assert sh'.parts[n - back].body == body;
    assert back != CRITERIA_AT ==> sh'.parts[n - CRITERIA_AT] == sh.parts[n - CRITERIA_AT];
    assert back != RELATED_AT ==> sh'.parts[n - RELATED_AT] == sh.parts[n - RELATED_AT];
    assert back != TASKS_AT ==> sh'.parts[n - TASKS_AT] == sh.parts[n - TASKS_AT];
    assert back != QUESTIONS_AT ==> sh'.parts[n - QUESTIONS_AT] == sh.parts[n - QUESTIONS_AT];
  }

  // ---------------------------------------------------------------------------------------
  // List sections.

  /** The text of a list section as the generator and the handlers leave it: plain, trimmed
      and not empty. */
  predicate Settled(s: string) { PlainText(s) && Trimmed(s) && s != "" }

  /** A list section: the lines of its text, then `k` blank lines. */
  function ListedRows(s: string, k: nat): seq<Row> { TextRows(Lines(s)) + Blanks(k) }

  lemma {:induction false} PickBlank(ls: seq<string>, f: string -> Option<string>)
    requires f("") == None && forall i :: 0 <= i < |ls| ==> ls[i] == ""
    ensures Pick(ls, f) == []
    decreases |ls|
  {
    if |ls| > 0 {
      PickBlank(ls[1..], f);
    }
  }

  /** A settled list section trims to its text and reads as the lines of its text. */
  lemma SettledRows(s: string, k: nat, f: string -> Option<string>)
    requires Settled(s) && k >= 1 && f("") == None
    ensures PlainRows(ListedRows(s, k)) && |ListedRows(s, k)| >= 1
    ensures Trim(Doc(ListedRows(s, k))) == s
    ensures Pick(Lines(Doc(ListedRows(s, k))), f) == Pick(Lines(s), f)
  {
    var rows := ListedRows(s, k);
    ProseDoc(s, k);
    TrimProse(s, k);
    DocLines(rows);
    RenderedConcat(TextRows(Lines(s)), Blanks(k));
    TD.RenderedText(Lines(s));
    PickAppend(Lines(s), Rendered(Blanks(k)), f);
    PickBlank(Rendered(Blanks(k)), f);
    assert Pick(Lines(s), f) + [] == Pick(Lines(s), f);
  }

  /** A list section grown by one line. */
  function GrownRows(body: seq<Row>, none: string, line: string): seq<Row> {
    TextRows(Lines(Grown(Doc(body), none, line))) + Blanks(2)
  }

  lemma GrownPlain(body: seq<Row>, none: string, line: string)
    requires PlainRows(body) && Quiet(line)
    ensures PlainRows(GrownRows(body, none, line)) && |GrownRows(body, none, line)| >= 1
    ensures Doc(GrownRows(body, none, line)) == Appended(Doc(body), none, line)
  {
    var b := Doc(body);
    var core := Grown(b, none, line);
    TE.RowsQuiet(body);
    TrimQuiet(b);
    if Trim(b) != none {
      QuietJoin(Trim(b), line);
    }
    QuietPlain(core);
    ProseDoc(core, 2);
    assert Newlines(2) == "\n\n";
  }

  /** The grown list line by line: the earlier lines unless only the placeholder was there,
      then the new line. */
  lemma GrownCoreLines(b: string, none: string, line: string)
    requires '\n' !in line
    ensures Lines(Grown(b, none, line)) == (if Trim(b) == none then [] else Lines(Trim(b))) + [line]
  {
    LinesUnlines([line]);
    if Trim(b) != none {
      TE.LinesCat(Trim(b), line);
    }
  }

  /** The grown section line by line: the grown list and the two blank lines that close the
      body. */
  lemma GrownLines(body: seq<Row>, none: string, line: string)
    requires '\n' !in line
    ensures var b := Doc(body);
      Lines(Doc(GrownRows(body, none, line))) == (if Trim(b) == none then [] else Lines(Trim(b))) + [line, "", ""]
  {
    var b := Doc(body);
    var core := Grown(b, none, line);
    var pre := if Trim(b) == none then [] else Lines(Trim(b));
    GrownCoreLines(b, none, line);
    UnlinesLines(core);
    var ls := Lines(core) + ["", ""];
    assert GrownRows(body, none, line) == TextRows(Lines(core)) + Blanks(2);
    ClosedRendered(Lines(core));
    FlatClosed(Lines(core));
    LinesUnlines(ls);
    ClosedTail(pre, line);
  }

  /** Lines closed by two blank rows render as the lines and two empty ones. */
  lemma ClosedRendered(ls: seq<string>)
    ensures Rendered(TextRows(ls) + Blanks(2)) == ls + ["", ""]
  {
    RenderedConcat(TextRows(ls), Blanks(2));
    TD.RenderedText(ls);
    assert Rendered(Blanks(2)) == ["", ""];
  }

  lemma FlatClosed(ls: seq<string>)
    requires FlatLines(ls)
    ensures FlatLines(ls + ["", ""])
  {
    assert forall i :: 0 <= i < |ls| + 2 ==> (ls + ["", ""])[i] == if i < |ls| then ls[i] else "";
  }

  lemma ClosedTail(pre: seq<string>, line: string)
    ensures (pre + [line]) + ["", ""] == pre + [line, "", ""]
  {
  }

  /** The items of a settled section grown by a line that reads as `x`. */
  lemma GrownItems(s: string, k: nat, none: string, line: string, f: string -> Option<string>, x: string)
    requires Settled(s) && k >= 1 && '\n' !in line && f(line) == Some(x) && f("") == None
    ensures Pick(Lines(Doc(GrownRows(ListedRows(s, k), none, line))), f) ==
      (if s == none then [] else Pick(Lines(s), f)) + [x]
  {
    var rows := ListedRows(s, k);
    SettledRows(s, k, f);
    GrownLines(rows, none, line);
    var pre: seq<string> := if s == none then [] else Lines(s);
    PickClosed(pre, line, f, x);
  }

  /** A list closed by a line that reads as `x` and two blank lines reads as the list's items
      and `x`. */
  lemma PickClosed(pre: seq<string>, line: string, f: string -> Option<string>, x: string)
    requires f(line) == Some(x) && f("") == None
    ensures Pick(pre + [line, "", ""], f) == Pick(pre, f) + [x]
  {
    PickAppend(pre, [line, "", ""], f);
    assert [line, "", ""][1..] == ["", ""] && ["", ""][1..] == [""] && [""][1..] == [];
  }

  /** The text of a settled section grown by a line. */
  function GrownCore(s: string, none: string, line: string): string {
    if s == none then line else s + "\n" + line
  }

  /** A settled section grown by a line is the grown text and two blank lines. */
  lemma GrownIs(s: string, k: nat, none: string, line: string)
    requires Settled(s) && k >= 1
    ensures GrownRows(ListedRows(s, k), none, line) == ListedRows(GrownCore(s, none, line), 2)
  {
    SettledRows(s, k, _ => None);
  }

  /** The grown text is settled again when the new line is a trimmed, quiet line. */
  lemma GrownCoreSettled(s: string, none: string, line: string)
    requires Settled(s) && Quiet(line) && line != "" && Trimmed(line)
    ensures Settled(GrownCore(s, none, line))
  {
    if s != none {
      var t := s + "\n" + line;
      PlainQuiet(s);
      QuietJoin(s, line);
      QuietPlain(t);
      assert t[0] == s[0] && t[|t| - 1] == line[|line| - 1];
    } else {
      QuietPlain(line);
    }
  }

  /** A list section after a link: as it was when its text holds the id, grown otherwise. */
  function LinkedRows(body: seq<Row>, none: string, id: string): seq<Row> {
    var b := Doc(body);
    if Trim(b) != none && Contains(Trim(b), id) then body else GrownRows(body, none, ItemLine(id))
  }

  /** An item line of a reference is quiet, one line, trimmed, and reads back as the reference. */
  lemma ItemQuiet(id: string, v: Val)
    requires (v == TaskRef || v == ReqRef) && Full(v, id)
    ensures Quiet(ItemLine(id)) && '\n' !in ItemLine(id) && Trimmed(ItemLine(id)) && ItemLine(id) != ""
    ensures RefOf(ItemLine(id), v) == Some(id)
  {
    TR.FullTame(v, id);
    TR.TameInert(id);
    QuietBehind("- ", id);
    var l := ItemLine(id);
    assert forall i :: 0 <= i < |l| ==> l[i] == if i < 2 then "- "[i] else id[i - 2];
    assert IsDigit(id[|id| - 1]);
    RR.RefBack(id, v);
  }

  lemma LinkedPlain(body: seq<Row>, none: string, id: string, v: Val)
    requires PlainRows(body) && |body| >= 1 && (v == TaskRef || v == ReqRef) && Full(v, id)
    ensures PlainRows(LinkedRows(body, none, id)) && |LinkedRows(body, none, id)| >= 1
    ensures Doc(LinkedRows(body, none, id)) == Linked(Doc(body), none, id)
  {
    ItemQuiet(id, v);
    GrownPlain(body, none, ItemLine(id));
  }

  /** The text of a settled section after a link. */
  function LinkedCore(s: string, none: string, id: string): string {
    if s == none then ItemLine(id) else if Contains(s, id) then s else s + "\n" + ItemLine(id)
  }

  /** The items of a settled section after a link, and the section settled again. */
  lemma LinkedItems(s: string, k: nat, none: string, id: string, v: Val, f: string -> Option<string>)
    requires Settled(s) && k >= 1 && (v == TaskRef || v == ReqRef) && Full(v, id)
    requires f("") == None && f(ItemLine(id)) == Some(id)
    ensures Pick(Lines(Doc(LinkedRows(ListedRows(s, k), none, id))), f) ==
      if s == none then [id] else if Contains(s, id) then Pick(Lines(s), f) else Pick(Lines(s), f) + [id]
    ensures LinkedRows(ListedRows(s, k), none, id) ==
      ListedRows(LinkedCore(s, none, id), if s != none && Contains(s, id) then k else 2)
    ensures Settled(LinkedCore(s, none, id))
  {
    SettledRows(s, k, f);
    ItemQuiet(id, v);
    if s == none || !Contains(s, id) {
      GrownItems(s, k, none, ItemLine(id), f, id);
      GrownIs(s, k, none, ItemLine(id));
      GrownCoreSettled(s, none, ItemLine(id));
      assert LinkedCore(s, none, id) == GrownCore(s, none, ItemLine(id));
    }
  }

  // ---------------------------------------------------------------------------------------
  // The handlers on a tidy sheet.

  /** What the Updated line reads after the stamp: the date, where there is an Updated line. */
  function StampedValue(sh: Sheet, today: string): Option<string> {
    if Slot(sh.meta, "Updated").Some? then Some(today) else None
  }

  lemma StampRead(sh: Sheet, today: string, filename: string)
    requires |sh.parts| >= 7 && |sh.head| >= 1 && sh.head[0].Title?
    ensures Reading(Stamped(sh, today), filename) == Reading(sh, filename).(updated := StampedValue(sh, today))
  {
    if Slot(sh.meta, "Updated").Some? {
      StampedReading(sh, today, filename);
    } else {
      assert SetEntry(sh.meta, "Updated", today) == sh.meta;
    }
  }

  /** The sheet after req_update_status. */
  function StatusSheet(sh: Sheet, status: string, today: string): Sheet {
    Stamped(sh.(meta := SetEntry(sh.meta, "Status", status)), today)
  }

  lemma StatusEdit(sh: Sheet, status: string, today: string)
    requires Tidy(sh) && Full(Word, status) && Full(DateRun, today)
    ensures StatusText(Render(sh), status, today) == Render(StatusSheet(sh, status, today))
    ensures Tidy(StatusSheet(sh, status, today))
  {
    NamesFit();
    TR.FullInert(Word, status);
    AssignSheet(sh, "Status", status);
    StampSheet(sh.(meta := SetEntry(sh.meta, "Status", status)), today);
  }

  /** Each name the parser reads after the status and the date are set. */
  lemma StatusValues(es: seq<Entry>, status: string, today: string, n: string)
    ensures Lookup(SetEntry(SetEntry(es, "Status", status), "Updated", today), n) ==
      if n == "Status" && Slot(es, "Status").Some? then Some(status)
      else if n == "Updated" && Slot(es, "Updated").Some? then Some(today)
      else Lookup(es, n)
  {
    LookupSet(es, "Status", status, n);
    LookupSet(es, "Status", status, "Updated");
    LookupSet(SetEntry(es, "Status", status), "Updated", today, n);
  }

  lemma StatusReading(sh: Sheet, status: string, today: string, filename: string)
    requires |sh.parts| >= 7 && |sh.head| >= 1 && sh.head[0].Title?
    ensures Reading(StatusSheet(sh, status, today), filename)
      == Reading(sh, filename).(status := if Slot(sh.meta, "Status").Some? then Some(status) else None,
                                updated := StampedValue(sh, today))
  {
    var es := sh.meta;
    StatusValues(es, status, today, "Status");
    StatusValues(es, status, today, "Priority");
    StatusValues(es, status, today, "Created");
    StatusValues(es, status, today, "Updated");
    StatusValues(es, status, today, "Author");
    StatusValues(es, status, today, "Repos");
  }

  /** req_update_status rewrites the status line and the Updated line of a tidy document and
      changes nothing else `parseRequirementFile` reads; a status that is not one word is left
      out, since `\w+` would read back only its first word. */
  lemma StatusRead(sh: Sheet, status: string, today: string, filename: string)
    requires Tidy(sh) && Full(Word, status) && Full(DateRun, today)
    ensures StatusText(Render(sh), status, today) == Render(StatusSheet(sh, status, today))
    ensures Tidy(StatusSheet(sh, status, today))
    ensures ParseRequirement(StatusText(Render(sh), status, today), filename)
      == ParseRequirement(Render(sh), filename).(
           status := if Slot(sh.meta, "Status").Some? then Some(status) else None,
           updated := StampedValue(sh, today))
  {
    StatusEdit(sh, status, today);
    ParseSheet(sh, filename);
    ParseSheet(StatusSheet(sh, status, today), filename);
    StatusReading(sh, status, today, filename);
  }

  /** The sheet after a link into the section `back` places from the end. */
  function LinkSheet(sh: Sheet, back: nat, none: string, id: string, today: string): Sheet
    requires 1 <= back <= |sh.parts|
  {
    Stamped(Edited(sh, back, LinkedRows(sh.parts[At(sh, back)].body, none, id)), today)
  }

  /** The sheet after a line is added to the section `back` places from the end. */
  function GrowSheet(sh: Sheet, back: nat, none: string, line: string, today: string): Sheet
    requires 1 <= back <= |sh.parts|
  {
    Stamped(Edited(sh, back, GrownRows(sh.parts[At(sh, back)].body, none, line)), today)
  }

  lemma LinkTaskSheet(sh: Sheet, taskId: string, today: string)
    requires Tidy(sh) && Full(TaskRef, taskId) && Full(DateRun, today)
    ensures LinkTaskText(Render(sh), taskId, today) == Render(LinkSheet(sh, TASKS_AT, TASKS_NONE, taskId, today))
    ensures Tidy(LinkSheet(sh, TASKS_AT, TASKS_NONE, taskId, today))
  {
    var was := sh.parts[At(sh, TASKS_AT)].body;
    var body := LinkedRows(was, TASKS_NONE, taskId);
    assert GoodPart(sh.parts[At(sh, TASKS_AT)]);
    LinkedPlain(was, TASKS_NONE, taskId, TaskRef);
    PartEdit(sh, TASKS_AT, NextHeader, b => Linked(b, TASKS_NONE, taskId), body);
    StampSheet(Edited(sh, TASKS_AT, body), today);
  }

  /** What a tidy sheet reads as after a link into its settled Linked Tasks section. */
  lemma LinkTaskReading(sh: Sheet, s: string, k: nat, taskId: string, today: string, filename: string)
    requires |sh.parts| >= 7 && |sh.head| >= 1 && sh.head[0].Title? && Full(TaskRef, taskId)
    requires Settled(s) && k >= 1 && sh.parts[At(sh, TASKS_AT)].body == ListedRows(s, k)
    ensures Reading(sh, filename).linkedTasks == Some(Pick(Lines(s), TaskRefOf))
    ensures Reading(LinkSheet(sh, TASKS_AT, TASKS_NONE, taskId, today), filename)
      == Reading(sh, filename).(
           updated := StampedValue(sh, today),
           linkedTasks := Some(if s == TASKS_NONE then [taskId]
                               else if Contains(s, taskId) then Pick(Lines(s), TaskRefOf)
                               else Pick(Lines(s), TaskRefOf) + [taskId]))
  {
    var body := LinkedRows(ListedRows(s, k), TASKS_NONE, taskId);
    StampRead(Edited(sh, TASKS_AT, body), today, filename);
    EditedReading(sh, TASKS_AT, body, filename);
    SettledRows(s, k, TaskRefOf);
    ItemQuiet(taskId, TaskRef);
    LinkedItems(s, k, TASKS_NONE, taskId, TaskRef, TaskRefOf);
  }

  /** req_link_task on a tidy document whose Linked Tasks section is settled: the task replaces
      the placeholder; a section whose text already holds the id, even inside a longer id, is
      kept; otherwise the task is added last. Only the linked tasks and the updated date read
      differently. */
  lemma LinkTaskRead(sh: Sheet, s: string, k: nat, taskId: string, today: string, filename: string)
    requires Tidy(sh) && Full(TaskRef, taskId) && Full(DateRun, today)
    requires Settled(s) && k >= 1 && sh.parts[At(sh, TASKS_AT)].body == ListedRows(s, k)
    ensures ParseRequirement(Render(sh), filename).linkedTasks == Some(Pick(Lines(s), TaskRefOf))
    ensures ParseRequirement(LinkTaskText(Render(sh), taskId, today), filename)
      == ParseRequirement(Render(sh), filename).(
           updated := StampedValue(sh, today),
           linkedTasks := Some(if s == TASKS_NONE then [taskId]
                               else if Contains(s, taskId) then Pick(Lines(s), TaskRefOf)
                               else Pick(Lines(s), TaskRefOf) + [taskId]))
  {
    LinkTaskSheet(sh, taskId, today);
    ParseSheet(sh, filename);
    ParseSheet(LinkSheet(sh, TASKS_AT, TASKS_NONE, taskId, today), filename);
    LinkTaskReading(sh, s, k, taskId, today, filename);
  }

  /** After req_link_task the document is again a tidy one whose Linked Tasks section is
      settled, so the handlers can be applied one after another. */
  lemma LinkTaskSettles(sh: Sheet, s: string, k: nat, taskId: string, today: string)
    requires Tidy(sh) && Full(TaskRef, taskId) && Full(DateRun, today)
    requires Settled(s) && k >= 1 && sh.parts[At(sh, TASKS_AT)].body == ListedRows(s, k)
    ensures var sh' := LinkSheet(sh, TASKS_AT, TASKS_NONE, taskId, today);
      && LinkTaskText(Render(sh), taskId, today) == Render(sh') && Tidy(sh')
      && sh'.parts[At(sh', TASKS_AT)].body
         == ListedRows(LinkedCore(s, TASKS_NONE, taskId), if s != TASKS_NONE && Contains(s, taskId) then k else 2)
      && Settled(LinkedCore(s, TASKS_NONE, taskId))
  {
    LinkTaskSheet(sh, taskId, today);
    ItemQuiet(taskId, TaskRef);
    LinkedItems(s, k, TASKS_NONE, taskId, TaskRef, TaskRefOf);
  }

  lemma LinkRequirementSheet(sh: Sheet, reqId: string, today: string)
    requires Tidy(sh) && Full(ReqRef, reqId) && Full(DateRun, today)
    ensures LinkRequirementText(Render(sh), reqId, today) == Render(LinkSheet(sh, RELATED_AT, RELATED_NONE, reqId, today))
    ensures Tidy(LinkSheet(sh, RELATED_AT, RELATED_NONE, reqId, today))
  {
    var was := sh.parts[At(sh, RELATED_AT)].body;
    var body := LinkedRows(was, RELATED_NONE, reqId);
    assert GoodPart(sh.parts[At(sh, RELATED_AT)]);
    LinkedPlain(was, RELATED_NONE, reqId, ReqRef);
    PartEdit(sh, RELATED_AT, NextHeader, b => Linked(b, RELATED_NONE, reqId), body);
    StampSheet(Edited(sh, RELATED_AT, body), today);
  }

  /** What a tidy sheet reads as after a link into its settled Related Requirements section. */
  lemma LinkRequirementReading(sh: Sheet, s: string, k: nat, reqId: string, today: string, filename: string)
    requires |sh.parts| >= 7 && |sh.head| >= 1 && sh.head[0].Title? && Full(ReqRef, reqId)
    requires Settled(s) && k >= 1 && sh.parts[At(sh, RELATED_AT)].body == ListedRows(s, k)
    ensures Reading(sh, filename).linkedRequirements == Some(Pick(Lines(s), ReqRefOf))
    ensures Reading(LinkSheet(sh, RELATED_AT, RELATED_NONE, reqId, today), filename)
      == Reading(sh, filename).(
           updated := StampedValue(sh, today),
           linkedRequirements := Some(if s == RELATED_NONE then [reqId]
                                      else if Contains(s, reqId) then Pick(Lines(s), ReqRefOf)
                                      else Pick(Lines(s), ReqRefOf) + [reqId]))
  {
    var body := LinkedRows(ListedRows(s, k), RELATED_NONE, reqId);
    StampRead(Edited(sh, RELATED_AT, body), today, filename);
    EditedReading(sh, RELATED_AT, body, filename);
    SettledRows(s, k, ReqRefOf);
    ItemQuiet(reqId, ReqRef);
    LinkedItems(s, k, RELATED_NONE, reqId, ReqRef, ReqRefOf);
  }

  /** req_link_requirement, as req_link_task on the Related Requirements section. */
  lemma LinkRequirementRead(sh: Sheet, s: string, k: nat, reqId: string, today: string, filename: string)
    requires Tidy(sh) && Full(ReqRef, reqId) && Full(DateRun, today)
    requires Settled(s) && k >= 1 && sh.parts[At(sh, RELATED_AT)].body == ListedRows(s, k)
    ensures ParseRequirement(Render(sh), filename).linkedRequirements == Some(Pick(Lines(s), ReqRefOf))
    ensures ParseRequirement(LinkRequirementText(Render(sh), reqId, today), filename)
      == ParseRequirement(Render(sh), filename).(
           updated := StampedValue(sh, today),
           linkedRequirements := Some(if s == RELATED_NONE then [reqId]
                                      else if Contains(s, reqId) then Pick(Lines(s), ReqRefOf)
                                      else Pick(Lines(s), ReqRefOf) + [reqId]))
  {
    LinkRequirementSheet(sh, reqId, today);
    ParseSheet(sh, filename);
    ParseSheet(LinkSheet(sh, RELATED_AT, RELATED_NONE, reqId, today), filename);
    LinkRequirementReading(sh, s, k, reqId, today, filename);
  }

  lemma LinkRequirementSettles(sh: Sheet, s: string, k: nat, reqId: string, today: string)
    requires Tidy(sh) && Full(ReqRef, reqId) && Full(DateRun, today)
    requires Settled(s) && k >= 1 && sh.parts[At(sh, RELATED_AT)].body == ListedRows(s, k)
    ensures var sh' := LinkSheet(sh, RELATED_AT, RELATED_NONE, reqId, today);
      && LinkRequirementText(Render(sh), reqId, today) == Render(sh') && Tidy(sh')
      && sh'.parts[At(sh', RELATED_AT)].body
         == ListedRows(LinkedCore(s, RELATED_NONE, reqId), if s != RELATED_NONE && Contains(s, reqId) then k else 2)
      && Settled(LinkedCore(s, RELATED_NONE, reqId))
  {
    LinkRequirementSheet(sh, reqId, today);
    ItemQuiet(reqId, ReqRef);
    LinkedItems(s, k, RELATED_NONE, reqId, ReqRef, ReqRefOf);
  }

  // ---------------------------------------------------------------------------------------
  // Questions, criteria and the link back from a PRD: always appended.

  /** A line behind a fixed prefix without `*`, `#` or a newline. */
  lemma Behind(a: string, x: string)
    requires PlainLine(x) && StarFree(a) && HashFree(a) && '\n' !in a && |a| > 0 && !IsSpace(a[0])
    ensures Quiet(a + x) && '\n' !in a + x && a + x != ""
    ensures x != "" && Trimmed(x) ==> Trimmed(a + x)
  {
    QuietBehind(a, x);
    var l := a + x;
    assert forall i :: 0 <= i < |l| ==> l[i] == if i < |a| then a[i] else x[i - |a|];
    if x != "" {
      assert l[|l| - 1] == x[|x| - 1];
    }
  }

  lemma QuestionQuiet(q: string)
    requires PlainLine(q)
    ensures Quiet(QuestionLine(q)) && '\n' !in QuestionLine(q) && QuestionLine(q) != ""
    ensures q != "" && Trimmed(q) ==> Trimmed(QuestionLine(q))
    ensures QuestionOf(QuestionLine(q)) == Some(q)
  {
    Behind("- ? ", q);
    RR.QuestionBack(q);
  }

  lemma CriterionQuiet(c: string)
    requires PlainLine(c)
    ensures Quiet(CriterionLine(c)) && '\n' !in CriterionLine(c) && CriterionLine(c) != ""
    ensures c != "" && Trimmed(c) ==> Trimmed(CriterionLine(c))
    ensures BoxText(CriterionLine(c)) == Some(c)
  {
    Behind("- [ ] ", c);
    RR.BoxBack(c);
  }

  /** One more line in the section `back` places from the end, appended whatever it holds. */
  lemma GrowEdit(sh: Sheet, back: nat, stop: Stop, none: string, line: string, today: string)
    requires Tidy(sh) && 2 <= back <= CRITERIA_AT && (stop == NextHeader || stop == NextHeaderOrEnd)
    requires Quiet(line) && Full(DateRun, today)
    ensures Stamp(ReplaceSection(Render(sh), Heading(sh.parts[At(sh, back)].name), stop, b => Appended(b, none, line)), today)
      == Render(GrowSheet(sh, back, none, line, today))
    ensures Tidy(GrowSheet(sh, back, none, line, today))
  {
    var was := sh.parts[At(sh, back)].body;
    var body := GrownRows(was, none, line);
    assert GoodPart(sh.parts[At(sh, back)]);
    GrownPlain(was, none, line);
    PartEdit(sh, back, stop, b => Appended(b, none, line), body);
    StampSheet(Edited(sh, back, body), today);
  }

  lemma AskReading(sh: Sheet, s: string, k: nat, q: string, today: string, filename: string)
    requires |sh.parts| >= 7 && |sh.head| >= 1 && sh.head[0].Title? && PlainLine(q)
    requires Settled(s) && k >= 1 && sh.parts[At(sh, QUESTIONS_AT)].body == ListedRows(s, k)
    ensures Reading(sh, filename).openQuestions == Some(Pick(Lines(s), QuestionOf))
    ensures Reading(GrowSheet(sh, QUESTIONS_AT, QUESTIONS_NONE, QuestionLine(q), today), filename)
      == Reading(sh, filename).(
           updated := StampedValue(sh, today),
           openQuestions := Some((if s == QUESTIONS_NONE then [] else Pick(Lines(s), QuestionOf)) + [q]))
  {
    var body := GrownRows(ListedRows(s, k), QUESTIONS_NONE, QuestionLine(q));
    StampRead(Edited(sh, QUESTIONS_AT, body), today, filename);
    EditedReading(sh, QUESTIONS_AT, body, filename);
    SettledRows(s, k, QuestionOf);
    QuestionQuiet(q);
    GrownItems(s, k, QUESTIONS_NONE, QuestionLine(q), QuestionOf, q);
  }

  /** req_add_question on a tidy document whose Open Questions section is settled: the question
      replaces the placeholder or is added last, asked before or not; only the open questions
      and the updated date read differently. */
  lemma AskRead(sh: Sheet, s: string, k: nat, q: string, today: string, filename: string)
    requires Tidy(sh) && PlainLine(q) && Full(DateRun, today)
    requires Settled(s) && k >= 1 && sh.parts[At(sh, QUESTIONS_AT)].body == ListedRows(s, k)
    ensures ParseRequirement(Render(sh), filename).openQuestions == Some(Pick(Lines(s), QuestionOf))
    ensures ParseRequirement(AskText(Render(sh), q, today), filename)
      == ParseRequirement(Render(sh), filename).(
           updated := StampedValue(sh, today),
           openQuestions := Some((if s == QUESTIONS_NONE then [] else Pick(Lines(s), QuestionOf)) + [q]))
  {
    QuestionQuiet(q);
    GrowEdit(sh, QUESTIONS_AT, NextHeaderOrEnd, QUESTIONS_NONE, QuestionLine(q), today);
    ParseSheet(sh, filename);
    ParseSheet(GrowSheet(sh, QUESTIONS_AT, QUESTIONS_NONE, QuestionLine(q), today), filename);
    AskReading(sh, s, k, q, today, filename);
  }

  /** After req_add_question the document is again tidy, and its Open Questions section is
      settled when the question is trimmed and not empty. */
  lemma AskSettles(sh: Sheet, s: string, k: nat, q: string, today: string)
    requires Tidy(sh) && PlainLine(q) && Full(DateRun, today)
    requires Settled(s) && k >= 1 && sh.parts[At(sh, QUESTIONS_AT)].body == ListedRows(s, k)
    ensures var sh' := GrowSheet(sh, QUESTIONS_AT, QUESTIONS_NONE, QuestionLine(q), today);
      && AskText(Render(sh), q, today) == Render(sh') && Tidy(sh')
      && sh'.parts[At(sh', QUESTIONS_AT)].body == ListedRows(GrownCore(s, QUESTIONS_NONE, QuestionLine(q)), 2)
      && (q != "" && Trimmed(q) ==> Settled(GrownCore(s, QUESTIONS_NONE, QuestionLine(q))))
  {
    QuestionQuiet(q);
    GrowEdit(sh, QUESTIONS_AT, NextHeaderOrEnd, QUESTIONS_NONE, QuestionLine(q), today);
    GrownIs(s, k, QUESTIONS_NONE, QuestionLine(q));
    if q != "" && Trimmed(q) {
      GrownCoreSettled(s, QUESTIONS_NONE, QuestionLine(q));
    }
  }

  lemma CriterionReading(sh: Sheet, s: string, k: nat, c: string, today: string, filename: string)
    requires |sh.parts| >= 7 && |sh.head| >= 1 && sh.head[0].Title? && PlainLine(c)
    requires Settled(s) && k >= 1 && sh.parts[At(sh, CRITERIA_AT)].body == ListedRows(s, k)
    ensures Reading(sh, filename).criteria == Some(Pick(Lines(s), BoxText))
    ensures Reading(GrowSheet(sh, CRITERIA_AT, CRITERIA_NONE, CriterionLine(c), today), filename)
      == Reading(sh, filename).(
           updated := StampedValue(sh, today),
           criteria := Some((if s == CRITERIA_NONE then [] else Pick(Lines(s), BoxText)) + [c]))
  {
    var body := GrownRows(ListedRows(s, k), CRITERIA_NONE, CriterionLine(c));
    StampRead(Edited(sh, CRITERIA_AT, body), today, filename);
    EditedReading(sh, CRITERIA_AT, body, filename);
    SettledRows(s, k, BoxText);
    CriterionQuiet(c);
    GrownItems(s, k, CRITERIA_NONE, CriterionLine(c), BoxText, c);
  }

  /** req_add_criterion on a tidy document whose Acceptance Criteria section is settled: the
      criterion replaces the placeholder criterion or is added last; only the criteria and the
      updated date read differently. */
  lemma CriterionRead(sh: Sheet, s: string, k: nat, c: string, today: string, filename: string)
    requires Tidy(sh) && PlainLine(c) && Full(DateRun, today)
    requires Settled(s) && k >= 1 && sh.parts[At(sh, CRITERIA_AT)].body == ListedRows(s, k)
    ensures ParseRequirement(Render(sh), filename).criteria == Some(Pick(Lines(s), BoxText))
    ensures ParseRequirement(CriterionText(Render(sh), c, today), filename)
      == ParseRequirement(Render(sh), filename).(
           updated := StampedValue(sh, today),
           criteria := Some((if s == CRITERIA_NONE then [] else Pick(Lines(s), BoxText)) + [c]))
  {
    CriterionQuiet(c);
    GrowEdit(sh, CRITERIA_AT, NextHeader, CRITERIA_NONE, CriterionLine(c), today);
    ParseSheet(sh, filename);
    ParseSheet(GrowSheet(sh, CRITERIA_AT, CRITERIA_NONE, CriterionLine(c), today), filename);
    CriterionReading(sh, s, k, c, today, filename);
  }

  lemma CriterionSettles(sh: Sheet, s: string, k: nat, c: string, today: string)
    requires Tidy(sh) && PlainLine(c) && Full(DateRun, today)
    requires Settled(s) && k >= 1 && sh.parts[At(sh, CRITERIA_AT)].body == ListedRows(s, k)
    ensures var sh' := GrowSheet(sh, CRITERIA_AT, CRITERIA_NONE, CriterionLine(c), today);
      && CriterionText(Render(sh), c, today) == Render(sh') && Tidy(sh')
      && sh'.parts[At(sh', CRITERIA_AT)].body == ListedRows(GrownCore(s, CRITERIA_NONE, CriterionLine(c)), 2)
      && (c != "" && Trimmed(c) ==> Settled(GrownCore(s, CRITERIA_NONE, CriterionLine(c))))
  {
    CriterionQuiet(c);
    GrowEdit(sh, CRITERIA_AT, NextHeader, CRITERIA_NONE, CriterionLine(c), today);
    GrownIs(s, k, CRITERIA_NONE, CriterionLine(c));
    if c != "" && Trimmed(c) {
      GrownCoreSettled(s, CRITERIA_NONE, CriterionLine(c));
    }
  }

  lemma LinkBackReading(sh: Sheet, s: string, k: nat, specId: string, today: string, filename: string)
    requires |sh.parts| >= 7 && |sh.head| >= 1 && sh.head[0].Title? && Full(ReqRef, specId)
    requires Settled(s) && k >= 1 && sh.parts[At(sh, RELATED_AT)].body == ListedRows(s, k)
    ensures Reading(sh, filename).linkedRequirements == Some(Pick(Lines(s), ReqRefOf))
    ensures Reading(GrowSheet(sh, RELATED_AT, RELATED_NONE, ItemLine(specId), today), filename)
      == Reading(sh, filename).(
           updated := StampedValue(sh, today),
           linkedRequirements := Some((if s == RELATED_NONE then [] else Pick(Lines(s), ReqRefOf)) + [specId]))
  {
    var body := GrownRows(ListedRows(s, k), RELATED_NONE, ItemLine(specId));
    StampRead(Edited(sh, RELATED_AT, body), today, filename);
    EditedReading(sh, RELATED_AT, body, filename);
    SettledRows(s, k, ReqRefOf);
    ItemQuiet(specId, ReqRef);
    GrownItems(s, k, RELATED_NONE, ItemLine(specId), ReqRefOf, specId);
  }

  /** The link back req_generate_spec writes into the PRD: the spec id replaces the placeholder
      or is added last, even when the section already lists it; only the related requirements
      and the updated date read differently. */
  lemma LinkBackRead(sh: Sheet, s: string, k: nat, specId: string, today: string, filename: string)
    requires Tidy(sh) && Full(ReqRef, specId) && Full(DateRun, today)
    requires Settled(s) && k >= 1 && sh.parts[At(sh, RELATED_AT)].body == ListedRows(s, k)
    ensures ParseRequirement(Render(sh), filename).linkedRequirements == Some(Pick(Lines(s), ReqRefOf))
    ensures ParseRequirement(LinkBackText(Render(sh), specId, today), filename)
      == ParseRequirement(Render(sh), filename).(
           updated := StampedValue(sh, today),
           linkedRequirements := Some((if s == RELATED_NONE then [] else Pick(Lines(s), ReqRefOf)) + [specId]))
  {
    ItemQuiet(specId, ReqRef);
    GrowEdit(sh, RELATED_AT, NextHeader, RELATED_NONE, ItemLine(specId), today);
    ParseSheet(sh, filename);
    ParseSheet(GrowSheet(sh, RELATED_AT, RELATED_NONE, ItemLine(specId), today), filename);
    LinkBackReading(sh, s, k, specId, today, filename);
  }
}

=== FILE: reqops.dfy ===
/** The requirement tools that change documents (requirements.js): each handler first creates the
    missing status folders, looks the requirement up, computes the new text and lists the file
    system calls it makes, in order, with the reply it returns. */
module ReqOps {
  import opened Common
  import opened Text
  import opened Numbers
  import opened Pattern
  import opened Layout
  import opened Prose
  import opened Store
  import Folders = Store
  import opened Naming
  import opened ReqDoc
  import RR = ReqRead
  import TR = TaskRead
  import opened ReqEdit

  /** What a tool handler returns. */
  datatype Reply =
    | Error(error: string)
    | Done(message: string)
    | Created(reqId: string, path: string, message: string)
    | Generated(specId: string, prdId: string, message: string)

  /** The calls a handler makes, in order, and its reply. */
  datatype Outcome = Outcome(ops: seq<Op>, reply: Reply)

  /** The store once `ensureDirectoriesSync` has run, which every handler does first (directly,
      or through `findRequirement` and `generateRequirementId`). */
  function Prepared(s: Store): Store { Ensure(s, STATUSES) }

  /** The store once the handler has run. */
  function Effect(s: Store, o: Outcome): Ran { Run(Prepared(s), o.ops) }

  /** Every status folder exists and lists no name twice. */
  predicate Ready(s: Store) { Valid(s) && forall d :: d in STATUSES ==> d in s }

  lemma PreparedReady(s: Store)
    requires Valid(s)
    ensures Ready(Prepared(s))
  {
    var r := Prepared(s);
    forall d | d in r ensures Unique(r[d]) {
      if d !in s {
        assert r[d] == [];
      }
    }
  }

  /** `findRequirement` (requirements.js:247-269). */
  function FindRequirement(s: Store, id: string): Option<Located> { Folders.Find(Prepared(s), STATUSES, id) }

  /** The lookup finds nothing exactly when no file of a status folder has a name that starts
      with the id and ends in `.md`; otherwise it lands on the first such file of the first
      status folder, in status order, that holds one. */
  lemma FindRequirementSpec(s: Store, id: string)
    ensures FindRequirement(s, id).None? <==>
      forall d, j :: d in STATUSES && d in s && 0 <= j < |s[d]| ==>
        !(StartsWith(s[d][j].name, id) && EndsWith(s[d][j].name, ".md"))
    ensures FindRequirement(s, id).Some? ==>
      var loc := FindRequirement(s, id).value;
      && loc.dir in s && FindIn(s[loc.dir], id).Some? && loc.file == s[loc.dir][FindIn(s[loc.dir], id).value]
      && exists k :: 0 <= k < |STATUSES| && STATUSES[k] == loc.dir &&
           forall k' :: 0 <= k' < k && STATUSES[k'] in s ==> FindIn(s[STATUSES[k']], id).None?
  {
    var p := Prepared(s);
    FindFirst(p, STATUSES, id);
    if FindRequirement(s, id).None? {
      forall d, j | d in STATUSES && d in s && 0 <= j < |s[d]|
        ensures !(StartsWith(s[d][j].name, id) && EndsWith(s[d][j].name, ".md"))
      {
        assert p[d] == s[d];
      }
    }
  }

  function NotFound(id: string): Reply { Error("Requirement " + id + " not found") }

  lemma FoundHas(s: Store, id: string)
    requires FindRequirement(s, id).Some?
    ensures var loc := FindRequirement(s, id).value;
      loc.dir in Prepared(s) && Has(Prepared(s)[loc.dir], loc.file.name)
  {
  }

  // ---------------------------------------------------------------------------------------
  // New ids and req_create.

  /** `generateRequirementId(type)` (requirements.js:43-65): the type's prefix, or `REQ`. */
  function GenerateRequirementId(s: Store, kind: string): string { NewId(Prepared(s), STATUSES, PrefixOf(kind)) }

  lemma PrefixUpper(kind: string)
    ensures |PrefixOf(kind)| > 0 && forall i :: 0 <= i < |PrefixOf(kind)| ==> IsUpper(PrefixOf(kind)[i])
  {
  }

  /** A new id is `<PREFIX>-<digits>`: a complete reference whose type, read back, is the type
      asked for (none for an unknown type), numbered past every id of that prefix in the status
      folders, and no file name there starts with it. */
  lemma GenerateRequirementIdSpec(s: Store, kind: string)
    ensures var id := GenerateRequirementId(s, kind);
      && StartsWith(id, PrefixOf(kind) + "-") && Full(ReqRef, id)
      && TypeOf(Some(id)) == (if kind in TYPES then Some(kind) else None)
      && (forall d, j, n :: d in STATUSES && d in s && 0 <= j < |s[d]| && NumberIn(PrefixOf(kind), s[d][j].name) == Some(n) ==>
            n < ParseDigits(id[|PrefixOf(kind)| + 1..]))
      && forall d, j :: d in STATUSES && d in s && 0 <= j < |s[d]| ==> !StartsWith(s[d][j].name, id)
  {
    IdKind(s, kind);
    IdFresh(s, kind);
  }

  /** The shape and the type of a new id. */
  lemma IdKind(s: Store, kind: string)
    ensures StartsWith(GenerateRequirementId(s, kind), PrefixOf(kind) + "-")
    ensures Full(ReqRef, GenerateRequirementId(s, kind))
    ensures GenerateRequirementId(s, kind)[|PrefixOf(kind)| + 1..] == PadZeros(NatToString(MaxOver(Prepared(s), STATUSES, PrefixOf(kind)) + 1), 3)
    ensures TypeOf(Some(GenerateRequirementId(s, kind))) == (if kind in TYPES then Some(kind) else None)
  {
    var n := MaxOver(Prepared(s), STATUSES, PrefixOf(kind)) + 1;
    IdNumbered(kind, n, GenerateRequirementId(s, kind));
  }

  /** The id numbered `n` for a type. */
  lemma IdNumbered(kind: string, n: nat, id: string)
    requires id == PrefixOf(kind) + "-" + PadZeros(NatToString(n), 3)
    ensures && StartsWith(id, PrefixOf(kind) + "-") && Full(ReqRef, id)
      && id[|PrefixOf(kind)| + 1..] == PadZeros(NatToString(n), 3)
      && TypeOf(Some(id)) == (if kind in TYPES then Some(kind) else None)
  {
    var prefix := PrefixOf(kind);
    var digits := PadZeros(NatToString(n), 3);
    IdDigits(kind, n, prefix, digits, id);
    IdType(kind, digits, id);
  }

  /** The shape of the id numbered `n`. */
  lemma IdDigits(kind: string, n: nat, prefix: string, digits: string, id: string)
    requires prefix == PrefixOf(kind) && digits == PadZeros(NatToString(n), 3) && id == prefix + "-" + digits
    ensures StartsWith(id, prefix + "-") && Full(ReqRef, id) && id[|prefix| + 1..] == digits
  {
    PaddedRoundTrip(n, 3);
    PrefixUpper(kind);
    IdShape(prefix, digits);
  }

  /** The type read back from an id with a type's prefix. */
  lemma IdType(kind: string, digits: string, id: string)
    requires id == PrefixOf(kind) + "-" + digits
    ensures TypeOf(Some(id)) == (if kind in TYPES then Some(kind) else None)
  {
    var rest := "-" + digits;
    assert id == PrefixOf(kind) + rest;
    TypeOfPrefix(kind, rest);
  }

  /** A new id is numbered past every id of its prefix, and starts no existing name. */
  lemma IdFresh(s: Store, kind: string)
    ensures var id := GenerateRequirementId(s, kind);
      && (forall d, j, n :: d in STATUSES && d in s && 0 <= j < |s[d]| && NumberIn(PrefixOf(kind), s[d][j].name) == Some(n) ==>
            n < ParseDigits(id[|PrefixOf(kind)| + 1..]))
      && forall d, j :: d in STATUSES && d in s && 0 <= j < |s[d]| ==> !StartsWith(s[d][j].name, id)
  {
    var p := Prepared(s);
    var prefix := PrefixOf(kind);
    NewIdFresh(p, STATUSES, prefix);
    IdKind(s, kind);
    PreparedKeeps(s);
  }

  /** An id written as an upper-case prefix, a dash and digits. */
  lemma IdShape(prefix: string, digits: string)
    requires |prefix| > 0 && (forall i :: 0 <= i < |prefix| ==> IsUpper(prefix[i]))
    requires |digits| > 0 && AllDigits(digits)
    ensures var id := prefix + "-" + digits;
      StartsWith(id, prefix + "-") && Full(ReqRef, id) && id[|prefix| + 1..] == digits
  {
    var id := prefix + "-" + digits;
    assert id[..|prefix| + 1] == prefix + "-";
    assert id[|prefix| + 1..] == digits;
    assert forall j :: 0 <= j < |prefix| ==> id[j] == prefix[j];
    RunEndIs(id, 0, UpperChars, |prefix|);
  }

  /** Creating the missing folders leaves every existing one as it was. */
  lemma PreparedKeeps(s: Store)
    ensures forall d :: d in s ==> d in Prepared(s) && Prepared(s)[d] == s[d]
  {
  }

  /** The arguments of req_create; an optional argument left out is None. */
  datatype NewReq = NewReq(
    kind: string,
    title: string,
    description: Option<string>,
    priority: Option<string>,
    repos: Option<seq<string>>,
    criteria: Option<seq<string>>,
    author: Option<string>)

  /** The requirement object req_create writes. */
  function Drafted(a: NewReq, id: string, today: string): Req {
    Blank.(id := Some(id), kind := Some(a.kind), title := Some(a.title), status := Some("draft"),
           priority := Some(OrElse(a.priority, "P2")), created := Some(today),
           author := Some(OrElse(a.author, "Unknown")), repos := Some(a.repos.GetOr([])),
           description := a.description, criteria := Some(a.criteria.GetOr([])))
  }

  /** req_create (requirements.js:395-424): always succeeds, in the draft folder. */
  function Create(s: Store, a: NewReq, today: string): (o: Outcome)
    ensures o.reply.Created? && o.reply.path == "draft/" + FileName(o.reply.reqId, a.title)
    ensures |o.ops| == 1 && o.ops[0].Write? && o.ops[0].dir == "draft"
  {
    var id := GenerateRequirementId(s, a.kind);
    var name := FileName(id, a.title);
    Outcome([Write("draft", name, GenerateRequirementContent(Drafted(a, id, today), today))],
            Created(id, "draft/" + name, "Created requirement: " + id + " - " + a.title))
  }

  /** A new name written to the draft folder, where no name starts with the id, is what a
      lookup by the id then finds. */
  lemma DraftStep(p: Store, id: string, name: string, text: string)
    requires Ready(p) && StartsWith(name, id) && EndsWith(name, ".md")
    requires forall d, j :: d in STATUSES && d in p && 0 <= j < |p[d]| ==> !StartsWith(p[d][j].name, id)
    ensures var r := Run(p, [Write("draft", name, text)]);
      && r.ok && Ready(r.store) && r.store.Keys == p.Keys && !Has(p["draft"], name)
      && Folders.Find(r.store, STATUSES, id) == Some(Located("draft", File(name, text)))
      && FindRequirement(r.store, id) == Some(Located("draft", File(name, text)))
      && Read(r.store["draft"], name) == Some(text)
      && (forall d, m :: d in p && (d != "draft" || m != name) ==> Read(r.store[d], m) == Read(p[d], m))
  {
    var b := p["draft"];
    var r := p["draft" := b + [File(name, text)]];
    assert STATUSES[0] == "draft";
    assert Run(p, [Write("draft", name, text)]) == Ran(r, true);
    DraftWritten(p, id, name, text, r);
    DraftFound(p, id, name, text, r);
  }

  /** The draft folder after the write holds the new document after the old ones. */
  lemma DraftWritten(p: Store, id: string, name: string, text: string, r: Store)
    requires Ready(p) && StartsWith(name, id)
    requires forall d, j :: d in STATUSES && d in p && 0 <= j < |p[d]| ==> !StartsWith(p[d][j].name, id)
    requires r == p["draft" := p["draft"] + [File(name, text)]]
    ensures Ready(r) && r.Keys == p.Keys && !Has(p["draft"], name)
    ensures Read(r["draft"], name) == Some(text)
    ensures forall d, m :: d in p && (d != "draft" || m != name) ==> Read(r[d], m) == Read(p[d], m)
  {
    var b := p["draft"];
    assert STATUSES[0] == "draft";
    assert !Has(b, name);
    WrittenNew(b, name, text);
    forall m {
      ReadWritten(b, name, text, m);
    }
  }

  /** A lookup by the id finds the new document in the draft folder, the first status folder. */
  lemma DraftFound(p: Store, id: string, name: string, text: string, r: Store)
    requires Ready(p) && StartsWith(name, id) && EndsWith(name, ".md")
    requires forall d, j :: d in STATUSES && d in p && 0 <= j < |p[d]| ==> !StartsWith(p[d][j].name, id)
    requires r == p["draft" := p["draft"] + [File(name, text)]]
    ensures Folders.Find(r, STATUSES, id) == Some(Located("draft", File(name, text)))
    ensures FindRequirement(r, id) == Some(Located("draft", File(name, text)))
  {
    var b := p["draft"];
    assert STATUSES[0] == "draft";
    FindInLast(b, File(name, text), id);
    assert (b + [File(name, text)])[|b|] == File(name, text);
    EnsureIdle(r, STATUSES);
  }

  /** req_create writes one new document to the draft folder, where a lookup by the new id
      finds it; no other file changes. */
  lemma CreateEffect(s: Store, a: NewReq, today: string)
    requires Valid(s)
    ensures var id := GenerateRequirementId(s, a.kind);
      var name := FileName(id, a.title);
      var text := GenerateRequirementContent(Drafted(a, id, today), today);
      var r := Effect(s, Create(s, a, today));
      && r.ok && r.store.Keys == Prepared(s).Keys
      && FindRequirement(r.store, id) == Some(Located("draft", File(name, text)))
      && (forall d, m :: d in Prepared(s) && (d != "draft" || m != name) ==> Read(r.store[d], m) == Read(Prepared(s)[d], m))
  {
    var p := Prepared(s);
    PreparedReady(s);
    var id := GenerateRequirementId(s, a.kind);
    NewIdFresh(p, STATUSES, PrefixOf(a.kind));
    NameOpens(id, a.title);
    DraftStep(p, id, FileName(id, a.title), GenerateRequirementContent(Drafted(a, id, today), today));
  }

  /** Arguments whose document reads back (see `Writable` of the requirement reader). */
  predicate Fits(a: NewReq, today: string) {
    && Full(DateRun, today)
    && a.title != "" && Inert(a.title)
    && TR.Shaped(Prio, a.priority) && TR.Loose(a.author)
    && (a.repos.Some? ==> ListItems(a.repos.value))
    && (Truthy(a.description) ==> PlainText(a.description.value) && Trimmed(a.description.value))
    && (a.criteria.Some? ==> forall i :: 0 <= i < |a.criteria.value| ==> PlainLine(a.criteria.value[i]))
  }

  /** The id is read back from a file name that continues with `-` after it. */
  lemma FileIdOfName(id: string, rest: string)
    requires Full(ReqRef, id)
    ensures FileId(id + "-" + rest) == Some(id)
  {
    var name := id + "-" + rest;
    assert forall j :: 0 <= j < |id| ==> name[j] == id[j];
    assert name[|id|] == '-';
    ReqRefFull(name, 0, id);
    assert name[..|id|] == id;
  }

  lemma DraftedWritable(a: NewReq, id: string, today: string)
    requires Full(ReqRef, id) && Fits(a, today)
    ensures RR.Writable(Drafted(a, id, today), today)
  {
    assert Full(Prio, OrElse(a.priority, "P2")) by {
      assert "P2"[1] == '2';
    }
    assert Full(Word, "draft") by {
      assert forall i :: 0 <= i < |"draft"| ==> IsLower("draft"[i]);
    }
    TR.WordsInert("Unknown");
  }

  /** The new document reads back as a draft of the day with the given title, the type its id
      prefix names, priority P2 and author `Unknown` by default, the criteria given (or the one
      placeholder criterion), and no links or questions. */
  lemma CreatedRead(s: Store, a: NewReq, today: string)
    requires Fits(a, today)
    ensures var id := GenerateRequirementId(s, a.kind);
      var r := ParseRequirement(GenerateRequirementContent(Drafted(a, id, today), today), FileName(id, a.title));
      && r.id == Some(id) && r.kind == (if a.kind in TYPES then Some(a.kind) else None)
      && r.title == Some(a.title) && r.status == Some("draft")
      && r.priority == Some(OrElse(a.priority, "P2")) && r.author == Some(OrElse(a.author, "Unknown"))
      && r.created == Some(today) && r.updated == Some(today)
      && r.criteria == Some(if NonEmpty(a.criteria) then a.criteria.value else ["_Add acceptance criteria_"])
      && r.linkedRequirements == Some([]) && r.linkedTasks == Some([]) && r.openQuestions == Some([])
  {
    var id := GenerateRequirementId(s, a.kind);
    var fn := FileName(id, a.title);
    IdKind(s, a.kind);
    FileIdOfName(id, Slug(a.title) + ".md");
    assert fn == id + "-" + (Slug(a.title) + ".md");
    DraftedRead(a, id, today, fn);
  }

  lemma DraftedRead(a: NewReq, id: string, today: string, fn: string)
    requires Full(ReqRef, id) && Fits(a, today) && FileId(fn) == Some(id)
    ensures var r := ParseRequirement(GenerateRequirementContent(Drafted(a, id, today), today), fn);
      && r.id == Some(id) && r.kind == TypeOf(Some(id))
      && r.title == Some(a.title) && r.status == Some("draft")
      && r.priority == Some(OrElse(a.priority, "P2")) && r.author == Some(OrElse(a.author, "Unknown"))
      && r.created == Some(today) && r.updated == Some(today)
      && r.criteria == Some(if NonEmpty(a.criteria) then a.criteria.value else ["_Add acceptance criteria_"])
      && r.linkedRequirements == Some([]) && r.linkedTasks == Some([]) && r.openQuestions == Some([])
  {
    DraftedWritable(a, id, today);
    RR.ReqRoundTrip(Drafted(a, id, today), today, fn);
    CanonDrafted(a, id, today, fn);
  }

  lemma CanonDrafted(a: NewReq, id: string, today: string, fn: string)
    requires FileId(fn) == Some(id)
    ensures var r := RR.Canon(Drafted(a, id, today), today, fn);
      && r.id == Some(id) && r.kind == TypeOf(Some(id))
      && r.title == Some(a.title) && r.status == Some("draft")
      && r.priority == Some(OrElse(a.priority, "P2")) && r.author == Some(OrElse(a.author, "Unknown"))
      && r.created == Some(today) && r.updated == Some(today)
      && r.criteria == Some(if NonEmpty(a.criteria) then a.criteria.value else ["_Add acceptance criteria_"])
      && r.linkedRequirements == Some([]) && r.linkedTasks == Some([]) && r.openQuestions == Some([])
  {
  }

  // ---------------------------------------------------------------------------------------
  // req_update_status.

  /** req_update_status (requirements.js:441-462): the status is not checked against the
      known statuses; a requirement already in the folder of that name is left alone. */
  function UpdateStatus(s: Store, id: string, status: string, today: string): (o: Outcome)
    ensures FindRequirement(s, id).None? ==> o == Outcome([], NotFound(id))
    ensures FindRequirement(s, id).Some? ==> o.reply.Done?
    ensures FindRequirement(s, id).Some? && FindRequirement(s, id).value.dir == status ==> o.ops == []
  {
    match FindRequirement(s, id)
    case None => Outcome([], NotFound(id))
    case Some(loc) =>
      if loc.dir == status then Outcome([], Done("Requirement " + id + " is already " + status))
      else Outcome(MoveAsWritten(loc.dir, status, loc.file.name, StatusText(loc.file.text, status, today)),
                   Done("Updated " + id + " to " + status))
  }

  /** Into another existing folder, the document is written there with the status and updated
      lines rewritten and removed from where it was; nothing else changes. */
  lemma UpdateStatusEffect(s: Store, id: string, status: string, today: string)
    requires Valid(s) && FindRequirement(s, id).Some?
    requires FindRequirement(s, id).value.dir != status && status in Prepared(s)
    ensures var loc := FindRequirement(s, id).value;
      Relocated(Prepared(s), Effect(s, UpdateStatus(s, id, status, today)), loc.dir, status, loc.file.name,
                StatusText(loc.file.text, status, today))
  {
    PreparedReady(s);
    var loc := FindRequirement(s, id).value;
    FoundHas(s, id);
    MoveKeeps(Prepared(s), loc.dir, status, loc.file.name, StatusText(loc.file.text, status, today));
  }

  /** A status that is a plain name and names no folder makes the first write throw: the
      handler fails and the store keeps every document where it was. */
  lemma UpdateStatusUnknown(s: Store, id: string, status: string, today: string)
    requires Valid(s) && FindRequirement(s, id).Some? && PlainName(status) && status !in Prepared(s)
    ensures Effect(s, UpdateStatus(s, id, status, today)) == Ran(Prepared(s), false)
  {
    var loc := FindRequirement(s, id).value;
    var t := StatusText(loc.file.text, status, today);
    RunTwo(Prepared(s), Write(status, loc.file.name, t), Unlink(loc.dir, loc.file.name));
  }

  // ---------------------------------------------------------------------------------------
  // Rewrites in place.

  /** A handler that rewrites the found file where it is. */
  function Rewrite(s: Store, id: string, text: string -> string, message: string): (o: Outcome)
    ensures FindRequirement(s, id).None? <==> o.reply.Error?
    ensures FindRequirement(s, id).None? ==> o.ops == []
    ensures FindRequirement(s, id).Some? ==> |o.ops| == 1 && o.ops[0].Write?
  {
    match FindRequirement(s, id)
    case None => Outcome([], NotFound(id))
    case Some(loc) => Outcome([Write(loc.dir, loc.file.name, text(loc.file.text))], Done(message))
  }

  /** The found file alone is rewritten, and a second lookup by the same id lands on it again
      and sees the new text. */
  lemma RewriteEffect(s: Store, id: string, text: string -> string, message: string)
    requires Valid(s) && FindRequirement(s, id).Some?
    ensures var loc := FindRequirement(s, id).value; var r := Effect(s, Rewrite(s, id, text, message));
      && Relocated(Prepared(s), r, loc.dir, loc.dir, loc.file.name, text(loc.file.text))
      && FindRequirement(r.store, id) == Some(Located(loc.dir, File(loc.file.name, text(loc.file.text))))
  {
    var p := Prepared(s);
    PreparedReady(s);
    var loc := FindRequirement(s, id).value;
    var t := text(loc.file.text);
    FoundHas(s, id);
    MoveKeeps(p, loc.dir, loc.dir, loc.file.name, t);
    var r := p[loc.dir := Written(p[loc.dir], loc.file.name, t)];
    assert Effect(s, Rewrite(s, id, text, message)).store == r;
    FindAfterWrite(p, STATUSES, id, loc.dir, loc.file.name, t);
    EnsureIdle(r, STATUSES);
  }

  /** req_link_task (requirements.js:476-496). */
  function LinkTask(s: Store, reqId: string, taskId: string, today: string): Outcome {
    Rewrite(s, reqId, c => LinkTaskText(c, taskId, today), "Linked " + taskId + " to " + reqId)
  }

  /** req_link_requirement (requirements.js:509-529). */
  function LinkRequirement(s: Store, reqId: string, linkedReqId: string, today: string): Outcome {
    Rewrite(s, reqId, c => LinkRequirementText(c, linkedReqId, today), "Linked " + linkedReqId + " to " + reqId)
  }

  /** req_add_question (requirements.js:542-561). */
  function AddQuestion(s: Store, reqId: string, question: string, today: string): Outcome {
    Rewrite(s, reqId, c => AskText(c, question, today), "Added question to " + reqId)
  }

  /** req_add_criterion (requirements.js:574-593). */
  function AddCriterion(s: Store, reqId: string, criterion: string, today: string): Outcome {
    Rewrite(s, reqId, c => CriterionText(c, criterion, today), "Added criterion to " + reqId)
  }

  /** Each in-place handler rewrites only the found file, with its own text function, and the
      requirement is found again with that text. */
  lemma RewritesEffect(s: Store, reqId: string, taskId: string, linkedReqId: string, question: string,
                       criterion: string, today: string)
    requires Valid(s) && FindRequirement(s, reqId).Some?
    ensures var loc := FindRequirement(s, reqId).value; var d, n, c := loc.dir, loc.file.name, loc.file.text;
      var p := Prepared(s);
      var r1 := Effect(s, LinkTask(s, reqId, taskId, today));
      var r2 := Effect(s, LinkRequirement(s, reqId, linkedReqId, today));
      var r3 := Effect(s, AddQuestion(s, reqId, question, today));
      var r4 := Effect(s, AddCriterion(s, reqId, criterion, today));
      && Relocated(p, r1, d, d, n, LinkTaskText(c, taskId, today))
      && FindRequirement(r1.store, reqId) == Some(Located(d, File(n, LinkTaskText(c, taskId, today))))
      && Relocated(p, r2, d, d, n, LinkRequirementText(c, linkedReqId, today))
      && FindRequirement(r2.store, reqId) == Some(Located(d, File(n, LinkRequirementText(c, linkedReqId, today))))
      && Relocated(p, r3, d, d, n, AskText(c, question, today))
      && FindRequirement(r3.store, reqId) == Some(Located(d, File(n, AskText(c, question, today))))
      && Relocated(p, r4, d, d, n, CriterionText(c, criterion, today))
      && FindRequirement(r4.store, reqId) == Some(Located(d, File(n, CriterionText(c, criterion, today))))
  {
    RewriteEffect(s, reqId, c => LinkTaskText(c, taskId, today), "Linked " + taskId + " to " + reqId);
    RewriteEffect(s, reqId, c => LinkRequirementText(c, linkedReqId, today), "Linked " + linkedReqId + " to " + reqId);
    RewriteEffect(s, reqId, c => AskText(c, question, today), "Added question to " + reqId);
    RewriteEffect(s, reqId, c => CriterionText(c, criterion, today), "Added criterion to " + reqId);
  }

  // ---------------------------------------------------------------------------------------
  // req_generate_spec.

  /** The PRD a spec is generated from: found by its id and typed `prd` by its file name. */
  function PrdOf(s: Store, prdId: string): Option<(Located, Req)> {
    match FindRequirement(s, prdId)
    case None => None
    case Some(loc) =>
      var r := ParseRequirement(loc.file.text, loc.file.name);
      if r.kind == Some("prd") then Some((loc, r)) else None
  }

  /** The tech-spec object written for a PRD. */
  function SpecOf(prd: Req, prdId: string, specId: string, today: string): Req {
    Blank.(id := Some(specId), kind := Some("tech-spec"), title := Some("Technical Spec for " + Show(prd.title)),
           status := Some("draft"), priority := prd.priority, created := Some(today),
           description := Some("Technical specification for " + prdId + ": " + Show(prd.title)),
           linkedRequirements := Some([prdId]), criteria := Some(prd.criteria.GetOr([])))
  }

  /** `${specId}-tech-spec-for-${prdId.toLowerCase()}.md`. */
  function SpecName(specId: string, prdId: string): string { specId + "-tech-spec-for-" + ToLower(prdId) + ".md" }

  /** req_generate_spec (requirements.js:605-651). */
  function GenerateSpec(s: Store, prdId: string, today: string): (o: Outcome)
    ensures PrdOf(s, prdId).None? <==> o.reply.Error?
    ensures PrdOf(s, prdId).None? ==> o == Outcome([], Error(prdId + " is not a valid PRD"))
    ensures PrdOf(s, prdId).Some? ==> o.reply.Generated? && o.reply.prdId == prdId && |o.ops| == 2
  {
    match PrdOf(s, prdId)
    case None => Outcome([], Error(prdId + " is not a valid PRD"))
    case Some((loc, prd)) =>
      var specId := GenerateRequirementId(s, "tech-spec");
      var name := SpecName(specId, prdId);
      Outcome([Write("draft", name, GenerateRequirementContent(SpecOf(prd, prdId, specId, today), today)),
               Write(loc.dir, loc.file.name, LinkBackText(loc.file.text, specId, today))],
              Generated(specId, prdId, "Generated tech-spec " + specId + " from " + prdId))
  }

  lemma SpecNameOpens(specId: string, prdId: string)
    ensures StartsWith(SpecName(specId, prdId), specId) && EndsWith(SpecName(specId, prdId), ".md")
    ensures SpecName(specId, prdId) == specId + "-" + ("tech-spec-for-" + ToLower(prdId) + ".md")
  {
    var low := ToLower(prdId);
    var dash, mid, ext := "-tech-spec-for-", "tech-spec-for-", ".md";
    assert dash == "-" + mid;
    SpecNameParts(specId, dash, low, ext);
    assert specId + dash + low + ext == specId + "-" + (mid + low + ext);
  }

  lemma SpecNameParts(a: string, b: string, c: string, d: string)
    ensures StartsWith(a + b + c + d, a) && EndsWith(a + b + c + d, d)
  {
    var x := a + b + c + d;
    assert x[..|a|] == a;
    assert x[|x| - |d|..] == d;
  }

  /** The PRD's rewrite after the spec's write: the PRD file is another file, still listed. */
  lemma LinkBackStep(p: Store, s1: Store, loc: Located, name: string, text: string, specId: string)
    requires Ready(p) && loc.dir in p && Has(p[loc.dir], loc.file.name)
    requires forall d, j :: d in STATUSES && d in p && 0 <= j < |p[d]| ==> !StartsWith(p[d][j].name, specId)
    requires loc.dir in STATUSES && StartsWith(name, specId)
    requires s1 == p["draft" := p["draft"] + [File(name, text)]]
    ensures loc.file.name != name && Has(s1[loc.dir], loc.file.name)
  {
    var j :| 0 <= j < |p[loc.dir]| && p[loc.dir][j].name == loc.file.name;
    assert !StartsWith(loc.file.name, specId);
    assert s1[loc.dir][j].name == loc.file.name;
  }

  /** After req_generate_spec's writes: the spec `name` in the draft folder, where a lookup by
      the spec id finds it; the PRD's document rewritten to `back` where it is; every other file
      as it was. */
  ghost predicate SpecWritten(p: Store, r: Ran, loc: Located, specId: string, name: string, text: string, back: string) {
    && r.ok && r.store.Keys == p.Keys && loc.dir in r.store
    && FindRequirement(r.store, specId) == Some(Located("draft", File(name, text)))
    && Read(r.store[loc.dir], loc.file.name) == Some(back)
    && (forall d, m :: d in p && (d != "draft" || m != name) && (d != loc.dir || m != loc.file.name) ==>
          Read(r.store[d], m) == Read(p[d], m))
  }

  /** The two writes of req_generate_spec on a store where no name starts with the spec id:
      the spec added to the draft folder, then the PRD rewritten where it is. */
  lemma SpecSteps(p: Store, loc: Located, specId: string, name: string, text: string, back: string)
    requires Ready(p) && loc.dir in STATUSES && Has(p[loc.dir], loc.file.name)
    requires StartsWith(name, specId) && EndsWith(name, ".md")
    requires forall d, j :: d in STATUSES && d in p && 0 <= j < |p[d]| ==> !StartsWith(p[d][j].name, specId)
    ensures SpecWritten(p, Run(p, [Write("draft", name, text), Write(loc.dir, loc.file.name, back)]), loc, specId, name, text, back)
  {
    DraftStep(p, specId, name, text);
    var s1 := p["draft" := p["draft"] + [File(name, text)]];
    TwoWrites(p, loc.dir, name, text, loc.file.name, back);
    SpecAfter(p, s1, loc, specId, name, text, back);
  }

  /** The second write of req_generate_spec, after the spec has landed in the draft folder. */
  lemma SpecAfter(p: Store, s1: Store, loc: Located, specId: string, name: string, text: string, back: string)
    requires Ready(p) && loc.dir in STATUSES && Has(p[loc.dir], loc.file.name)
    requires StartsWith(name, specId)
    requires forall d, j :: d in STATUSES && d in p && 0 <= j < |p[d]| ==> !StartsWith(p[d][j].name, specId)
    requires s1 == p["draft" := p["draft"] + [File(name, text)]]
    requires Ready(s1) && s1.Keys == p.Keys
    requires Folders.Find(s1, STATUSES, specId) == Some(Located("draft", File(name, text)))
    requires forall d, m :: d in p && (d != "draft" || m != name) ==> Read(s1[d], m) == Read(p[d], m)
    ensures SpecWritten(p, Ran(s1[loc.dir := Written(s1[loc.dir], loc.file.name, back)], true), loc, specId, name, text, back)
  {
    LinkBackStep(p, s1, loc, name, text, specId);
    SpecLanded(s1, specId, loc, name, text, back);
    var s2 := s1[loc.dir := Written(s1[loc.dir], loc.file.name, back)];
    KeptTwice(p, s1, s2, "draft", name, loc.dir, loc.file.name);
  }

  /** Two writes, each keeping every file but its own. */
  lemma KeptTwice(p: Store, s1: Store, s2: Store, d1: string, n1: string, d2: string, n2: string)
    requires s1.Keys == p.Keys && s2.Keys == p.Keys && d2 in p
    requires forall d, m :: d in p && (d != d1 || m != n1) ==> Read(s1[d], m) == Read(p[d], m)
    requires forall m :: m != n2 ==> Read(s2[d2], m) == Read(s1[d2], m)
    requires forall d :: d in s1 && d != d2 ==> s2[d] == s1[d]
    ensures forall d, m :: d in p && (d != d1 || m != n1) && (d != d2 || m != n2) ==> Read(s2[d], m) == Read(p[d], m)
  {
    forall d, m | d in p && (d != d1 || m != n1) && (d != d2 || m != n2)
      ensures Read(s2[d], m) == Read(p[d], m)
    {
      assert Read(s2[d], m) == Read(s1[d], m);
    }
  }

  /** A new file added to the draft folder, then a write to a folder that exists. */
  lemma TwoWrites(p: Store, d: string, name: string, text: string, other: string, back: string)
    requires "draft" in p && d in p && !Has(p["draft"], name)
    ensures var s1 := p["draft" := p["draft"] + [File(name, text)]];
      && Run(p, [Write("draft", name, text)]) == Ran(s1, true)
      && Run(p, [Write("draft", name, text), Write(d, other, back)]) == Ran(s1[d := Written(s1[d], other, back)], true)
  {
    WrittenNew(p["draft"], name, text);
    RunTwo(p, Write("draft", name, text), Write(d, other, back));
    assert [Write("draft", name, text)][1..] == [];
  }

  /** A valid PRD gets its spec written to the draft folder, where a lookup by the spec id finds
      it, and then its own document rewritten with the link back; nothing else changes. */
  lemma GenerateSpecEffect(s: Store, prdId: string, today: string)
    requires Valid(s) && PrdOf(s, prdId).Some?
    ensures var loc := PrdOf(s, prdId).value.0; var prd := PrdOf(s, prdId).value.1;
      var specId := GenerateRequirementId(s, "tech-spec");
      var name := SpecName(specId, prdId);
      var p := Prepared(s);
      var r := Effect(s, GenerateSpec(s, prdId, today));
      SpecWritten(p, r, loc, specId, name, GenerateRequirementContent(SpecOf(prd, prdId, specId, today), today),
                  LinkBackText(loc.file.text, specId, today))
  {
    var p := Prepared(s);
    PreparedReady(s);
    var loc := PrdOf(s, prdId).value.0;
    var prd := PrdOf(s, prdId).value.1;
    var specId := GenerateRequirementId(s, "tech-spec");
    var name := SpecName(specId, prdId);
    var text := GenerateRequirementContent(SpecOf(prd, prdId, specId, today), today);
    var back := LinkBackText(loc.file.text, specId, today);
    NewIdFresh(p, STATUSES, "SPEC");
    SpecNameOpens(specId, prdId);
    FoundHas(s, prdId);
    assert GenerateSpec(s, prdId, today).ops == [Write("draft", name, text), Write(loc.dir, loc.file.name, back)];
    SpecSteps(p, loc, specId, name, text, back);
  }

  /** The PRD's rewrite does not move the lookup off the new spec, and changes no other file. */
  lemma SpecLanded(s1: Store, specId: string, loc: Located, name: string, text: string, back: string)
    requires Ready(s1) && loc.dir in s1 && Has(s1[loc.dir], loc.file.name) && loc.file.name != name
    requires Folders.Find(s1, STATUSES, specId) == Some(Located("draft", File(name, text)))
    ensures var s2 := s1[loc.dir := Written(s1[loc.dir], loc.file.name, back)];
      && FindRequirement(s2, specId) == Some(Located("draft", File(name, text)))
      && Read(s2[loc.dir], loc.file.name) == Some(back)
      && forall m :: m != loc.file.name ==> Read(s2[loc.dir], m) == Read(s1[loc.dir], m)
  {
    var s2 := s1[loc.dir := Written(s1[loc.dir], loc.file.name, back)];
    FindAfterWrite(s1, STATUSES, specId, loc.dir, loc.file.name, back);
    EnsureIdle(s2, STATUSES);
    forall m {
      ReadWritten(s1[loc.dir], loc.file.name, back, m);
    }
  }

  /** PRD data from which a spec reads back. */
  predicate SpecFits(prd: Req, prdId: string, today: string) {
    && Full(DateRun, today) && Full(ReqRef, prdId)
    && (prd.title.Some? ==> prd.title.value != "" && Inert(prd.title.value) && Trimmed(prd.title.value))
    && TR.Shaped(Prio, prd.priority)
    && (prd.criteria.Some? ==> forall i :: 0 <= i < |prd.criteria.value| ==> PlainLine(prd.criteria.value[i]))
  }

  lemma RefInert(x: string)
    requires Full(ReqRef, x)
    ensures Inert(x) && HashFree(x)
  {
    var k := RunEnd(x, 0, UpperChars);
    assert forall i :: 0 <= i < k ==> IsUpper(x[i]);
  }

  lemma ShownInert(t: Option<string>)
    requires t.Some? ==> t.value != "" && Inert(t.value) && Trimmed(t.value)
    ensures Inert(Show(t)) && Show(t) != "" && Trimmed(Show(t))
  {
    if t.None? {
      TR.WordsInert("undefined");
    }
  }

  lemma SpecTextsFit(t: Option<string>, prdId: string)
    requires Full(ReqRef, prdId)
    requires t.Some? ==> t.value != "" && Inert(t.value) && Trimmed(t.value)
    ensures Inert("Technical Spec for " + Show(t))
    ensures var d := "Technical specification for " + prdId + ": " + Show(t); PlainText(d) && Trimmed(d)
  {
    var x := Show(t);
    ShownInert(t);
    TR.WordsInert("Technical Spec for ");
    TR.WordsInert("Technical specification for ");
    assert HashFree("Technical Spec for ") by {
      assert forall i :: 0 <= i < |"Technical Spec for "| ==> IsWordChar("Technical Spec for "[i]) || "Technical Spec for "[i] == ' ';
    }
    assert HashFree("Technical specification for ") by {
      assert forall i :: 0 <= i < |"Technical specification for "| ==>
        IsWordChar("Technical specification for "[i]) || "Technical specification for "[i] == ' ';
    }
    InertCat("Technical Spec for ", x);
    RefInert(prdId);
    var a := "Technical specification for " + prdId;
    InertCat("Technical specification for ", prdId);
    assert HashFree(a);
    assert Inert(": ") && HashFree(": ");
    InertCat(": ", x);
    InertCat(a, ": " + x);
    var d := a + (": " + x);
    assert d == "Technical specification for " + prdId + ": " + x;
    StarFreeMarkFree(d);
    QuietPlain(d);
    assert d[|d| - 1] == x[|x| - 1];
  }

  lemma SpecWritable(prd: Req, prdId: string, specId: string, today: string)
    requires SpecFits(prd, prdId, today) && Full(ReqRef, specId)
    ensures RR.Writable(SpecOf(prd, prdId, specId, today), today)
  {
    SpecTextsFit(prd.title, prdId);
    assert Full(Word, "draft") by {
      assert forall i :: 0 <= i < |"draft"| ==> IsLower("draft"[i]);
    }
  }

  /** The generated spec reads back as a draft tech-spec of the day titled after the PRD, with
      the PRD's priority (P2 when it has none) and criteria (or the placeholder criterion), the
      PRD as its one related requirement, and no tasks or questions. */
  lemma GeneratedSpecRead(s: Store, prdId: string, today: string)
    requires PrdOf(s, prdId).Some? && SpecFits(PrdOf(s, prdId).value.1, prdId, today)
    ensures var prd := PrdOf(s, prdId).value.1;
      var specId := GenerateRequirementId(s, "tech-spec");
      var r := ParseRequirement(GenerateRequirementContent(SpecOf(prd, prdId, specId, today), today), SpecName(specId, prdId));
      && r.id == Some(specId) && r.kind == Some("tech-spec")
      && r.title == Some("Technical Spec for " + Show(prd.title))
      && r.status == Some("draft") && r.priority == Some(OrElse(prd.priority, "P2"))
      && r.created == Some(today) && r.updated == Some(today) && r.author == Some("Unknown")
      && r.description == Some("Technical specification for " + prdId + ": " + Show(prd.title))
      && r.linkedRequirements == Some([prdId])
      && r.criteria == Some(if NonEmpty(prd.criteria) then prd.criteria.value else ["_Add acceptance criteria_"])
      && r.linkedTasks == Some([]) && r.openQuestions == Some([])
  {
    var prd := PrdOf(s, prdId).value.1;
    var specId := GenerateRequirementId(s, "tech-spec");
    var name := SpecName(specId, prdId);
    IdKind(s, "tech-spec");
    SpecNameOpens(specId, prdId);
    FileIdOfName(specId, "tech-spec-for-" + ToLower(prdId) + ".md");
    SpecRead(prd, prdId, specId, today, name);
  }

  lemma SpecRead(prd: Req, prdId: string, specId: string, today: string, fn: string)
    requires SpecFits(prd, prdId, today) && Full(ReqRef, specId) && FileId(fn) == Some(specId)
    ensures var r := ParseRequirement(GenerateRequirementContent(SpecOf(prd, prdId, specId, today), today), fn);
      && r.id == Some(specId) && r.kind == TypeOf(Some(specId))
      && r.title == Some("Technical Spec for " + Show(prd.title))
      && r.status == Some("draft") && r.priority == Some(OrElse(prd.priority, "P2"))
      && r.created == Some(today) && r.updated == Some(today) && r.author == Some("Unknown")
      && r.description == Some("Technical specification for " + prdId + ": " + Show(prd.title))
      && r.linkedRequirements == Some([prdId])
      && r.criteria == Some(if NonEmpty(prd.criteria) then prd.criteria.value else ["_Add acceptance criteria_"])
      && r.linkedTasks == Some([]) && r.openQuestions == Some([])
  {
    SpecWritable(prd, prdId, specId, today);
    RR.ReqRoundTrip(SpecOf(prd, prdId, specId, today), today, fn);
  }
}

=== FILE: reqquery.dfy ===
/** The requirement tools that only read: req_list, the documents of the requested status
    folders filtered by type, priority and a search text, projected to list rows and sorted by
    priority and then id; and req_traceability, one matrix row per document of every status
    folder with counters over the matrix. Both handlers first create the missing status
    folders, which are then empty, and a missing folder lists nothing, so the model reads the
    store as it is. */
module ReqQuery {
  import opened Common
  import opened Text
  import opened Store
  import opened Order
  import opened ReqDoc
  import TS = TaskStats

  /** `parseRequirementFile(content, file)` on a listed file. */
  function Reading(f: File): Req { ParseRequirement(f.text, f.name) }

  /** Each listed document with the requirement its text parses to. */
  function Readings(es: seq<(string, File)>, read: File -> Req): (r: seq<(string, Req)>)
    ensures |r| == |es|
  {
    seq(|es|, k requires 0 <= k < |es| => (es[k].0, read(es[k].1)))
  }

  // ---------------------------------------------------------------------------------------
  // req_list.

  /** The arguments of req_list. */
  datatype Query = Query(status: Option<string>, kind: Option<string>, priority: Option<string>, search: Option<string>)

  /** One listed requirement: its folder as the status, priority `P2` when missing, and the
      number of linked tasks (0 when the section is missing). */
  datatype Row = Row(id: Option<string>, title: Option<string>, kind: Option<string>, status: string,
                     priority: string, linkedTasks: nat, created: Option<string>, updated: Option<string>)

  datatype Listed = Listed(requirements: seq<Row>, total: nat)

  /** The folders listed: the one the status argument names, or every status but deprecated. */
  function StatusDirs(q: Query): (r: seq<string>)
    ensures Truthy(q.status) ==> r == [q.status.value]
    ensures !Truthy(q.status) ==> forall d :: d in r <==> d in STATUSES && d != "deprecated"
  {
    if Truthy(q.status) then [q.status.value] else ["draft", "review", "approved", "implemented"]
  }

  /** A property value contains the lower-cased search text, ignoring case. */
  predicate Mentions(x: Option<string>, needle: string) {
    x.Some? && Contains(ToLower(x.value), needle)
  }

  /** The filters a parsed requirement must pass; each is skipped when its argument is falsy. */
  predicate Keep(q: Query, r: Req) {
    && (Truthy(q.kind) ==> r.kind == q.kind)
    && (Truthy(q.priority) ==> r.priority == q.priority)
    && (Truthy(q.search) ==>
          var needle := ToLower(q.search.value);
          Mentions(r.id, needle) || Mentions(r.title, needle) || Mentions(r.description, needle))
  }

  function RowOf(d: string, r: Req): Row {
    Row(r.id, r.title, r.kind, d, OrElse(r.priority, "P2"),
        if r.linkedTasks.Some? then |r.linkedTasks.value| else 0, r.created, r.updated)
  }

  /** The rows of the requirements that pass the filters, in listing order. */
  function Select(q: Query, rs: seq<(string, Req)>): (r: seq<Row>)
    ensures |r| <= |rs|
  {
    if |rs| == 0 then []
    else (if Keep(q, rs[0].1) then [RowOf(rs[0].0, rs[0].1)] else []) + Select(q, rs[1..])
  }

  /** Everything the query matches, before sorting, each file read by `read`. */
  function Matching(s: Store, q: Query, read: File -> Req): seq<Row> {
    Select(q, Readings(Listing(s, StatusDirs(q)), read))
  }

  /** The sort key: priority ascending, then id ascending. */
  function RowKey(r: Row): (string, string) { (r.priority, OrElse(r.id, "")) }

  /** The reply for the matching rows. */
  function Shown(rows: seq<Row>): Listed {
    Listed(Sort(rows, RowKey, Up), |rows|)
  }

  /** req_list (requirements.js:300-347). */
  function ListRequirements(s: Store, q: Query): Listed {
    Shown(Matching(s, q, Reading))
  }

  lemma {:induction false} SelectMembers(q: Query, rs: seq<(string, Req)>, x: Row)
    ensures x in Select(q, rs) <==> exists k :: 0 <= k < |rs| && Keep(q, rs[k].1) && x == RowOf(rs[k].0, rs[k].1)
    decreases |rs|
  {
    if |rs| > 0 {
      SelectMembers(q, rs[1..], x);
      if x in Select(q, rs[1..]) {
        var k :| 0 <= k < |rs[1..]| && Keep(q, rs[1..][k].1) && x == RowOf(rs[1..][k].0, rs[1..][k].1);
        assert rs[k + 1] == rs[1..][k];
      }
      if exists k :: 0 <= k < |rs| && Keep(q, rs[k].1) && x == RowOf(rs[k].0, rs[k].1) {
        var k :| 0 <= k < |rs| && Keep(q, rs[k].1) && x == RowOf(rs[k].0, rs[k].1);
        if k > 0 {
          assert rs[1..][k - 1] == rs[k];
        }
      }
    }
  }

  /** A row is listed exactly when some document of a requested folder reads as a requirement
      that passes the filters and projects to that row. */
  lemma MatchingMembers(s: Store, q: Query, read: File -> Req, x: Row)
    ensures x in Matching(s, q, read) <==>
      exists d, f :: d in StatusDirs(q) && d in s && f in s[d] && IsDoc(f.name) &&
        Keep(q, read(f)) && x == RowOf(d, read(f))
  {
    var es := Listing(s, StatusDirs(q));
    var rs := Readings(es, read);
    SelectMembers(q, rs, x);
    if x in Matching(s, q, read) {
      var k :| 0 <= k < |rs| && Keep(q, rs[k].1) && x == RowOf(rs[k].0, rs[k].1);
      assert es[k] in es;
      ListingMembers(s, StatusDirs(q), es[k]);
    }
    if exists d, f :: d in StatusDirs(q) && d in s && f in s[d] && IsDoc(f.name) &&
        Keep(q, read(f)) && x == RowOf(d, read(f)) {
      var d, f :| d in StatusDirs(q) && d in s && f in s[d] && IsDoc(f.name) &&
        Keep(q, read(f)) && x == RowOf(d, read(f));
      ListingMembers(s, StatusDirs(q), (d, f));
      var k :| 0 <= k < |es| && es[k] == (d, f);
      assert rs[k] == (d, read(f));
    }
  }

  /** Without a status argument nothing deprecated is listed; with one, only that folder. */
  lemma ListedStatuses(s: Store, q: Query, read: File -> Req, x: Row)
    requires x in Matching(s, q, read)
    ensures !Truthy(q.status) ==> x.status in STATUSES && x.status != "deprecated"
    ensures Truthy(q.status) ==> x.status == q.status.value
  {
    MatchingMembers(s, q, read, x);
  }

  /** The reply counts every match and lists each of them once, ordered by priority and then
      by id; rows that tie on both keep their listing order. */
  lemma ShownSpec(rows: seq<Row>)
    ensures var r := Shown(rows);
      && r.total == |rows| && |r.requirements| == |rows|
      && multiset(r.requirements) == multiset(rows)
      && Ordered(r.requirements, RowKey, Up)
      && forall k :: Keyed(r.requirements, RowKey, k) == Keyed(rows, RowKey, k)
  {
    SortOrdered(rows, RowKey, Up);
    forall k {
      SortStable(rows, RowKey, Up, k);
    }
  }

  // ---------------------------------------------------------------------------------------
  // req_traceability.

  /** One matrix row: a missing list reads as empty. */
  datatype Trace = Trace(id: Option<string>, title: Option<string>, kind: Option<string>, status: string,
                         linkedTasks: seq<string>, linkedRequirements: seq<string>, hasOpenQuestions: bool)

  /** The counters; a requirement without a type is counted under the key "undefined". */
  datatype TraceStats = TraceStats(total: nat, byStatus: map<string, int>, byType: map<string, int>,
                                   withTasks: nat, withOpenQuestions: nat)

  datatype Traced = Traced(matrix: seq<Trace>, stats: TraceStats)

  function TraceOf(d: string, r: Req): Trace {
    Trace(r.id, r.title, r.kind, d, r.linkedTasks.GetOr([]), r.linkedRequirements.GetOr([]),
          r.openQuestions.Some? && |r.openQuestions.value| > 0)
  }

  function Matrix(rs: seq<(string, Req)>): (m: seq<Trace>)
    ensures |m| == |rs|
  {
    seq(|rs|, k requires 0 <= k < |rs| => TraceOf(rs[k].0, rs[k].1))
  }

  /** `stats.byStatus[req.status] = (stats.byStatus[req.status] || 0) + 1` over the matrix. */
  function ByStatus(m: seq<Trace>): map<string, int> {
    if |m| == 0 then map[] else TS.Count(ByStatus(m[..|m| - 1]), m[|m| - 1].status)
  }

  /** The same over the types, an absent type interpolated as "undefined". */
  function ByType(m: seq<Trace>): map<string, int> {
    if |m| == 0 then map[] else TS.Count(ByType(m[..|m| - 1]), Show(m[|m| - 1].kind))
  }

  /** `matrix.filter(p).length`. */
  function CountWhere(m: seq<Trace>, p: Trace -> bool): nat {
    if |m| == 0 then 0 else CountWhere(m[..|m| - 1], p) + (if p(m[|m| - 1]) then 1 else 0)
  }

  /** The two filters of the handler: a row with linked tasks, a row with open questions. */
  predicate Linked(t: Trace) { |t.linkedTasks| > 0 }
  predicate Questioned(t: Trace) { t.hasOpenQuestions }

  function StatsOf(m: seq<Trace>): TraceStats {
    TraceStats(|m|, ByStatus(m), ByType(m), CountWhere(m, Linked), CountWhere(m, Questioned))
  }

  /** req_traceability (requirements.js:661-702). */
  function Traceability(s: Store): Traced {
    var m := Matrix(Readings(Listing(s, STATUSES), Reading));
    Traced(m, StatsOf(m))
  }

  /** How many rows sit in folder `d`, and how many have the type key `k`. */
  function StatusCount(m: seq<Trace>, d: string): nat {
    if |m| == 0 then 0 else StatusCount(m[..|m| - 1], d) + (if m[|m| - 1].status == d then 1 else 0)
  }

  function TypeCount(m: seq<Trace>, k: string): nat {
    if |m| == 0 then 0 else TypeCount(m[..|m| - 1], k) + (if Show(m[|m| - 1].kind) == k then 1 else 0)
  }

  function Get(c: map<string, int>, k: string): int { if k in c then c[k] else 0 }

  /** Each status counter holds the number of rows in that folder; a counter exists exactly
      for the folders that have rows. */
  lemma {:induction false} ByStatusCounts(m: seq<Trace>)
    ensures forall d :: (d in ByStatus(m) <==> StatusCount(m, d) > 0) && Get(ByStatus(m), d) == StatusCount(m, d)
    decreases |m|
  {
    if |m| > 0 {
      ByStatusCounts(m[..|m| - 1]);
    }
  }

  /** Each type counter holds the number of rows of that type. */
  lemma {:induction false} ByTypeCounts(m: seq<Trace>)
    ensures forall k :: (k in ByType(m) <==> TypeCount(m, k) > 0) && Get(ByType(m), k) == TypeCount(m, k)
    decreases |m|
  {
    if |m| > 0 {
      ByTypeCounts(m[..|m| - 1]);
    }
  }

  lemma {:induction false} CountWhereBound(m: seq<Trace>, p: Trace -> bool)
    ensures CountWhere(m, p) <= |m|
    ensures CountWhere(m, p) == |m| <==> forall k :: 0 <= k < |m| ==> p(m[k])
    decreases |m|
  {
    if |m| > 0 {
      CountWhereBound(m[..|m| - 1], p);
      var m' := m[..|m| - 1];
      if forall k :: 0 <= k < |m| ==> p(m[k]) {
        assert forall k :: 0 <= k < |m'| ==> p(m'[k]) by {
          forall k | 0 <= k < |m'| ensures p(m'[k]) {
            assert m'[k] == m[k];
          }
        }
      }
      if CountWhere(m, p) == |m| {
        forall k | 0 <= k < |m| ensures p(m[k]) {
          if k < |m'| {
            assert m'[k] == m[k];
          }
        }
      }
    }
  }

  /** When every row sits in a status folder, the status counts add up to the number of rows. */
  lemma {:induction false} StatusesSum(m: seq<Trace>)
    requires forall k :: 0 <= k < |m| ==> m[k].status in STATUSES
    ensures |m| == StatusCount(m, "draft") + StatusCount(m, "review") + StatusCount(m, "approved")
                   + StatusCount(m, "implemented") + StatusCount(m, "deprecated")
    decreases |m|
  {
    if |m| > 0 {
      StatusesSum(m[..|m| - 1]);
    }
  }

  /** The rows of a folder are its documents. */
  lemma {:induction false} MatrixFolder(rs: seq<(string, Req)>, d: string)
    ensures StatusCount(Matrix(rs), d) == TS.InFolder(rs, d)
    decreases |rs|
  {
    if |rs| > 0 {
      MatrixFolder(rs[..|rs| - 1], d);
      assert Matrix(rs[..|rs| - 1]) == Matrix(rs)[..|rs| - 1];
    }
  }

  lemma {:induction false} ReadingsFolder(es: seq<(string, File)>, read: File -> Req, d: string)
    ensures TS.InFolder(Readings(es, read), d) == TS.InFolder(es, d)
    decreases |es|
  {
    if |es| > 0 {
      ReadingsFolder(es[..|es| - 1], read, d);
      assert Readings(es[..|es| - 1], read) == Readings(es, read)[..|es| - 1];
    }
  }

  /** The rows of the whole store: every status folder's documents, each read. */
  function Rows(s: Store): seq<(string, Req)> { Readings(Listing(s, STATUSES), Reading) }

  lemma RowsFolders(s: Store)
    ensures forall k :: 0 <= k < |Rows(s)| ==> Rows(s)[k].0 in STATUSES
  {
    var es := Listing(s, STATUSES);
    assert forall k :: 0 <= k < |es| ==> Rows(s)[k].0 == es[k].0;
  }

  /** A folder's rows are its documents. */
  lemma RowsFolder(s: Store, d: string)
    ensures StatusCount(Matrix(Rows(s)), d) == if d in STATUSES && d in s then |Docs(d, s[d])| else 0
  {
    MatrixFolder(Rows(s), d);
    ReadingsFolder(Listing(s, STATUSES), Reading, d);
    assert forall i, j :: 0 <= i < j < |STATUSES| ==> STATUSES[i] != STATUSES[j];
    TS.ListingFolder(s, STATUSES, d);
  }

  lemma MatrixStatuses(rs: seq<(string, Req)>)
    requires forall k :: 0 <= k < |rs| ==> rs[k].0 in STATUSES
    ensures forall k :: 0 <= k < |Matrix(rs)| ==> Matrix(rs)[k].status in STATUSES
  {
  }

  lemma StatusCounter(m: seq<Trace>, d: string)
    ensures Get(ByStatus(m), d) == StatusCount(m, d)
  {
    ByStatusCounts(m);
  }

  /** The status counters of a matrix whose rows all sit in status folders add up to the
      total. */
  lemma ByStatusSum(m: seq<Trace>)
    requires forall k :: 0 <= k < |m| ==> m[k].status in STATUSES
    ensures |m| == Get(ByStatus(m), "draft") + Get(ByStatus(m), "review") + Get(ByStatus(m), "approved")
                   + Get(ByStatus(m), "implemented") + Get(ByStatus(m), "deprecated")
  {
    StatusCounter(m, "draft");
    StatusCounter(m, "review");
    StatusCounter(m, "approved");
    StatusCounter(m, "implemented");
    StatusCounter(m, "deprecated");
    StatusesSum(m);
  }

  /** The counters over a matrix whose rows all sit in status folders: one counter per folder
      that has rows, adding up to the total; one per type key; the filtered counts bounded by
      the total. */
  lemma StatsSpec(m: seq<Trace>)
    requires forall k :: 0 <= k < |m| ==> m[k].status in STATUSES
    ensures var st := StatsOf(m);
      && st.total == |m|
      && (forall d :: (d in st.byStatus <==> StatusCount(m, d) > 0) && Get(st.byStatus, d) == StatusCount(m, d))
      && st.total == Get(st.byStatus, "draft") + Get(st.byStatus, "review") + Get(st.byStatus, "approved")
                     + Get(st.byStatus, "implemented") + Get(st.byStatus, "deprecated")
      && (forall k :: Get(st.byType, k) == TypeCount(m, k))
      && st.withTasks <= st.total && st.withOpenQuestions <= st.total
  {
    ByStatusCounts(m);
    ByStatusSum(m);
    ByTypeCounts(m);
    CountWhereBound(m, Linked);
    CountWhereBound(m, Questioned);
  }

  /** A requirement document that links at least one task, and one with at least one open
      question. */
  predicate HasTasks(r: Req) { r.linkedTasks.Some? && |r.linkedTasks.value| > 0 }
  predicate HasQuestions(r: Req) { r.openQuestions.Some? && |r.openQuestions.value| > 0 }

  /** How many of the read documents satisfy `p`, counted from the front. */
  function DocsWith(rs: seq<(string, Req)>, p: Req -> bool): nat {
    if |rs| == 0 then 0 else (if p(rs[0].1) then 1 else 0) + DocsWith(rs[1..], p)
  }

  lemma {:induction false} DocsWithLast(rs: seq<(string, Req)>, p: Req -> bool)
    requires |rs| > 0
    ensures DocsWith(rs, p) == DocsWith(rs[..|rs| - 1], p) + (if p(rs[|rs| - 1].1) then 1 else 0)
    decreases |rs|
  {
    if |rs| > 1 {
      var t := rs[1..];
      DocsWithLast(t, p);
      assert t[..|t| - 1] == rs[..|rs| - 1][1..];
      assert t[|t| - 1] == rs[|rs| - 1];
    }
  }

  lemma MatrixFront(rs: seq<(string, Req)>)
    requires |rs| > 0
    ensures Matrix(rs)[..|rs| - 1] == Matrix(rs[..|rs| - 1])
  {
  }

  /** The filtered counts of the matrix are the numbers of documents that link a task and
      that have an open question. */
  lemma {:induction false} MatrixCounts(rs: seq<(string, Req)>)
    ensures CountWhere(Matrix(rs), Linked) == DocsWith(rs, HasTasks)
    ensures CountWhere(Matrix(rs), Questioned) == DocsWith(rs, HasQuestions)
    decreases |rs|
  {
    if |rs| > 0 {
      var front := rs[..|rs| - 1];
      MatrixCounts(front);
      MatrixFront(rs);
      DocsWithLast(rs, HasTasks);
      DocsWithLast(rs, HasQuestions);
    }
  }

  lemma {:induction false} StatusCountNone(m: seq<Trace>, d: string)
    requires forall k :: 0 <= k < |m| ==> m[k].status in STATUSES
    requires d !in STATUSES
    ensures StatusCount(m, d) == 0
    decreases |m|
  {
    if |m| > 0 {
      StatusCountNone(m[..|m| - 1], d);
    }
  }

  /** The matrix has one row per document of the status folders: each status counter is the
      number of documents in its folder, and the counters add up to the total; the rows with
      linked tasks and with open questions are counted document by document. */
  lemma TraceabilitySpec(s: Store)
    ensures var t := Traceability(s); var st := t.stats;
      && st.total == |t.matrix|
      && (forall d :: d in st.byStatus ==> d in STATUSES)
      && (forall d :: d in STATUSES ==> Get(st.byStatus, d) == if d in s then |Docs(d, s[d])| else 0)
      && st.total == Get(st.byStatus, "draft") + Get(st.byStatus, "review") + Get(st.byStatus, "approved")
                     + Get(st.byStatus, "implemented") + Get(st.byStatus, "deprecated")
      && (forall k :: Get(st.byType, k) == TypeCount(t.matrix, k))
      && st.withTasks <= st.total && st.withOpenQuestions <= st.total
      && st.withTasks == DocsWith(Rows(s), HasTasks) && st.withOpenQuestions == DocsWith(Rows(s), HasQuestions)
  {
    var m := Matrix(Rows(s));
    MatrixCounts(Rows(s));
    assert Traceability(s) == Traced(m, StatsOf(m));
    RowsFolders(s);
    MatrixStatuses(Rows(s));
    StatsSpec(m);
    forall d | d !in STATUSES ensures StatusCount(m, d) == 0 {
      StatusCountNone(m, d);
    }
    forall d | d in STATUSES ensures StatusCount(m, d) == if d in s then |Docs(d, s[d])| else 0 {
      RowsFolder(s, d);
    }
  }

  lemma MatrixReadings(es: seq<(string, File)>, read: File -> Req, x: Trace)
    ensures x in Matrix(Readings(es, read)) <==> exists e :: e in es && x == TraceOf(e.0, read(e.1))
  {
    var m := Matrix(Readings(es, read));
    if x in m {
      var k :| 0 <= k < |m| && m[k] == x;
      assert es[k] in es;
    }
    if exists e :: e in es && x == TraceOf(e.0, read(e.1)) {
      var e :| e in es && x == TraceOf(e.0, read(e.1));
      var k :| 0 <= k < |es| && es[k] == e;
      assert m[k] == x;
    }
  }

  /** A row of the matrix for every document of every status folder, and no other. */
  lemma MatrixMembers(s: Store, x: Trace)
    ensures x in Traceability(s).matrix <==>
      exists d, f :: d in STATUSES && d in s && f in s[d] && IsDoc(f.name) && x == TraceOf(d, Reading(f))
  {
    var es := Listing(s, STATUSES);
    assert Traceability(s).matrix == Matrix(Readings(es, Reading));
    MatrixReadings(es, Reading, x);
    if exists e :: e in es && x == TraceOf(e.0, Reading(e.1)) {
      var e :| e in es && x == TraceOf(e.0, Reading(e.1));
      ListingMembers(s, STATUSES, e);
    }
    if exists d, f :: d in STATUSES && d in s && f in s[d] && IsDoc(f.name) && x == TraceOf(d, Reading(f)) {
      var d, f :| d in STATUSES && d in s && f in s[d] && IsDoc(f.name) && x == TraceOf(d, Reading(f));
      ListingMembers(s, STATUSES, (d, f));
    }
  }
}

=== FILE: reqread.dfy ===
/** Reading back what the generator wrote: when `parseRequirementFile` of
    `generateRequirementContent(req)` gives the requirement back, and what it gives instead for
    the parts filled with defaults or placeholders, or not read at all. */
module ReqRead {
  import opened Common
  import opened Text
  import opened Pattern
  import opened Layout
  import opened Outline
  import opened Prose
  import TD = TaskDoc
  import TR = TaskRead
  import opened ReqDoc

  // ---------------------------------------------------------------------------------------
  // Which requirements survive the trip.

  /** The requirements whose document reads back: values fit the patterns that read them, and
      free text cannot be taken for a header or a metadata line. */
  predicate Writable(r: Req, today: string) {
    && Full(DateRun, today)
    && r.id.Some? && Full(ReqRef, r.id.value)
    && r.title.Some? && r.title.value != "" && Inert(r.title.value)
    && TR.Shaped(Word, r.status) && TR.Shaped(Prio, r.priority) && TR.Shaped(DateRun, r.created)
    && TR.Loose(r.author)
    && (r.repos.Some? ==> ListItems(r.repos.value))
    && (Truthy(r.description) ==> PlainText(r.description.value) && Trimmed(r.description.value))
    && (Truthy(r.notes) ==> PlainText(r.notes.value))
    && (r.criteria.Some? ==> forall i :: 0 <= i < |r.criteria.value| ==> PlainLine(r.criteria.value[i]))
    && (r.dependencies.Some? ==> forall i :: 0 <= i < |r.dependencies.value| ==> PlainLine(r.dependencies.value[i]))
    && (r.linkedRequirements.Some? ==>
          forall i :: 0 <= i < |r.linkedRequirements.value| ==> Full(ReqRef, r.linkedRequirements.value[i]))
    && (r.linkedTasks.Some? ==> forall i :: 0 <= i < |r.linkedTasks.value| ==> Full(TaskRef, r.linkedTasks.value[i]))
    && (r.openQuestions.Some? ==> forall i :: 0 <= i < |r.openQuestions.value| ==> PlainLine(r.openQuestions.value[i]))
  }

  /** A list read back: its items, or none at all when it was written as a placeholder. */
  function Listed(xs: Option<seq<string>>): Option<seq<string>> { Some(if NonEmpty(xs) then xs.value else []) }

  /** What the parser gives back for a writable requirement: the id and the type from the file
      name, the defaults the generator wrote (the author `Unknown`), an empty Repos list
      missing, the criteria placeholder read as a criterion, the other placeholders read as
      empty lists, and neither the dependencies nor the notes (the parser does not read them). */
  function Canon(r: Req, today: string, filename: string): Req {
    r.(id := FileId(filename),
       kind := TypeOf(FileId(filename)),
       status := Some(OrElse(r.status, "draft")),
       priority := Some(OrElse(r.priority, "P2")),
       created := Some(OrElse(r.created, today)),
       updated := Some(today),
       author := Some(OrElse(r.author, "Unknown")),
       repos := if NonEmpty(r.repos) then r.repos else None,
       description := Some(DescriptionText(r)),
       criteria := Some(if NonEmpty(r.criteria) then r.criteria.value else ["_Add acceptance criteria_"]),
       dependencies := None,
       linkedRequirements := Listed(r.linkedRequirements),
       linkedTasks := Listed(r.linkedTasks),
       openQuestions := Listed(r.openQuestions),
       notes := None)
  }

  // ---------------------------------------------------------------------------------------
  // The metadata.

  /** A metadata value and the pattern of its name. */
  predicate FieldFits(f: TD.Field) {
    && TR.NameFits(f.name)
    && (f.value.Some? ==> Full(KindOf(f.name), f.value.value) && Inert(f.value.value))
  }

  lemma FieldsFit(r: Req, today: string)
    requires Writable(r, today)
    ensures forall i :: 0 <= i < |Fields(r, today)| ==> FieldFits(Fields(r, today)[i])
  {
    FieldsFitA(r, today);
    FieldsFitB(r, today);
  }

  lemma FitDefault(name: string, v: Val, x: Option<string>, d: string)
    requires TR.NameFits(name) && KindOf(name) == v && v != Rest && TR.Shaped(v, x) && Full(v, d)
    ensures FieldFits(TD.Field(name, Some(OrElse(x, d))))
  {
    TR.FullInert(v, OrElse(x, d));
  }

  lemma FieldsFitA(r: Req, today: string)
    requires Writable(r, today)
    ensures forall i :: 0 <= i < 4 ==> FieldFits(Fields(r, today)[i])
  {
    TR.LettersFit("Status");
    TR.LettersFit("Priority");
    TR.LettersFit("Created");
    TR.LettersFit("Updated");
    assert Full(Word, "draft");
    FitDefault("Status", Word, r.status, "draft");
    FitDefault("Priority", Prio, r.priority, "P2");
    FitDefault("Created", DateRun, r.created, today);
    FitDefault("Updated", DateRun, None, today);
  }

  lemma FieldsFitB(r: Req, today: string)
    requires Writable(r, today)
    ensures forall i :: 4 <= i < 6 ==> FieldFits(Fields(r, today)[i])
  {
    TR.LettersFit("Author");
    TR.LettersFit("Repos");
    TR.WordsInert("Unknown");
    if NonEmpty(r.repos) {
      ListInert(r.repos.value);
    }
  }

  lemma {:induction false} MetaGood(fs: seq<TD.Field>)
    requires forall j :: 0 <= j < |fs| ==> FieldFits(fs[j])
    ensures forall k :: 0 <= k < |TD.MetaOf(fs)| ==> GoodEntry(TD.MetaOf(fs)[k])
    decreases |fs|
  {
    if |fs| > 0 {
      MetaGood(fs[1..]);
      assert Inert("- ");
    }
  }

  const FIELD_NAMES: seq<string> := ["Status", "Priority", "Created", "Updated", "Author", "Repos"]

  lemma FieldsDistinct(r: Req, today: string)
    ensures forall i, j :: 0 <= i < |Fields(r, today)| && 0 <= j < |Fields(r, today)| && i != j ==>
      Fields(r, today)[i].name != Fields(r, today)[j].name
  {
    assert forall i :: 0 <= i < 6 ==> Fields(r, today)[i].name == FIELD_NAMES[i];
  }

  // ---------------------------------------------------------------------------------------
  // The sheet is well formed.

  /** A section the sheet can hold: a name that cannot be taken for anything else, and plain
      body lines. */
  predicate BlockFits(b: Block) {
    && Inert(b.name) && HashFree(b.name) && b.name != "Metadata"
    && forall i :: 0 <= i < |b.lines| ==> PlainLine(b.lines[i])
  }

  lemma PartsGood(bs: seq<Block>)
    requires forall k :: 0 <= k < |bs| ==> BlockFits(bs[k])
    ensures forall k :: 0 <= k < |PartsOf(bs)| ==> GoodPart(PartsOf(bs)[k])
  {
    forall k | 0 <= k < |bs| ensures GoodPart(PartsOf(bs)[k]) {
      TR.LinesPlain(bs[k].lines);
    }
  }

  /** Every block of a sequence fits. */
  predicate AllFit(bs: seq<Block>) {
    forall k :: 0 <= k < |bs| ==> BlockFits(bs[k])
  }

  lemma FitCat(a: seq<Block>, b: seq<Block>)
    requires AllFit(a) && AllFit(b)
    ensures AllFit(a + b)
  {
    forall k | 0 <= k < |a + b| ensures BlockFits((a + b)[k]) {
      if k >= |a| {
        assert (a + b)[k] == b[k - |a|];
      }
    }
  }

  /** The section names, in order, for each type of requirement. */
  const PRD_NAMES: seq<string> :=
    ["Description", "Problem Statement", "Goals", "Non-Goals", "Acceptance Criteria", "Dependencies",
     "Related Requirements", "Linked Tasks", "Open Questions", "Technical Notes"]
  const SPEC_NAMES: seq<string> :=
    ["Description", "Technical Approach", "API Design", "Acceptance Criteria", "Dependencies",
     "Related Requirements", "Linked Tasks", "Open Questions", "Technical Notes"]
  const STORY_NAMES: seq<string> :=
    ["Description", "User Story", "Acceptance Criteria", "Dependencies",
     "Related Requirements", "Linked Tasks", "Open Questions", "Technical Notes"]
  const PLAIN_NAMES: seq<string> :=
    ["Description", "Acceptance Criteria", "Dependencies",
     "Related Requirements", "Linked Tasks", "Open Questions", "Technical Notes"]

  function SheetNames(kind: Option<string>): seq<string> {
    if kind == Some("prd") || kind == Some("epic") then PRD_NAMES
    else if kind == Some("tech-spec") then SPEC_NAMES
    else if kind == Some("user-story") then STORY_NAMES
    else PLAIN_NAMES
  }

  /** The sections of a sheet carry the names of its type, in order. */
  lemma SheetNamed(r: Req)
    ensures |SheetBlocks(r)| == |SheetNames(r.kind)|
    ensures forall k :: 0 <= k < |SheetBlocks(r)| ==> SheetBlocks(r)[k].name == SheetNames(r.kind)[k]
  {
    var kind := r.kind;
    var kb := KindBlocks(kind);
    var kn := SheetNames(kind)[1..1 + |kb|];
    if kind == Some("prd") || kind == Some("epic") {
      assert |kb| == 3 && kn == ["Problem Statement", "Goals", "Non-Goals"];
    } else if kind == Some("tech-spec") {
      assert |kb| == 2 && kn == ["Technical Approach", "API Design"];
    } else if kind == Some("user-story") {
      assert |kb| == 1 && kn == ["User Story"];
    } else {
      assert |kb| == 0;
    }
    NamesAround(r, kb, SheetNames(kind));
  }

  /** The names of the sections around the type's own: the description first, the list
      sections, then the notes. */
  lemma NamesAround(r: Req, kb: seq<Block>, ns: seq<string>)
    requires kb == KindBlocks(r.kind) && |ns| == |kb| + 7
    requires ns[0] == "Description" && ns[|kb| + 1..] == PLAIN_NAMES[1..]
    requires forall k :: 0 <= k < |kb| ==> kb[k].name == ns[k + 1]
    ensures |SheetBlocks(r)| == |ns|
    ensures forall k :: 0 <= k < |SheetBlocks(r)| ==> SheetBlocks(r)[k].name == ns[k]
  {
    var bs := SheetBlocks(r);
    var m := |kb|;
    forall k | 0 <= k < |bs| ensures bs[k].name == ns[k] {
      if m + 1 <= k {
        assert ns[k] == ns[m + 1..][k - m - 1] == PLAIN_NAMES[1..][k - m - 1];
      }
    }
  }

  /** Letters, spaces and `-` make a name that cannot open a header or a key. */
  lemma NameFine(s: string)
    requires s != "" && forall i :: 0 <= i < |s| ==> IsUpper(s[i]) || IsLower(s[i]) || s[i] == ' ' || s[i] == '-'
    ensures Inert(s) && HashFree(s)
  {
  }

  /** Names distinct from each other and from the metadata header. */
  predicate Distinct(ns: seq<string>) {
    && (forall j, k :: 0 <= j < k < |ns| ==> ns[j] != ns[k])
    && (forall k :: 0 <= k < |ns| ==> ns[k] != "Metadata")
  }

  lemma PrdNamesDistinct() ensures Distinct(PRD_NAMES) {}
  lemma SpecNamesDistinct() ensures Distinct(SPEC_NAMES) {}
  lemma StoryNamesDistinct() ensures Distinct(STORY_NAMES) {}
  lemma PlainNamesDistinct() ensures Distinct(PLAIN_NAMES) {}

  lemma NamesDistinct(kind: Option<string>)
    ensures Distinct(SheetNames(kind))
  {
    if kind == Some("prd") || kind == Some("epic") {
      PrdNamesDistinct();
    } else if kind == Some("tech-spec") {
      SpecNamesDistinct();
    } else if kind == Some("user-story") {
      StoryNamesDistinct();
    } else {
      PlainNamesDistinct();
    }
  }

  /** A line without a newline, `#` or `:` is plain. */
  lemma SafeLine(s: string)
    requires forall i :: 0 <= i < |s| ==> s[i] != '\n' && s[i] != '#' && s[i] != ':'
    ensures PlainLine(s)
  {
  }

  lemma PrdBlocksFit(kind: Option<string>)
    requires kind == Some("prd") || kind == Some("epic")
    ensures AllFit(KindBlocks(kind))
  {
    NameFine("Problem Statement");
    NameFine("Goals");
    NameFine("Non-Goals");
    SafeLine("_What problem does this solve?_");
    SafeLine("- [ ] _Goal 1_");
    SafeLine("- _What is explicitly out of scope_");
  }

  lemma SpecBlocksFit()
    ensures AllFit(KindBlocks(Some("tech-spec")))
  {
    NameFine("Technical Approach");
    NameFine("API Design");
    SafeLine("_Describe the technical solution_");
    SafeLine("```");
    SafeLine("// Define interfaces and endpoints");
  }

  lemma StoryBlocksFit()
    ensures AllFit(KindBlocks(Some("user-story")))
  {
    NameFine("User Story");
    SafeLine("**As a** _[user type]_");
    SafeLine("**I want to** _[action]_");
    SafeLine("**So that** _[benefit]_");
  }

  lemma KindBlocksFit(kind: Option<string>)
    ensures AllFit(KindBlocks(kind))
  {
    if kind == Some("prd") || kind == Some("epic") {
      PrdBlocksFit(kind);
    } else if kind == Some("tech-spec") {
      SpecBlocksFit();
    } else if kind == Some("user-story") {
      StoryBlocksFit();
    }
  }

  lemma ListLinesPlain(xs: Option<seq<string>>, none: string)
    requires xs.Some? ==> forall i :: 0 <= i < |xs.value| ==> PlainLine(xs.value[i])
    requires PlainLine(none)
    ensures forall i :: 0 <= i < |ListLines(xs, none)| ==> PlainLine(ListLines(xs, none)[i])
  {
    if NonEmpty(xs) {
      forall i | 0 <= i < |xs.value| ensures PlainLine(ItemLine(xs.value[i])) {
        PlainCat("- ", xs.value[i]);
      }
    }
  }

  lemma RefsPlain(xs: Option<seq<string>>, v: Val)
    requires v != Rest
    requires xs.Some? ==> forall i :: 0 <= i < |xs.value| ==> Full(v, xs.value[i])
    ensures xs.Some? ==> forall i :: 0 <= i < |xs.value| ==> PlainLine(xs.value[i])
  {
    if xs.Some? {
      forall i | 0 <= i < |xs.value| ensures PlainLine(xs.value[i]) {
        TR.FullInert(v, xs.value[i]);
      }
    }
  }

  lemma CriteriaFit(r: Req)
    requires NonEmpty(r.criteria) ==> forall i :: 0 <= i < |r.criteria.value| ==> PlainLine(r.criteria.value[i])
    ensures BlockFits(Block("Acceptance Criteria", CriteriaLines(r)))
  {
    if NonEmpty(r.criteria) {
      forall i | 0 <= i < |r.criteria.value| ensures PlainLine(CriterionLine(r.criteria.value[i])) {
        PlainCat("- [ ] ", r.criteria.value[i]);
      }
    } else {
      SafeLine("- [ ] _Add acceptance criteria_");
    }
    NameFine("Acceptance Criteria");
  }

  lemma QuestionsFit(r: Req)
    requires NonEmpty(r.openQuestions) ==>
      forall i :: 0 <= i < |r.openQuestions.value| ==> PlainLine(r.openQuestions.value[i])
    ensures BlockFits(Block("Open Questions", QuestionLines(r)))
  {
    if NonEmpty(r.openQuestions) {
      forall i | 0 <= i < |r.openQuestions.value| ensures PlainLine(QuestionLine(r.openQuestions.value[i])) {
        PlainCat("- ? ", r.openQuestions.value[i]);
      }
    } else {
      SafeLine("_No open questions_");
    }
    NameFine("Open Questions");
  }

  lemma ListFits(name: string, xs: Option<seq<string>>, none: string)
    requires xs.Some? ==> forall i :: 0 <= i < |xs.value| ==> PlainLine(xs.value[i])
    requires PlainLine(none) && Inert(name) && HashFree(name) && name != "Metadata"
    ensures BlockFits(Block(name, ListLines(xs, none)))
  {
    ListLinesPlain(xs, none);
  }

  lemma DependenciesFit(xs: Option<seq<string>>)
    requires xs.Some? ==> forall i :: 0 <= i < |xs.value| ==> PlainLine(xs.value[i])
    ensures BlockFits(Block("Dependencies", ListLines(xs, "_No dependencies identified_")))
  {
    SafeLine("_No dependencies identified_");
    NameFine("Dependencies");
    ListFits("Dependencies", xs, "_No dependencies identified_");
  }

  lemma RelatedFit(xs: Option<seq<string>>)
    requires xs.Some? ==> forall i :: 0 <= i < |xs.value| ==> Full(ReqRef, xs.value[i])
    ensures BlockFits(Block("Related Requirements", ListLines(xs, "_No related requirements_")))
  {
    SafeLine("_No related requirements_");
    NameFine("Related Requirements");
    RefsPlain(xs, ReqRef);
    ListFits("Related Requirements", xs, "_No related requirements_");
  }

  lemma TasksFit(xs: Option<seq<string>>)
    requires xs.Some? ==> forall i :: 0 <= i < |xs.value| ==> Full(TaskRef, xs.value[i])
    ensures BlockFits(Block("Linked Tasks", ListLines(xs, "_No tasks linked yet_")))
  {
    SafeLine("_No tasks linked yet_");
    NameFine("Linked Tasks");
    RefsPlain(xs, TaskRef);
    ListFits("Linked Tasks", xs, "_No tasks linked yet_");
  }

  lemma FiveFit(a: Block, b: Block, c: Block, d: Block, e: Block)
    requires BlockFits(a) && BlockFits(b) && BlockFits(c) && BlockFits(d) && BlockFits(e)
    ensures AllFit([a, b, c, d, e])
  {
  }

  lemma ListBlocksFit(r: Req, today: string)
    requires Writable(r, today)
    ensures AllFit(ListBlocks(r))
  {
    CriteriaFit(r);
    DependenciesFit(r.dependencies);
    RelatedFit(r.linkedRequirements);
    TasksFit(r.linkedTasks);
    QuestionsFit(r);
    var bs := ListBlocks(r);
    FiveFit(bs[0], bs[1], bs[2], bs[3], bs[4]);
  }

  /** Every line of a plain text is a plain line. */
  lemma TextLinesPlain(s: string)
    requires PlainText(s)
    ensures forall i :: 0 <= i < |Lines(s)| ==> PlainLine(Lines(s)[i])
  {
  }

  /** The description as written: plain, trimmed and not empty. */
  lemma DescriptionPlain(r: Req)
    requires Truthy(r.description) ==> PlainText(r.description.value) && Trimmed(r.description.value)
    ensures PlainText(DescriptionText(r)) && Trimmed(DescriptionText(r)) && DescriptionText(r) != ""
  {
    if !Truthy(r.description) {
      var d := "_Describe the requirement here_";
      TR.WordsPlain(d);
      assert Trimmed(d) by {
        assert d[0] == '_' && d[|d| - 1] == '_';
      }
    }
  }

  lemma NotesPlain(r: Req)
    requires Truthy(r.notes) ==> PlainText(r.notes.value)
    ensures PlainText(NotesText(r))
  {
    if !Truthy(r.notes) {
      TR.WordsPlain("_Implementation notes will be added here_");
    }
  }

  lemma TextBlockFits(name: string, t: string)
    requires PlainText(t) && Inert(name) && HashFree(name) && name != "Metadata"
    ensures AllFit([Block(name, Lines(t))])
  {
    TextLinesPlain(t);
  }

  lemma DescriptionFits(r: Req)
    requires Truthy(r.description) ==> PlainText(r.description.value) && Trimmed(r.description.value)
    ensures AllFit([Block("Description", Lines(DescriptionText(r)))])
  {
    DescriptionPlain(r);
    NameFine("Description");
    TextBlockFits("Description", DescriptionText(r));
  }

  lemma NotesFit(r: Req)
    requires Truthy(r.notes) ==> PlainText(r.notes.value)
    ensures AllFit([Block("Technical Notes", Lines(NotesText(r)))])
  {
    NotesPlain(r);
    NameFine("Technical Notes");
    TextBlockFits("Technical Notes", NotesText(r));
  }

  lemma FitFour(a: seq<Block>, b: seq<Block>, c: seq<Block>, d: seq<Block>)
    requires AllFit(a) && AllFit(b) && AllFit(c) && AllFit(d)
    ensures AllFit(a + b + c + d)
  {
    FitCat(a, b);
    FitCat(a + b, c);
    FitCat(a + b + c, d);
  }

  lemma BlocksFit(r: Req, today: string)
    requires Writable(r, today)
    ensures AllFit(SheetBlocks(r))
  {
    DescriptionFits(r);
    NotesFit(r);
    KindBlocksFit(r.kind);
    ListBlocksFit(r, today);
    FitFour([Block("Description", Lines(DescriptionText(r)))], KindBlocks(r.kind), ListBlocks(r),
            [Block("Technical Notes", Lines(NotesText(r)))]);
  }

  lemma LabelInert(kind: Option<string>)
    ensures Inert(LabelOf(kind))
  {
    if kind == Some("prd") {
      TR.WordsInert("Product Requirements Document");
    } else if kind == Some("tech-spec") {
      TR.WordsInert("Technical Specification");
    } else if kind == Some("user-story") {
      TR.WordsInert("User Story");
    } else if kind == Some("epic") {
      TR.WordsInert("Epic");
    } else if kind == Some("feature") {
      TR.WordsInert("Feature");
    } else {
      TR.WordsInert("Requirement");
    }
  }

  /** The head rows are a title, a blank line, the type line and a blank line. */
  lemma FourRowsGood(a: Row, b: Row, c: Row, d: Row)
    requires GoodRow(a) && KeyQuiet(a) && !a.Header? && GoodRow(c) && KeyQuiet(c) && !c.Header?
    requires b == Text("") && d == Text("")
    ensures GoodHead([a, b, c, d])
  {
  }

  lemma HeadGood(r: Req, today: string)
    requires r.id.Some? && Full(ReqRef, r.id.value) && r.title.Some? && Inert(r.title.value)
    ensures GoodHead(ReqSheet(r, today).head)
  {
    TR.FullInert(ReqRef, r.id.value);
    LabelInert(r.kind);
    assert Inert("> ");
    TR.WordsInert("Type");
    var e := TypeEntry(r);
    assert GoodEntry(e);
    FourRowsGood(Title(Show(r.id), Show(r.title)), Text(""), Meta(e), Text(""));
  }

  lemma SheetWellFormed(r: Req, today: string)
    requires Writable(r, today)
    ensures WellFormed(ReqSheet(r, today))
  {
    HeadGood(r, today);
    FieldsFit(r, today);
    MetaGood(Fields(r, today));
    PartsWell(r, today);
  }

  /** The sections of a generated requirement are good parts with distinct names. */
  lemma PartsWell(r: Req, today: string)
    requires Writable(r, today)
    ensures var ps := PartsOf(SheetBlocks(r));
      && (forall k :: 0 <= k < |ps| ==> GoodPart(ps[k]))
      && (forall j, k :: 0 <= j < k < |ps| ==> ps[j].name != ps[k].name)
  {
    BlocksFit(r, today);
    PartsGood(SheetBlocks(r));
    SheetNamed(r);
    NamesDistinct(r.kind);
  }

  // ---------------------------------------------------------------------------------------
  // Reading a sheet with requirement sections.

  /** A well-formed sheet whose head opens with a title line and holds no metadata line but the
      type, whose metadata is written from fields with distinct, fitting names, and whose
      sections are written from fitting blocks. */
  predicate ReqShaped(sh: Sheet, fs: seq<TD.Field>, bs: seq<Block>) {
    && WellFormed(sh) && sh.meta == TD.MetaOf(fs) && sh.parts == PartsOf(bs) && AllFit(bs)
    && |sh.head| >= 1 && sh.head[0].Title? && Full(ReqRef, sh.head[0].id) && sh.head[0].text != ""
    && (forall k :: 0 <= k < |sh.head| ==> sh.head[k].Meta? ==> sh.head[k].entry.name == "Type")
    && (forall i :: 0 <= i < |fs| ==> FieldFits(fs[i]))
    && (forall i, j :: 0 <= i < |fs| && 0 <= j < |fs| && i != j ==> fs[i].name != fs[j].name)
  }

  /** The head of a generated sheet: the title line first, the type its only metadata line. */
  lemma HeadShaped(r: Req, today: string)
    requires r.id.Some? && Full(ReqRef, r.id.value) && r.title.Some? && r.title.value != ""
    ensures var head := ReqSheet(r, today).head;
      && |head| >= 1 && head[0].Title? && Full(ReqRef, head[0].id) && head[0].text != ""
      && (forall k :: 0 <= k < |head| ==> head[k].Meta? ==> head[k].entry.name == "Type")
  {
    var head := ReqSheet(r, today).head;
    assert head == [Title(r.id.value, r.title.value), Text(""), Meta(TypeEntry(r)), Text("")];
  }

  lemma ReqSheetShaped(r: Req, today: string)
    requires Writable(r, today)
    ensures ReqShaped(ReqSheet(r, today), Fields(r, today), SheetBlocks(r))
  {
    SheetWellFormed(r, today);
    FieldsFit(r, today);
    FieldsDistinct(r, today);
    BlocksFit(r, today);
    HeadShaped(r, today);
  }

  /** The key line of a field captures the value written (no requirement field is read with
      the hours pattern). */
  lemma ReadEntry(sh: Sheet, fs: seq<TD.Field>, bs: seq<Block>, i: nat)
    requires ReqShaped(sh, fs, bs) && i < |fs| && fs[i].name != "Type" && KindOf(fs[i].name) != Hours
    ensures Value(Render(sh), fs[i].name) == fs[i].value
  {
    TR.LookupMetaOf(fs, i);
    ExtractEntry(sh, fs[i].name, KindOf(fs[i].name));
  }

  /** The section of part `k`, closed by the header of the part after it. */
  lemma SectionOf(sh: Sheet, k: nat, stop: Stop)
    requires WellFormed(sh) && k + 1 < |sh.parts| && (stop == NextHeader || stop == NextHeaderOrEnd)
    ensures SectionText(Render(sh), "## " + sh.parts[k].name, stop) == Some(Doc(sh.parts[k].body))
  {
    assert ("## " + sh.parts[k + 1].name)[..3] == "## ";
    PartSection(sh, k, stop);
  }

  /** A captured section split into lines. */
  function AsLines(x: Option<string>): Option<seq<string>> {
    match x
    case Some(b) => Some(Lines(b))
    case None => None
  }

  /** Section `k` read as lines: its block's lines and the blank line after them. */
  lemma ReadSection(sh: Sheet, fs: seq<TD.Field>, bs: seq<Block>, k: nat, stop: Stop, name: string, ls: seq<string>)
    requires ReqShaped(sh, fs, bs) && k + 1 < |bs| && bs[k] == Block(name, ls)
    requires stop == NextHeader || stop == NextHeaderOrEnd
    ensures SectionText(Render(sh), "## " + name, stop) == Some(Doc(TextRows(ls) + [Text("")]))
    ensures AsLines(SectionText(Render(sh), "## " + name, stop)) == Some(ls + [""])
  {
    SectionOf(sh, k, stop);
    assert BlockFits(bs[k]);
    TR.LinesPlain(ls);
    TR.BodyLines(ls);
  }

  lemma ItemsOfLines(x: Option<string>, ls: seq<string>, f: string -> Option<string>)
    requires AsLines(x) == Some(ls + [""]) && f("") == None
    ensures AsItems(x, f) == Some(Pick(ls, f))
  {
    PickAppend(ls, [""], f);
    assert Pick([""], f) == [] by {
      assert [""][1..] == [];
    }
    assert Pick(ls, f) + [] == Pick(ls, f);
  }

  // ---------------------------------------------------------------------------------------
  // Reading the lists back.

  /** A criterion line reads back as its text. */
  lemma BoxBack(x: string)
    ensures BoxText(CriterionLine(x)) == Some(x)
  {
    var l := CriterionLine(x);
    assert l[..6] == "- [ ] ";
    assert l[..3] == "- [" && l[3] == ' ' && l[4] == ']' && l[5] == ' ';
    assert l[6..] == x;
  }

  /** The criteria placeholder reads as one criterion. */
  lemma CriteriaPlaceholder()
    ensures Pick(["- [ ] _Add acceptance criteria_"], BoxText) == ["_Add acceptance criteria_"]
  {
    var x, l := "_Add acceptance criteria_", "- [ ] _Add acceptance criteria_";
    assert l[..6] == "- [ ] " && l[6..] == x;
    assert l == l[..6] + l[6..];
    assert CriterionLine(x) == l;
    BoxBack(x);
    assert [l][1..] == [];
  }

  lemma CriteriaBack(r: Req)
    ensures Pick(CriteriaLines(r), BoxText) == if NonEmpty(r.criteria) then r.criteria.value else ["_Add acceptance criteria_"]
  {
    if NonEmpty(r.criteria) {
      forall i | 0 <= i < |r.criteria.value| ensures BoxText(CriterionLine(r.criteria.value[i])) == Some(r.criteria.value[i]) {
        BoxBack(r.criteria.value[i]);
      }
      PickMap(r.criteria.value, CriterionLine, BoxText);
    } else {
      CriteriaPlaceholder();
    }
  }

  /** A bulleted reference reads back as the reference. */
  lemma RefBack(x: string, v: Val)
    requires (v == TaskRef || v == ReqRef) && Full(v, x)
    ensures RefOf(ItemLine(x), v) == Some(x)
  {
    var l := ItemLine(x);
    assert l[..2] == "- ";
    assert forall j :: 2 <= j < 2 + |x| ==> l[j] == x[j - 2];
    if v == TaskRef {
      TaskRefFull(l, 2, x);
    } else {
      ReqRefFull(l, 2, x);
    }
    assert l[2..2 + |x|] == x;
  }

  /** The references of a list section, or none for its placeholder (a line that does not
      start with `- `). */
  lemma RefsBack(xs: Option<seq<string>>, none: string, v: Val, f: string -> Option<string>)
    requires v == TaskRef || v == ReqRef
    requires forall l :: f(l) == RefOf(l, v)
    requires xs.Some? ==> forall i :: 0 <= i < |xs.value| ==> Full(v, xs.value[i])
    requires |none| >= 2 && none[0] == '_'
    ensures Pick(ListLines(xs, none), f) == if NonEmpty(xs) then xs.value else []
  {
    if NonEmpty(xs) {
      forall i | 0 <= i < |xs.value| ensures f(ItemLine(xs.value[i])) == Some(xs.value[i]) {
        RefBack(xs.value[i], v);
      }
      PickMap(xs.value, ItemLine, f);
    } else {
      assert none[..2][0] == '_';
      assert [none][1..] == [];
    }
  }

  /** A question line reads back as the question. */
  lemma QuestionBack(q: string)
    ensures QuestionOf(QuestionLine(q)) == Some(q)
  {
    var l := QuestionLine(q);
    assert l[..4] == "- ? ";
    assert l[..3] == "- ?" && l[3] == ' ';
    assert l[4..] == q;
  }

  lemma QuestionsBack(r: Req)
    ensures Pick(QuestionLines(r), QuestionOf) == if NonEmpty(r.openQuestions) then r.openQuestions.value else []
  {
    if NonEmpty(r.openQuestions) {
      forall i | 0 <= i < |r.openQuestions.value|
        ensures QuestionOf(QuestionLine(r.openQuestions.value[i])) == Some(r.openQuestions.value[i])
      {
        QuestionBack(r.openQuestions.value[i]);
      }
      PickMap(r.openQuestions.value, QuestionLine, QuestionOf);
    } else {
      assert "_No open questions_"[..3][0] == '_';
      assert ["_No open questions_"][1..] == [];
    }
  }

  // ---------------------------------------------------------------------------------------
  // The round trip.

  lemma IndexFour<T>(a: seq<T>, b: seq<T>, c: seq<T>, d: seq<T>, j: nat)
    requires j < |c| && |d| > 0
    ensures |a| + |b| + j + 1 < |a + b + c + d|
    ensures (a + b + c + d)[|a| + |b| + j] == c[j]
  {
  }

  /** The list sections sit after the description and the type's template sections, and the
      notes come after them. */
  lemma ListBlockAt(r: Req, j: nat)
    requires j < 5
    ensures 1 + |KindBlocks(r.kind)| + j + 1 < |SheetBlocks(r)|
    ensures SheetBlocks(r)[1 + |KindBlocks(r.kind)| + j] == ListBlocks(r)[j]
  {
    IndexFour([Block("Description", Lines(DescriptionText(r)))], KindBlocks(r.kind), ListBlocks(r),
              [Block("Technical Notes", Lines(NotesText(r)))], j);
  }

  /** One metadata line read back from a sheet shaped like a generated one. */
  lemma ReadNamed(r: Req, today: string, sh: Sheet, i: nat, name: string, x: Option<string>)
    requires ReqShaped(sh, Fields(r, today), SheetBlocks(r))
    requires i < |Fields(r, today)| && Fields(r, today)[i] == TD.Field(name, x)
    requires name != "Type" && KindOf(name) != Hours
    ensures Value(Render(sh), name) == x
  {
    ReadEntry(sh, Fields(r, today), SheetBlocks(r), i);
  }

  /** The dated metadata read back from a generated sheet. */
  lemma ReadDates(r: Req, today: string, sh: Sheet)
    requires ReqShaped(sh, Fields(r, today), SheetBlocks(r))
    ensures var c := Render(sh);
      && Value(c, "Status") == Some(OrElse(r.status, "draft"))
      && Value(c, "Priority") == Some(OrElse(r.priority, "P2"))
      && Value(c, "Created") == Some(OrElse(r.created, today))
      && Value(c, "Updated") == Some(today)
  {
    ReadNamed(r, today, sh, 0, "Status", Some(OrElse(r.status, "draft")));
    ReadNamed(r, today, sh, 1, "Priority", Some(OrElse(r.priority, "P2")));
    ReadNamed(r, today, sh, 2, "Created", Some(OrElse(r.created, today)));
    ReadNamed(r, today, sh, 3, "Updated", Some(today));
  }

  /** The author and the repositories read back from a generated sheet. */
  lemma ReadPeople(r: Req, today: string, sh: Sheet)
    requires ReqShaped(sh, Fields(r, today), SheetBlocks(r))
    requires r.repos.Some? ==> ListItems(r.repos.value)
    ensures var c := Render(sh);
      && Value(c, "Author") == Some(OrElse(r.author, "Unknown"))
      && TD.AsList(Value(c, "Repos")) == if NonEmpty(r.repos) then r.repos else None
  {
    ReadNamed(r, today, sh, 4, "Author", Some(OrElse(r.author, "Unknown")));
    ReadNamed(r, today, sh, 5, "Repos", TD.IfList(r.repos));
    if NonEmpty(r.repos) {
      ListRoundTrip(r.repos.value);
    }
  }

  lemma ReadTitle(r: Req, today: string, sh: Sheet)
    requires ReqShaped(sh, Fields(r, today), SheetBlocks(r)) && sh.head[0] == Title(Show(r.id), Show(r.title))
    requires r.title.Some?
    ensures Extract(TitlePat(ReqRef), Render(sh)) == r.title
  {
    HeadTitle(sh, ReqRef);
  }

  lemma DescriptionAt(r: Req)
    ensures |SheetBlocks(r)| > 1 && SheetBlocks(r)[0] == Block("Description", Lines(DescriptionText(r)))
  {
    var first := [Block("Description", Lines(DescriptionText(r)))];
    var rest := KindBlocks(r.kind) + ListBlocks(r) + [Block("Technical Notes", Lines(NotesText(r)))];
    assert SheetBlocks(r) == first + rest;
  }

  /** The description section reads back, trimmed, as the description. */
  lemma ReadProse(sh: Sheet, fs: seq<TD.Field>, bs: seq<Block>, d: string)
    requires ReqShaped(sh, fs, bs) && 1 < |bs| && bs[0] == Block("Description", Lines(d))
    requires PlainText(d) && Trimmed(d) && d != ""
    ensures TD.AsTrimmed(SectionText(Render(sh), Heading("Description"), NextHeader)) == Some(d)
  {
    ReadSection(sh, fs, bs, 0, NextHeader, "Description", Lines(d));
    TR.ProseBack(d);
  }

  lemma ReadDescription(r: Req, today: string, sh: Sheet)
    requires ReqShaped(sh, Fields(r, today), SheetBlocks(r))
    requires Truthy(r.description) ==> PlainText(r.description.value) && Trimmed(r.description.value)
    ensures TD.AsTrimmed(SectionText(Render(sh), Heading("Description"), NextHeader)) == Some(DescriptionText(r))
  {
    DescriptionAt(r);
    DescriptionPlain(r);
    ReadProse(sh, Fields(r, today), SheetBlocks(r), DescriptionText(r));
  }

  /** The items of a section, each line read by `f`. */
  lemma ReadItems(sh: Sheet, fs: seq<TD.Field>, bs: seq<Block>, k: nat, stop: Stop, hdr: string, name: string,
                  ls: seq<string>, f: string -> Option<string>, want: seq<string>)
    requires ReqShaped(sh, fs, bs) && k + 1 < |bs| && bs[k] == Block(name, ls) && hdr == Heading(name)
    requires (stop == NextHeader || stop == NextHeaderOrEnd) && f("") == None && Pick(ls, f) == want
    ensures AsItems(SectionText(Render(sh), hdr, stop), f) == Some(want)
  {
    ReadSection(sh, fs, bs, k, stop, name, ls);
    ItemsOfLines(SectionText(Render(sh), "## " + name, stop), ls, f);
  }

  /** Where the list sections sit, and what they hold. */
  lemma ListsPlaced(r: Req)
    ensures var n, bs := 1 + |KindBlocks(r.kind)|, SheetBlocks(r);
      && n + 5 < |bs|
      && bs[n] == Block("Acceptance Criteria", CriteriaLines(r))
      && bs[n + 2] == Block("Related Requirements", ListLines(r.linkedRequirements, "_No related requirements_"))
      && bs[n + 3] == Block("Linked Tasks", ListLines(r.linkedTasks, "_No tasks linked yet_"))
      && bs[n + 4] == Block("Open Questions", QuestionLines(r))
  {
    ListBlockAt(r, 0);
    ListBlockAt(r, 2);
    ListBlockAt(r, 3);
    ListBlockAt(r, 4);
  }

  lemma ReadCriteria(r: Req, sh: Sheet, fs: seq<TD.Field>, bs: seq<Block>, k: nat)
    requires ReqShaped(sh, fs, bs) && k + 1 < |bs| && bs[k] == Block("Acceptance Criteria", CriteriaLines(r))
    ensures AsItems(SectionText(Render(sh), Heading("Acceptance Criteria"), NextHeader), BoxText)
      == Some(if NonEmpty(r.criteria) then r.criteria.value else ["_Add acceptance criteria_"])
  {
    CriteriaBack(r);
    ReadItems(sh, fs, bs, k, NextHeader, Heading("Acceptance Criteria"), "Acceptance Criteria", CriteriaLines(r), BoxText,
              if NonEmpty(r.criteria) then r.criteria.value else ["_Add acceptance criteria_"]);
  }

  lemma ReadRelated(xs: Option<seq<string>>, sh: Sheet, fs: seq<TD.Field>, bs: seq<Block>, k: nat)
    requires ReqShaped(sh, fs, bs) && k + 1 < |bs|
    requires bs[k] == Block("Related Requirements", ListLines(xs, "_No related requirements_"))
    requires xs.Some? ==> forall i :: 0 <= i < |xs.value| ==> Full(ReqRef, xs.value[i])
    ensures AsItems(SectionText(Render(sh), Heading("Related Requirements"), NextHeader), ReqRefOf) == Listed(xs)
  {
    RefsBack(xs, "_No related requirements_", ReqRef, ReqRefOf);
    ReadItems(sh, fs, bs, k, NextHeader, Heading("Related Requirements"), "Related Requirements",
              ListLines(xs, "_No related requirements_"), ReqRefOf, Listed(xs).value);
  }

  lemma ReadLinkedTasks(xs: Option<seq<string>>, sh: Sheet, fs: seq<TD.Field>, bs: seq<Block>, k: nat)
    requires ReqShaped(sh, fs, bs) && k + 1 < |bs|
    requires bs[k] == Block("Linked Tasks", ListLines(xs, "_No tasks linked yet_"))
    requires xs.Some? ==> forall i :: 0 <= i < |xs.value| ==> Full(TaskRef, xs.value[i])
    ensures AsItems(SectionText(Render(sh), Heading("Linked Tasks"), NextHeader), TaskRefOf) == Listed(xs)
  {
    RefsBack(xs, "_No tasks linked yet_", TaskRef, TaskRefOf);
    ReadItems(sh, fs, bs, k, NextHeader, Heading("Linked Tasks"), "Linked Tasks",
              ListLines(xs, "_No tasks linked yet_"), TaskRefOf, Listed(xs).value);
  }

  lemma ReadQuestions(r: Req, sh: Sheet, fs: seq<TD.Field>, bs: seq<Block>, k: nat)
    requires ReqShaped(sh, fs, bs) && k + 1 < |bs| && bs[k] == Block("Open Questions", QuestionLines(r))
    ensures AsItems(SectionText(Render(sh), Heading("Open Questions"), NextHeaderOrEnd), QuestionOf) == Listed(r.openQuestions)
  {
    QuestionsBack(r);
    ReadItems(sh, fs, bs, k, NextHeaderOrEnd, Heading("Open Questions"), "Open Questions", QuestionLines(r), QuestionOf,
              Listed(r.openQuestions).value);
  }

  /** The list sections read back from a generated sheet. */
  lemma ReadLists(r: Req, today: string)
    requires Writable(r, today)
    ensures var c := Render(ReqSheet(r, today));
      && AsItems(SectionText(c, Heading("Acceptance Criteria"), NextHeader), BoxText)
           == Some(if NonEmpty(r.criteria) then r.criteria.value else ["_Add acceptance criteria_"])
      && AsItems(SectionText(c, Heading("Related Requirements"), NextHeader), ReqRefOf) == Listed(r.linkedRequirements)
      && AsItems(SectionText(c, Heading("Linked Tasks"), NextHeader), TaskRefOf) == Listed(r.linkedTasks)
      && AsItems(SectionText(c, Heading("Open Questions"), NextHeaderOrEnd), QuestionOf) == Listed(r.openQuestions)
  {
    var sh, fs, bs, n := ReqSheet(r, today), Fields(r, today), SheetBlocks(r), 1 + |KindBlocks(r.kind)|;
    ReqSheetShaped(r, today);
    ListsPlaced(r);
    ReadCriteria(r, sh, fs, bs, n);
    ReadRelated(r.linkedRequirements, sh, fs, bs, n + 2);
    ReadLinkedTasks(r.linkedTasks, sh, fs, bs, n + 3);
    ReadQuestions(r, sh, fs, bs, n + 4);
  }

  /** `parseRequirementFile(generateRequirementContent(req), filename)` is the requirement as
      the generator completed it: the id and the type come from the file name, every property
      written is read back with its default (the author `Unknown`), `updated` is the day of
      writing, the criteria placeholder comes back as one criterion and the other placeholders
      as empty lists; the dependencies and the notes are written but never read. */
  lemma ReqRoundTrip(r: Req, today: string, filename: string)
    requires Writable(r, today)
    ensures ParseRequirement(GenerateRequirementContent(r, today), filename) == Canon(r, today, filename)
  {
    var sh := ReqSheet(r, today);
    GenerateSheet(r, today);
    ReqSheetShaped(r, today);
    ReadDates(r, today, sh);
    ReadPeople(r, today, sh);
    ReadTitle(r, today, sh);
    ReadDescription(r, today, sh);
    ReadLists(r, today);
  }
}

=== FILE: store.dfy ===
/** The folder store both modules keep their documents in: one folder per status under a root,
    each holding markdown files. The file system calls a handler makes are listed as operations
    and run in order; a failing call (writing into a missing folder, unlinking a missing file)
    stops the handler, which is how an exception escapes a tool handler. */
module Store {
  import opened Common
  import opened Text
  import opened Numbers
  import opened Pattern

  /** A file of a folder: its name and its text. */
  datatype File = File(name: string, text: string)

  /** The folders under one root by name; each lists its files in directory order. */
  type Store = map<string, seq<File>>

  /** `writeFile(join(root, dir, name), text)` and `unlink(join(root, dir, name))`. */
  datatype Op = Write(dir: string, name: string, text: string) | Unlink(dir: string, name: string)

  /** Where a file of that name sits in a folder listing. */
  function IndexOf(files: seq<File>, name: string): (r: Option<nat>)
    ensures r.Some? ==> r.value < |files| && files[r.value].name == name
    ensures r.Some? ==> forall j :: 0 <= j < r.value ==> files[j].name != name
    ensures r.None? ==> forall j :: 0 <= j < |files| ==> files[j].name != name
  {
    if |files| == 0 then None
    else if files[0].name == name then Some(0)
    else match IndexOf(files[1..], name)
      case Some(i) => Some(i + 1)
      case None => None
  }

  predicate Has(files: seq<File>, name: string) { exists j :: 0 <= j < |files| && files[j].name == name }

  /** A directory never lists one name twice. */
  predicate Unique(files: seq<File>) {
    forall i, j :: 0 <= i < j < |files| ==> files[i].name != files[j].name
  }

  predicate Valid(s: Store) { forall d :: d in s ==> Unique(s[d]) }

  /** A folder name that `path.join` leaves as it is: not empty, not `.` or `..`, and without
      a `/`. Any other name can denote another folder once the path is normalised. */
  predicate PlainName(d: string) {
    d != "" && d != "." && d != ".." && forall k :: 0 <= k < |d| ==> d[k] != '/'
  }

  /** The folder after writing: an existing file keeps its place, a new one is listed last. */
  function Written(files: seq<File>, name: string, text: string): seq<File> {
    match IndexOf(files, name)
    case Some(i) => files[i := File(name, text)]
    case None => files + [File(name, text)]
  }

  /** The folder after removing a file. */
  function Removed(files: seq<File>, name: string): seq<File> {
    match IndexOf(files, name)
    case Some(i) => files[..i] + files[i + 1..]
    case None => files
  }

  /** The text of a named file, if the folder holds one. */
  function Read(files: seq<File>, name: string): Option<string> {
    match IndexOf(files, name)
    case Some(i) => Some(files[i].text)
    case None => None
  }

  /** The position of a name depends only on the names listed. */
  lemma {:induction false} IndexOfNames(a: seq<File>, b: seq<File>, name: string)
    requires |a| == |b| && forall j :: 0 <= j < |a| ==> a[j].name == b[j].name
    ensures IndexOf(a, name) == IndexOf(b, name)
    decreases |a|
  {
    if |a| > 0 {
      IndexOfNames(a[1..], b[1..], name);
    }
  }

  lemma ReadWritten(files: seq<File>, name: string, text: string, other: string)
    requires Unique(files)
    ensures Unique(Written(files, name, text))
    ensures Read(Written(files, name, text), name) == Some(text)
    ensures other != name ==> Read(Written(files, name, text), other) == Read(files, other)
  {
    var w := Written(files, name, text);
    match IndexOf(files, name) {
      case Some(i) =>
        IndexOfNames(files, w, other);
        IndexOfNames(files, w, name);
      case None =>
        assert w[|files|].name == name;
        IndexOfNames(files, w[..|files|], other);
        match IndexOf(files, other) {
          case Some(k) =>
            assert w[k].name == other;
          case None =>
        }
    }
  }

  lemma ReadRemoved(files: seq<File>, name: string, other: string)
    requires Unique(files)
    ensures Unique(Removed(files, name))
    ensures Read(Removed(files, name), name).None?
    ensures other != name ==> Read(Removed(files, name), other) == Read(files, other)
  {
    var w := Removed(files, name);
    match IndexOf(files, name) {
      case Some(i) =>
        assert forall j :: 0 <= j < |w| ==> w[j] == if j < i then files[j] else files[j + 1];
        match IndexOf(files, other) {
          case Some(k) =>
            if other != name {
              var k' := if k < i then k else k - 1;
              assert w[k'].name == other;
            }
          case None =>
        }
      case None =>
    }
  }

  /** Rewriting a listed file keeps every name of the listing in its place. */
  lemma WrittenSameNames(files: seq<File>, name: string, text: string)
    requires Has(files, name)
    ensures var w := Written(files, name, text);
      |w| == |files| && forall j :: 0 <= j < |files| ==> w[j].name == files[j].name
  {
  }

  /** A name new to the folder is listed last. */
  lemma WrittenNew(files: seq<File>, name: string, text: string)
    requires !Has(files, name)
    ensures Written(files, name, text) == files + [File(name, text)]
  {
  }

  /** A lookup by a prefix no earlier name starts with finds the file listed last. */
  lemma {:induction false} FindInLast(files: seq<File>, f: File, id: string)
    requires forall j :: 0 <= j < |files| ==> !StartsWith(files[j].name, id)
    requires StartsWith(f.name, id) && EndsWith(f.name, ".md")
    ensures FindIn(files + [f], id) == Some(|files|)
    decreases |files|
  {
    if |files| > 0 {
      assert (files + [f])[1..] == files[1..] + [f];
      FindInLast(files[1..], f, id);
    }
  }

  /** One call. Writing needs the folder; unlinking needs the file. */
  function Apply(s: Store, op: Op): Option<Store> {
    match op
    case Write(d, n, t) => if d in s then Some(s[d := Written(s[d], n, t)]) else None
    case Unlink(d, n) => if d in s && Has(s[d], n) then Some(s[d := Removed(s[d], n)]) else None
  }

  /** The store after a handler's calls, and whether all of them succeeded. */
  datatype Ran = Ran(store: Store, ok: bool)

  function Run(s: Store, ops: seq<Op>): (r: Ran)
    ensures |ops| == 0 ==> r == Ran(s, true)
  {
    if |ops| == 0 then Ran(s, true)
    else match Apply(s, ops[0])
      case None => Ran(s, false)
      case Some(s') => Run(s', ops[1..])
  }

  /** `ensureDirectoriesSync`: every listed folder exists afterwards, empty if it was missing. */
  function Ensure(s: Store, dirs: seq<string>): (r: Store)
    ensures forall d :: d in r <==> d in s || d in dirs
    ensures forall d :: d in s ==> r[d] == s[d]
    ensures forall d :: d in r && d !in s ==> r[d] == []
    decreases |dirs|
  {
    if |dirs| == 0 then s
    else if dirs[0] in s then Ensure(s, dirs[1..])
    else Ensure(s[dirs[0] := []], dirs[1..])
  }

  /** A markdown document of a listing (`file.endsWith(".md") && file !== "README.md"`). */
  predicate IsDoc(name: string) { EndsWith(name, ".md") && name != "README.md" }

  /** The documents of one folder listing, in order, each with the folder it sits in. */
  function Docs(d: string, files: seq<File>): (r: seq<(string, File)>)
    ensures |r| <= |files|
    ensures forall k :: 0 <= k < |r| ==> r[k].0 == d && IsDoc(r[k].1.name)
  {
    if |files| == 0 then []
    else (if IsDoc(files[0].name) then [(d, files[0])] else []) + Docs(d, files[1..])
  }

  /** The documents of the given folders, folder by folder in the order given; a folder
      missing from the store is skipped, as the handlers swallow the read error. */
  function Listing(s: Store, dirs: seq<string>): (r: seq<(string, File)>)
    ensures forall k :: 0 <= k < |r| ==> r[k].0 in dirs && r[k].0 in s && IsDoc(r[k].1.name)
  {
    if |dirs| == 0 then []
    else (if dirs[0] in s then Docs(dirs[0], s[dirs[0]]) else []) + Listing(s, dirs[1..])
  }

  lemma {:induction false} DocsMembers(d: string, files: seq<File>, e: (string, File))
    ensures e in Docs(d, files) <==> e.0 == d && e.1 in files && IsDoc(e.1.name)
    decreases |files|
  {
    if |files| > 0 {
      DocsMembers(d, files[1..], e);
      assert files == [files[0]] + files[1..];
    }
  }

  /** A listing holds exactly the documents of the named folders that exist. */
  lemma {:induction false} ListingMembers(s: Store, dirs: seq<string>, e: (string, File))
    ensures e in Listing(s, dirs) <==> e.0 in dirs && e.0 in s && e.1 in s[e.0] && IsDoc(e.1.name)
    decreases |dirs|
  {
    if |dirs| > 0 {
      ListingMembers(s, dirs[1..], e);
      if dirs[0] in s {
        DocsMembers(dirs[0], s[dirs[0]], e);
      }
      assert dirs == [dirs[0]] + dirs[1..];
    }
  }

  /** A file found by id: its folder and the file. */
  datatype Located = Located(dir: string, file: File)

  /** The first file of `files` whose name starts with `id` and ends in `.md`. */
  function FindIn(files: seq<File>, id: string): (r: Option<nat>)
    ensures r.Some? ==> r.value < |files| && StartsWith(files[r.value].name, id) && EndsWith(files[r.value].name, ".md")
    ensures r.Some? ==> forall j :: 0 <= j < r.value ==> !(StartsWith(files[j].name, id) && EndsWith(files[j].name, ".md"))
    ensures r.None? ==> forall j :: 0 <= j < |files| ==> !(StartsWith(files[j].name, id) && EndsWith(files[j].name, ".md"))
  {
    if |files| == 0 then None
    else if StartsWith(files[0].name, id) && EndsWith(files[0].name, ".md") then Some(0)
    else match FindIn(files[1..], id)
      case Some(i) => Some(i + 1)
      case None => None
  }

  /** `findTask` / `findRequirement`: the folders in status order, each in listing order; a
      folder that cannot be read is skipped. */
  function Find(s: Store, dirs: seq<string>, id: string): (r: Option<Located>)
    ensures r.Some? ==> r.value.dir in dirs && r.value.dir in s
    ensures r.Some? ==> StartsWith(r.value.file.name, id) && EndsWith(r.value.file.name, ".md")
    ensures r.Some? ==> exists j :: 0 <= j < |s[r.value.dir]| && s[r.value.dir][j] == r.value.file
    ensures r.None? ==> forall d, j :: d in dirs && d in s && 0 <= j < |s[d]| ==>
      !(StartsWith(s[d][j].name, id) && EndsWith(s[d][j].name, ".md"))
  {
    if |dirs| == 0 then None
    else if dirs[0] in s && FindIn(s[dirs[0]], id).Some? then
      Some(Located(dirs[0], s[dirs[0]][FindIn(s[dirs[0]], id).value]))
    else Find(s, dirs[1..], id)
  }

  // ---------------------------------------------------------------------------------------
  // Id allocation: `^<PREFIX>-(\d+)` over every file name, the largest number plus one.

  /** The number a file name carries after `<prefix>-`, if its name starts that way. */
  function NumberIn(prefix: string, name: string): Option<nat> {
    var p := |prefix| + 1;
    if StartsWith(name, prefix + "-") then
      var e := RunEnd(name, p, DigitChars);
      if e > p then Some(ParseDigits(name[p..e])) else None
    else None
  }

  function MaxIn(files: seq<File>, prefix: string): (m: nat)
    ensures forall j, n :: 0 <= j < |files| && NumberIn(prefix, files[j].name) == Some(n) ==> n <= m
  {
    if |files| == 0 then 0
    else
      var rest := MaxIn(files[1..], prefix);
      match NumberIn(prefix, files[0].name)
      case Some(n) => if n > rest then n else rest
      case None => rest
  }

  /** The largest number over the folders `dirs`; folders that do not exist count as empty. */
  function MaxOver(s: Store, dirs: seq<string>, prefix: string): (m: nat)
    ensures forall d, j, n :: d in dirs && d in s && 0 <= j < |s[d]| && NumberIn(prefix, s[d][j].name) == Some(n) ==> n <= m
  {
    if |dirs| == 0 then 0
    else
      var here := if dirs[0] in s then MaxIn(s[dirs[0]], prefix) else 0;
      var rest := MaxOver(s, dirs[1..], prefix);
      if here > rest then here else rest
  }

  /** `${prefix}-${String(maxNum + 1).padStart(3, "0")}`. */
  function NewId(s: Store, dirs: seq<string>, prefix: string): string {
    prefix + "-" + PadZeros(NatToString(MaxOver(s, dirs, prefix) + 1), 3)
  }

  /** Digits appended to a digit string never make its value smaller. */
  lemma {:induction false} ParseDigitsGrows(x: string, y: string)
    requires AllDigits(x) && AllDigits(y)
    ensures AllDigits(x + y) && ParseDigits(x + y) >= ParseDigits(x)
    decreases |y|
  {
    if |y| > 0 {
      var y' := y[..|y| - 1];
      assert (x + y)[..|x + y| - 1] == x + y';
      ParseDigitsGrows(x, y');
    } else {
      assert x + y == x;
    }
  }

  /** The number read from a name that starts with a fresh id, followed by a non-digit. */
  lemma NumberOfNewName(prefix: string, digits: string, rest: string)
    requires AllDigits(digits) && |digits| > 0
    requires |rest| == 0 || !IsDigit(rest[0])
    ensures NumberIn(prefix, prefix + "-" + digits + rest) == Some(ParseDigits(digits))
  {
    var name := prefix + "-" + digits + rest;
    var p := |prefix| + 1;
    assert name[..p] == prefix + "-";
    assert forall j :: p <= j < p + |digits| ==> name[j] == digits[j - p];
    RunEndIs(name, p, DigitChars, p + |digits|);
    assert name[p..p + |digits|] == digits;
  }

  /** The new id carries a number larger than every number in the folders searched, and no
      existing file name there starts with it, so the id is free and a lookup by it cannot
      land on an older file. */
  lemma NewIdFresh(s: Store, dirs: seq<string>, prefix: string)
    ensures var digits := PadZeros(NatToString(MaxOver(s, dirs, prefix) + 1), 3);
      AllDigits(digits) && |digits| >= 3 && ParseDigits(digits) == MaxOver(s, dirs, prefix) + 1
    ensures forall d, j, n :: d in dirs && d in s && 0 <= j < |s[d]| && NumberIn(prefix, s[d][j].name) == Some(n) ==>
      n < MaxOver(s, dirs, prefix) + 1
    ensures forall d, j :: d in dirs && d in s && 0 <= j < |s[d]| ==> !StartsWith(s[d][j].name, NewId(s, dirs, prefix))
  {
    var m := MaxOver(s, dirs, prefix);
    var digits := PadZeros(NatToString(m + 1), 3);
    PaddedRoundTrip(m + 1, 3);
    var id := NewId(s, dirs, prefix);
    forall d, j | d in dirs && d in s && 0 <= j < |s[d]| ensures !StartsWith(s[d][j].name, id) {
      var name := s[d][j].name;
      if StartsWith(name, id) {
        NameNumberAtLeast(prefix, digits, name);
      }
    }
  }

  /** A name that starts with `<prefix>-<digits>` carries at least the number of `digits`. */
  lemma NameNumberAtLeast(prefix: string, digits: string, name: string)
    requires AllDigits(digits) && |digits| > 0
    requires StartsWith(name, prefix + "-" + digits)
    ensures NumberIn(prefix, name).Some? && NumberIn(prefix, name).value >= ParseDigits(digits)
  {
    var p := |prefix| + 1;
    var k := prefix + "-" + digits;
    assert name[..|k|] == k;
    assert name[..p] == k[..p] == prefix + "-";
    assert forall j :: p <= j < |k| ==> name[j] == k[j] == digits[j - p];
    var e := RunEnd(name, p, DigitChars);
    assert forall j :: p <= j < |k| ==> InClass(name[j], DigitChars);
    assert e >= |k|;
    assert name[p..e] == digits + name[|k|..e];
    ParseDigitsGrows(digits, name[|k|..e]);
  }

  // ---------------------------------------------------------------------------------------
  // Moving a file to another status folder.

  /** How the status handlers move a file: write it under the new folder, then unlink it from
      the old one. When both folders are the same, the unlink removes what was just written. */
  function MoveAsWritten(from: string, to: string, name: string, text: string): seq<Op> {
    [Write(to, name, text), Unlink(from, name)]
  }

  /** The move with the same-folder case kept: the file is rewritten in place. */
  function Move(from: string, to: string, name: string, text: string): seq<Op> {
    if from == to then [Write(to, name, text)] else MoveAsWritten(from, to, name, text)
  }

  lemma RunTwo(s: Store, a: Op, b: Op)
    ensures Run(s, [a, b]) ==
      match Apply(s, a)
      case None => Ran(s, false)
      case Some(s1) => match Apply(s1, b) case None => Ran(s1, false) case Some(s2) => Ran(s2, true)
  {
    assert [a, b][1..] == [b];
    assert [b][1..] == [];
  }

  /** The file `name` is gone from folder `d`, and every other file of every folder is as it was. */
  ghost predicate Lost(s: Store, r: Ran, d: string, name: string) {
    && r.ok && Valid(r.store) && r.store.Keys == s.Keys
    && d in r.store && Read(r.store[d], name).None?
    && (forall d', n :: d' in s && (d' != d || n != name) ==> Read(r.store[d'], n) == Read(s[d'], n))
  }

  /** Moving a file into the folder it is already in deletes it: the unlink removes what the
      write has just put there. */
  lemma MoveAsWrittenLoses(s: Store, d: string, name: string, text: string)
    requires d in s && Valid(s)
    ensures Lost(s, Run(s, MoveAsWritten(d, d, name, text)), d, name)
  {
    RunTwo(s, Write(d, name, text), Unlink(d, name));
    var s1 := s[d := Written(s[d], name, text)];
    forall n {
      ReadWritten(s[d], name, text, n);
    }
    assert Has(s1[d], name) by {
      ReadWritten(s[d], name, text, name);
      assert IndexOf(s1[d], name).Some?;
      var i := IndexOf(s1[d], name).value;
    }
    forall n {
      ReadRemoved(s1[d], name, n);
    }
  }

  /** The corrected move leaves the file, with its new text, in the target folder and nowhere
      in the source folder; every other file stays as it was. */
  lemma MoveKeeps(s: Store, from: string, to: string, name: string, text: string)
    requires from in s && to in s && Valid(s) && Has(s[from], name)
    ensures Run(s, Move(from, to, name, text)).ok
    ensures var r := Run(s, Move(from, to, name, text)).store;
      Valid(r) && r.Keys == s.Keys
      && Read(r[to], name) == Some(text)
      && (from != to ==> Read(r[from], name).None?)
      && (forall d, n :: d in s && ((d != from && d != to) || n != name) ==> Read(r[d], n) == Read(s[d], n))
  {
    var s1 := s[to := Written(s[to], name, text)];
    forall n {
      ReadWritten(s[to], name, text, n);
    }
    if from == to {
      assert Move(from, to, name, text)[1..] == [];
    } else {
      RunTwo(s, Write(to, name, text), Unlink(from, name));
      assert s1[from] == s[from];
      var r := s1[from := Removed(s1[from], name)];
      forall n {
        ReadRemoved(s1[from], name, n);
      }
      assert Run(s, Move(from, to, name, text)).store == r;
    }
  }

  /** Running two lists of calls one after the other. */
  lemma {:induction false} RunAppend(s: Store, a: seq<Op>, b: seq<Op>)
    ensures Run(s, a + b) == if Run(s, a).ok then Run(Run(s, a).store, b) else Run(s, a)
    decreases |a|
  {
    if |a| == 0 {
      assert a + b == b;
    } else {
      assert (a + b)[0] == a[0] && (a + b)[1..] == a[1..] + b;
      match Apply(s, a[0]) {
        case None =>
        case Some(s1) => RunAppend(s1, a[1..], b);
      }
    }
  }

  /** The file `name` now holds `text` in folder `to` and is gone from `from` (when that is
      another folder); every other file of every folder is as it was. */
  ghost predicate Relocated(s: Store, r: Ran, from: string, to: string, name: string, text: string) {
    && r.ok && Valid(r.store) && r.store.Keys == s.Keys
    && to in r.store && Read(r.store[to], name) == Some(text)
    && (from != to ==> from in r.store && Read(r.store[from], name).None?)
    && (forall d, n :: d in s && ((d != from && d != to) || n != name) ==> Read(r.store[d], n) == Read(s[d], n))
  }

  /** Creating folders that all exist already changes nothing. */
  lemma EnsureIdle(s: Store, dirs: seq<string>)
    requires forall d :: d in dirs ==> d in s
    ensures Ensure(s, dirs) == s
  {
    var r := Ensure(s, dirs);
    assert r.Keys == s.Keys;
  }

  /** Which file a lookup by prefix lands on depends only on the names listed. */
  lemma {:induction false} FindInNames(a: seq<File>, b: seq<File>, id: string)
    requires |a| == |b| && forall j :: 0 <= j < |a| ==> a[j].name == b[j].name
    ensures FindIn(a, id) == FindIn(b, id)
    decreases |a|
  {
    if |a| > 0 {
      FindInNames(a[1..], b[1..], id);
    }
  }

  /** Rewriting a listed file leaves every lookup where it was; a lookup that landed on the
      rewritten file now sees its new text. */
  lemma {:induction false} FindAfterWrite(s: Store, dirs: seq<string>, id: string, d: string, n: string, t: string)
    requires Valid(s) && d in s && Has(s[d], n)
    ensures Find(s[d := Written(s[d], n, t)], dirs, id) ==
      match Find(s, dirs, id)
      case None => None
      case Some(loc) => Some(if loc.dir == d && loc.file.name == n then Located(d, File(n, t)) else loc)
    decreases |dirs|
  {
    var s' := s[d := Written(s[d], n, t)];
    var w := Written(s[d], n, t);
    WrittenSameNames(s[d], n, t);
    FindInNames(s[d], w, id);
    if |dirs| > 0 {
      FindAfterWrite(s, dirs[1..], id, d, n, t);
      if dirs[0] == d && FindIn(s[d], id).Some? {
        var j := FindIn(s[d], id).value;
        var i := IndexOf(s[d], n).value;
        assert w == s[d][i := File(n, t)];
        if j != i {
          assert s[d][j].name != n by {
            assert Unique(s[d]);
          }
        }
      }
    }
  }

  /** A lookup lands in the first folder, in the order given, that holds a match, on the first
      match listed there. */
  lemma {:induction false} FindFirst(s: Store, dirs: seq<string>, id: string)
    ensures Find(s, dirs, id).Some? ==>
      var loc := Find(s, dirs, id).value;
      && FindIn(s[loc.dir], id).Some? && loc.file == s[loc.dir][FindIn(s[loc.dir], id).value]
      && exists k :: 0 <= k < |dirs| && dirs[k] == loc.dir &&
           forall k' :: 0 <= k' < k && dirs[k'] in s ==> FindIn(s[dirs[k']], id).None?
    decreases |dirs|
  {
    if |dirs| > 0 && !(dirs[0] in s && FindIn(s[dirs[0]], id).Some?) {
      FindFirst(s, dirs[1..], id);
      if Find(s, dirs, id).Some? {
        var loc := Find(s, dirs, id).value;
        var k :| 0 <= k < |dirs[1..]| && dirs[1..][k] == loc.dir &&
          forall k' :: 0 <= k' < k && dirs[1..][k'] in s ==> FindIn(s[dirs[1..][k']], id).None?;
        assert dirs[k + 1] == loc.dir;
        forall k' | 0 <= k' < k + 1 && dirs[k'] in s ensures FindIn(s[dirs[k']], id).None? {
          if k' > 0 {
            assert dirs[k'] == dirs[1..][k' - 1];
          }
        }
      }
    } else if |dirs| > 0 {
      assert dirs[0] == Find(s, dirs, id).value.dir;
    }
  }
}

=== FILE: subtasks.dfy ===
/** The parent side of task_create: when a task is created with a parent, the parent's document
    gains the line `- [ ] <id>` in its Subtasks section and a new updated date. */
module SubtaskEdit {
  import opened Common
  import opened Text
  import opened Pattern
  import opened Layout
  import opened Outline
  import opened Prose
  import opened TaskDoc
  import opened TaskRead
  import opened TaskEdit

  const NO_SUBTASKS: string := "_No subtasks_"

  /** The line a new subtask is listed with. */
  function NewLine(id: string): string { SubtaskLine(Subtask(id, false)) }

  /** The Subtasks body with the new line: the earlier body trimmed, the new line, two blanks. */
  function SubtasksWith(b: string, id: string): string { Trim(b) + "\n" + NewLine(id) + "\n\n" }

  /** The parent's text after the child `id` is created (tasks.js:370-386): the first
      `_No subtasks_` anywhere becomes the new line; without one, the Subtasks section is
      extended; then the updated date is set. */
  function ParentText(c: string, id: string, today: string): string {
    var added :=
      if HasLit(c, NO_SUBTASKS) then Replace(LitPat(NO_SUBTASKS), c, Put(NewLine(id)))
      else ReplaceSection(c, "## Subtasks", NextHeader, b => SubtasksWith(b, id));
    Stamp(added, today)
  }

  // ---------------------------------------------------------------------------------------
  // The body of a Subtasks section that lists subtasks.

  /** The Subtasks body the generator writes for the subtasks `ss`. */
  function ListedBody(ss: seq<Subtask>): seq<Row> { TextRows(MapLines(ss, SubtaskLine)) + [Text("")] }

  /** The body after `id` is appended to it. */
  function ExtendedBody(ss: seq<Subtask>, id: string): seq<Row> {
    TextRows(MapLines(ss + [Subtask(id, false)], SubtaskLine)) + Blanks(2)
  }

  predicate Refs(ss: seq<Subtask>) { forall i :: 0 <= i < |ss| ==> Full(TaskRef, ss[i].id) }

  lemma {:induction false} JoinEnds(ls: seq<string>)
    requires |ls| >= 1 && forall i :: 0 <= i < |ls| ==> ls[i] != ""
    ensures var s := Unlines(ls); |s| > 0 && s[0] == ls[0][0] && s[|s| - 1] == ls[|ls| - 1][|ls[|ls| - 1]| - 1]
    decreases |ls|
  {
    if |ls| > 1 {
      JoinEnds(ls[1..]);
      assert Unlines(ls) == ls[0] + "\n" + Unlines(ls[1..]);
    }
  }

  lemma LineShape(st: Subtask)
    requires Full(TaskRef, st.id)
    ensures var l := SubtaskLine(st); l != "" && l[0] == '-' && !IsSpace(l[|l| - 1]) && PlainLine(l)
  {
    var l := SubtaskLine(st);
    assert l == Box(st.completed) + st.id;
    FullInert(TaskRef, st.id);
    PlainCat(Box(st.completed), st.id);
    assert l[|l| - 1] == st.id[|st.id| - 1];
    assert IsDigit(st.id[|st.id| - 1]);
  }

  /** The listed lines joined are already trimmed. */
  lemma ListedTrimmed(ss: seq<Subtask>)
    requires |ss| >= 1 && Refs(ss)
    ensures Trimmed(Unlines(MapLines(ss, SubtaskLine))) && Unlines(MapLines(ss, SubtaskLine)) != ""
  {
    var ls := MapLines(ss, SubtaskLine);
    forall i | 0 <= i < |ls| ensures ls[i] != "" {
      LineShape(ss[i]);
    }
    LineShape(ss[0]);
    LineShape(ss[|ss| - 1]);
    JoinEnds(ls);
  }

  lemma ExtendedPlain(ss: seq<Subtask>, id: string)
    requires Refs(ss) && Full(TaskRef, id)
    ensures PlainRows(ExtendedBody(ss, id)) && GoodRows(ExtendedBody(ss, id))
  {
    var all := ss + [Subtask(id, false)];
    forall i | 0 <= i < |all| ensures PlainLine(SubtaskLine(all[i])) {
      LineShape(all[i]);
    }
  }

  /** A listed body renders as its lines and one line break. */
  lemma ListedDoc(ss: seq<Subtask>)
    requires |ss| >= 1
    ensures Doc(ListedBody(ss)) == Unlines(MapLines(ss, SubtaskLine)) + "\n"
  {
    var ls := MapLines(ss, SubtaskLine);
    RenderedConcat(TextRows(ls), [Text("")]);
    RenderedText(ls);
    assert Rendered([Text("")]) == [""] by {
      assert Rendered([Text("")])[0] == "";
    }
    JoinAppend(ls, [""], "\n");
  }

  /** An extended body renders as the earlier lines, the new line and two line breaks. */
  lemma ExtendedDoc(ss: seq<Subtask>, id: string)
    requires |ss| >= 1
    ensures Doc(ExtendedBody(ss, id)) == Unlines(MapLines(ss, SubtaskLine)) + "\n" + (NewLine(id) + "\n" + "\n")
  {
    var ls := MapLines(ss, SubtaskLine);
    var l := NewLine(id);
    var ls' := MapLines(ss + [Subtask(id, false)], SubtaskLine);
    assert ls' == ls + [l];
    RenderedConcat(TextRows(ls'), Blanks(2));
    RenderedText(ls');
    assert Rendered(Blanks(2)) == ["", ""];
    assert Rendered(ExtendedBody(ss, id)) == ls' + ["", ""];
    assert ls' + ["", ""] == ls + ([l] + ["", ""]);
    var tail := [l] + ["", ""];
    JoinAppend(ls, tail, "\n");
    assert tail[1..] == ["", ""] && ["", ""][1..] == [""];
    assert Join(["", ""], "\n") == "" + "\n" + "";
    assert "" + "\n" + "" == "\n";
    assert Unlines(tail) == l + "\n" + "\n";
  }

  /** Appending to a listed body gives the listed body of the longer list, closed by two blank
      lines, whatever the earlier subtasks were. */
  lemma ExtendListed(ss: seq<Subtask>, id: string)
    requires |ss| >= 1 && Refs(ss) && Full(TaskRef, id)
    ensures SubtasksWith(Doc(ListedBody(ss)), id) == Doc(ExtendedBody(ss, id))
  {
    var u := Unlines(MapLines(ss, SubtaskLine));
    var l := NewLine(id);
    ListedDoc(ss);
    ExtendedDoc(ss, id);
    ListedTrimmed(ss);
    TrimPadded(u, "\n");
    assert SubtasksWith(u + "\n", id) == u + "\n" + l + "\n\n";
    assert u + "\n" + l + "\n\n" == u + "\n" + (l + "\n" + "\n");
  }

  /** The extended body lists the earlier subtasks and then the new one, unchecked. */
  lemma ExtendedRead(ss: seq<Subtask>, id: string)
    requires Refs(ss) && Full(TaskRef, id)
    ensures ParseSubtasks(Lines(Doc(ExtendedBody(ss, id)))) == ss + [Subtask(id, false)]
  {
    var all := ss + [Subtask(id, false)];
    ExtendedPlain(ss, id);
    DocLines(ExtendedBody(ss, id));
    RenderedConcat(TextRows(MapLines(all, SubtaskLine)), Blanks(2));
    RenderedText(MapLines(all, SubtaskLine));
    assert Rendered(Blanks(2)) == ["", ""];
    ParseSubtasksAppend(MapLines(all, SubtaskLine), ["", ""]);
    SubtasksBack(all);
  }

  lemma ListedRead(ss: seq<Subtask>)
    requires Refs(ss)
    ensures ParseSubtasks(Lines(Doc(ListedBody(ss)))) == ss
  {
    var ls := MapLines(ss, SubtaskLine);
    forall i | 0 <= i < |ss| ensures PlainLine(ls[i]) {
      LineShape(ss[i]);
    }
    LinesPlain(ls);
    BodyLines(ls);
    ParseSubtasksAppend(ls, [""]);
    SubtasksBack(ss);
  }

  // ---------------------------------------------------------------------------------------
  // The parent document as a sheet.

  /** The parent's sheet after the child is listed and the date is set. */
  function Parented(sh: Sheet, ss: seq<Subtask>, id: string, today: string): Sheet
    requires |sh.parts| == 5
  {
    sh.(meta := SetEntry(sh.meta, "Updated", today), parts := sh.parts[2 := Part("Subtasks", ExtendedBody(ss, id))])
  }

  lemma SubtasksStop()
    ensures "## " + "Subtasks" == "## Subtasks"
    ensures StartsWith(StopPrefix(NextHeader), "##")
    ensures StartsWith("## " + "Implementation Notes", StopPrefix(NextHeader))
  {
  }

  function Listed(sh: Sheet, ss: seq<Subtask>, id: string): Sheet
    requires |sh.parts| == 5
  {
    sh.(parts := sh.parts[2 := Part("Subtasks", ExtendedBody(ss, id))])
  }

  lemma ParentSection(sh: Sheet, ss: seq<Subtask>, id: string)
    requires Tidy(sh) && Full(TaskRef, id)
    requires |ss| >= 1 && Refs(ss) && sh.parts[2].body == ListedBody(ss)
    ensures ReplaceSection(Render(sh), "## Subtasks", NextHeader, b => SubtasksWith(b, id)) == Render(Listed(sh, ss, id))
    ensures Tidy(Listed(sh, ss, id))
  {
    var body := ExtendedBody(ss, id);
    assert Names(sh.parts)[2] == sh.parts[2].name == "Subtasks";
    assert Names(sh.parts)[3] == sh.parts[3].name == "Implementation Notes";
    SubtasksStop();
    ExtendListed(ss, id);
    ExtendedPlain(ss, id);
    PartReplace(sh, 2, NextHeader, b => SubtasksWith(b, id), body);
    PartTidy(sh, 2, body);
  }

  lemma ParentSheet(sh: Sheet, ss: seq<Subtask>, id: string, today: string)
    requires Tidy(sh) && Full(DateRun, today) && Full(TaskRef, id)
    requires |ss| >= 1 && Refs(ss) && sh.parts[2].body == ListedBody(ss)
    requires !HasLit(Render(sh), NO_SUBTASKS)
    ensures ParentText(Render(sh), id, today) == Render(Parented(sh, ss, id, today))
    ensures Tidy(Parented(sh, ss, id, today))
  {
    var c := Render(sh);
    assert ParentText(c, id, today) == Stamp(ReplaceSection(c, "## Subtasks", NextHeader, b => SubtasksWith(b, id)), today);
    ParentSection(sh, ss, id);
    NamesFit();
    FullInert(DateRun, today);
    AssignSheet(Listed(sh, ss, id), "Updated", today);
  }

  lemma ParentReading(sh: Sheet, ss: seq<Subtask>, id: string, today: string, filename: string)
    requires |sh.parts| == 5 && |sh.head| >= 1 && sh.head[0].Title?
    requires Slot(sh.meta, "Updated").Some? && Refs(ss) && Full(TaskRef, id)
    ensures Reading(Parented(sh, ss, id, today), filename)
      == Reading(sh, filename).(subtasks := Some(ss + [Subtask(id, false)]), updated := Some(today))
  {
    var x := sh.(meta := SetEntry(sh.meta, "Updated", today));
    StampReading(sh, today, filename);
    var sh' := Parented(sh, ss, id, today);
    assert sh'.meta == x.meta && sh'.head == x.head;
    assert sh'.parts[0] == x.parts[0] && sh'.parts[1] == x.parts[1];
    ExtendedRead(ss, id);
  }

  /** A parent that lists subtasks `ss` and has no placeholder anywhere reads back with the new
      subtask last, unchecked, and today's date; nothing else it reads changes. */
  lemma ParentRead(sh: Sheet, ss: seq<Subtask>, id: string, today: string, filename: string)
    requires Tidy(sh) && Full(DateRun, today) && Full(TaskRef, id)
    requires |ss| >= 1 && Refs(ss) && sh.parts[2].body == ListedBody(ss)
    requires Slot(sh.meta, "Updated").Some?
    requires !HasLit(Render(sh), NO_SUBTASKS)
    ensures ParseTask(Render(sh), filename).subtasks == Some(ss)
    ensures ParseTask(ParentText(Render(sh), id, today), filename)
      == ParseTask(Render(sh), filename).(subtasks := Some(ss + [Subtask(id, false)]), updated := Some(today))
  {
    ParentSheet(sh, ss, id, today);
    ParseSheet(sh, filename);
    ListedRead(ss);
    ParseSheet(Parented(sh, ss, id, today), filename);
    ParentReading(sh, ss, id, today, filename);
  }

  /** Where the placeholder was, the new line reads as the one subtask, unchecked. */
  lemma PlaceholderRead(id: string)
    requires Full(TaskRef, id)
    ensures ParseSubtasks([NO_SUBTASKS, ""]) == []
    ensures ParseSubtasks([NewLine(id), ""]) == [Subtask(id, false)]
  {
    SubtasksPlaceholder();
    SubtaskBack(Subtask(id, false));
  }
}

=== FILE: taskcreate.dfy ===
/** task_create (tasks.js:350-401): a new id, the parent's document extended, the new document
    written to the backlog under `<id>-<slug>.md`. */
module TaskCreate {
  import opened Common
  import opened Text
  import opened Numbers
  import opened Pattern
  import opened Layout
  import opened Prose
  import opened Store
  import opened Naming
  import opened TaskDoc
  import TaskRead
  import TaskEdit
  import opened SubtaskEdit
  import opened TaskOps

  /** The arguments of task_create; an optional argument left out is None. */
  datatype NewTask = NewTask(
    title: string,
    description: string,
    priority: Option<string>,
    labels: Option<seq<string>>,
    criteria: Option<seq<string>>,
    repos: Option<seq<string>>,
    parent: Option<string>,
    worktree: Option<string>,
    estimate: Option<int>)

  /** `acceptanceCriteria.map(text => ({ text, checked: false }))`. */
  function Unchecked(xs: seq<string>): (cs: seq<Criterion>)
    ensures |cs| == |xs| && forall i :: 0 <= i < |xs| ==> cs[i] == Criterion(xs[i], false)
  {
    seq(|xs|, i requires 0 <= i < |xs| => Criterion(xs[i], false))
  }

  /** The task object the handler writes. */
  function Drafted(n: NewTask, id: string, today: string): Task {
    Blank.(id := Some(id), title := Some(n.title), status := Some("backlog"),
           priority := Some(OrElse(n.priority, "P2")), created := Some(today),
           description := Some(n.description),
           labels := Some(n.labels.GetOr([])), repos := Some(n.repos.GetOr([])),
           parent := n.parent,
           criteria := Some(if n.criteria.Some? then Unchecked(n.criteria.value) else []),
           worktree := n.worktree, estimate := n.estimate)
  }

  /** The parent document the handler extends: only when a parent is given and found. */
  function ParentOf(s: Store, n: NewTask): Option<Located> {
    if Truthy(n.parent) then FindTask(s, n.parent.value) else None
  }

  function Create(s: Store, n: NewTask, today: string): (o: Outcome)
    ensures o.ensured && o.reply.Made?
    ensures o.reply.taskId == NewId(Ensure(s, STATUSES), STATUSES, "TASK")
    ensures o.reply.path == "backlog/" + FileName(o.reply.taskId, n.title)
  {
    var s' := Ensure(s, STATUSES);
    var id := NewId(s', STATUSES, "TASK");
    var parentOps :=
      match ParentOf(s', n)
      case Some(loc) => [Write(loc.dir, loc.file.name, ParentText(loc.file.text, id, today))]
      case None => [];
    var name := FileName(id, n.title);
    Outcome(true, parentOps + [Write("backlog", name, GenerateTaskContent(Drafted(n, id, today), today))],
            Made(id, "backlog/" + name, "Created task: " + id + " - " + n.title))
  }

  // ---------------------------------------------------------------------------------------
  // The effect on the store.

  /** The parent rewrite keeps the names of every folder. */
  lemma ParentStep(s: Store, loc: Located, text: string)
    requires Valid(s) && loc.dir in s && Has(s[loc.dir], loc.file.name)
    ensures var r := Run(s, [Write(loc.dir, loc.file.name, text)]);
      && r.ok && Valid(r.store) && r.store.Keys == s.Keys
      && Read(r.store[loc.dir], loc.file.name) == Some(text)
      && (forall d :: d in s ==> |r.store[d]| == |s[d]| && forall j :: 0 <= j < |s[d]| ==> r.store[d][j].name == s[d][j].name)
      && (forall d, m :: d in s && (d != loc.dir || m != loc.file.name) ==> Read(r.store[d], m) == Read(s[d], m))
  {
    var w := Written(s[loc.dir], loc.file.name, text);
    assert Run(s, [Write(loc.dir, loc.file.name, text)]).store == s[loc.dir := w];
    WrittenSameNames(s[loc.dir], loc.file.name, text);
    forall m {
      ReadWritten(s[loc.dir], loc.file.name, text, m);
    }
  }

  /** What the new document's write finds: a backlog where no name starts with the new id. */
  lemma NewStep(s: Store, id: string, name: string, text: string)
    requires Valid(s) && "backlog" in s && StartsWith(name, id) && EndsWith(name, ".md")
    requires forall d, j :: d in STATUSES && d in s && 0 <= j < |s[d]| ==> !StartsWith(s[d][j].name, id)
    ensures var r := Run(s, [Write("backlog", name, text)]);
      && r.ok && r.store.Keys == s.Keys
      && FindTask(r.store, id) == Some(Located("backlog", File(name, text)))
      && (forall d, m :: d in s && (d != "backlog" || m != name) ==> Read(r.store[d], m) == Read(s[d], m))
  {
    var b := s["backlog"];
    assert STATUSES[0] == "backlog";
    assert !Has(b, name);
    WrittenNew(b, name, text);
    FindInLast(b, File(name, text), id);
    var r := s["backlog" := b + [File(name, text)]];
    assert Run(s, [Write("backlog", name, text)]).store == r;
    assert (b + [File(name, text)])[|b|] == File(name, text);
    forall m {
      ReadWritten(b, name, text, m);
    }
  }

  /** The calls of task_create on a store where no name starts with the new id: the parent
      (if any) rewritten, then the new document written. */
  lemma CreateSteps(s: Store, id: string, name: string, text: string, p: Option<Located>, ptext: string)
    requires Ready(s) && StartsWith(name, id) && EndsWith(name, ".md")
    requires forall d, j :: d in STATUSES && d in s && 0 <= j < |s[d]| ==> !StartsWith(s[d][j].name, id)
    requires p.Some? ==> p.value.dir in s && p.value.dir in STATUSES && Has(s[p.value.dir], p.value.file.name)
    ensures var ops := (if p.Some? then [Write(p.value.dir, p.value.file.name, ptext)] else []) + [Write("backlog", name, text)];
      var r := Run(s, ops);
      && r.ok && r.store.Keys == s.Keys
      && FindTask(r.store, id) == Some(Located("backlog", File(name, text)))
      && (p.Some? ==> Read(r.store[p.value.dir], p.value.file.name) == Some(ptext))
      && (forall d, m :: d in s && m != name && (p.Some? ==> d != p.value.dir || m != p.value.file.name) ==>
            Read(r.store[d], m) == Read(s[d], m))
  {
    assert STATUSES[0] == "backlog";
    var last: seq<Op> := [Write("backlog", name, text)];
    if p.None? {
      assert [] + last == last;
      NewStep(s, id, name, text);
    } else {
      var loc := p.value;
      var first: seq<Op> := [Write(loc.dir, loc.file.name, ptext)];
      ParentStep(s, loc, ptext);
      var s1: Store := Run(s, first).store;
      assert forall d, j :: d in STATUSES && d in s1 && 0 <= j < |s1[d]| ==> !StartsWith(s1[d][j].name, id) by {
        forall d, j | d in STATUSES && d in s1 && 0 <= j < |s1[d]| ensures !StartsWith(s1[d][j].name, id) {
          assert s1[d][j].name == s[d][j].name;
        }
      }
      NewStep(s1, id, name, text);
      RunAppend(s, first, last);
      assert loc.file.name != name by {
        var j :| 0 <= j < |s[loc.dir]| && s[loc.dir][j].name == loc.file.name;
        assert !StartsWith(loc.file.name, id);
      }
    }
  }

  /** task_create writes the new document to the backlog, where a lookup by the new id finds
      it; a parent found by its id is rewritten in place; no other file changes. */
  lemma CreateEffect(s: Store, n: NewTask, today: string)
    requires Valid(s)
    ensures var s' := Ensure(s, STATUSES);
      var id := NewId(s', STATUSES, "TASK");
      var name := FileName(id, n.title);
      var text := GenerateTaskContent(Drafted(n, id, today), today);
      var r := Effect(s, Create(s, n, today));
      var p := ParentOf(s', n);
      && r.ok && r.store.Keys == s'.Keys
      && FindTask(r.store, id) == Some(Located("backlog", File(name, text)))
      && (p.Some? ==> Read(r.store[p.value.dir], p.value.file.name) == Some(ParentText(p.value.file.text, id, today)))
      && (forall d, m :: d in s' && m != name && (p.Some? ==> d != p.value.dir || m != p.value.file.name) ==>
            Read(r.store[d], m) == Read(s'[d], m))
  {
    var s' := Ensure(s, STATUSES);
    EnsureReady(s);
    var id := NewId(s', STATUSES, "TASK");
    var name := FileName(id, n.title);
    var text := GenerateTaskContent(Drafted(n, id, today), today);
    NewIdFresh(s', STATUSES, "TASK");
    NameOpens(id, n.title);
    var p := ParentOf(s', n);
    var ptext := if p.Some? then ParentText(p.value.file.text, id, today) else "";
    if p.Some? {
      FoundHas(s', n.parent.value);
    }
    CreateSteps(s', id, name, text, p, ptext);
  }

  // ---------------------------------------------------------------------------------------
  // Reading the new document back.

  /** Arguments whose document reads back (see `Writable` of the task reader). */
  predicate Fits(n: NewTask, today: string) {
    && Full(DateRun, today)
    && n.title != "" && Inert(n.title)
    && TaskRead.Shaped(Prio, n.priority) && TaskRead.Shaped(TaskRef, n.parent) && TaskRead.Loose(n.worktree)
    && (n.labels.Some? ==> ListItems(n.labels.value))
    && (n.repos.Some? ==> ListItems(n.repos.value))
    && (n.estimate.Some? ==> n.estimate.value >= 0)
    && (n.description != "" ==> PlainText(n.description) && Trimmed(n.description))
    && (n.criteria.Some? ==> forall i :: 0 <= i < |n.criteria.value| ==> Inert(n.criteria.value[i]) && !Contains(n.criteria.value[i], "[x]"))
  }

  /** The id is read back from the file name: the slug follows a `-`, not a digit. */
  lemma FileIdOfName(id: string, title: string)
    requires Full(TaskRef, id)
    ensures FileId(FileName(id, title)) == Some(id)
  {
    var name := FileName(id, title);
    assert forall j :: 0 <= j < |id| ==> name[j] == id[j];
    assert name[|id|] == '-';
    TaskRefFull(name, 0, id);
    assert name[..|id|] == id;
  }

  lemma DraftedWritable(n: NewTask, id: string, today: string)
    requires Full(TaskRef, id) && Fits(n, today)
    ensures TaskRead.Writable(Drafted(n, id, today), today)
  {
    var t := Drafted(n, id, today);
    assert Full(Prio, OrElse(n.priority, "P2")) by {
      assert "P2"[1] == '2';
    }
    assert Full(WordDash, "backlog") by {
      TaskEdit.StatusWords();
    }
    assert t.criteria.Some? ==> forall i :: 0 <= i < |t.criteria.value| ==> TaskRead.CriterionFits(t.criteria.value[i]) by {
      if n.criteria.Some? {
        UncheckedFit(n.criteria.value);
      }
    }
  }

  lemma UncheckedFit(xs: seq<string>)
    requires forall i :: 0 <= i < |xs| ==> Inert(xs[i]) && !Contains(xs[i], "[x]")
    ensures forall i :: 0 <= i < |xs| ==> TaskRead.CriterionFits(Unchecked(xs)[i])
  {
  }

  /** The new document reads back as a backlog task of the day with the given title, priority
      (P2 by default), parent and criteria, each criterion unchecked, and no subtasks; without
      criteria it reads back with the one placeholder criterion. */
  lemma CreatedRead(n: NewTask, id: string, today: string)
    requires Full(TaskRef, id) && Fits(n, today)
    ensures var t := ParseTask(GenerateTaskContent(Drafted(n, id, today), today), FileName(id, n.title));
      && t.id == Some(id) && t.title == Some(n.title)
      && t.status == Some("backlog") && t.priority == Some(OrElse(n.priority, "P2"))
      && t.created == Some(today) && t.updated == Some(today)
      && t.parent == IfTruthy(n.parent) && t.subtasks == Some([])
      && t.criteria == Some(if n.criteria.Some? && |n.criteria.value| > 0 then Unchecked(n.criteria.value)
                            else [Criterion("_Add criteria_", false)])
  {
    var fn := FileName(id, n.title);
    DraftedWritable(n, id, today);
    TaskRead.TaskRoundTrip(Drafted(n, id, today), today, fn);
    FileIdOfName(id, n.title);
    CanonDrafted(n, id, today, fn);
  }

  lemma CanonDrafted(n: NewTask, id: string, today: string, fn: string)
    requires FileId(fn) == Some(id)
    ensures var t := TaskRead.Canon(Drafted(n, id, today), today, fn);
      && t.id == Some(id) && t.title == Some(n.title)
      && t.status == Some("backlog") && t.priority == Some(OrElse(n.priority, "P2"))
      && t.created == Some(today) && t.updated == Some(today)
      && t.parent == IfTruthy(n.parent) && t.subtasks == Some([])
      && t.criteria == Some(if n.criteria.Some? && |n.criteria.value| > 0 then Unchecked(n.criteria.value)
                            else [Criterion("_Add criteria_", false)])
  {
  }

  /** The lookup is by prefix: with `TASK-1000` in the backlog and `TASK-100` in progress,
      asking for `TASK-100` lands on `TASK-1000`, the backlog being searched first. */
  lemma PrefixAmbiguity()
    ensures var s := map["backlog" := [File("TASK-1000-a.md", "a")], "in-progress" := [File("TASK-100-b.md", "b")]];
      FindTask(s, "TASK-100") == Some(Located("backlog", File("TASK-1000-a.md", "a")))
  {
    var f := File("TASK-1000-a.md", "a");
    assert f.name[..8] == "TASK-100";
    assert f.name[|f.name| - 3..] == ".md";
  }
}

=== FILE: taskdoc.dfy ===
/** The task document: the record `parseTaskFile` reads and `generateTaskContent` writes, the
    text both work on, and the sheet (see Outline) that text is when the generator wrote it. */
module TaskDoc {
  import opened Common
  import opened Text
  import opened Numbers
  import opened Pattern
  import opened Layout
  import opened Outline
  import opened Prose

  /** The status folders, in the order lookups and id allocation visit them. */
  const STATUSES: seq<string> := ["backlog", "in-progress", "completed", "blocked", "archive"]

  datatype Criterion = Criterion(text: string, checked: bool)

  datatype Subtask = Subtask(id: string, completed: bool)

  datatype FileChange = FileChange(path: string, description: string)

  /** A task as a JavaScript object: every property may be missing. */
  datatype Task = Task(
    id: Option<string>,
    title: Option<string>,
    status: Option<string>,
    priority: Option<string>,
    created: Option<string>,
    updated: Option<string>,
    completed: Option<string>,
    blockedBy: Option<string>,
    worktree: Option<string>,
    repos: Option<seq<string>>,
    parent: Option<string>,
    subtasks: Option<seq<Subtask>>,
    estimate: Option<int>,
    actual: Option<int>,
    labels: Option<seq<string>>,
    description: Option<string>,
    criteria: Option<seq<Criterion>>,
    notes: Option<string>,
    files: Option<seq<FileChange>>)

  /** A task with no properties set. */
  const Blank: Task := Task(None, None, None, None, None, None, None, None, None, None, None, None,
                            None, None, None, None, None, None, None)

  // ---------------------------------------------------------------------------------------
  // Writing: generateTaskContent.

  function Box(checked: bool): string { if checked then "- [x] " else "- [ ] " }

  function CriterionLine(c: Criterion): string { Box(c.checked) + c.text }

  function SubtaskLine(s: Subtask): string { Box(s.completed) + s.id }

  function FileLine(f: FileChange): string { "- `" + f.path + "` - " + f.description }

  /** A metadata line the generator may write: its name, and its value or None when the line is
      left out. */
  datatype Field = Field(name: string, value: Option<string>)

  /** `${n}h`. */
  function HoursText(n: int): string { IntToString(n) + "h" }

  /** A string property that is written only when truthy. */
  function IfTruthy(x: Option<string>): Option<string> { if Truthy(x) then x else None }

  /** A number property that is written, as hours, only when truthy (non-zero). */
  function IfHours(x: Option<int>): Option<string> { if TruthyNum(x) then Some(HoursText(x.value)) else None }

  /** A list property that is written, joined with `, `, only when it has items. */
  function IfList(x: Option<seq<string>>): Option<string> { if NonEmpty(x) then Some(Join(x.value, ", ")) else None }

  /** The metadata lines in the order the generator writes them. */
  function Fields(t: Task, today: string): seq<Field> {
    [ Field("Status", Some(OrElse(t.status, "backlog"))),
      Field("Priority", Some(OrElse(t.priority, "P2"))),
      Field("Created", Some(OrElse(t.created, today))),
      Field("Updated", Some(today)),
      Field("Completed", IfTruthy(t.completed)),
      Field("Blocked By", IfTruthy(t.blockedBy)),
      Field("Repos", IfList(t.repos)),
      Field("Parent", IfTruthy(t.parent)),
      Field("Worktree", IfTruthy(t.worktree)),
      Field("Estimate", IfHours(t.estimate)),
      Field("Actual", IfHours(t.actual)),
      Field("Labels", IfList(t.labels)) ]
  }

  /** The `- **Name**: value` entries of the fields that are written. */
  function MetaOf(fs: seq<Field>): (r: seq<Entry>)
    ensures |r| <= |fs|
  {
    if |fs| == 0 then []
    else
      match fs[0].value
      case Some(x) => [Entry("- ", fs[0].name, x)] + MetaOf(fs[1..])
      case None => MetaOf(fs[1..])
  }

  function MapLines<T>(xs: seq<T>, f: T -> string): (r: seq<string>)
    ensures |r| == |xs| && forall i :: 0 <= i < |xs| ==> r[i] == f(xs[i])
  {
    seq(|xs|, i requires 0 <= i < |xs| => f(xs[i]))
  }

  function CriteriaLines(t: Task): seq<string> {
    if NonEmpty(t.criteria) then MapLines(t.criteria.value, CriterionLine) else ["- [ ] _Add criteria_"]
  }

  function SubtaskLines(t: Task): seq<string> {
    if NonEmpty(t.subtasks) then MapLines(t.subtasks.value, SubtaskLine) else ["_No subtasks_"]
  }

  function FileLines(t: Task): seq<string> {
    if NonEmpty(t.files) then MapLines(t.files.value, FileLine) else ["_No files changed yet_"]
  }

  function DescriptionText(t: Task): string { OrElse(t.description, "_No description_") }

  function NotesText(t: Task): string { OrElse(t.notes, "_To be filled during implementation_") }

  /** The lines `generateTaskContent` pushes, in order; the description and the notes are pushed
      as one string each, whatever lines they hold. */
  function TaskLines(t: Task, today: string): seq<string> {
    LinesA(t, today) + [DescriptionText(t)] + LinesB(t) + [NotesText(t)] + LinesC(t)
  }

  /** The title, the metadata list and the description header. */
  function LinesA(t: Task, today: string): seq<string> {
    ["# " + Show(t.id) + ": " + Show(t.title), "", "## Metadata"] + MapLines(MetaOf(Fields(t, today)), MetaLine)
    + ["", "## Description"]
  }

  /** From the blank after the description to the notes header. */
  function LinesB(t: Task): seq<string> {
    ["", "## Acceptance Criteria"] + CriteriaLines(t) + ["", "## Subtasks"] + SubtaskLines(t) + ["", "## Implementation Notes"]
  }

  /** From the blank after the notes to the end. */
  function LinesC(t: Task): seq<string> { ["", "## Files Changed"] + FileLines(t) + [""] }

  /** `generateTaskContent(task)` on the day `today`. */
  function GenerateTaskContent(t: Task, today: string): string { Unlines(TaskLines(t, today)) }

  /** The section names, in the order the generator writes them. */
  const TASK_PARTS: seq<string> := ["Description", "Acceptance Criteria", "Subtasks", "Implementation Notes", "Files Changed"]

  /** The generated document as a sheet. */
  function TaskSheet(t: Task, today: string): Sheet {
    Sheet([Title(Show(t.id), Show(t.title)), Text("")],
          MetaOf(Fields(t, today)),
          [ Part("Description", TextRows(Lines(DescriptionText(t))) + [Text("")]),
            Part("Acceptance Criteria", TextRows(CriteriaLines(t)) + [Text("")]),
            Part("Subtasks", TextRows(SubtaskLines(t)) + [Text("")]),
            Part("Implementation Notes", TextRows(Lines(NotesText(t))) + [Text("")]),
            Part("Files Changed", TextRows(FileLines(t)) + [Text("")]) ])
  }

  // ---------------------------------------------------------------------------------------
  // Reading: parseTaskFile.

  /** `filename.match(/^(TASK-\d+)/)?.[1]`. */
  function FileId(filename: string): (r: Option<string>)
    ensures r.Some? ==> Full(TaskRef, r.value) && StartsWith(filename, r.value)
  {
    match ValAt(TaskRef, filename, 0)
    case Some(sp) =>
      var x := filename[..sp.groupEnd];
      assert forall i :: 5 <= i < |x| ==> InClass(filename[i], DigitChars);
      Some(x)
    case None => None
  }

  /** `parseInt(s)` of a string that starts with its digits: their value, or NaN (None) when
      there are none. */
  function ParseInt(s: string): Option<int> {
    var e := RunEnd(s, 0, DigitChars);
    if e == 0 then None else Some(ParseDigits(s[..e]))
  }

  /** Which value pattern reads the metadata line of each name. */
  function KindOf(name: string): Val {
    if name == "Status" then WordDash
    else if name == "Priority" then Prio
    else if name == "Created" || name == "Updated" || name == "Completed" then DateRun
    else if name == "Parent" then TaskRef
    else if name == "Estimate" || name == "Actual" then Hours
    else Rest
  }

  /** `content.match(/\*\*<name>\*\*: (<value>)/)?.[1]` with the value pattern of the name. */
  function Value(content: string, name: string): Option<string> {
    Extract(KeyPat(Key(name), KindOf(name)), content)
  }

  function AsList(x: Option<string>): Option<seq<string>> {
    match x
    case Some(s) => Some(ParseList(s))
    case None => None
  }

  function AsInt(x: Option<string>): Option<int> {
    match x
    case Some(s) => ParseInt(s)
    case None => None
  }

  /** `^- \[([x ])\] (TASK-\d+)` on one line. */
  function SubtaskOf(l: string): Option<Subtask> {
    if |l| >= 6 && l[..3] == "- [" && (l[3] == 'x' || l[3] == ' ') && l[4..6] == "] " then
      match ValAt(TaskRef, l, 6)
      case Some(sp) => Some(Subtask(l[6..sp.groupEnd], l[3] == 'x'))
      case None => None
    else None
  }

  /** The subtask lines of a section body, in order; every other line is skipped. */
  function ParseSubtasks(ls: seq<string>): seq<Subtask> {
    if |ls| == 0 then []
    else
      match SubtaskOf(ls[0])
      case Some(s) => [s] + ParseSubtasks(ls[1..])
      case None => ParseSubtasks(ls[1..])
  }

  /** `line.match(/^- \[[ x]\]/)`. */
  predicate IsBoxLine(l: string) {
    |l| >= 5 && l[..3] == "- [" && (l[3] == ' ' || l[3] == 'x') && l[4] == ']'
  }

  /** A criterion line read back: the text after `- [ ] ` or `- [x] ` (the whole line when no
      space follows the box), checked when `[x]` occurs anywhere in the line. */
  function CriterionOf(l: string): Criterion
    requires IsBoxLine(l)
  {
    Criterion(if |l| >= 6 && l[5] == ' ' then l[6..] else l, Contains(l, "[x]"))
  }

  function ParseCriteria(ls: seq<string>): seq<Criterion> {
    if |ls| == 0 then []
    else if IsBoxLine(ls[0]) then [CriterionOf(ls[0])] + ParseCriteria(ls[1..])
    else ParseCriteria(ls[1..])
  }

  function AsSubtasks(x: Option<string>): Option<seq<Subtask>> {
    match x
    case Some(b) => Some(ParseSubtasks(Lines(b)))
    case None => None
  }

  function AsCriteria(x: Option<string>): Option<seq<Criterion>> {
    match x
    case Some(b) => Some(ParseCriteria(Lines(b)))
    case None => None
  }

  function AsTrimmed(x: Option<string>): Option<string> {
    match x
    case Some(b) => Some(Trim(b))
    case None => None
  }

  /** `parseTaskFile(content, filename)`: each property read by its own pattern, left out when
      the pattern does not match. */
  function ParseTask(content: string, filename: string): Task {
    Task(
      id := FileId(filename),
      title := Extract(TitlePat(TaskRef), content),
      status := Value(content, "Status"),
      priority := Value(content, "Priority"),
      created := Value(content, "Created"),
      updated := Value(content, "Updated"),
      completed := Value(content, "Completed"),
      blockedBy := Value(content, "Blocked By"),
      worktree := Value(content, "Worktree"),
      repos := AsList(Value(content, "Repos")),
      parent := Value(content, "Parent"),
      subtasks := AsSubtasks(SectionText(content, "## Subtasks", NextHeaderOrEnd)),
      estimate := AsInt(Value(content, "Estimate")),
      actual := AsInt(Value(content, "Actual")),
      labels := AsList(Value(content, "Labels")),
      description := AsTrimmed(SectionText(content, "## Description", NextHeader)),
      criteria := AsCriteria(SectionText(content, "## Acceptance Criteria", NextHeader)),
      notes := None,
      files := None)
  }

  // ---------------------------------------------------------------------------------------
  // The generated text is the text of the sheet.

  lemma RenderedText(ls: seq<string>)
    ensures Rendered(TextRows(ls)) == ls
  {
  }

  lemma RenderedMeta(es: seq<Entry>)
    ensures Rendered(MetaRows(es)) == MapLines(es, MetaLine)
  {
  }

  /** The rows of a sheet with five sections, spelled out. */
  lemma RowsOfFive(sh: Sheet)
    requires |sh.parts| == 5
    ensures Rows(sh) == sh.head + [Header("Metadata")] + MetaRows(sh.meta) + [Text("")]
      + [Header(sh.parts[0].name)] + sh.parts[0].body
      + [Header(sh.parts[1].name)] + sh.parts[1].body
      + [Header(sh.parts[2].name)] + sh.parts[2].body
      + [Header(sh.parts[3].name)] + sh.parts[3].body
      + [Header(sh.parts[4].name)] + sh.parts[4].body
  {
    var ps := sh.parts;
    assert PartRows(ps[4..]) == [Header(ps[4].name)] + ps[4].body by {
      assert ps[4..][1..] == [];
    }
    assert PartRows(ps[3..]) == [Header(ps[3].name)] + ps[3].body + PartRows(ps[4..]) by {
      assert ps[3..][1..] == ps[4..];
    }
    assert PartRows(ps[2..]) == [Header(ps[2].name)] + ps[2].body + PartRows(ps[3..]) by {
      assert ps[2..][1..] == ps[3..];
    }
    assert PartRows(ps[1..]) == [Header(ps[1].name)] + ps[1].body + PartRows(ps[2..]) by {
      assert ps[1..][1..] == ps[2..];
    }
    assert PartRows(ps) == [Header(ps[0].name)] + ps[0].body + PartRows(ps[1..]);
  }

  /** The rows of the sheet around the description and the notes. */
  function RowsA(t: Task, today: string): seq<Row> {
    [Title(Show(t.id), Show(t.title)), Text("")] + [Header("Metadata")] + MetaRows(MetaOf(Fields(t, today)))
    + [Text("")] + [Header("Description")]
  }

  function RowsB(t: Task): seq<Row> {
    [Text(""), Header("Acceptance Criteria")] + TextRows(CriteriaLines(t)) + [Text(""), Header("Subtasks")]
    + TextRows(SubtaskLines(t)) + [Text(""), Header("Implementation Notes")]
  }

  function RowsC(t: Task): seq<Row> { [Text(""), Header("Files Changed")] + TextRows(FileLines(t)) + [Text("")] }

  lemma Single(a: Row)
    ensures Rendered([a]) == [RowText(a)]
  {
    assert Rendered([a])[0] == RowText(a);
  }

  lemma RenderedPair(a: Row, b: Row)
    ensures Rendered([a, b]) == [RowText(a), RowText(b)]
  {
    var r := Rendered([a, b]);
    assert r[0] == RowText(a) && r[1] == RowText(b);
  }

  /** The blank line and the header that open a section. */
  lemma Opening(name: string)
    ensures Rendered([Text(""), Header(name)]) == ["", "## " + name]
  {
    RenderedPair(Text(""), Header(name));
  }

  lemma RenderedA(t: Task, today: string)
    ensures Rendered(RowsA(t, today)) == LinesA(t, today)
  {
    var es := MetaOf(Fields(t, today));
    var x := [Title(Show(t.id), Show(t.title)), Text("")];
    RenderedConcat(x + [Header("Metadata")] + MetaRows(es) + [Text("")], [Header("Description")]);
    RenderedConcat(x + [Header("Metadata")] + MetaRows(es), [Text("")]);
    RenderedConcat(x + [Header("Metadata")], MetaRows(es));
    RenderedConcat(x, [Header("Metadata")]);
    RenderedMeta(es);
    RenderedPair(Title(Show(t.id), Show(t.title)), Text(""));
    Single(Header("Metadata"));
    Single(Header("Description"));
    Single(Text(""));
    assert "## " + "Metadata" == "## Metadata";
    assert "## " + "Description" == "## Description";
  }

  lemma RenderedB(t: Task)
    ensures Rendered(RowsB(t)) == LinesB(t)
  {
    var x := [Text(""), Header("Acceptance Criteria")];
    var y := [Text(""), Header("Subtasks")];
    var z := [Text(""), Header("Implementation Notes")];
    var cr, sr := TextRows(CriteriaLines(t)), TextRows(SubtaskLines(t));
    RenderedConcat(x + cr + y + sr, z);
    RenderedConcat(x + cr + y, sr);
    RenderedConcat(x + cr, y);
    RenderedConcat(x, cr);
    RenderedText(CriteriaLines(t));
    RenderedText(SubtaskLines(t));
    Opening("Acceptance Criteria");
    Opening("Subtasks");
    Opening("Implementation Notes");
    assert "## " + "Acceptance Criteria" == "## Acceptance Criteria";
    assert "## " + "Subtasks" == "## Subtasks";
    assert "## " + "Implementation Notes" == "## Implementation Notes";
  }

  lemma RenderedC(t: Task)
    ensures Rendered(RowsC(t)) == LinesC(t)
  {
    var x := [Text(""), Header("Files Changed")];
    RenderedConcat(x + TextRows(FileLines(t)), [Text("")]);
    RenderedConcat(x, TextRows(FileLines(t)));
    RenderedText(FileLines(t));
    Opening("Files Changed");
    assert "## " + "Files Changed" == "## Files Changed";
    assert Rendered([Text("")]) == [""];
  }

  lemma Pair<T>(e: T, x: T)
    ensures [e] + [x] == [e, x]
  {
  }

  /** Five sections, regrouped around the second and the fourth body. */
  lemma Regroup<T>(h: seq<T>, d: seq<T>, c: seq<T>, st: seq<T>, n: seq<T>, f: seq<T>, h0: T, h1: T, h2: T, h3: T, h4: T, e: T)
    ensures h + [h0] + (d + [e]) + [h1] + (c + [e]) + [h2] + (st + [e]) + [h3] + (n + [e]) + [h4] + (f + [e])
      == (h + [h0]) + d + ([e, h1] + c + [e, h2] + st + [e, h3]) + n + ([e, h4] + f + [e])
  {
    Pair(e, h1);
    Pair(e, h2);
    Pair(e, h3);
    Pair(e, h4);
  }

  lemma TaskRowsSplit(t: Task, today: string)
    ensures Rows(TaskSheet(t, today)) == RowsA(t, today) + TextRows(Lines(DescriptionText(t))) + RowsB(t)
      + TextRows(Lines(NotesText(t))) + RowsC(t)
  {
    var sh := TaskSheet(t, today);
    RowsOfFive(sh);
    Regroup(sh.head + [Header("Metadata")] + MetaRows(sh.meta) + [Text("")],
      TextRows(Lines(DescriptionText(t))), TextRows(CriteriaLines(t)), TextRows(SubtaskLines(t)),
      TextRows(Lines(NotesText(t))), TextRows(FileLines(t)),
      Header("Description"), Header("Acceptance Criteria"), Header("Subtasks"), Header("Implementation Notes"),
      Header("Files Changed"), Text(""));
  }

  lemma RenderedFive(p: seq<Row>, x: seq<Row>, q: seq<Row>, y: seq<Row>, r: seq<Row>)
    ensures Rendered(p + x + q + y + r) == Rendered(p) + Rendered(x) + Rendered(q) + Rendered(y) + Rendered(r)
  {
    RenderedConcat(p + x + q + y, r);
    RenderedConcat(p + x + q, y);
    RenderedConcat(p + x, q);
    RenderedConcat(p, x);
  }

  /** The generated lines with the description and the notes split into their lines. */
  lemma TextSide(t: Task, today: string)
    ensures GenerateTaskContent(t, today)
      == Unlines(LinesA(t, today) + Lines(DescriptionText(t)) + LinesB(t) + Lines(NotesText(t)) + LinesC(t))
  {
    var d, n := DescriptionText(t), NotesText(t);
    var a, b, c := LinesA(t, today), LinesB(t), LinesC(t);
    assert a + [d] + b + [n] + c == a + [d] + (b + [n] + c);
    UnlinesExpand(a, d, b + [n] + c);
    assert a + Lines(d) + (b + [n] + c) == (a + Lines(d) + b) + [n] + c;
    UnlinesExpand(a + Lines(d) + b, n, c);
  }

  lemma RowSide(t: Task, today: string)
    ensures Rendered(Rows(TaskSheet(t, today)))
      == LinesA(t, today) + Lines(DescriptionText(t)) + LinesB(t) + Lines(NotesText(t)) + LinesC(t)
  {
    var d, n := DescriptionText(t), NotesText(t);
    TaskRowsSplit(t, today);
    RenderedFive(RowsA(t, today), TextRows(Lines(d)), RowsB(t), TextRows(Lines(n)), RowsC(t));
    RenderedA(t, today);
    RenderedB(t);
    RenderedC(t);
    RenderedText(Lines(d));
    RenderedText(Lines(n));
  }

  /** `generateTaskContent` writes exactly the text of the task's sheet, whatever the task. */
  lemma GenerateSheet(t: Task, today: string)
    ensures GenerateTaskContent(t, today) == Render(TaskSheet(t, today))
  {
    TextSide(t, today);
    RowSide(t, today);
  }
}

=== FILE: taskedit.dfy ===
/** The rewrites the task handlers make to a task document, and what each does to a document of
    the shape the generator writes: there every rewrite edits one metadata entry, the title or
    one section, the document keeps its shape, and `parseTaskFile` reads the edit back. */
module TaskEdit {
  import opened Common
  import opened Text
  import opened Numbers
  import opened Pattern
  import opened Layout
  import opened Outline
  import opened Prose
  import opened TaskDoc
  import opened TaskRead

  // ---------------------------------------------------------------------------------------
  // The rewrites, on text.

  /** `replace(/\*\*<name>\*\*: <value>/, "**<name>**: <x>")`, with the value pattern of the name. */
  function Assign(c: string, name: string, x: string): string {
    Replace(KeyPat(Key(name), KindOf(name)), c, Put(Key(name) + x))
  }

  /** `replace(/(\*\*Updated\*\*: [\d-]+)/, "$1\n- **<name>**: <x>")`: a new line after Updated. */
  function AddAfterUpdated(c: string, name: string, x: string): string {
    Replace(KeyPat(Key("Updated"), DateRun), c, KeepThen("\n" + MetaLine(Entry("- ", name, x))))
  }

  /** `c.includes("**<name>**:")`. */
  predicate Mentions(c: string, name: string) { HasLit(c, Bold(name) + ":") }

  /** The line of `name` set when the text mentions the name, a new line after Updated otherwise. */
  function Upsert(c: string, name: string, x: string): string {
    if Mentions(c, name) then Assign(c, name, x) else AddAfterUpdated(c, name, x)
  }

  /** `replace(/\*\*Updated\*\*: [\d-]+/, "**Updated**: <today>")`. */
  function Stamp(c: string, today: string): string { Assign(c, "Updated", today) }

  /** task_start (tasks.js:496-498). */
  function StartText(c: string, today: string): string { Stamp(Assign(c, "Status", "in-progress"), today) }

  /** task_complete (tasks.js:525-540): a Completed line only when the text has none, and the
      actual hours when given as a non-zero number. */
  function CompleteText(c: string, today: string, actual: Option<int>): string {
    var n := Stamp(Assign(c, "Status", "completed"), today);
    var n' := if Mentions(n, "Completed") then n else AddAfterUpdated(n, "Completed", today);
    if TruthyNum(actual) then Upsert(n', "Actual", HoursText(actual.value)) else n'
  }

  /** task_block (tasks.js:568-576). */
  function BlockText(c: string, today: string, blockedBy: string): string {
    Upsert(Stamp(Assign(c, "Status", "blocked"), today), "Blocked By", blockedBy)
  }

  /** task_unblock (tasks.js:603-606): the Blocked By line goes with the newline before it. */
  function UnblockText(c: string, today: string): string {
    DropLine(Stamp(Assign(c, "Status", "backlog"), today), "- " + Key("Blocked By"))
  }

  /** task_link_worktree (tasks.js:788-794). */
  function LinkText(c: string, today: string, worktree: string): string {
    Stamp(Upsert(c, "Worktree", worktree), today)
  }

  const NOTES_PLACEHOLDER: string := "_To be filled during implementation_"

  function NoteLine(today: string, note: string): string { "- " + today + ": " + note }

  /** The notes after task_add_note: the note replaces the placeholder, or follows the trimmed
      notes. */
  function NotesAfter(body: string, today: string, note: string): string {
    if Trim(body) == NOTES_PLACEHOLDER then NoteLine(today, note)
    else Trim(body) + "\n" + NoteLine(today, note)
  }

  /** The new body of the notes section: the notes, and two newlines to close the body. */
  function NotesWith(body: string, today: string, note: string): string {
    NotesAfter(body, today, note) + "\n\n"
  }

  /** task_add_note (tasks.js:633-643). */
  function NoteText(c: string, today: string, note: string): string {
    Stamp(ReplaceSection(c, "## Implementation Notes", NextLine("## Files Changed"), b => NotesWith(b, today, note)), today)
  }

  /** `replace(/^# (TASK-\d+): .+$/m, "# <id>: <title>")`, with the id the caller passed. */
  function Retitle(c: string, id: string, title: string): string {
    Replace(TitlePat(TaskRef), c, Put("# " + id + ": " + title))
  }

  /** `replace(/## Description\n[\s\S]*?(?=\n## Acceptance)/, "## Description\n<d>\n\n")`. */
  function Redescribe(c: string, d: string): string {
    ReplaceSection(c, "## Description", NextLine("## Acceptance"), _ => d + "\n\n")
  }

  /** The arguments of task_update besides the id. */
  datatype Changes = Changes(title: Option<string>, description: Option<string>, priority: Option<string>,
                             labels: Option<seq<string>>, worktree: Option<string>,
                             estimate: Option<int>, actual: Option<int>)

  /** task_update (tasks.js:428-469): each argument applied when truthy, the labels whenever they
      are given (an empty list too), Updated last. */
  function UpdateText(c: string, id: string, ch: Changes, today: string): string {
    var c1 := if Truthy(ch.title) then Retitle(c, id, ch.title.value) else c;
    var c2 := if Truthy(ch.priority) then Assign(c1, "Priority", ch.priority.value) else c1;
    var c3 := if Truthy(ch.description) then Redescribe(c2, ch.description.value) else c2;
    Stamp(UpdateMeta(c3, ch), today)
  }

  /** The metadata arguments of task_update. */
  function UpdateMeta(c: string, ch: Changes): string {
    var c4 := if ch.labels.Some? then Upsert(c, "Labels", Join(ch.labels.value, ", ")) else c;
    var c5 := if Truthy(ch.worktree) then Upsert(c4, "Worktree", ch.worktree.value) else c4;
    var c6 := if TruthyNum(ch.estimate) then Upsert(c5, "Estimate", HoursText(ch.estimate.value)) else c5;
    if TruthyNum(ch.actual) then Upsert(c6, "Actual", HoursText(ch.actual.value)) else c6
  }

  // ---------------------------------------------------------------------------------------
  // The documents the handlers find.

  /** A task document as the handlers find it after the generator or an earlier handler wrote
      it: the generator's shape, every metadata line a `- ` line whose value is a complete match
      of the pattern of its name, and no name twice. */
  predicate Tidy(sh: Sheet) { TaskShaped(sh) && TidyEntries(sh.meta) }

  predicate TidyEntry(e: Entry) { GoodEntry(e) && e.bullet == "- " && Full(KindOf(e.name), e.value) }

  predicate TidyEntries(es: seq<Entry>) {
    && (forall i :: 0 <= i < |es| ==> TidyEntry(es[i]))
    && (forall i, j :: 0 <= i < j < |es| ==> es[i].name != es[j].name)
  }

  /** A tidy sheet with other tidy entries is tidy. */
  lemma TidyMeta(sh: Sheet, es: seq<Entry>)
    requires Tidy(sh) && TidyEntries(es)
    ensures Tidy(sh.(meta := es))
  {
  }

  /** The generator writes tidy documents. */
  lemma GeneratedTidy(t: Task, today: string)
    requires Writable(t, today)
    ensures Tidy(TaskSheet(t, today))
  {
    SheetShaped(t, today);
    FieldsFit(t, today);
    FieldsDistinct(t, today);
    MetaOfTidy(Fields(t, today));
  }

  lemma {:induction false} MetaOfTidy(fs: seq<Field>)
    requires forall j :: 0 <= j < |fs| ==> FieldFits(fs[j])
    requires forall i, j :: 0 <= i < |fs| && 0 <= j < |fs| && i != j ==> fs[i].name != fs[j].name
    ensures TidyEntries(MetaOf(fs))
    decreases |fs|
  {
    if |fs| > 0 {
      assert forall j :: 0 <= j < |fs[1..]| ==> fs[1..][j] == fs[j + 1];
      MetaOfTidy(fs[1..]);
      if fs[0].value.Some? {
        MetaOfAbsent(fs[1..], fs[0].name);
        var e := Entry("- ", fs[0].name, fs[0].value.value);
        var rest := MetaOf(fs[1..]);
        DashInert();
        assert TidyEntry(e);
        var es := [e] + rest;
        assert forall j :: 0 < j < |es| ==> es[j] == rest[j - 1];
        forall j, k | 0 <= j < k < |es| ensures es[j].name != es[k].name {
          if j > 0 {
            assert es[j] == rest[j - 1] && es[k] == rest[k - 1];
          }
        }
      }
    }
  }

  /** A value the handlers may write under `name` and read back. */
  predicate Settable(name: string, x: string) { NameFits(name) && Full(KindOf(name), x) && Inert(x) }

  /** What the key pattern of `name` reads from the entries: the value of the first entry of
      that name, without the unit of hours. */
  function ReadValue(es: seq<Entry>, name: string): Option<string> {
    match Lookup(es, name)
    case Some(x) => Some(Captured(KindOf(name), x))
    case None => None
  }

  /** The task a tidy sheet holds, in terms of the sheet. */
  function Reading(sh: Sheet, filename: string): Task
    requires |sh.parts| == 5 && |sh.head| >= 1 && sh.head[0].Title?
  {
    var es := sh.meta;
    Task(
      id := FileId(filename),
      title := Some(sh.head[0].text),
      status := ReadValue(es, "Status"),
      priority := ReadValue(es, "Priority"),
      created := ReadValue(es, "Created"),
      updated := ReadValue(es, "Updated"),
      completed := ReadValue(es, "Completed"),
      blockedBy := ReadValue(es, "Blocked By"),
      worktree := ReadValue(es, "Worktree"),
      repos := AsList(ReadValue(es, "Repos")),
      parent := ReadValue(es, "Parent"),
      subtasks := Some(ParseSubtasks(Lines(Doc(sh.parts[2].body)))),
      estimate := AsInt(ReadValue(es, "Estimate")),
      actual := AsInt(ReadValue(es, "Actual")),
      labels := AsList(ReadValue(es, "Labels")),
      description := Some(Trim(Doc(sh.parts[0].body))),
      criteria := Some(ParseCriteria(Lines(Doc(sh.parts[1].body)))),
      notes := None,
      files := None)
  }

  lemma NamesFit()
    ensures NameFits("Status") && NameFits("Priority") && NameFits("Created") && NameFits("Updated")
    ensures NameFits("Completed") && NameFits("Blocked By") && NameFits("Worktree") && NameFits("Repos")
    ensures NameFits("Parent") && NameFits("Estimate") && NameFits("Actual") && NameFits("Labels")
  {
    LettersFit("Status");
    LettersFit("Priority");
    LettersFit("Created");
    LettersFit("Updated");
    LettersFit("Completed");
    LettersFit("Blocked By");
    LettersFit("Worktree");
    LettersFit("Repos");
    LettersFit("Parent");
    LettersFit("Estimate");
    LettersFit("Actual");
    LettersFit("Labels");
  }

  /** One metadata name at a time, so that a proof sees only the name it writes. */
  lemma NameFit(name: string)
    requires name in ["Status", "Priority", "Created", "Updated", "Completed", "Blocked By",
                      "Worktree", "Repos", "Parent", "Estimate", "Actual", "Labels"]
    ensures NameFits(name)
  {
    NamesFit();
  }

  /** The names whose value runs to the end of the line. */
  lemma RestNamed(name: string)
    requires name in ["Blocked By", "Worktree", "Repos", "Labels"]
    ensures NameFits(name) && KindOf(name) == Rest
  {
    NameFit(name);
  }

  /** The names whose value is a count of hours. */
  lemma HoursNamed(name: string)
    requires name in ["Estimate", "Actual"]
    ensures NameFits(name) && KindOf(name) == Hours
  {
    NameFit(name);
  }

  lemma ShapedHeadFree(sh: Sheet, name: string)
    requires TaskShaped(sh)
    ensures HeadFree(sh, name)
  {
  }

  /** Under a tidy sheet the first entry of a name holds a complete match of its pattern. */
  lemma LookupFull(sh: Sheet, name: string)
    requires Tidy(sh)
    ensures Lookup(sh.meta, name).Some? ==> Full(KindOf(name), Lookup(sh.meta, name).value)
  {
  }

  /** The key pattern of a name reads the first entry of that name. */
  lemma ValueOf(sh: Sheet, name: string)
    requires Tidy(sh) && NameFits(name)
    ensures Value(Render(sh), name) == ReadValue(sh.meta, name)
  {
    ShapedHeadFree(sh, name);
    LookupFull(sh, name);
    ExtractEntry(sh, name, KindOf(name));
  }

  /** `parseTaskFile` of the document of a tidy sheet reads the sheet. */
  lemma ParseSheet(sh: Sheet, filename: string)
    requires Tidy(sh)
    ensures ParseTask(Render(sh), filename) == Reading(sh, filename)
  {
    NamesFit();
    ValueOf(sh, "Status");
    ValueOf(sh, "Priority");
    ValueOf(sh, "Created");
    ValueOf(sh, "Updated");
    ValueOf(sh, "Completed");
    ValueOf(sh, "Blocked By");
    ValueOf(sh, "Worktree");
    ValueOf(sh, "Repos");
    ValueOf(sh, "Parent");
    ValueOf(sh, "Estimate");
    ValueOf(sh, "Actual");
    ValueOf(sh, "Labels");
    HeadTitle(sh, TaskRef);
    TaskSections(sh);
  }

  // ---------------------------------------------------------------------------------------
  // Each rewrite as an edit of the sheet.

  /** A key line of `name` set to `x`. */
  lemma AssignSheet(sh: Sheet, name: string, x: string)
    requires Tidy(sh) && Settable(name, x)
    ensures Assign(Render(sh), name, x) == Render(sh.(meta := SetEntry(sh.meta, name, x)))
    ensures Tidy(sh.(meta := SetEntry(sh.meta, name, x)))
  {
    ShapedHeadFree(sh, name);
    LookupFull(sh, name);
    SetValue(sh, name, KindOf(name), x);
  }

  lemma DashInert()
    ensures Inert("- ") && |"- "| == 2
  {
  }

  /** A line of `name` added after the Updated line, where there is no line of that name. */
  lemma AddSheet(sh: Sheet, name: string, x: string)
    requires Tidy(sh) && Settable(name, x) && Slot(sh.meta, name).None?
    ensures AddAfterUpdated(Render(sh), name, x)
      == Render(sh.(meta := InsertAfter(sh.meta, "Updated", Entry("- ", name, x))))
    ensures Tidy(sh.(meta := InsertAfter(sh.meta, "Updated", Entry("- ", name, x))))
  {
    NamesFit();
    ShapedHeadFree(sh, "Updated");
    LookupFull(sh, "Updated");
    InsertValue(sh, "Updated", DateRun, Entry("- ", name, x));
    TidyInsert(sh, Entry("- ", name, x));
  }

  lemma TidyInsert(sh: Sheet, e: Entry)
    requires Tidy(sh) && Settable(e.name, e.value) && e.bullet == "- " && Slot(sh.meta, e.name).None?
    ensures Tidy(sh.(meta := InsertAfter(sh.meta, "Updated", e)))
  {
    DashInert();
    assert TidyEntry(e);
    match Slot(sh.meta, "Updated") {
      case Some(i) =>
        InsertTidy(sh.meta, i, e);
        TidyMeta(sh, InsertAfter(sh.meta, "Updated", e));
      case None =>
    }
  }

  lemma InsertTidy(es: seq<Entry>, i: nat, e: Entry)
    requires TidyEntries(es) && TidyEntry(e) && i < |es|
    requires forall j :: 0 <= j < |es| ==> es[j].name != e.name
    ensures TidyEntries(es[..i + 1] + [e] + es[i + 1..])
  {
    var es' := es[..i + 1] + [e] + es[i + 1..];
    assert forall j :: 0 <= j < |es'| ==> es'[j] == if j <= i then es[j] else if j == i + 1 then e else es[j - 1];
    forall j, k | 0 <= j < k < |es'| ensures es'[j].name != es'[k].name {
      var j' := if j <= i then j else j - 1;
      var k' := if k <= i then k else k - 1;
      if j != i + 1 && k != i + 1 {
        assert es'[j] == es[j'] && es'[k] == es[k'] && j' < k';
      }
    }
  }

  /** `includes("**<name>**:")` tells whether the sheet has a line of `name`. */
  lemma MentionsSheet(sh: Sheet, name: string)
    requires TaskShaped(sh) && NameFits(name)
    ensures Mentions(Render(sh), name) <==> Slot(sh.meta, name).Some?
  {
    ShapedHeadFree(sh, name);
    HasValue(sh, name);
  }

  /** The entries after Upsert: the line of `name` set, or a new one after Updated. */
  function Upserted(es: seq<Entry>, name: string, x: string): seq<Entry> {
    if Slot(es, name).Some? then SetEntry(es, name, x) else InsertAfter(es, "Updated", Entry("- ", name, x))
  }

  lemma UpsertSheet(sh: Sheet, name: string, x: string)
    requires Tidy(sh) && Settable(name, x)
    ensures Upsert(Render(sh), name, x) == Render(sh.(meta := Upserted(sh.meta, name, x)))
    ensures Tidy(sh.(meta := Upserted(sh.meta, name, x)))
  {
    MentionsSheet(sh, name);
    if Slot(sh.meta, name).Some? {
      AssignSheet(sh, name, x);
    } else {
      AddSheet(sh, name, x);
    }
  }

  /** The line of `name` removed, with the newline before it. */
  lemma DropSheet(sh: Sheet, name: string)
    requires Tidy(sh) && NameFits(name) && KindOf(name) == Rest
    ensures DropLine(Render(sh), "- " + Key(name)) == Render(sh.(meta := DropEntry(sh.meta, name)))
    ensures Tidy(sh.(meta := DropEntry(sh.meta, name)))
  {
    ShapedHeadFree(sh, name);
    DropValue(sh, name);
    TidyDrop(sh, name);
  }

  lemma TidyDrop(sh: Sheet, name: string)
    requires Tidy(sh)
    ensures Tidy(sh.(meta := DropEntry(sh.meta, name)))
  {
    match Slot(sh.meta, name) {
      case Some(i) =>
        DropTidy(sh.meta, i);
        TidyMeta(sh, DropEntry(sh.meta, name));
      case None =>
    }
  }

  lemma DropTidy(es: seq<Entry>, i: nat)
    requires TidyEntries(es) && i < |es|
    ensures TidyEntries(es[..i] + es[i + 1..])
  {
    var es' := es[..i] + es[i + 1..];
    assert forall j :: 0 <= j < |es'| ==> es'[j] == if j < i then es[j] else es[j + 1];
    forall j, k | 0 <= j < k < |es'| ensures es'[j].name != es'[k].name {
      var j' := if j < i then j else j + 1;
      var k' := if k < i then k else k + 1;
      assert es'[j] == es[j'] && es'[k] == es[k'] && j' < k';
    }
  }

  /** What the key patterns read after an edit of the entries. */
  lemma ReadSet(es: seq<Entry>, name: string, x: string, other: string)
    ensures ReadValue(SetEntry(es, name, x), other) ==
      if other == name && Slot(es, name).Some? then Some(Captured(KindOf(name), x)) else ReadValue(es, other)
    ensures Slot(SetEntry(es, name, x), other) == Slot(es, other)
  {
    LookupSet(es, name, x, other);
  }

  lemma ReadInsert(es: seq<Entry>, e: Entry, other: string)
    requires Lookup(es, e.name).None?
    ensures ReadValue(InsertAfter(es, "Updated", e), other) ==
      if other == e.name && Slot(es, "Updated").Some? then Some(Captured(KindOf(e.name), e.value)) else ReadValue(es, other)
  {
    LookupInsert(es, "Updated", e, other);
  }

  lemma ReadUpsert(es: seq<Entry>, name: string, x: string, other: string)
    ensures ReadValue(Upserted(es, name, x), other) ==
      if other == name && (Slot(es, name).Some? || Slot(es, "Updated").Some?) then Some(Captured(KindOf(name), x))
      else ReadValue(es, other)
  {
    if Slot(es, name).Some? {
      ReadSet(es, name, x, other);
    } else {
      ReadInsert(es, Entry("- ", name, x), other);
    }
  }

  lemma ReadDrop(es: seq<Entry>, name: string, other: string)
    requires forall i, j :: 0 <= i < j < |es| ==> es[i].name != es[j].name
    ensures ReadValue(DropEntry(es, name), other) == if other == name then None else ReadValue(es, other)
  {
    LookupDrop(es, name, other);
  }

  // ---------------------------------------------------------------------------------------
  // Values the handlers write.

  /** A word, or two words joined by one `-`, is what `(\w+(-\w+)?)` matches. */
  lemma WordFull(a: string)
    requires a != "" && forall i :: 0 <= i < |a| ==> IsLower(a[i])
    ensures Full(WordDash, a) && Inert(a)
  {
    RunEndIs(a, 0, WordChars, |a|);
    FullInert(WordDash, a);
  }

  lemma DashedFull(a: string, b: string)
    requires a != "" && forall i :: 0 <= i < |a| ==> IsLower(a[i])
    requires b != "" && forall i :: 0 <= i < |b| ==> IsLower(b[i])
    ensures Full(WordDash, a + "-" + b) && Inert(a + "-" + b)
  {
    var x := a + "-" + b;
    assert forall i :: 0 <= i < |a| ==> x[i] == a[i];
    assert forall i :: |a| < i < |x| ==> x[i] == b[i - |a| - 1];
    RunEndIs(x, 0, WordChars, |a|);
    FullInert(WordDash, x);
  }

  /** The four status words task_start, task_complete, task_block and task_unblock write. */
  lemma StatusWords()
    ensures Full(WordDash, "in-progress") && Inert("in-progress")
    ensures Full(WordDash, "completed") && Inert("completed")
    ensures Full(WordDash, "blocked") && Inert("blocked")
    ensures Full(WordDash, "backlog") && Inert("backlog")
  {
    DashedFull("in", "progress");
    assert "in" + "-" + "progress" == "in-progress";
    WordFull("completed");
    WordFull("blocked");
    WordFull("backlog");
  }

  /** One status word at a time. */
  lemma WordFits(word: string)
    requires word in ["in-progress", "completed", "blocked", "backlog"]
    ensures Full(WordDash, word) && Inert(word)
  {
    StatusWords();
  }

  /** `${n}h` for a count of hours is what `(\d+)h` matches, and reads back as the count. */
  lemma HoursFull(n: int)
    requires n >= 0
    ensures Full(Hours, HoursText(n)) && Inert(HoursText(n))
    ensures AsInt(Some(Captured(Hours, HoursText(n)))) == Some(n)
  {
    var s := NatToString(n);
    assert HoursText(n) == s + "h";
    FullTame(Hours, s + "h");
    TameInert(s + "h");
    assert Captured(Hours, s + "h") == s;
    RunEndIs(s, 0, DigitChars, |s|);
    assert s[..|s|] == s;
    ParseNatToString(n);
  }

  /** A one-line value without `*` or `##` is what `(.+)` matches. */
  lemma LooseFull(x: string)
    requires x != "" && Inert(x)
    ensures Full(Rest, x)
  {
  }

  // ---------------------------------------------------------------------------------------
  // The status handlers on a tidy sheet.

  /** The entries after a status change: the status word and the updated date set. */
  function Restatus(es: seq<Entry>, word: string, today: string): seq<Entry> {
    SetEntry(SetEntry(es, "Status", word), "Updated", today)
  }

  /** The first two rewrites of task_start, task_complete, task_block and task_unblock. */
  lemma RestatusSheet(sh: Sheet, word: string, today: string)
    requires Tidy(sh) && Full(WordDash, word) && Inert(word) && Full(DateRun, today)
    ensures Stamp(Assign(Render(sh), "Status", word), today) == Render(sh.(meta := Restatus(sh.meta, word, today)))
    ensures Tidy(sh.(meta := Restatus(sh.meta, word, today)))
  {
    NameFit("Status");
    NameFit("Updated");
    FullInert(DateRun, today);
    AssignSheet(sh, "Status", word);
    AssignSheet(sh.(meta := SetEntry(sh.meta, "Status", word)), "Updated", today);
  }

  lemma RestatusValues(es: seq<Entry>, word: string, today: string, n: string)
    requires Slot(es, "Status").Some? && Slot(es, "Updated").Some?
    ensures ReadValue(Restatus(es, word, today), n) ==
      if n == "Status" then Some(word) else if n == "Updated" then Some(today) else ReadValue(es, n)
    ensures Slot(Restatus(es, word, today), n) == Slot(es, n)
  {
    ReadSet(es, "Status", word, n);
    ReadSet(SetEntry(es, "Status", word), "Updated", today, n);
  }

  /** Reading after a status change, one line per metadata name `parseTaskFile` reads. */
  lemma RestatusReading(sh: Sheet, word: string, today: string, filename: string)
    requires |sh.parts| == 5 && |sh.head| >= 1 && sh.head[0].Title?
    requires Slot(sh.meta, "Status").Some? && Slot(sh.meta, "Updated").Some?
    ensures Reading(sh.(meta := Restatus(sh.meta, word, today)), filename)
      == Reading(sh, filename).(status := Some(word), updated := Some(today))
  {
    var es := sh.meta;
    RestatusValues(es, word, today, "Status");
    RestatusValues(es, word, today, "Priority");
    RestatusValues(es, word, today, "Created");
    RestatusValues(es, word, today, "Updated");
    RestatusValues(es, word, today, "Completed");
    RestatusValues(es, word, today, "Blocked By");
    RestatusValues(es, word, today, "Worktree");
    RestatusValues(es, word, today, "Repos");
    RestatusValues(es, word, today, "Parent");
    RestatusValues(es, word, today, "Estimate");
    RestatusValues(es, word, today, "Actual");
    RestatusValues(es, word, today, "Labels");
  }

  /** task_start changes what `parseTaskFile` reads in the status and the updated date only. */
  lemma StartRead(sh: Sheet, today: string, filename: string)
    requires Tidy(sh) && Full(DateRun, today)
    requires Slot(sh.meta, "Status").Some? && Slot(sh.meta, "Updated").Some?
    ensures ParseTask(StartText(Render(sh), today), filename)
      == ParseTask(Render(sh), filename).(status := Some("in-progress"), updated := Some(today))
  {
    StatusWords();
    RestatusSheet(sh, "in-progress", today);
    ParseSheet(sh, filename);
    ParseSheet(sh.(meta := Restatus(sh.meta, "in-progress", today)), filename);
    RestatusReading(sh, "in-progress", today, filename);
  }

  /** A Completed line after Updated, unless there is one. */
  function Dated(es: seq<Entry>, today: string): seq<Entry> {
    if Slot(es, "Completed").Some? then es else InsertAfter(es, "Updated", Entry("- ", "Completed", today))
  }

  /** The actual hours set when given as a non-zero number. */
  function Actualised(es: seq<Entry>, actual: Option<int>): seq<Entry> {
    if TruthyNum(actual) then Upserted(es, "Actual", HoursText(actual.value)) else es
  }

  /** The entries after task_complete. */
  function CompletedEntries(es: seq<Entry>, today: string, actual: Option<int>): seq<Entry> {
    Actualised(Dated(Restatus(es, "completed", today), today), actual)
  }

  lemma DatedSheet(sh: Sheet, today: string)
    requires Tidy(sh) && Full(DateRun, today)
    ensures (if Mentions(Render(sh), "Completed") then Render(sh) else AddAfterUpdated(Render(sh), "Completed", today))
      == Render(sh.(meta := Dated(sh.meta, today)))
    ensures Tidy(sh.(meta := Dated(sh.meta, today)))
  {
    NamesFit();
    FullInert(DateRun, today);
    MentionsSheet(sh, "Completed");
    if Slot(sh.meta, "Completed").None? {
      AddSheet(sh, "Completed", today);
    }
  }

  lemma ActualSheet(sh: Sheet, actual: Option<int>)
    requires Tidy(sh) && (TruthyNum(actual) ==> actual.value > 0)
    ensures (if TruthyNum(actual) then Upsert(Render(sh), "Actual", HoursText(actual.value)) else Render(sh))
      == Render(sh.(meta := Actualised(sh.meta, actual)))
    ensures Tidy(sh.(meta := Actualised(sh.meta, actual)))
  {
    if TruthyNum(actual) {
      NamesFit();
      HoursFull(actual.value);
      UpsertSheet(sh, "Actual", HoursText(actual.value));
    }
  }

  lemma CompleteSheet(sh: Sheet, today: string, actual: Option<int>)
    requires Tidy(sh) && Full(DateRun, today) && (TruthyNum(actual) ==> actual.value > 0)
    ensures CompleteText(Render(sh), today, actual) == Render(sh.(meta := CompletedEntries(sh.meta, today, actual)))
    ensures Tidy(sh.(meta := CompletedEntries(sh.meta, today, actual)))
  {
    StatusWords();
    RestatusSheet(sh, "completed", today);
    var sh1 := sh.(meta := Restatus(sh.meta, "completed", today));
    DatedSheet(sh1, today);
    ActualSheet(sh1.(meta := Dated(sh1.meta, today)), actual);
  }

  lemma DatedValues(es: seq<Entry>, today: string, n: string)
    requires Slot(es, "Updated").Some?
    ensures ReadValue(Dated(es, today), n) ==
      if n == "Completed" && ReadValue(es, "Completed").None? then Some(today) else ReadValue(es, n)
    ensures ReadValue(Dated(es, today), "Updated") == ReadValue(es, "Updated")
  {
    if Slot(es, "Completed").None? {
      ReadInsert(es, Entry("- ", "Completed", today), n);
      ReadInsert(es, Entry("- ", "Completed", today), "Updated");
    }
  }

  lemma ActualValues(es: seq<Entry>, actual: Option<int>, n: string)
    requires ReadValue(es, "Updated").Some? && (TruthyNum(actual) ==> actual.value > 0)
    ensures ReadValue(Actualised(es, actual), n) ==
      if n == "Actual" && TruthyNum(actual) then Some(Captured(Hours, HoursText(actual.value))) else ReadValue(es, n)
  {
    if TruthyNum(actual) {
      ReadUpsert(es, "Actual", HoursText(actual.value), n);
    }
  }

  lemma CompleteValues(es: seq<Entry>, today: string, actual: Option<int>, n: string)
    requires Slot(es, "Status").Some? && Slot(es, "Updated").Some? && (TruthyNum(actual) ==> actual.value > 0)
    ensures ReadValue(CompletedEntries(es, today, actual), n) ==
      if n == "Status" then Some("completed")
      else if n == "Updated" then Some(today)
      else if n == "Completed" && ReadValue(es, "Completed").None? then Some(today)
      else if n == "Actual" && TruthyNum(actual) then Some(Captured(Hours, HoursText(actual.value)))
      else ReadValue(es, n)
  {
    var es1 := Restatus(es, "completed", today);
    RestatusValues(es, "completed", today, n);
    RestatusValues(es, "completed", today, "Completed");
    RestatusValues(es, "completed", today, "Updated");
    DatedValues(es1, today, n);
    ActualValues(Dated(es1, today), actual, n);
  }

  lemma CompleteReading(sh: Sheet, today: string, actual: Option<int>, filename: string)
    requires |sh.parts| == 5 && |sh.head| >= 1 && sh.head[0].Title?
    requires Slot(sh.meta, "Status").Some? && Slot(sh.meta, "Updated").Some? && (TruthyNum(actual) ==> actual.value > 0)
    ensures
      var before := Reading(sh, filename);
      Reading(sh.(meta := CompletedEntries(sh.meta, today, actual)), filename)
      == before.(status := Some("completed"), updated := Some(today),
                 completed := if before.completed.Some? then before.completed else Some(today),
                 actual := if TruthyNum(actual) then actual else before.actual)
  {
    var es := sh.meta;
    CompleteValues(es, today, actual, "Status");
    CompleteValues(es, today, actual, "Priority");
    CompleteValues(es, today, actual, "Created");
    CompleteValues(es, today, actual, "Updated");
    CompleteValues(es, today, actual, "Completed");
    CompleteValues(es, today, actual, "Blocked By");
    CompleteValues(es, today, actual, "Worktree");
    CompleteValues(es, today, actual, "Repos");
    CompleteValues(es, today, actual, "Parent");
    CompleteValues(es, today, actual, "Estimate");
    CompleteValues(es, today, actual, "Actual");
    CompleteValues(es, today, actual, "Labels");
    if TruthyNum(actual) {
      HoursFull(actual.value);
    }
  }

  /** task_complete sets the status and the updated date, the completed date only when there is
      none, and the actual hours only when given. */
  lemma CompleteRead(sh: Sheet, today: string, actual: Option<int>, filename: string)
    requires Tidy(sh) && Full(DateRun, today) && (TruthyNum(actual) ==> actual.value > 0)
    requires Slot(sh.meta, "Status").Some? && Slot(sh.meta, "Updated").Some?
    ensures
      var before := ParseTask(Render(sh), filename);
      ParseTask(CompleteText(Render(sh), today, actual), filename)
      == before.(status := Some("completed"), updated := Some(today),
                 completed := if before.completed.Some? then before.completed else Some(today),
                 actual := if TruthyNum(actual) then actual else before.actual)
  {
    CompleteSheet(sh, today, actual);
    ParseSheet(sh, filename);
    ParseSheet(sh.(meta := CompletedEntries(sh.meta, today, actual)), filename);
    CompleteReading(sh, today, actual, filename);
  }

  /** The entries after task_block. */
  function BlockedEntries(es: seq<Entry>, today: string, blockedBy: string): seq<Entry> {
    Upserted(Restatus(es, "blocked", today), "Blocked By", blockedBy)
  }

  lemma BlockSheet(sh: Sheet, today: string, blockedBy: string)
    requires Tidy(sh) && Full(DateRun, today) && blockedBy != "" && Inert(blockedBy)
    ensures BlockText(Render(sh), today, blockedBy) == Render(sh.(meta := BlockedEntries(sh.meta, today, blockedBy)))
    ensures Tidy(sh.(meta := BlockedEntries(sh.meta, today, blockedBy)))
  {
    WordFits("blocked");
    NameFit("Blocked By");
    LooseFull(blockedBy);
    assert Settable("Blocked By", blockedBy);
    RestatusSheet(sh, "blocked", today);
    UpsertSheet(sh.(meta := Restatus(sh.meta, "blocked", today)), "Blocked By", blockedBy);
  }

  lemma BlockValues(es: seq<Entry>, today: string, blockedBy: string, n: string)
    requires Slot(es, "Status").Some? && Slot(es, "Updated").Some?
    ensures ReadValue(BlockedEntries(es, today, blockedBy), n) ==
      if n == "Status" then Some("blocked")
      else if n == "Updated" then Some(today)
      else if n == "Blocked By" then Some(blockedBy)
      else ReadValue(es, n)
  {
    RestatusValues(es, "blocked", today, n);
    RestatusValues(es, "blocked", today, "Updated");
    ReadUpsert(Restatus(es, "blocked", today), "Blocked By", blockedBy, n);
  }

  lemma BlockReading(sh: Sheet, today: string, blockedBy: string, filename: string)
    requires |sh.parts| == 5 && |sh.head| >= 1 && sh.head[0].Title?
    requires Slot(sh.meta, "Status").Some? && Slot(sh.meta, "Updated").Some?
    ensures Reading(sh.(meta := BlockedEntries(sh.meta, today, blockedBy)), filename)
      == Reading(sh, filename).(status := Some("blocked"), updated := Some(today), blockedBy := Some(blockedBy))
  {
    var es := sh.meta;
    BlockValues(es, today, blockedBy, "Status");
    BlockValues(es, today, blockedBy, "Priority");
    BlockValues(es, today, blockedBy, "Created");
    BlockValues(es, today, blockedBy, "Updated");
    BlockValues(es, today, blockedBy, "Completed");
    BlockValues(es, today, blockedBy, "Blocked By");
    BlockValues(es, today, blockedBy, "Worktree");
    BlockValues(es, today, blockedBy, "Repos");
    BlockValues(es, today, blockedBy, "Parent");
    BlockValues(es, today, blockedBy, "Estimate");
    BlockValues(es, today, blockedBy, "Actual");
    BlockValues(es, today, blockedBy, "Labels");
  }

  /** task_block sets the status, the updated date and the blocker, whatever blocked the task before. */
  lemma BlockRead(sh: Sheet, today: string, blockedBy: string, filename: string)
    requires Tidy(sh) && Full(DateRun, today) && blockedBy != "" && Inert(blockedBy)
    requires Slot(sh.meta, "Status").Some? && Slot(sh.meta, "Updated").Some?
    ensures ParseTask(BlockText(Render(sh), today, blockedBy), filename)
      == ParseTask(Render(sh), filename).(status := Some("blocked"), updated := Some(today), blockedBy := Some(blockedBy))
  {
    BlockSheet(sh, today, blockedBy);
    ParseSheet(sh, filename);
    ParseSheet(sh.(meta := BlockedEntries(sh.meta, today, blockedBy)), filename);
    BlockReading(sh, today, blockedBy, filename);
  }

  /** The entries after task_unblock. */
  function UnblockedEntries(es: seq<Entry>, today: string): seq<Entry> {
    DropEntry(Restatus(es, "backlog", today), "Blocked By")
  }

  lemma UnblockSheet(sh: Sheet, today: string)
    requires Tidy(sh) && Full(DateRun, today)
    ensures UnblockText(Render(sh), today) == Render(sh.(meta := UnblockedEntries(sh.meta, today)))
    ensures Tidy(sh.(meta := UnblockedEntries(sh.meta, today)))
  {
    var sh1 := sh.(meta := Restatus(sh.meta, "backlog", today));
    WordFits("backlog");
    RestatusSheet(sh, "backlog", today);
    BlockerDroppable();
    DropSheet(sh1, "Blocked By");
    assert sh1.(meta := DropEntry(sh1.meta, "Blocked By")) == sh.(meta := UnblockedEntries(sh.meta, today));
  }

  lemma BlockerDroppable()
    ensures NameFits("Blocked By") && KindOf("Blocked By") == Rest
  {
    RestNamed("Blocked By");
  }

  lemma UnblockValues(es: seq<Entry>, today: string, n: string)
    requires Slot(es, "Status").Some? && Slot(es, "Updated").Some?
    requires TidyEntries(Restatus(es, "backlog", today))
    ensures ReadValue(UnblockedEntries(es, today), n) ==
      if n == "Status" then Some("backlog")
      else if n == "Updated" then Some(today)
      else if n == "Blocked By" then None
      else ReadValue(es, n)
  {
    RestatusValues(es, "backlog", today, n);
    ReadDrop(Restatus(es, "backlog", today), "Blocked By", n);
  }

  lemma UnblockReading(sh: Sheet, today: string, filename: string)
    requires |sh.parts| == 5 && |sh.head| >= 1 && sh.head[0].Title?
    requires Slot(sh.meta, "Status").Some? && Slot(sh.meta, "Updated").Some?
    requires TidyEntries(Restatus(sh.meta, "backlog", today))
    ensures Reading(sh.(meta := UnblockedEntries(sh.meta, today)), filename)
      == Reading(sh, filename).(status := Some("backlog"), updated := Some(today), blockedBy := None)
  {
    var es := sh.meta;
    UnblockValues(es, today, "Status");
    UnblockValues(es, today, "Priority");
    UnblockValues(es, today, "Created");
    UnblockValues(es, today, "Updated");
    UnblockValues(es, today, "Completed");
    UnblockValues(es, today, "Blocked By");
    UnblockValues(es, today, "Worktree");
    UnblockValues(es, today, "Repos");
    UnblockValues(es, today, "Parent");
    UnblockValues(es, today, "Estimate");
    UnblockValues(es, today, "Actual");
    UnblockValues(es, today, "Labels");
  }

  /** task_unblock sets the status back to backlog and the updated date, and drops the blocker. */
  lemma UnblockRead(sh: Sheet, today: string, filename: string)
    requires Tidy(sh) && Full(DateRun, today)
    requires Slot(sh.meta, "Status").Some? && Slot(sh.meta, "Updated").Some?
    ensures ParseTask(UnblockText(Render(sh), today), filename)
      == ParseTask(Render(sh), filename).(status := Some("backlog"), updated := Some(today), blockedBy := None)
  {
    StatusWords();
    RestatusSheet(sh, "backlog", today);
    UnblockSheet(sh, today);
    ParseSheet(sh, filename);
    ParseSheet(sh.(meta := UnblockedEntries(sh.meta, today)), filename);
    UnblockReading(sh, today, filename);
  }

  /** The entries after task_link_worktree. */
  function LinkedEntries(es: seq<Entry>, today: string, worktree: string): seq<Entry> {
    SetEntry(Upserted(es, "Worktree", worktree), "Updated", today)
  }

  lemma LinkSheet(sh: Sheet, today: string, worktree: string)
    requires Tidy(sh) && Full(DateRun, today) && worktree != "" && Inert(worktree)
    ensures LinkText(Render(sh), today, worktree) == Render(sh.(meta := LinkedEntries(sh.meta, today, worktree)))
    ensures Tidy(sh.(meta := LinkedEntries(sh.meta, today, worktree)))
  {
    NamesFit();
    FullInert(DateRun, today);
    LooseFull(worktree);
    UpsertSheet(sh, "Worktree", worktree);
    AssignSheet(sh.(meta := Upserted(sh.meta, "Worktree", worktree)), "Updated", today);
  }

  lemma LinkValues(es: seq<Entry>, today: string, worktree: string, n: string)
    requires Slot(es, "Updated").Some?
    ensures ReadValue(LinkedEntries(es, today, worktree), n) ==
      if n == "Updated" then Some(today) else if n == "Worktree" then Some(worktree) else ReadValue(es, n)
  {
    ReadUpsert(es, "Worktree", worktree, n);
    ReadUpsert(es, "Worktree", worktree, "Updated");
    var es1 := Upserted(es, "Worktree", worktree);
    assert ReadValue(es1, "Updated").Some?;
    assert Slot(es1, "Updated").Some?;
    ReadSet(Upserted(es, "Worktree", worktree), "Updated", today, n);
  }

  lemma LinkReading(sh: Sheet, today: string, worktree: string, filename: string)
    requires |sh.parts| == 5 && |sh.head| >= 1 && sh.head[0].Title?
    requires Slot(sh.meta, "Updated").Some?
    ensures Reading(sh.(meta := LinkedEntries(sh.meta, today, worktree)), filename)
      == Reading(sh, filename).(updated := Some(today), worktree := Some(worktree))
  {
    var es := sh.meta;
    LinkValues(es, today, worktree, "Status");
    LinkValues(es, today, worktree, "Priority");
    LinkValues(es, today, worktree, "Created");
    LinkValues(es, today, worktree, "Updated");
    LinkValues(es, today, worktree, "Completed");
    LinkValues(es, today, worktree, "Blocked By");
    LinkValues(es, today, worktree, "Worktree");
    LinkValues(es, today, worktree, "Repos");
    LinkValues(es, today, worktree, "Parent");
    LinkValues(es, today, worktree, "Estimate");
    LinkValues(es, today, worktree, "Actual");
    LinkValues(es, today, worktree, "Labels");
  }

  /** task_link_worktree records the worktree, in place of any earlier one, and the updated date. */
  lemma LinkRead(sh: Sheet, today: string, worktree: string, filename: string)
    requires Tidy(sh) && Full(DateRun, today) && worktree != "" && Inert(worktree)
    requires Slot(sh.meta, "Updated").Some?
    ensures ParseTask(LinkText(Render(sh), today, worktree), filename)
      == ParseTask(Render(sh), filename).(updated := Some(today), worktree := Some(worktree))
  {
    LinkSheet(sh, today, worktree);
    ParseSheet(sh, filename);
    ParseSheet(sh.(meta := LinkedEntries(sh.meta, today, worktree)), filename);
    LinkReading(sh, today, worktree, filename);
  }

  // ---------------------------------------------------------------------------------------
  // task_add_note on a tidy sheet.

  lemma LinesCat(a: string, b: string)
    ensures Lines(a + "\n" + b) == Lines(a) + Lines(b)
  {
    UnlinesLines(a);
    UnlinesLines(b);
    JoinAppend(Lines(a), Lines(b), "\n");
    LinesUnlines(Lines(a) + Lines(b));
  }

  /** The notes read line by line: the earlier ones (unless only the placeholder), then the new one. */
  lemma NotesLines(body: string, today: string, note: string)
    requires '\n' !in note && '\n' !in today
    ensures Lines(NotesAfter(body, today, note)) ==
      (if Trim(body) == NOTES_PLACEHOLDER then [] else Lines(Trim(body))) + [NoteLine(today, note)]
  {
    var l := NoteLine(today, note);
    assert forall i :: 0 <= i < |l| ==> l[i] != '\n' by {
      assert forall i :: 0 <= i < |l| ==> l[i] == if i < 2 then "- "[i] else if i < 2 + |today| then today[i - 2]
        else if i < 4 + |today| then ": "[i - 2 - |today|] else note[i - 4 - |today|];
    }
    LinesUnlines([l]);
    if Trim(body) != NOTES_PLACEHOLDER {
      LinesCat(Trim(body), l);
    }
  }

  lemma NoteLineQuiet(today: string, note: string)
    requires Tame(today) && Quiet(note)
    ensures Quiet(NoteLine(today, note))
  {
    var a := "- " + today + ": ";
    assert forall i :: 0 <= i < |a| ==> a[i] == if i < 2 then "- "[i] else if i < 2 + |today| then today[i - 2] else ": "[i - 2 - |today|];
    assert StarFree(a) && HashFree(a);
    QuietBehind(a, note);
    assert NoteLine(today, note) == a + note;
  }

  lemma RowsQuiet(rows: seq<Row>)
    requires PlainRows(rows)
    ensures Quiet(Doc(rows))
  {
    UnlinesQuiet(Rendered(rows));
  }

  /** The body of the notes section after task_add_note. */
  function NotedBody(body: seq<Row>, today: string, note: string): seq<Row> {
    TextRows(Lines(NotesAfter(Doc(body), today, note))) + Blanks(2)
  }

  function Noted(sh: Sheet, today: string, note: string): Sheet
    requires |sh.parts| == 5
  {
    sh.(meta := SetEntry(sh.meta, "Updated", today),
        parts := sh.parts[3 := Part("Implementation Notes", NotedBody(sh.parts[3].body, today, note))])
  }

  lemma NotedPlain(body: seq<Row>, today: string, note: string)
    requires PlainRows(body) && Tame(today) && Quiet(note)
    ensures PlainRows(NotedBody(body, today, note)) && |NotedBody(body, today, note)| >= 1
    ensures Doc(NotedBody(body, today, note)) == NotesWith(Doc(body), today, note)
  {
    var b := Doc(body);
    var core := NotesAfter(b, today, note);
    RowsQuiet(body);
    TrimQuiet(b);
    NoteLineQuiet(today, note);
    if Trim(b) != NOTES_PLACEHOLDER {
      QuietJoin(Trim(b), NoteLine(today, note));
    }
    QuietPlain(core);
    ProseDoc(core, 2);
    assert Newlines(2) == "\n\n";
  }

  /** A tidy sheet with one section body replaced by plain rows is tidy. */
  lemma PartTidy(sh: Sheet, k: nat, body: seq<Row>)
    requires Tidy(sh) && k < |sh.parts| && PlainRows(body) && |body| >= 1
    ensures Tidy(sh.(parts := sh.parts[k := Part(sh.parts[k].name, body)]))
  {
    var sh' := sh.(parts := sh.parts[k := Part(sh.parts[k].name, body)]);
    assert Names(sh'.parts) == Names(sh.parts);
    assert forall j :: 0 <= j < |sh.parts| ==> GoodPart(sh'.parts[j]) by {
      forall j | 0 <= j < |sh.parts| ensures GoodPart(sh'.parts[j]) {
        if j != k {
          assert sh'.parts[j] == sh.parts[j];
        } else {
          assert GoodPart(sh.parts[k]);
        }
      }
    }
    assert forall j, m :: 0 <= j < m < |sh'.parts| ==> sh'.parts[j].name != sh'.parts[m].name by {
      forall j, m | 0 <= j < m < |sh'.parts| ensures sh'.parts[j].name != sh'.parts[m].name {
        assert sh'.parts[j].name == sh.parts[j].name && sh'.parts[m].name == sh.parts[m].name;
      }
    }
  }

  lemma SelfPrefix(s: string)
    ensures StartsWith(s, s)
  {
    assert s[..|s|] == s;
  }

  /** The notes section ends at the line opening `## Files Changed`. */
  lemma NotesStop()
    ensures "## " + "Implementation Notes" == "## Implementation Notes"
    ensures StartsWith("## " + "Files Changed", StopPrefix(NextLine("## Files Changed")))
    ensures StartsWith(StopPrefix(NextLine("## Files Changed")), "##")
  {
    var x := "## Files Changed";
    assert "## " + "Files Changed" == x;
    assert x[..|x|] == x;
    assert x[..2] == "##";
  }

  lemma NoteSection(sh: Sheet, today: string, note: string)
    requires Tidy(sh) && Tame(today) && Quiet(note)
    ensures ReplaceSection(Render(sh), "## Implementation Notes", NextLine("## Files Changed"), b => NotesWith(b, today, note))
      == Render(sh.(parts := sh.parts[3 := Part("Implementation Notes", NotedBody(sh.parts[3].body, today, note))]))
    ensures Tidy(sh.(parts := sh.parts[3 := Part("Implementation Notes", NotedBody(sh.parts[3].body, today, note))]))
  {
    assert GoodPart(sh.parts[3]);
    NotedPlain(sh.parts[3].body, today, note);
    var body := NotedBody(sh.parts[3].body, today, note);
    assert Names(sh.parts)[3] == sh.parts[3].name == "Implementation Notes";
    assert Names(sh.parts)[4] == sh.parts[4].name == "Files Changed";
    NotesStop();
    PartReplace(sh, 3, NextLine("## Files Changed"), b => NotesWith(b, today, note), body);
    PartTidy(sh, 3, body);
  }

  lemma NoteSheet(sh: Sheet, today: string, note: string)
    requires Tidy(sh) && Full(DateRun, today) && Quiet(note)
    ensures NoteText(Render(sh), today, note) == Render(Noted(sh, today, note))
    ensures Tidy(Noted(sh, today, note))
  {
    FullTame(DateRun, today);
    NoteSection(sh, today, note);
    NamesFit();
    FullInert(DateRun, today);
    AssignSheet(sh.(parts := sh.parts[3 := Part("Implementation Notes", NotedBody(sh.parts[3].body, today, note))]), "Updated", today);
  }

  /** Stamping the updated date changes what `parseTaskFile` reads in that date only. */
  lemma StampReading(sh: Sheet, today: string, filename: string)
    requires |sh.parts| == 5 && |sh.head| >= 1 && sh.head[0].Title?
    requires Slot(sh.meta, "Updated").Some?
    ensures Reading(sh.(meta := SetEntry(sh.meta, "Updated", today)), filename)
      == Reading(sh, filename).(updated := Some(today))
  {
    var es := sh.meta;
    var x := sh.(meta := SetEntry(es, "Updated", today));
    assert x.head == sh.head && x.parts == sh.parts;
    ReadSet(es, "Updated", today, "Status");
    ReadSet(es, "Updated", today, "Priority");
    ReadSet(es, "Updated", today, "Created");
    ReadSet(es, "Updated", today, "Updated");
    ReadSet(es, "Updated", today, "Completed");
    ReadSet(es, "Updated", today, "Blocked By");
    ReadSet(es, "Updated", today, "Worktree");
    ReadSet(es, "Updated", today, "Repos");
    ReadSet(es, "Updated", today, "Parent");
    ReadSet(es, "Updated", today, "Estimate");
    ReadSet(es, "Updated", today, "Actual");
    ReadSet(es, "Updated", today, "Labels");
  }

  lemma NoteReading(sh: Sheet, today: string, note: string, filename: string)
    requires |sh.parts| == 5 && |sh.head| >= 1 && sh.head[0].Title?
    requires Slot(sh.meta, "Updated").Some?
    ensures Reading(Noted(sh, today, note), filename) == Reading(sh, filename).(updated := Some(today))
  {
    var x := sh.(meta := SetEntry(sh.meta, "Updated", today));
    StampReading(sh, today, filename);
    var sh' := Noted(sh, today, note);
    assert sh'.meta == x.meta && sh'.head == x.head;
    assert sh'.parts[0] == x.parts[0] && sh'.parts[1] == x.parts[1] && sh'.parts[2] == x.parts[2];
  }

  /** The notes section after task_add_note, line by line: the earlier notes unless only the
      placeholder was there, then the new note, then the two blank lines that close the body. */
  lemma NotedLines(body: seq<Row>, today: string, note: string)
    requires Tame(today) && '\n' !in note
    ensures var b := Doc(body);
      Lines(Doc(NotedBody(body, today, note))) ==
        (if Trim(b) == NOTES_PLACEHOLDER then [] else Lines(Trim(b))) + [NoteLine(today, note), "", ""]
  {
    var b := Doc(body);
    var core := NotesAfter(b, today, note);
    assert '\n' !in today by {
      assert forall i :: 0 <= i < |today| ==> IsWordChar(today[i]) || today[i] == '-';
    }
    NotesLines(b, today, note);
    UnlinesLines(core);
    var ls := Lines(core) + ["", ""];
    assert Rendered(NotedBody(body, today, note)) == ls;
    assert FlatLines(ls) by {
      assert forall i :: 0 <= i < |ls| ==> ls[i] == if i < |Lines(core)| then Lines(core)[i] else "";
    }
    LinesUnlines(ls);
  }

  /** task_add_note changes nothing `parseTaskFile` reads but the updated date (the note itself
      lands as NotedLines says). */
  lemma NoteRead(sh: Sheet, today: string, note: string, filename: string)
    requires Tidy(sh) && Full(DateRun, today) && Quiet(note)
    requires Slot(sh.meta, "Updated").Some?
    ensures ParseTask(NoteText(Render(sh), today, note), filename)
      == ParseTask(Render(sh), filename).(updated := Some(today))
  {
    NoteSheet(sh, today, note);
    ParseSheet(sh, filename);
    ParseSheet(Noted(sh, today, note), filename);
    NoteReading(sh, today, note, filename);
  }

  // ---------------------------------------------------------------------------------------
  // task_update on a tidy sheet.

  /** Arguments task_update writes in a shape the patterns read back: a one-line title, a
      priority `P<digit>`, a description of plain lines, labels without commas, a one-line
      worktree and positive hours. */
  predicate ChangesFit(ch: Changes) {
    && (Truthy(ch.title) ==> Inert(ch.title.value))
    && (Truthy(ch.priority) ==> Full(Prio, ch.priority.value))
    && (Truthy(ch.description) ==> Quiet(ch.description.value))
    && (ch.labels.Some? ==> |ch.labels.value| >= 1 && ListItems(ch.labels.value))
    && (Truthy(ch.worktree) ==> Inert(ch.worktree.value))
    && (TruthyNum(ch.estimate) ==> ch.estimate.value > 0)
    && (TruthyNum(ch.actual) ==> ch.actual.value > 0)
  }

  function Reprioritised(es: seq<Entry>, ch: Changes): seq<Entry> {
    if Truthy(ch.priority) then SetEntry(es, "Priority", ch.priority.value) else es
  }

  function Relabelled(es: seq<Entry>, ch: Changes): seq<Entry> {
    var es1 := if ch.labels.Some? then Upserted(es, "Labels", Join(ch.labels.value, ", ")) else es;
    if Truthy(ch.worktree) then Upserted(es1, "Worktree", ch.worktree.value) else es1
  }

  function Rehoured(es: seq<Entry>, ch: Changes): seq<Entry> {
    var es1 := if TruthyNum(ch.estimate) then Upserted(es, "Estimate", HoursText(ch.estimate.value)) else es;
    if TruthyNum(ch.actual) then Upserted(es1, "Actual", HoursText(ch.actual.value)) else es1
  }

  /** The description section body the update writes. */
  function DescriptionBody(d: string): seq<Row> { TextRows(Lines(d)) + Blanks(2) }

  /** The sheet after task_update. */
  function UpdatedSheet(sh: Sheet, id: string, ch: Changes, today: string): Sheet
    requires |sh.head| >= 1 && |sh.parts| == 5
  {
    Sheet(if Truthy(ch.title) then sh.head[0 := Title(id, ch.title.value)] else sh.head,
          UpdatedEntries(sh.meta, ch, today),
          if Truthy(ch.description) then sh.parts[0 := Part("Description", DescriptionBody(ch.description.value))]
          else sh.parts)
  }

  lemma RetitleSheet(sh: Sheet, id: string, title: string)
    requires Tidy(sh) && Full(TaskRef, id) && title != "" && Inert(title)
    ensures Retitle(Render(sh), id, title) == Render(sh.(head := sh.head[0 := Title(id, title)]))
    ensures Tidy(sh.(head := sh.head[0 := Title(id, title)]))
  {
    SetHeadTitle(sh, TaskRef, id, title);
    FullInert(TaskRef, id);
    var h := sh.head[0 := Title(id, title)];
    assert GoodRow(Title(id, title));
    assert forall i :: 0 <= i < |h| ==> h[i] == if i == 0 then Title(id, title) else sh.head[i];
  }

  /** The description section ends at the line opening `## Acceptance`. */
  lemma DescriptionStop()
    ensures "## " + "Description" == "## Description"
    ensures StartsWith("## " + "Acceptance Criteria", StopPrefix(NextLine("## Acceptance")))
    ensures StartsWith(StopPrefix(NextLine("## Acceptance")), "##")
  {
    var x := "## Acceptance Criteria";
    assert "## " + "Acceptance Criteria" == x;
    assert x[..|"## Acceptance"|] == "## Acceptance";
    assert "## Acceptance"[..2] == "##";
  }

  lemma RedescribeSheet(sh: Sheet, d: string)
    requires Tidy(sh) && Quiet(d)
    ensures Redescribe(Render(sh), d) == Render(sh.(parts := sh.parts[0 := Part("Description", DescriptionBody(d))]))
    ensures Tidy(sh.(parts := sh.parts[0 := Part("Description", DescriptionBody(d))]))
  {
    QuietPlain(d);
    ProseDoc(d, 2);
    assert Newlines(2) == "\n\n";
    assert Names(sh.parts)[0] == sh.parts[0].name == "Description";
    assert Names(sh.parts)[1] == sh.parts[1].name == "Acceptance Criteria";
    DescriptionStop();
    PartReplace(sh, 0, NextLine("## Acceptance"), _ => d + "\n\n", DescriptionBody(d));
    PartTidy(sh, 0, DescriptionBody(d));
  }

  lemma RelabelSheet(sh: Sheet, ch: Changes)
    requires Tidy(sh) && ChangesFit(ch)
    ensures (var c := Render(sh);
             var c4 := if ch.labels.Some? then Upsert(c, "Labels", Join(ch.labels.value, ", ")) else c;
             if Truthy(ch.worktree) then Upsert(c4, "Worktree", ch.worktree.value) else c4)
      == Render(sh.(meta := Relabelled(sh.meta, ch)))
    ensures Tidy(sh.(meta := Relabelled(sh.meta, ch)))
  {
    var sh1 := if ch.labels.Some? then sh.(meta := Upserted(sh.meta, "Labels", Join(ch.labels.value, ", "))) else sh;
    if ch.labels.Some? {
      RestNamed("Labels");
      ListInert(ch.labels.value);
      UpsertSheet(sh, "Labels", Join(ch.labels.value, ", "));
    }
    if Truthy(ch.worktree) {
      RestNamed("Worktree");
      LooseFull(ch.worktree.value);
      UpsertSheet(sh1, "Worktree", ch.worktree.value);
    }
  }

  lemma RehourSheet(sh: Sheet, ch: Changes)
    requires Tidy(sh) && ChangesFit(ch)
    ensures (var c6 := if TruthyNum(ch.estimate) then Upsert(Render(sh), "Estimate", HoursText(ch.estimate.value)) else Render(sh);
             if TruthyNum(ch.actual) then Upsert(c6, "Actual", HoursText(ch.actual.value)) else c6)
      == Render(sh.(meta := Rehoured(sh.meta, ch)))
    ensures Tidy(sh.(meta := Rehoured(sh.meta, ch)))
  {
    var sh1 := if TruthyNum(ch.estimate) then sh.(meta := Upserted(sh.meta, "Estimate", HoursText(ch.estimate.value))) else sh;
    if TruthyNum(ch.estimate) {
      HoursNamed("Estimate");
      HoursFull(ch.estimate.value);
      UpsertSheet(sh, "Estimate", HoursText(ch.estimate.value));
    }
    if TruthyNum(ch.actual) {
      HoursNamed("Actual");
      HoursFull(ch.actual.value);
      UpsertSheet(sh1, "Actual", HoursText(ch.actual.value));
    }
  }

  lemma UpdateSheet(sh: Sheet, id: string, ch: Changes, today: string)
    requires Tidy(sh) && Full(TaskRef, id) && ChangesFit(ch) && Full(DateRun, today)
    ensures UpdateText(Render(sh), id, ch, today) == Render(UpdatedSheet(sh, id, ch, today))
    ensures Tidy(UpdatedSheet(sh, id, ch, today))
  {
    var s3 := Refronted(sh, id, ch);
    RefrontSheet(sh, id, ch);
    RemetaSheet(s3, ch, today);
    assert s3.(meta := SetEntry(Rehoured(Relabelled(s3.meta, ch), ch), "Updated", today)) == UpdatedSheet(sh, id, ch, today);
  }

  /** The sheet after task_update's title, priority and description arguments. */
  function Refronted(sh: Sheet, id: string, ch: Changes): Sheet
    requires |sh.head| >= 1 && |sh.parts| == 5
  {
    Sheet(if Truthy(ch.title) then sh.head[0 := Title(id, ch.title.value)] else sh.head,
          Reprioritised(sh.meta, ch),
          if Truthy(ch.description) then sh.parts[0 := Part("Description", DescriptionBody(ch.description.value))]
          else sh.parts)
  }

  lemma RefrontSheet(sh: Sheet, id: string, ch: Changes)
    requires Tidy(sh) && Full(TaskRef, id) && ChangesFit(ch)
    ensures var c := Render(sh);
      var c1 := if Truthy(ch.title) then Retitle(c, id, ch.title.value) else c;
      var c2 := if Truthy(ch.priority) then Assign(c1, "Priority", ch.priority.value) else c1;
      (if Truthy(ch.description) then Redescribe(c2, ch.description.value) else c2) == Render(Refronted(sh, id, ch))
    ensures Tidy(Refronted(sh, id, ch))
  {
    NamesFit();
    var s1 := if Truthy(ch.title) then sh.(head := sh.head[0 := Title(id, ch.title.value)]) else sh;
    if Truthy(ch.title) {
      RetitleSheet(sh, id, ch.title.value);
    }
    var s2 := s1.(meta := Reprioritised(s1.meta, ch));
    if Truthy(ch.priority) {
      FullInert(Prio, ch.priority.value);
      AssignSheet(s1, "Priority", ch.priority.value);
    }
    if Truthy(ch.description) {
      RedescribeSheet(s2, ch.description.value);
    }
  }

  lemma RemetaSheet(sh: Sheet, ch: Changes, today: string)
    requires Tidy(sh) && ChangesFit(ch) && Full(DateRun, today)
    ensures Stamp(UpdateMeta(Render(sh), ch), today)
      == Render(sh.(meta := SetEntry(Rehoured(Relabelled(sh.meta, ch), ch), "Updated", today)))
    ensures Tidy(sh.(meta := SetEntry(Rehoured(Relabelled(sh.meta, ch), ch), "Updated", today)))
  {
    NamesFit();
    RelabelSheet(sh, ch);
    var s4 := sh.(meta := Relabelled(sh.meta, ch));
    RehourSheet(s4, ch);
    var s5 := s4.(meta := Rehoured(s4.meta, ch));
    FullInert(DateRun, today);
    AssignSheet(s5, "Updated", today);
  }

  /** One Upsert, read back, where the entries have an Updated line. */
  lemma UpsertValue(es: seq<Entry>, name: string, x: string, n: string)
    requires ReadValue(es, "Updated").Some? && name != "Updated"
    ensures ReadValue(Upserted(es, name, x), n) == if n == name then Some(Captured(KindOf(name), x)) else ReadValue(es, n)
    ensures ReadValue(Upserted(es, name, x), "Updated") == ReadValue(es, "Updated")
  {
    assert Slot(es, "Updated").Some?;
    ReadUpsert(es, name, x, n);
    ReadUpsert(es, name, x, "Updated");
  }

  lemma RelabelValues(es: seq<Entry>, ch: Changes, n: string)
    requires ReadValue(es, "Updated").Some?
    ensures ReadValue(Relabelled(es, ch), n) ==
      if n == "Labels" && ch.labels.Some? then Some(Join(ch.labels.value, ", "))
      else if n == "Worktree" && Truthy(ch.worktree) then ch.worktree
      else ReadValue(es, n)
    ensures ReadValue(Relabelled(es, ch), "Updated") == ReadValue(es, "Updated")
  {
    assert KindOf("Labels") == Rest && KindOf("Worktree") == Rest;
    var es1 := if ch.labels.Some? then Upserted(es, "Labels", Join(ch.labels.value, ", ")) else es;
    if ch.labels.Some? {
      UpsertValue(es, "Labels", Join(ch.labels.value, ", "), n);
    }
    assert ReadValue(es1, "Updated") == ReadValue(es, "Updated");
    assert ReadValue(es1, n) == if n == "Labels" && ch.labels.Some? then Some(Join(ch.labels.value, ", ")) else ReadValue(es, n);
    if Truthy(ch.worktree) {
      UpsertValue(es1, "Worktree", ch.worktree.value, n);
    }
  }

  lemma RehourValues(es: seq<Entry>, ch: Changes, n: string)
    requires ReadValue(es, "Updated").Some?
    ensures ReadValue(Rehoured(es, ch), n) ==
      if n == "Estimate" && TruthyNum(ch.estimate) then Some(Captured(Hours, HoursText(ch.estimate.value)))
      else if n == "Actual" && TruthyNum(ch.actual) then Some(Captured(Hours, HoursText(ch.actual.value)))
      else ReadValue(es, n)
    ensures ReadValue(Rehoured(es, ch), "Updated") == ReadValue(es, "Updated")
  {
    assert KindOf("Estimate") == Hours && KindOf("Actual") == Hours;
    var es1 := if TruthyNum(ch.estimate) then Upserted(es, "Estimate", HoursText(ch.estimate.value)) else es;
    if TruthyNum(ch.estimate) {
      UpsertValue(es, "Estimate", HoursText(ch.estimate.value), n);
    }
    if TruthyNum(ch.actual) {
      UpsertValue(es1, "Actual", HoursText(ch.actual.value), n);
    }
  }

  /** What task_update leaves in each metadata value. */
  lemma UpdateValues(es: seq<Entry>, ch: Changes, today: string, n: string)
    requires Slot(es, "Updated").Some?
    ensures ReadValue(UpdatedEntries(es, ch, today), n) ==
      if n == "Updated" then Some(today)
      else if n == "Priority" && Truthy(ch.priority) && Slot(es, "Priority").Some? then ch.priority
      else if n == "Labels" && ch.labels.Some? then Some(Join(ch.labels.value, ", "))
      else if n == "Worktree" && Truthy(ch.worktree) then ch.worktree
      else if n == "Estimate" && TruthyNum(ch.estimate) then Some(Captured(Hours, HoursText(ch.estimate.value)))
      else if n == "Actual" && TruthyNum(ch.actual) then Some(Captured(Hours, HoursText(ch.actual.value)))
      else ReadValue(es, n)
  {
    var es1 := Reprioritised(es, ch);
    if Truthy(ch.priority) {
      ReadSet(es, "Priority", ch.priority.value, n);
      ReadSet(es, "Priority", ch.priority.value, "Updated");
    }
    RelabelValues(es1, ch, n);
    var es2 := Relabelled(es1, ch);
    RehourValues(es2, ch, n);
    var es3 := Rehoured(es2, ch);
    assert ReadValue(es3, "Updated").Some?;
    ReadSet(es3, "Updated", today, n);
  }

  /** The values task_update does not touch. */
  lemma UpdateKept(es: seq<Entry>, ch: Changes, today: string)
    requires Slot(es, "Updated").Some?
    ensures var es' := UpdatedEntries(es, ch, today);
      && ReadValue(es', "Status") == ReadValue(es, "Status")
      && ReadValue(es', "Created") == ReadValue(es, "Created")
      && ReadValue(es', "Completed") == ReadValue(es, "Completed")
      && ReadValue(es', "Blocked By") == ReadValue(es, "Blocked By")
      && ReadValue(es', "Repos") == ReadValue(es, "Repos")
      && ReadValue(es', "Parent") == ReadValue(es, "Parent")
  {
    UpdateValues(es, ch, today, "Status");
    UpdateValues(es, ch, today, "Created");
    UpdateValues(es, ch, today, "Completed");
    UpdateValues(es, ch, today, "Blocked By");
    UpdateValues(es, ch, today, "Repos");
    UpdateValues(es, ch, today, "Parent");
  }

  /** The values task_update sets. */
  lemma UpdateChanged(es: seq<Entry>, ch: Changes, today: string)
    requires Slot(es, "Updated").Some?
    ensures var es' := UpdatedEntries(es, ch, today);
      && ReadValue(es', "Updated") == Some(today)
      && ReadValue(es', "Priority") ==
         (if Truthy(ch.priority) && Slot(es, "Priority").Some? then ch.priority else ReadValue(es, "Priority"))
      && ReadValue(es', "Labels") ==
         (if ch.labels.Some? then Some(Join(ch.labels.value, ", ")) else ReadValue(es, "Labels"))
      && ReadValue(es', "Worktree") == (if Truthy(ch.worktree) then ch.worktree else ReadValue(es, "Worktree"))
      && ReadValue(es', "Estimate") ==
         (if TruthyNum(ch.estimate) then Some(Captured(Hours, HoursText(ch.estimate.value))) else ReadValue(es, "Estimate"))
      && ReadValue(es', "Actual") ==
         (if TruthyNum(ch.actual) then Some(Captured(Hours, HoursText(ch.actual.value))) else ReadValue(es, "Actual"))
  {
    UpdateValues(es, ch, today, "Updated");
    UpdateValues(es, ch, today, "Priority");
    UpdateValues(es, ch, today, "Labels");
    UpdateValues(es, ch, today, "Worktree");
    UpdateValues(es, ch, today, "Estimate");
    UpdateValues(es, ch, today, "Actual");
  }

  /** The entries after task_update. */
  function UpdatedEntries(es: seq<Entry>, ch: Changes, today: string): seq<Entry> {
    SetEntry(Rehoured(Relabelled(Reprioritised(es, ch), ch), ch), "Updated", today)
  }

  lemma UpdateMetaReading(sh: Sheet, ch: Changes, today: string, filename: string)
    requires |sh.parts| == 5 && |sh.head| >= 1 && sh.head[0].Title? && Slot(sh.meta, "Updated").Some?
    requires ChangesFit(ch)
    ensures
      var before := Reading(sh, filename);
      Reading(sh.(meta := UpdatedEntries(sh.meta, ch, today)), filename)
      == before.(priority := if Truthy(ch.priority) && before.priority.Some? then ch.priority else before.priority,
                 labels := if ch.labels.Some? then ch.labels else before.labels,
                 worktree := if Truthy(ch.worktree) then ch.worktree else before.worktree,
                 estimate := if TruthyNum(ch.estimate) then ch.estimate else before.estimate,
                 actual := if TruthyNum(ch.actual) then ch.actual else before.actual,
                 updated := Some(today))
  {
    var es := sh.meta;
    var x := sh.(meta := UpdatedEntries(es, ch, today));
    assert x.head == sh.head && x.parts == sh.parts;
    UpdateKept(es, ch, today);
    UpdateChanged(es, ch, today);
    if ch.labels.Some? {
      ListRoundTrip(ch.labels.value);
    }
    if TruthyNum(ch.estimate) {
      HoursFull(ch.estimate.value);
    }
    if TruthyNum(ch.actual) {
      HoursFull(ch.actual.value);
    }
  }

  lemma UpdateTextReading(sh: Sheet, id: string, ch: Changes, today: string, filename: string)
    requires |sh.parts| == 5 && |sh.head| >= 1 && sh.head[0].Title?
    requires Truthy(ch.description) ==> Quiet(ch.description.value) && Trimmed(ch.description.value)
    ensures
      var mid := sh.(meta := UpdatedEntries(sh.meta, ch, today));
      Reading(UpdatedSheet(sh, id, ch, today), filename)
      == Reading(mid, filename).(title := if Truthy(ch.title) then ch.title else Reading(mid, filename).title,
                                 description := if Truthy(ch.description) then ch.description
                                                else Reading(mid, filename).description)
  {
    if Truthy(ch.description) {
      QuietPlain(ch.description.value);
      TrimProse(ch.description.value, 2);
    }
  }

  lemma UpdateReading(sh: Sheet, id: string, ch: Changes, today: string, filename: string)
    requires |sh.parts| == 5 && |sh.head| >= 1 && sh.head[0].Title? && Slot(sh.meta, "Updated").Some?
    requires ChangesFit(ch) && (Truthy(ch.description) ==> Trimmed(ch.description.value))
    ensures
      var before := Reading(sh, filename);
      Reading(UpdatedSheet(sh, id, ch, today), filename)
      == before.(title := if Truthy(ch.title) then ch.title else before.title,
                 priority := if Truthy(ch.priority) && before.priority.Some? then ch.priority else before.priority,
                 description := if Truthy(ch.description) then ch.description else before.description,
                 labels := if ch.labels.Some? then ch.labels else before.labels,
                 worktree := if Truthy(ch.worktree) then ch.worktree else before.worktree,
                 estimate := if TruthyNum(ch.estimate) then ch.estimate else before.estimate,
                 actual := if TruthyNum(ch.actual) then ch.actual else before.actual,
                 updated := Some(today))
  {
    UpdateMetaReading(sh, ch, today, filename);
    UpdateTextReading(sh, id, ch, today, filename);
  }

  /** task_update: each given argument lands in what `parseTaskFile` reads (a priority only where
      the document has a priority line), everything else stays, and the updated date is today. */
  lemma UpdateRead(sh: Sheet, id: string, ch: Changes, today: string, filename: string)
    requires Tidy(sh) && Full(TaskRef, id) && ChangesFit(ch) && Full(DateRun, today)
    requires Slot(sh.meta, "Updated").Some? && (Truthy(ch.description) ==> Trimmed(ch.description.value))
    ensures
      var before := ParseTask(Render(sh), filename);
      ParseTask(UpdateText(Render(sh), id, ch, today), filename)
      == before.(title := if Truthy(ch.title) then ch.title else before.title,
                 priority := if Truthy(ch.priority) && before.priority.Some? then ch.priority else before.priority,
                 description := if Truthy(ch.description) then ch.description else before.description,
                 labels := if ch.labels.Some? then ch.labels else before.labels,
                 worktree := if Truthy(ch.worktree) then ch.worktree else before.worktree,
                 estimate := if TruthyNum(ch.estimate) then ch.estimate else before.estimate,
                 actual := if TruthyNum(ch.actual) then ch.actual else before.actual,
                 updated := Some(today))
  {
    UpdateSheet(sh, id, ch, today);
    ParseSheet(sh, filename);
    ParseSheet(UpdatedSheet(sh, id, ch, today), filename);
    UpdateReading(sh, id, ch, today, filename);
  }
}

=== FILE: taskops.dfy ===
/** The task tools that change documents (tasks.js): each handler looks the task up, computes the
    new text and lists the file system calls it makes, in order, with the reply it returns. */
module TaskOps {
  import opened Common
  import opened Text
  import opened Numbers
  import opened Store
  import opened TaskDoc
  import opened TaskEdit
  import opened Checkbox

  /** What a tool handler returns. */
  datatype Reply =
    | Error(error: string)
    | Done(message: string)
    | Made(taskId: string, path: string, message: string)
    | Swept(archived: seq<Option<string>>, message: string)

  /** The calls a handler makes and its reply; `ensured` when it first creates the missing status
      folders (`ensureDirectoriesSync`). */
  datatype Outcome = Outcome(ensured: bool, ops: seq<Op>, reply: Reply)

  /** The store once the handler has run. */
  function Effect(s: Store, o: Outcome): Ran {
    Run(if o.ensured then Ensure(s, STATUSES) else s, o.ops)
  }

  /** `findTask` (tasks.js:190-208) over a store whose folders exist. */
  function FindTask(s: Store, id: string): Option<Located> { Find(s, STATUSES, id) }

  /** The lookup a handler makes: `findTask` first creates the missing status folders
      (`ensureDirectoriesSync`, tasks.js:188), then searches them. */
  function Found(s: Store, id: string): Option<Located> { FindTask(Ensure(s, STATUSES), id) }

  function NotFound(id: string): Reply { Error("Task " + id + " not found") }

  /** Every status folder exists and lists no name twice. */
  predicate Ready(s: Store) { Valid(s) && forall d :: d in STATUSES ==> d in s }

  lemma FoundHas(s: Store, id: string)
    requires FindTask(s, id).Some?
    ensures var loc := FindTask(s, id).value; loc.dir in s && loc.dir in STATUSES && Has(s[loc.dir], loc.file.name)
  {
  }

  lemma EnsureReady(s: Store)
    requires Valid(s)
    ensures Ready(Ensure(s, STATUSES))
    ensures "archive" in Ensure(s, STATUSES) && "completed" in Ensure(s, STATUSES)
  {
    var r := Ensure(s, STATUSES);
    assert STATUSES[2] == "completed" && STATUSES[4] == "archive";
    forall d | d in r ensures Unique(r[d]) {
      if d !in s {
        assert r[d] == [];
      }
    }
  }

  /** What a handler finds sits in a status folder of the prepared store. */
  lemma FoundIn(s: Store, id: string)
    requires Valid(s) && Found(s, id).Some?
    ensures var p := Ensure(s, STATUSES); var loc := Found(s, id).value;
      Ready(p) && loc.dir in p && Has(p[loc.dir], loc.file.name)
  {
    EnsureReady(s);
    FoundHas(Ensure(s, STATUSES), id);
  }

  // ---------------------------------------------------------------------------------------
  // Status changes.

  /** How task_start, task_complete, task_block and task_unblock move the found task: the new
      text is written into the target folder, then the file it was found as is unlinked. */
  function Relocate(s: Store, id: string, target: string, text: string -> string, message: string): (o: Outcome)
    ensures o.ensured
    ensures Found(s, id).None? <==> o.reply.Error?
    ensures Found(s, id).None? ==> o.ops == []
  {
    match Found(s, id)
    case None => Outcome(true, [], NotFound(id))
    case Some(loc) => Outcome(true, MoveAsWritten(loc.dir, target, loc.file.name, text(loc.file.text)), Done(message))
  }

  /** A task found in another folder is moved into the target folder with its new text. A
      task already in the target folder is deleted: the unlink removes the file the write has
      just rewritten. */
  lemma RelocateEffect(s: Store, id: string, target: string, text: string -> string, message: string)
    requires Valid(s) && Found(s, id).Some? && target in STATUSES
    ensures var p := Ensure(s, STATUSES); var loc := Found(s, id).value;
      var r := Effect(s, Relocate(s, id, target, text, message));
      if loc.dir != target then Relocated(p, r, loc.dir, target, loc.file.name, text(loc.file.text))
      else Lost(p, r, target, loc.file.name)
  {
    FoundIn(s, id);
    var p := Ensure(s, STATUSES);
    var loc := Found(s, id).value;
    if loc.dir != target {
      MoveKeeps(p, loc.dir, target, loc.file.name, text(loc.file.text));
    } else {
      MoveAsWrittenLoses(p, target, loc.file.name, text(loc.file.text));
    }
  }

  /** The move evidently intended: a task already in the target folder is rewritten in place. */
  function RelocateIntended(s: Store, id: string, target: string, text: string -> string, message: string): (o: Outcome)
    ensures o.ensured
    ensures Found(s, id).None? <==> o.reply.Error?
    ensures Found(s, id).None? ==> o.ops == []
  {
    match Found(s, id)
    case None => Outcome(true, [], NotFound(id))
    case Some(loc) => Outcome(true, Move(loc.dir, target, loc.file.name, text(loc.file.text)), Done(message))
  }

  /** With the intended move the task ends up in the target folder with its new text, from
      whichever folder it was found in, and nothing else changes. */
  lemma RelocateIntendedEffect(s: Store, id: string, target: string, text: string -> string, message: string)
    requires Valid(s) && Found(s, id).Some? && target in STATUSES
    ensures var loc := Found(s, id).value;
      Relocated(Ensure(s, STATUSES), Effect(s, RelocateIntended(s, id, target, text, message)),
                loc.dir, target, loc.file.name, text(loc.file.text))
  {
    FoundIn(s, id);
    var loc := Found(s, id).value;
    MoveKeeps(Ensure(s, STATUSES), loc.dir, target, loc.file.name, text(loc.file.text));
  }

  /** task_start (tasks.js:486-507): a task already in progress is left alone. */
  function Start(s: Store, id: string, today: string): (o: Outcome)
    ensures o.ensured
    ensures Found(s, id).None? ==> o == Outcome(true, [], NotFound(id))
    ensures Found(s, id).Some? && Found(s, id).value.dir == "in-progress" ==> o.ops == [] && o.reply.Done?
  {
    if Found(s, id).Some? && Found(s, id).value.dir == "in-progress" then
      Outcome(true, [], Done("Task " + id + " is already in progress"))
    else Relocate(s, id, "in-progress", c => StartText(c, today), "Started task: " + id)
  }

  /** A task outside in-progress moves there, written first and then removed from its folder,
      with the status and updated lines rewritten. */
  lemma StartEffect(s: Store, id: string, today: string)
    requires Valid(s) && Found(s, id).Some? && Found(s, id).value.dir != "in-progress"
    ensures var loc := Found(s, id).value; var o := Start(s, id, today);
      && o.ops == MoveAsWritten(loc.dir, "in-progress", loc.file.name, StartText(loc.file.text, today))
      && Relocated(Ensure(s, STATUSES), Effect(s, o), loc.dir, "in-progress", loc.file.name, StartText(loc.file.text, today))
  {
    RelocateEffect(s, id, "in-progress", c => StartText(c, today), "Started task: " + id);
  }

  /** task_complete (tasks.js:521-549). */
  function Complete(s: Store, id: string, actual: Option<int>, today: string): (o: Outcome)
    ensures o.ensured
    ensures Found(s, id).None? <==> o.reply.Error?
  {
    Relocate(s, id, "completed", c => CompleteText(c, today, actual), "Completed task: " + id)
  }

  /** A task outside the completed folder moves there with its lines rewritten; a task that
      is already completed is deleted. */
  lemma CompleteEffect(s: Store, id: string, actual: Option<int>, today: string)
    requires Valid(s) && Found(s, id).Some?
    ensures var p := Ensure(s, STATUSES); var loc := Found(s, id).value;
      var r := Effect(s, Complete(s, id, actual, today));
      if loc.dir != "completed" then Relocated(p, r, loc.dir, "completed", loc.file.name, CompleteText(loc.file.text, today, actual))
      else Lost(p, r, "completed", loc.file.name)
  {
    RelocateEffect(s, id, "completed", c => CompleteText(c, today, actual), "Completed task: " + id);
  }

  /** task_block (tasks.js:563-585). */
  function Block(s: Store, id: string, blockedBy: string, today: string): (o: Outcome)
    ensures o.ensured
    ensures Found(s, id).None? <==> o.reply.Error?
  {
    Relocate(s, id, "blocked", c => BlockText(c, today, blockedBy), "Blocked task: " + id + " - " + blockedBy)
  }

  /** A task outside the blocked folder moves there with its lines rewritten; a task that is
      already blocked is deleted. */
  lemma BlockEffect(s: Store, id: string, blockedBy: string, today: string)
    requires Valid(s) && Found(s, id).Some?
    ensures var p := Ensure(s, STATUSES); var loc := Found(s, id).value;
      var r := Effect(s, Block(s, id, blockedBy, today));
      if loc.dir != "blocked" then Relocated(p, r, loc.dir, "blocked", loc.file.name, BlockText(loc.file.text, today, blockedBy))
      else Lost(p, r, "blocked", loc.file.name)
  {
    RelocateEffect(s, id, "blocked", c => BlockText(c, today, blockedBy), "Blocked task: " + id + " - " + blockedBy);
  }

  /** task_unblock (tasks.js:598-615): whatever folder the task is in. */
  function Unblock(s: Store, id: string, today: string): (o: Outcome)
    ensures o.ensured
    ensures Found(s, id).None? <==> o.reply.Error?
  {
    Relocate(s, id, "backlog", c => UnblockText(c, today), "Unblocked task: " + id)
  }

  /** A task outside the backlog moves there with its lines rewritten; a task already in the
      backlog is deleted. */
  lemma UnblockEffect(s: Store, id: string, today: string)
    requires Valid(s) && Found(s, id).Some?
    ensures var p := Ensure(s, STATUSES); var loc := Found(s, id).value;
      var r := Effect(s, Unblock(s, id, today));
      if loc.dir != "backlog" then Relocated(p, r, loc.dir, "backlog", loc.file.name, UnblockText(loc.file.text, today))
      else Lost(p, r, "backlog", loc.file.name)
  {
    RelocateEffect(s, id, "backlog", c => UnblockText(c, today), "Unblocked task: " + id);
  }

  // ---------------------------------------------------------------------------------------
  // Rewrites in place.

  /** A handler that rewrites the found file where it is. */
  function Rewrite(s: Store, id: string, text: string -> string, message: string): (o: Outcome)
    ensures o.ensured
    ensures Found(s, id).None? <==> o.reply.Error?
    ensures Found(s, id).None? ==> o.ops == []
    ensures Found(s, id).Some? ==> |o.ops| == 1 && o.ops[0].Write?
  {
    match Found(s, id)
    case None => Outcome(true, [], NotFound(id))
    case Some(loc) => Outcome(true, [Write(loc.dir, loc.file.name, text(loc.file.text))], Done(message))
  }

  /** The found file alone is rewritten, with its new text, in its folder. */
  lemma RewriteEffect(s: Store, id: string, text: string -> string, message: string)
    requires Valid(s) && Found(s, id).Some?
    ensures var loc := Found(s, id).value;
      Relocated(Ensure(s, STATUSES), Effect(s, Rewrite(s, id, text, message)), loc.dir, loc.dir, loc.file.name, text(loc.file.text))
  {
    FoundIn(s, id);
    var loc := Found(s, id).value;
    MoveKeeps(Ensure(s, STATUSES), loc.dir, loc.dir, loc.file.name, text(loc.file.text));
  }

  /** task_add_note (tasks.js:629-647). */
  function AddNote(s: Store, id: string, note: string, today: string): Outcome {
    Rewrite(s, id, c => NoteText(c, today, note), "Added note to " + id)
  }

  /** task_check_criterion (tasks.js:661-679): the replacement over the whole document. */
  function CheckCriterion(s: Store, id: string, index: int, today: string): Outcome {
    Rewrite(s, id, c => CheckText(c, index, today), "Checked criterion " + IntToString(index) + " in " + id)
  }

  /** task_check_criterion rewrites the found task in place: of the unchecked boxes of the
      whole document, in document order (a checked criterion is not counted, a box outside
      the acceptance criteria is), the one numbered `index` is ticked and the updated date
      stamped; with no such box only the date changes. */
  lemma CheckCriterionEffect(s: Store, id: string, index: int, today: string)
    requires Valid(s) && Found(s, id).Some?
    ensures var loc := Found(s, id).value; var ls := Lines(loc.file.text); var ss := Sites(AllHits(ls));
      && Boxed(ls, ss) && InOrder(ss)
      && Relocated(Ensure(s, STATUSES), Effect(s, CheckCriterion(s, id, index, today)), loc.dir, loc.dir,
                   loc.file.name, Stamp(Unlines(Ticked(ls, ss, index)), today))
  {
    var loc := Found(s, id).value;
    RewriteEffect(s, id, c => CheckText(c, index, today), "Checked criterion " + IntToString(index) + " in " + id);
    TickSpec(loc.file.text, index);
  }

  /** task_check_criterion as evidently intended: the criterion numbered `index` among the
      acceptance criteria, checked or not, is checked. */
  function CheckCriterionIntended(s: Store, id: string, index: int, today: string): Outcome {
    Rewrite(s, id, c => CheckCriterionText(c, index, today), "Checked criterion " + IntToString(index) + " in " + id)
  }

  /** task_link_worktree (tasks.js:781-798): the worktree is `<repo>/<directory>`. */
  function LinkWorktree(s: Store, id: string, repo: string, directory: string, today: string): Outcome {
    var worktree := repo + "/" + directory;
    Rewrite(s, id, c => LinkText(c, today, worktree), "Linked " + id + " to worktree " + worktree)
  }

  /** task_update (tasks.js:421-473): the title line takes the id as the caller spelled it. */
  function Update(s: Store, id: string, ch: Changes, today: string): Outcome {
    Rewrite(s, id, c => UpdateText(c, id, ch, today), "Updated task: " + id)
  }

  /** Each in-place handler rewrites only the found file, with its own text function. */
  lemma RewritesEffect(s: Store, id: string, note: string, index: int, repo: string, directory: string,
                       ch: Changes, today: string)
    requires Valid(s) && Found(s, id).Some?
    ensures var p := Ensure(s, STATUSES); var loc := Found(s, id).value;
      var d, n, c := loc.dir, loc.file.name, loc.file.text;
      && Relocated(p, Effect(s, AddNote(s, id, note, today)), d, d, n, NoteText(c, today, note))
      && Relocated(p, Effect(s, CheckCriterionIntended(s, id, index, today)), d, d, n, CheckCriterionText(c, index, today))
      && Relocated(p, Effect(s, LinkWorktree(s, id, repo, directory, today)), d, d, n, LinkText(c, today, repo + "/" + directory))
      && Relocated(p, Effect(s, Update(s, id, ch, today)), d, d, n, UpdateText(c, id, ch, today))
  {
    RewriteEffect(s, id, c => NoteText(c, today, note), "Added note to " + id);
    RewriteEffect(s, id, c => CheckCriterionText(c, index, today), "Checked criterion " + IntToString(index) + " in " + id);
    var worktree := repo + "/" + directory;
    RewriteEffect(s, id, c => LinkText(c, today, worktree), "Linked " + id + " to worktree " + worktree);
    RewriteEffect(s, id, c => UpdateText(c, id, ch, today), "Updated task: " + id);
  }

  // ---------------------------------------------------------------------------------------
  // task_archive.

  /** The tasks the bulk archive reads from a listing, one per file. */
  function Readings(fs: seq<File>): (ts: seq<Task>)
    ensures |ts| == |fs|
  {
    seq(|fs|, i requires 0 <= i < |fs| => ParseTask(fs[i].text, fs[i].name))
  }

  /** A completed document old enough to archive: its completed date, compared as a string,
      comes before the cutoff date. */
  predicate Due(f: File, t: Task, cutoff: string) {
    IsDoc(f.name) && Truthy(t.completed) && LexLess(t.completed.value, cutoff)
  }

  /** The calls of the bulk archive over the completed listing, each file with the task read
      from it: each due file is written into the archive and then unlinked from the completed
      folder. */
  function SweepOps(fs: seq<File>, ts: seq<Task>, cutoff: string): (ops: seq<Op>)
    requires |ts| == |fs|
    ensures |ops| % 2 == 0
    ensures forall i :: 0 <= i < |ops| ==> (ops[i].Write? <==> i % 2 == 0)
    decreases |fs|
  {
    if |fs| == 0 then []
    else
      var rest := SweepOps(fs[1..], ts[1..], cutoff);
      if Due(fs[0], ts[0], cutoff) then
        var ops := [Write("archive", fs[0].name, fs[0].text), Unlink("completed", fs[0].name)] + rest;
        assert forall i :: 2 <= i < |ops| ==> ops[i] == rest[i - 2];
        ops
      else rest
  }

  /** The ids the bulk archive reports, in listing order. */
  function SweepIds(fs: seq<File>, ts: seq<Task>, cutoff: string): (ids: seq<Option<string>>)
    requires |ts| == |fs|
    ensures 2 * |ids| == |SweepOps(fs, ts, cutoff)|
    decreases |fs|
  {
    if |fs| == 0 then []
    else if Due(fs[0], ts[0], cutoff) then [ts[0].id] + SweepIds(fs[1..], ts[1..], cutoff)
    else SweepIds(fs[1..], ts[1..], cutoff)
  }

  /** task_archive (tasks.js:811-858): one completed task by id, or every completed task whose
      completed date is before `cutoff` (the day `daysOld` days before now). */
  function Archive(s: Store, taskId: Option<string>, cutoff: string): (o: Outcome)
    ensures o.ensured
    ensures o.reply.Swept? <==> !Truthy(taskId)
  {
    var s' := Ensure(s, STATUSES);
    if Truthy(taskId) then
      var id := taskId.value;
      match FindTask(s', id)
      case None => Outcome(true, [], NotFound(id))
      case Some(loc) =>
        if !StartsWith(loc.dir + "/" + loc.file.name, "completed") then
          Outcome(true, [], Error("Task " + id + " must be completed before archiving"))
        else Outcome(true, MoveAsWritten(loc.dir, "archive", loc.file.name, loc.file.text), Done("Archived task: " + id))
    else
      var fs := s'["completed"];
      var ids := SweepIds(fs, Readings(fs), cutoff);
      Outcome(true, SweepOps(fs, Readings(fs), cutoff),
              Swept(ids, if |ids| > 0 then "Archived " + NatToString(|ids|) + " tasks" else "No tasks to archive"))
  }

  /** Only a task in the completed folder is archived, with its text unchanged; anywhere else
      the handler answers an error and makes no call. */
  lemma ArchiveOne(s: Store, id: string, cutoff: string)
    requires Valid(s) && id != ""
    ensures var s' := Ensure(s, STATUSES); var o := Archive(s, Some(id), cutoff);
      match FindTask(s', id)
      case None => o.ops == [] && o.reply == NotFound(id)
      case Some(loc) =>
        if loc.dir == "completed" then
          && o.ops == MoveAsWritten("completed", "archive", loc.file.name, loc.file.text)
          && Relocated(s', Effect(s, o), "completed", "archive", loc.file.name, loc.file.text)
        else o.ops == [] && o.reply.Error?
  {
    var s' := Ensure(s, STATUSES);
    EnsureReady(s);
    match FindTask(s', id) {
      case None =>
      case Some(loc) =>
        CompletedPath(loc.dir, loc.file.name);
        if loc.dir == "completed" {
          FoundHas(s', id);
          MoveKeeps(s', "completed", "archive", loc.file.name, loc.file.text);
        }
    }
  }

  /** Of the status folders only `completed` makes a path that starts with `completed`. */
  lemma CompletedPath(dir: string, name: string)
    requires dir in STATUSES
    ensures StartsWith(dir + "/" + name, "completed") <==> dir == "completed"
  {
    var path := dir + "/" + name;
    assert path[..|dir|] == dir && path[0] == dir[0];
    if dir == "completed" {
      assert path[..9] == dir;
    } else {
      assert dir[0] != 'c';
      assert !StartsWith(path, "completed") by {
        if |path| >= 9 {
          assert path[..9][0] == path[0];
        }
      }
    }
  }

  /** The text of the first due file named `n`. */
  function DueNamed(fs: seq<File>, ts: seq<Task>, n: string, cutoff: string): Option<string>
    requires |ts| == |fs|
    decreases |fs|
  {
    if |fs| == 0 then None
    else if fs[0].name == n && Due(fs[0], ts[0], cutoff) then Some(fs[0].text)
    else DueNamed(fs[1..], ts[1..], n, cutoff)
  }

  lemma DueNamedAbsent(fs: seq<File>, ts: seq<Task>, n: string, cutoff: string)
    requires |ts| == |fs| && forall j :: 0 <= j < |fs| ==> fs[j].name != n
    ensures DueNamed(fs, ts, n, cutoff).None?
  {
  }

  lemma ReadListed(fs: seq<File>, j: nat)
    requires Unique(fs) && j < |fs|
    ensures Read(fs, fs[j].name) == Some(fs[j].text)
  {
    var i := IndexOf(fs, fs[j].name).value;
    assert i == j;
  }

  lemma UniqueRest(fs: seq<File>)
    requires Unique(fs) && |fs| > 0
    ensures Unique(fs[1..]) && forall j :: 0 <= j < |fs| - 1 ==> fs[1..][j].name != fs[0].name
  {
    assert forall i :: 0 <= i < |fs| - 1 ==> fs[1..][i] == fs[i + 1];
  }

  /** One due file moved: it is in the archive with its text and gone from the completed
      folder, and every other file is as it was. */
  lemma SweepOne(s: Store, f: File)
    requires Valid(s) && "completed" in s && "archive" in s && Read(s["completed"], f.name) == Some(f.text)
    ensures var r := Run(s, [Write("archive", f.name, f.text), Unlink("completed", f.name)]);
      Relocated(s, r, "completed", "archive", f.name, f.text)
  {
    assert Has(s["completed"], f.name) by {
      var i := IndexOf(s["completed"], f.name).value;
    }
    MoveKeeps(s, "completed", "archive", f.name, f.text);
  }

  /** What the bulk archive leaves: the archive gains the due files, the completed folder
      loses them, every other folder is as it was. */
  ghost predicate SweptAll(s: Store, r: Ran, fs: seq<File>, ts: seq<Task>, cutoff: string)
    requires |ts| == |fs|
  {
    && r.ok && Valid(r.store) && r.store.Keys == s.Keys && "archive" in s && "completed" in s
    && (forall n :: Read(r.store["archive"], n) == if DueNamed(fs, ts, n, cutoff).Some? then DueNamed(fs, ts, n, cutoff) else Read(s["archive"], n))
    && (forall n :: Read(r.store["completed"], n) == if DueNamed(fs, ts, n, cutoff).Some? then None else Read(s["completed"], n))
    && (forall d, n :: d in s && d != "archive" && d != "completed" ==> Read(r.store[d], n) == Read(s[d], n))
  }

  /** A store that still lists every file of `fs` in the completed folder. */
  predicate Listed(s: Store, fs: seq<File>) {
    "completed" in s && forall j :: 0 <= j < |fs| ==> Read(s["completed"], fs[j].name) == Some(fs[j].text)
  }

  lemma ListedRest(s: Store, s1: Store, fs: seq<File>)
    requires Listed(s, fs) && |fs| > 0 && "completed" in s1
    requires forall n :: n != fs[0].name ==> Read(s1["completed"], n) == Read(s["completed"], n)
    requires forall j :: 0 <= j < |fs| - 1 ==> fs[1..][j].name != fs[0].name
    ensures Listed(s1, fs[1..])
  {
    forall j | 0 <= j < |fs| - 1 ensures Read(s1["completed"], fs[1..][j].name) == Some(fs[1..][j].text) {
      assert fs[1..][j] == fs[j + 1];
    }
  }

  lemma SweptStep(s: Store, s1: Store, r: Ran, fs: seq<File>, ts: seq<Task>, cutoff: string)
    requires |ts| == |fs| > 0 && "completed" in s && "archive" in s
    requires forall j :: 0 <= j < |fs| - 1 ==> fs[1..][j].name != fs[0].name
    requires Due(fs[0], ts[0], cutoff) ==> Relocated(s, Ran(s1, true), "completed", "archive", fs[0].name, fs[0].text)
    requires !Due(fs[0], ts[0], cutoff) ==> s1 == s
    requires SweptAll(s1, r, fs[1..], ts[1..], cutoff)
    ensures SweptAll(s, r, fs, ts, cutoff)
  {
    DueNamedAbsent(fs[1..], ts[1..], fs[0].name, cutoff);
  }

  /** The bulk archive over a listing of the completed folder. */
  lemma {:induction false} SweepEffect(s: Store, fs: seq<File>, ts: seq<Task>, cutoff: string)
    requires |ts| == |fs| && Valid(s) && "archive" in s && Unique(fs) && Listed(s, fs)
    ensures SweptAll(s, Run(s, SweepOps(fs, ts, cutoff)), fs, ts, cutoff)
    decreases |fs|
  {
    if |fs| == 0 {
      assert SweepOps(fs, ts, cutoff) == [];
    } else {
      var f, rest := fs[0], fs[1..];
      UniqueRest(fs);
      var tail := SweepOps(rest, ts[1..], cutoff);
      if Due(f, ts[0], cutoff) {
        var move := [Write("archive", f.name, f.text), Unlink("completed", f.name)];
        assert SweepOps(fs, ts, cutoff) == move + tail;
        RunAppend(s, move, tail);
        SweepOne(s, f);
        var s1 := Run(s, move).store;
        ListedRest(s, s1, fs);
        SweepEffect(s1, rest, ts[1..], cutoff);
        SweptStep(s, s1, Run(s1, tail), fs, ts, cutoff);
      } else {
        assert SweepOps(fs, ts, cutoff) == tail;
        ListedRest(s, s, fs);
        SweepEffect(s, rest, ts[1..], cutoff);
        SweptStep(s, s, Run(s, tail), fs, ts, cutoff);
      }
    }
  }

  lemma {:induction false} DueNamedAt(fs: seq<File>, ts: seq<Task>, j: nat, cutoff: string)
    requires |ts| == |fs| && Unique(fs) && j < |fs|
    ensures DueNamed(fs, ts, fs[j].name, cutoff) == if Due(fs[j], ts[j], cutoff) then Some(fs[j].text) else None
    decreases |fs|
  {
    UniqueRest(fs);
    if j > 0 {
      assert fs[1..][j - 1] == fs[j] && ts[1..][j - 1] == ts[j];
      DueNamedAt(fs[1..], ts[1..], j - 1, cutoff);
    } else {
      DueNamedAbsent(fs[1..], ts[1..], fs[0].name, cutoff);
    }
  }

  lemma SweepCalls(s: Store, cutoff: string)
    ensures var fs := Ensure(s, STATUSES)["completed"];
      Effect(s, Archive(s, None, cutoff)) == Run(Ensure(s, STATUSES), SweepOps(fs, Readings(fs), cutoff))
  {
  }

  /** Per file of a listing of the completed folder: a due file moved to the archive with its
      text, any other left in place. */
  ghost predicate MovedDue(r: Store, fs: seq<File>, ts: seq<Task>, cutoff: string)
    requires |ts| == |fs|
  {
    && "archive" in r && "completed" in r
    && (forall j :: 0 <= j < |fs| && Due(fs[j], ts[j], cutoff) ==>
          Read(r["archive"], fs[j].name) == Some(fs[j].text) && Read(r["completed"], fs[j].name).None?)
    && (forall j :: 0 <= j < |fs| && !Due(fs[j], ts[j], cutoff) ==> Read(r["completed"], fs[j].name) == Some(fs[j].text))
  }

  lemma SweptFiles(s: Store, r: Ran, fs: seq<File>, ts: seq<Task>, cutoff: string)
    requires |ts| == |fs| && Unique(fs) && Listed(s, fs) && SweptAll(s, r, fs, ts, cutoff)
    ensures MovedDue(r.store, fs, ts, cutoff)
  {
    forall j | 0 <= j < |fs| ensures DueNamed(fs, ts, fs[j].name, cutoff) == if Due(fs[j], ts[j], cutoff) then Some(fs[j].text) else None {
      DueNamedAt(fs, ts, j, cutoff);
    }
  }

  /** What the bulk archive leaves of a store `p`: every file of its completed folder moved to
      the archive with its text when it is due and left in place otherwise; nothing outside
      the two folders changes. */
  ghost predicate Archived(p: Store, r: Ran, cutoff: string) {
    && "completed" in p && r.ok && r.store.Keys == p.Keys
    && MovedDue(r.store, p["completed"], Readings(p["completed"]), cutoff)
    && (forall d, n :: d in p && d != "archive" && d != "completed" ==> Read(r.store[d], n) == Read(p[d], n))
  }

  /** The sweep over the whole completed folder of a store that has both folders. */
  lemma SweepFolder(s: Store, cutoff: string)
    requires Valid(s) && "archive" in s && "completed" in s
    ensures var fs := s["completed"]; Archived(s, Run(s, SweepOps(fs, Readings(fs), cutoff)), cutoff)
  {
    var fs := s["completed"];
    var ts := Readings(fs);
    forall j | 0 <= j < |fs| ensures Read(s["completed"], fs[j].name) == Some(fs[j].text) {
      ReadListed(fs, j);
    }
    SweepEffect(s, fs, ts, cutoff);
    SweptFiles(s, Run(s, SweepOps(fs, ts, cutoff)), fs, ts, cutoff);
  }

  /** The bulk archive moves exactly the due documents of the completed folder, each with its
      text unchanged; nothing outside the two folders changes. */
  lemma ArchiveOld(s: Store, cutoff: string)
    requires Valid(s)
    ensures Archived(Ensure(s, STATUSES), Effect(s, Archive(s, None, cutoff)), cutoff)
  {
    EnsureReady(s);
    SweepCalls(s, cutoff);
    SweepFolder(Ensure(s, STATUSES), cutoff);
  }
}

=== FILE: taskquery.dfy ===
/** task_list: the documents of the requested status folders, parsed, filtered by priority,
    labels, worktree and a search text, projected to list rows, sorted by priority ascending
    and then by last update descending, and cut to a limit. The handler only reads; the folders
    it creates first are empty, and a missing folder lists nothing, so the model reads the store
    as it is. */
module TaskQuery {
  import opened Common
  import opened Text
  import opened Store
  import opened Order
  import opened Prose
  import opened TaskDoc

  /** The arguments of task_list; `limit` is 50 when the caller gives none. */
  datatype Query = Query(status: Option<string>, priority: Option<string>, labels: Option<string>,
                         search: Option<string>, worktree: Option<string>, limit: int)

  /** One listed task: its folder as the status, priority `P2` when missing, labels `[]` when
      missing, a falsy worktree or estimate as null. */
  datatype Row = Row(id: Option<string>, title: Option<string>, status: string, priority: string,
                     labels: seq<string>, worktree: Option<string>, estimate: Option<int>,
                     created: Option<string>, updated: Option<string>)

  /** The reply: the rows shown, how many matched, and `Math.min(total, limit)`. */
  datatype Listed = Listed(tasks: seq<Row>, total: nat, showing: int)

  /** The label filter: each item trimmed and lower-cased. */
  function LowerItems(x: string): seq<string> {
    var items := ParseList(x);
    seq(|items|, i requires 0 <= i < |items| => ToLower(items[i]))
  }

  /** The folders listed: those named by the status argument, or every status but the archive. */
  function StatusDirs(q: Query): (r: seq<string>)
    ensures !Truthy(q.status) ==> forall d :: d in r <==> d in STATUSES && d != "archive"
  {
    if Truthy(q.status) then ParseList(q.status.value) else ["backlog", "in-progress", "completed", "blocked"]
  }

  /** A property value contains the lower-cased search text, ignoring case. */
  predicate Mentions(x: Option<string>, needle: string) {
    x.Some? && Contains(ToLower(x.value), needle)
  }

  /** The filters a parsed task must pass; each is skipped when its argument is falsy. */
  predicate Keep(q: Query, t: Task) {
    && (Truthy(q.priority) ==> t.priority.Some? && t.priority.value in ParseList(q.priority.value))
    && (Truthy(q.labels) ==>
          t.labels.Some? &&
          exists i :: 0 <= i < |t.labels.value| && ToLower(t.labels.value[i]) in LowerItems(q.labels.value))
    && (Truthy(q.worktree) ==> t.worktree == q.worktree)
    && (Truthy(q.search) ==>
          var needle := ToLower(q.search.value);
          Mentions(t.id, needle) || Mentions(t.title, needle) || Mentions(t.description, needle))
  }

  function RowOf(d: string, t: Task): Row {
    Row(t.id, t.title, d, OrElse(t.priority, "P2"), t.labels.GetOr([]), IfTruthy(t.worktree),
        if TruthyNum(t.estimate) then t.estimate else None, t.created, t.updated)
  }

  /** `parseTaskFile(content, file)` on a listed file. */
  function Reading(f: File): Task { ParseTask(f.text, f.name) }

  /** Each listed document with the task its text parses to. */
  function Parsed(es: seq<(string, File)>, read: File -> Task): (r: seq<(string, Task)>)
    ensures |r| == |es|
  {
    seq(|es|, k requires 0 <= k < |es| => (es[k].0, read(es[k].1)))
  }

  /** The rows of the tasks that pass the filters, in listing order. */
  function Select(q: Query, ts: seq<(string, Task)>): (r: seq<Row>)
    ensures |r| <= |ts|
  {
    if |ts| == 0 then []
    else (if Keep(q, ts[0].1) then [RowOf(ts[0].0, ts[0].1)] else []) + Select(q, ts[1..])
  }

  /** Everything the query matches, before sorting, each file read by `read`. */
  function Matching(s: Store, q: Query, read: File -> Task): seq<Row> {
    Select(q, Parsed(Listing(s, StatusDirs(q)), read))
  }

  /** The sort key: priority ascending, then `updated || ""` descending. */
  function RowKey(r: Row): (string, string) { (r.priority, OrElse(r.updated, "")) }

  /** Where `slice(0, limit)` ends on a list of `n`: a negative limit counts from the end. */
  function SliceEnd(n: nat, limit: int): (e: nat)
    ensures e <= n
    ensures limit >= 0 ==> e == (if limit < n then limit else n)
    ensures limit < 0 ==> e + (if -limit < n then -limit else n) == n
  {
    if limit >= 0 then (if limit < n then limit else n)
    else if n + limit < 0 then 0 else n + limit
  }

  /** The reply for the matching rows: sorted, then cut to the limit. */
  function Shown(rows: seq<Row>, limit: int): Listed {
    var sorted := Sort(rows, RowKey, Down);
    Listed(sorted[..SliceEnd(|sorted|, limit)], |rows|, if |rows| < limit then |rows| else limit)
  }

  function ListTasks(s: Store, q: Query): Listed {
    Shown(Matching(s, q, Reading), q.limit)
  }

  lemma {:induction false} SelectMembers(q: Query, ts: seq<(string, Task)>, x: Row)
    ensures x in Select(q, ts) <==> exists k :: 0 <= k < |ts| && Keep(q, ts[k].1) && x == RowOf(ts[k].0, ts[k].1)
    decreases |ts|
  {
    if |ts| > 0 {
      SelectMembers(q, ts[1..], x);
      if x in Select(q, ts[1..]) {
        var k :| 0 <= k < |ts[1..]| && Keep(q, ts[1..][k].1) && x == RowOf(ts[1..][k].0, ts[1..][k].1);
        assert ts[k + 1] == ts[1..][k];
      }
      if exists k :: 0 <= k < |ts| && Keep(q, ts[k].1) && x == RowOf(ts[k].0, ts[k].1) {
        var k :| 0 <= k < |ts| && Keep(q, ts[k].1) && x == RowOf(ts[k].0, ts[k].1);
        if k > 0 {
          assert ts[1..][k - 1] == ts[k];
        }
      }
    }
  }

  /** A row is listed exactly when some document of a requested folder reads as a task that
      passes the filters and projects to that row. */
  lemma MatchingMembers(s: Store, q: Query, read: File -> Task, x: Row)
    ensures x in Matching(s, q, read) <==>
      exists d, f :: d in StatusDirs(q) && d in s && f in s[d] && IsDoc(f.name) &&
        Keep(q, read(f)) && x == RowOf(d, read(f))
  {
    var es := Listing(s, StatusDirs(q));
    var ts := Parsed(es, read);
    SelectMembers(q, ts, x);
    if x in Matching(s, q, read) {
      var k :| 0 <= k < |ts| && Keep(q, ts[k].1) && x == RowOf(ts[k].0, ts[k].1);
      assert es[k] in es;
      ListingMembers(s, StatusDirs(q), es[k]);
    }
    if exists d, f :: d in StatusDirs(q) && d in s && f in s[d] && IsDoc(f.name) &&
        Keep(q, read(f)) && x == RowOf(d, read(f)) {
      var d, f :| d in StatusDirs(q) && d in s && f in s[d] && IsDoc(f.name) &&
        Keep(q, read(f)) && x == RowOf(d, read(f));
      ListingMembers(s, StatusDirs(q), (d, f));
      var k :| 0 <= k < |es| && es[k] == (d, f);
      assert ts[k] == (d, read(f));
    }
  }

  /** The reply counts every match, shows at most `limit` of them (all when the limit is at
      least the count), sorted, and the rows left out come no earlier than any row shown. The
      sort is stable, so of the rows that tie on priority and Updated date the first ones in
      listing order are shown. */
  lemma ShownSpec(rows: seq<Row>, limit: int)
    ensures var r := Shown(rows, limit);
      && r.total == |rows|
      && Ordered(r.tasks, RowKey, Down)
      && multiset(r.tasks) <= multiset(rows)
      && |r.tasks| == SliceEnd(|rows|, limit)
      && (limit >= 0 ==> |r.tasks| == r.showing)
      && (limit >= |rows| ==> multiset(r.tasks) == multiset(rows))
      && (forall i, x :: 0 <= i < |r.tasks| && x in multiset(rows) - multiset(r.tasks) ==>
            !Before(RowKey(x), RowKey(r.tasks[i]), Down))
      && forall k :: Keyed(r.tasks, RowKey, k) <= Keyed(rows, RowKey, k)
  {
    var sorted := Sort(rows, RowKey, Down);
    SortOrdered(rows, RowKey, Down);
    var e := SliceEnd(|sorted|, limit);
    SortedFront(rows, sorted, e, RowKey, Down);
    forall k {
      StableFront(rows, e, RowKey, Down, k);
    }
  }
}

=== FILE: taskread.dfy ===
/** Reading back what the generator wrote: when `parseTaskFile` of `generateTaskContent(task)`
    gives the task back, and what it gives instead for the parts that are filled with defaults or
    not read at all. */
module TaskRead {
  import opened Common
  import opened Text
  import opened Numbers
  import opened Pattern
  import opened Layout
  import opened Outline
  import opened Prose
  import opened TaskDoc

  // ---------------------------------------------------------------------------------------
  // Which tasks survive the trip.

  /** Characters of ids, dates, priorities and hours: word characters and `-`. */
  predicate Tame(x: string) { forall i :: 0 <= i < |x| ==> IsWordChar(x[i]) || x[i] == '-' }

  /** A string property the generator writes only when truthy, and then in the shape `v` reads. */
  predicate Shaped(v: Val, x: Option<string>) { Truthy(x) ==> Full(v, x.value) }

  /** A string property read back with `(.+)`: one line without `*` or `##`. */
  predicate Loose(x: Option<string>) { Truthy(x) ==> Inert(x.value) }

  predicate CriterionFits(c: Criterion) { Inert(c.text) && (!c.checked ==> !Contains(c.text, "[x]")) }

  predicate FileFits(f: FileChange) { Inert(f.path) && HashFree(f.path) && Inert(f.description) }

  /** The tasks whose document reads back: the values fit the patterns that read them, free text
      cannot be taken for a header or a metadata line, and the numbers are not negative. */
  predicate Writable(t: Task, today: string) {
    && Full(DateRun, today)
    && t.id.Some? && Full(TaskRef, t.id.value)
    && t.title.Some? && t.title.value != "" && Inert(t.title.value)
    && Shaped(WordDash, t.status) && Shaped(Prio, t.priority) && Shaped(DateRun, t.created)
    && Shaped(DateRun, t.completed) && Shaped(TaskRef, t.parent)
    && Loose(t.blockedBy) && Loose(t.worktree)
    && (t.repos.Some? ==> ListItems(t.repos.value))
    && (t.labels.Some? ==> ListItems(t.labels.value))
    && (t.estimate.Some? ==> t.estimate.value >= 0)
    && (t.actual.Some? ==> t.actual.value >= 0)
    && (Truthy(t.description) ==> PlainText(t.description.value) && Trimmed(t.description.value))
    && (Truthy(t.notes) ==> PlainText(t.notes.value))
    && (t.subtasks.Some? ==> forall i :: 0 <= i < |t.subtasks.value| ==> Full(TaskRef, t.subtasks.value[i].id))
    && (t.criteria.Some? ==> forall i :: 0 <= i < |t.criteria.value| ==> CriterionFits(t.criteria.value[i]))
    && (t.files.Some? ==> forall i :: 0 <= i < |t.files.value| ==> FileFits(t.files.value[i]))
  }

  /** What the parser gives back for a writable task: the id from the file name, the defaults the
      generator wrote, falsy optional properties missing, the placeholders read as content, and
      neither the notes nor the changed files (the parser does not read them). */
  function Canon(t: Task, today: string, filename: string): Task {
    t.(id := FileId(filename),
       status := Some(OrElse(t.status, "backlog")),
       priority := Some(OrElse(t.priority, "P2")),
       created := Some(OrElse(t.created, today)),
       updated := Some(today),
       completed := IfTruthy(t.completed),
       blockedBy := IfTruthy(t.blockedBy),
       worktree := IfTruthy(t.worktree),
       repos := if NonEmpty(t.repos) then t.repos else None,
       parent := IfTruthy(t.parent),
       subtasks := Some(if NonEmpty(t.subtasks) then t.subtasks.value else []),
       estimate := if TruthyNum(t.estimate) then t.estimate else None,
       actual := if TruthyNum(t.actual) then t.actual else None,
       labels := if NonEmpty(t.labels) then t.labels else None,
       description := Some(DescriptionText(t)),
       criteria := Some(if NonEmpty(t.criteria) then t.criteria.value else [Criterion("_Add criteria_", false)]),
       notes := None,
       files := None)
  }

  // ---------------------------------------------------------------------------------------
  // Values.

  lemma TameInert(x: string)
    requires Tame(x)
    ensures Inert(x) && HashFree(x) && PlainLine(x)
  {
    forall i | 0 <= i < |x| ensures !IsLineTerminator(x[i]) && x[i] != '*' && x[i] != '#' {
      assert IsWordChar(x[i]) || x[i] == '-';
    }
    InertPlain(x);
  }

  /** Every value pattern but `(.+)` matches only word characters and `-`. */
  lemma FullTame(v: Val, x: string)
    requires Full(v, x) && v != Rest
    ensures Tame(x)
  {
    match v {
      case WordDash =>
        var k := RunEnd(x, 0, WordChars);
        assert forall i :: 0 <= i < k ==> InClass(x[i], WordChars);
      case ReqRef =>
        var k := RunEnd(x, 0, UpperChars);
        assert forall i :: 0 <= i < k ==> InClass(x[i], UpperChars);
      case TaskRef =>
        forall i | 0 <= i < 5 ensures IsWordChar(x[i]) || x[i] == '-' {
          assert x[i] == x[..5][i];
        }
      case _ =>
    }
  }

  lemma FullInert(v: Val, x: string)
    requires Full(v, x) && v != Rest
    ensures Inert(x) && HashFree(x) && PlainLine(x)
  {
    FullTame(v, x);
    TameInert(x);
  }

  /** A metadata value and the pattern of its name. */
  predicate FieldFits(f: Field) {
    && NameFits(f.name)
    && (f.value.Some? ==> Full(KindOf(f.name), f.value.value) && Inert(f.value.value))
  }

  /** A name of a metadata line or section: letters and spaces. */
  predicate NameFits(name: string) { name != "" && Inert(name) && StarFree(name) && HashFree(name) }

  lemma LettersFit(name: string)
    requires name != "" && forall i :: 0 <= i < |name| ==> IsUpper(name[i]) || IsLower(name[i]) || name[i] == ' '
    ensures NameFits(name)
  {
  }

  /** What the key pattern of a field reads from its line. */
  function Read(f: Field): Option<string> {
    match f.value
    case Some(x) => Some(Captured(KindOf(f.name), x))
    case None => None
  }

  lemma FitDefault(name: string, v: Val, x: Option<string>, d: string)
    requires NameFits(name) && KindOf(name) == v && v != Rest && Shaped(v, x) && Full(v, d)
    ensures FieldFits(Field(name, Some(OrElse(x, d))))
  {
    FullInert(v, OrElse(x, d));
  }

  lemma FitTruthy(name: string, v: Val, x: Option<string>)
    requires NameFits(name) && KindOf(name) == v && v != Rest && Shaped(v, x)
    ensures FieldFits(Field(name, IfTruthy(x)))
  {
    if Truthy(x) {
      FullInert(v, x.value);
    }
  }

  lemma FitLoose(name: string, x: Option<string>)
    requires NameFits(name) && KindOf(name) == Rest && Loose(x)
    ensures FieldFits(Field(name, IfTruthy(x)))
  {
  }

  lemma FitList(name: string, x: Option<seq<string>>)
    requires NameFits(name) && KindOf(name) == Rest && (x.Some? ==> ListItems(x.value))
    ensures FieldFits(Field(name, IfList(x)))
  {
    if NonEmpty(x) {
      ListInert(x.value);
    }
  }

  lemma FitHours(name: string, x: Option<int>)
    requires NameFits(name) && KindOf(name) == Hours && (x.Some? ==> x.value >= 0)
    ensures FieldFits(Field(name, IfHours(x)))
  {
    if TruthyNum(x) {
      var s := NatToString(x.value);
      assert HoursText(x.value) == s + "h";
      assert forall i :: 0 <= i < |s| ==> (s + "h")[i] == s[i];
      FullInert(Hours, s + "h");
    }
  }

  lemma FieldsFit(t: Task, today: string)
    requires Writable(t, today)
    ensures forall i :: 0 <= i < |Fields(t, today)| ==> FieldFits(Fields(t, today)[i])
  {
    FieldsFitA(t, today);
    FieldsFitB(t, today);
    FieldsFitC(t, today);
    FieldsFitD(t, today);
  }

  lemma FieldsFitA(t: Task, today: string)
    requires Writable(t, today)
    ensures var fs := Fields(t, today); FieldFits(fs[0]) && FieldFits(fs[1]) && FieldFits(fs[2]) && FieldFits(fs[3])
  {
    LettersFit("Status");
    LettersFit("Priority");
    LettersFit("Created");
    LettersFit("Updated");
    RunEndIs("backlog", 0, WordChars, 7);
    FitDefault("Status", WordDash, t.status, "backlog");
    FitDefault("Priority", Prio, t.priority, "P2");
    FitDefault("Created", DateRun, t.created, today);
    FitDefault("Updated", DateRun, None, today);
    FieldsAre(t, today);
  }

  lemma FieldsFitB(t: Task, today: string)
    requires Writable(t, today)
    ensures var fs := Fields(t, today); FieldFits(fs[4]) && FieldFits(fs[5]) && FieldFits(fs[6]) && FieldFits(fs[7])
  {
    LettersFit("Completed");
    LettersFit("Blocked By");
    LettersFit("Repos");
    LettersFit("Parent");
    FitTruthy("Completed", DateRun, t.completed);
    FitLoose("Blocked By", t.blockedBy);
    FitList("Repos", t.repos);
    FitTruthy("Parent", TaskRef, t.parent);
    FieldsAre(t, today);
  }

  lemma FieldsFitC(t: Task, today: string)
    requires Writable(t, today)
    ensures var fs := Fields(t, today); FieldFits(fs[8]) && FieldFits(fs[9])
  {
    LettersFit("Worktree");
    LettersFit("Estimate");
    FitLoose("Worktree", t.worktree);
    FitHours("Estimate", t.estimate);
    FieldsAre(t, today);
  }

  lemma FieldsFitD(t: Task, today: string)
    requires Writable(t, today)
    ensures var fs := Fields(t, today); FieldFits(fs[10]) && FieldFits(fs[11])
  {
    LettersFit("Actual");
    LettersFit("Labels");
    FitHours("Actual", t.actual);
    FitList("Labels", t.labels);
    FieldsAre(t, today);
  }

  /** The fields, one by one. */
  lemma FieldsAre(t: Task, today: string)
    ensures var fs := Fields(t, today);
      && fs[0] == Field("Status", Some(OrElse(t.status, "backlog")))
      && fs[1] == Field("Priority", Some(OrElse(t.priority, "P2")))
      && fs[2] == Field("Created", Some(OrElse(t.created, today)))
      && fs[3] == Field("Updated", Some(OrElse(None, today)))
      && fs[4] == Field("Completed", IfTruthy(t.completed))
      && fs[5] == Field("Blocked By", IfTruthy(t.blockedBy))
      && fs[6] == Field("Repos", IfList(t.repos))
      && fs[7] == Field("Parent", IfTruthy(t.parent))
      && fs[8] == Field("Worktree", IfTruthy(t.worktree))
      && fs[9] == Field("Estimate", IfHours(t.estimate))
      && fs[10] == Field("Actual", IfHours(t.actual))
      && fs[11] == Field("Labels", IfList(t.labels))
  {
  }

  /** The metadata names the generator writes. */
  const FIELD_NAMES: seq<string> :=
    ["Status", "Priority", "Created", "Updated", "Completed", "Blocked By", "Repos", "Parent", "Worktree",
     "Estimate", "Actual", "Labels"]

  lemma FieldNamesDistinct()
    ensures forall i, j :: 0 <= i < j < |FIELD_NAMES| ==> FIELD_NAMES[i] != FIELD_NAMES[j]
  {
  }

  lemma FieldsNamed(t: Task, today: string)
    ensures |Fields(t, today)| == |FIELD_NAMES|
    ensures forall i :: 0 <= i < |FIELD_NAMES| ==> Fields(t, today)[i].name == FIELD_NAMES[i]
  {
  }

  // ---------------------------------------------------------------------------------------
  // The metadata entries.

  lemma LookupBehind(e: Entry, es: seq<Entry>, name: string)
    requires e.name != name
    ensures Lookup([e] + es, name) == Lookup(es, name)
    ensures Slot([e] + es, name).None? <==> Slot(es, name).None?
  {
    assert ([e] + es)[1..] == es;
  }

  lemma {:induction false} MetaOfAbsent(fs: seq<Field>, name: string)
    requires forall j :: 0 <= j < |fs| ==> fs[j].name != name
    ensures Slot(MetaOf(fs), name).None? && Lookup(MetaOf(fs), name).None?
    decreases |fs|
  {
    if |fs| > 0 {
      MetaOfAbsent(fs[1..], name);
      if fs[0].value.Some? {
        LookupBehind(Entry("- ", fs[0].name, fs[0].value.value), MetaOf(fs[1..]), name);
      }
    }
  }

  /** With distinct names, the entry of a field holds the field's value, or is missing with it. */
  lemma {:induction false} LookupMetaOf(fs: seq<Field>, i: nat)
    requires i < |fs| && forall j :: 0 <= j < |fs| && j != i ==> fs[j].name != fs[i].name
    ensures Lookup(MetaOf(fs), fs[i].name) == fs[i].value
    decreases i
  {
    var name := fs[i].name;
    var rest := fs[1..];
    if i == 0 {
      MetaOfAbsent(rest, name);
    } else {
      assert rest[i - 1] == fs[i];
      LookupMetaOf(rest, i - 1);
      if fs[0].value.Some? {
        LookupBehind(Entry("- ", fs[0].name, fs[0].value.value), MetaOf(rest), name);
      }
    }
  }

  lemma {:induction false} MetaOfGood(fs: seq<Field>)
    requires forall j :: 0 <= j < |fs| ==> FieldFits(fs[j])
    ensures forall k :: 0 <= k < |MetaOf(fs)| ==> GoodEntry(MetaOf(fs)[k])
    decreases |fs|
  {
    if |fs| > 0 {
      MetaOfGood(fs[1..]);
      assert Inert("- ");
    }
  }

  // ---------------------------------------------------------------------------------------
  // The sheet is well formed.

  lemma LinesPlain(ls: seq<string>)
    requires forall i :: 0 <= i < |ls| ==> PlainLine(ls[i])
    ensures PlainRows(TextRows(ls) + [Text("")])
  {
  }

  lemma CriteriaPlain(t: Task, today: string)
    requires Writable(t, today)
    ensures forall i :: 0 <= i < |CriteriaLines(t)| ==> PlainLine(CriteriaLines(t)[i])
  {
    if NonEmpty(t.criteria) {
      var cs := t.criteria.value;
      forall i | 0 <= i < |cs| ensures PlainLine(CriterionLine(cs[i])) {
        InertPlain(cs[i].text);
        PlainCat(Box(cs[i].checked), cs[i].text);
      }
    } else {
      InertPlain("_Add criteria_");
      PlainCat("- [ ] ", "_Add criteria_");
      assert "- [ ] " + "_Add criteria_" == "- [ ] _Add criteria_";
    }
  }

  lemma SubtasksPlain(t: Task, today: string)
    requires Writable(t, today)
    ensures forall i :: 0 <= i < |SubtaskLines(t)| ==> PlainLine(SubtaskLines(t)[i])
  {
    if NonEmpty(t.subtasks) {
      var ss := t.subtasks.value;
      forall i | 0 <= i < |ss| ensures PlainLine(SubtaskLine(ss[i])) {
        FullInert(TaskRef, ss[i].id);
        PlainCat(Box(ss[i].completed), ss[i].id);
      }
    } else {
      assert PlainLine("_No subtasks_");
    }
  }

  lemma FilesPlain(t: Task, today: string)
    requires Writable(t, today)
    ensures forall i :: 0 <= i < |FileLines(t)| ==> PlainLine(FileLines(t)[i])
  {
    if NonEmpty(t.files) {
      var fs := t.files.value;
      forall i | 0 <= i < |fs| ensures PlainLine(FileLine(fs[i])) {
        var f := fs[i];
        InertPlain(f.description);
        PlainCat("` - ", f.description);
        InertPlain(f.path);
        PlainCat(f.path, "` - " + f.description);
        PlainCat("- `", f.path + ("` - " + f.description));
        assert FileLine(f) == "- `" + (f.path + ("` - " + f.description));
      }
    } else {
      assert PlainLine("_No files changed yet_");
    }
  }

  /** Words and spaces make an inert line without brackets. */
  lemma WordsInert(s: string)
    requires forall i :: 0 <= i < |s| ==> IsWordChar(s[i]) || s[i] == ' '
    ensures Inert(s) && '[' !in s && PlainLine(s)
  {
    InertPlain(s);
  }

  /** Words and spaces make a plain line. */
  lemma WordsPlain(s: string)
    requires forall i :: 0 <= i < |s| ==> IsWordChar(s[i]) || s[i] == ' '
    ensures PlainLine(s) && PlainText(s)
  {
    PlainLineLines(s);
  }

  /** The description as written: plain, trimmed and not empty. */
  lemma DescriptionPlain(t: Task)
    requires Truthy(t.description) ==> PlainText(t.description.value) && Trimmed(t.description.value)
    ensures PlainText(DescriptionText(t)) && Trimmed(DescriptionText(t)) && DescriptionText(t) != ""
  {
    if !Truthy(t.description) {
      var d := "_No description_";
      WordsPlain(d);
      assert Trimmed(d) by {
        assert d[0] == '_' && d[|d| - 1] == '_';
      }
    }
  }

  lemma NotesPlain(t: Task)
    requires Truthy(t.notes) ==> PlainText(t.notes.value)
    ensures PlainText(NotesText(t))
  {
    if !Truthy(t.notes) {
      WordsPlain("_To be filled during implementation_");
    }
  }

  lemma ProseBody(s: string)
    requires PlainText(s)
    ensures PlainRows(TextRows(Lines(s)) + [Text("")])
  {
    ProseDoc(s, 1);
    assert Blanks(1) == [Text("")];
  }

  lemma HeadGood(id: string, title: string)
    requires Full(TaskRef, id) && Inert(title)
    ensures GoodHead([Title(id, title), Text("")])
  {
    FullInert(TaskRef, id);
  }

  /** A sheet with the five task sections and good rows is well formed. */
  lemma FiveWellFormed(head: seq<Row>, es: seq<Entry>, d: seq<Row>, c: seq<Row>, s: seq<Row>, n: seq<Row>, f: seq<Row>)
    requires GoodHead(head) && forall i :: 0 <= i < |es| ==> GoodEntry(es[i])
    requires |d| >= 1 && |c| >= 1 && |s| >= 1 && |n| >= 1 && |f| >= 1
    requires PlainRows(d) && PlainRows(c) && PlainRows(s) && PlainRows(n) && PlainRows(f)
    ensures WellFormed(Sheet(head, es, [Part("Description", d), Part("Acceptance Criteria", c), Part("Subtasks", s),
                                        Part("Implementation Notes", n), Part("Files Changed", f)]))
    ensures Names([Part("Description", d), Part("Acceptance Criteria", c), Part("Subtasks", s),
                   Part("Implementation Notes", n), Part("Files Changed", f)]) == TASK_PARTS
  {
    LettersFit("Description");
    LettersFit("Acceptance Criteria");
    LettersFit("Subtasks");
    LettersFit("Implementation Notes");
    LettersFit("Files Changed");
  }

  /** The five section bodies of a generated task are plain rows. */
  lemma BodiesPlain(t: Task, today: string)
    requires Writable(t, today)
    ensures PlainRows(TextRows(Lines(DescriptionText(t))) + [Text("")])
    ensures PlainRows(TextRows(CriteriaLines(t)) + [Text("")])
    ensures PlainRows(TextRows(SubtaskLines(t)) + [Text("")])
    ensures PlainRows(TextRows(Lines(NotesText(t))) + [Text("")])
    ensures PlainRows(TextRows(FileLines(t)) + [Text("")])
  {
    DescriptionPlain(t);
    ProseBody(DescriptionText(t));
    NotesPlain(t);
    ProseBody(NotesText(t));
    CriteriaPlain(t, today);
    LinesPlain(CriteriaLines(t));
    SubtasksPlain(t, today);
    LinesPlain(SubtaskLines(t));
    FilesPlain(t, today);
    LinesPlain(FileLines(t));
  }

  lemma SheetWellFormed(t: Task, today: string)
    requires Writable(t, today)
    ensures WellFormed(TaskSheet(t, today)) && Names(TaskSheet(t, today).parts) == TASK_PARTS
  {
    HeadGood(t.id.value, t.title.value);
    FieldsFit(t, today);
    MetaOfGood(Fields(t, today));
    BodiesPlain(t, today);
    FiveWellFormed([Title(Show(t.id), Show(t.title)), Text("")], MetaOf(Fields(t, today)),
      TextRows(Lines(DescriptionText(t))) + [Text("")], TextRows(CriteriaLines(t)) + [Text("")],
      TextRows(SubtaskLines(t)) + [Text("")], TextRows(Lines(NotesText(t))) + [Text("")],
      TextRows(FileLines(t)) + [Text("")]);
  }

  // ---------------------------------------------------------------------------------------
  // Reading a sheet with the task sections.

  /** A well-formed sheet with the five task sections, in order, and a head of a title line and
      a blank line. */
  predicate TaskShaped(sh: Sheet) {
    && WellFormed(sh) && Names(sh.parts) == TASK_PARTS
    && |sh.head| == 2 && sh.head[0].Title? && Full(TaskRef, sh.head[0].id) && sh.head[0].text != ""
    && sh.head[1] == Text("")
  }

  /** The sections `parseTaskFile` reads, with the lookaheads it reads them with. */
  lemma TaskSections(sh: Sheet)
    requires TaskShaped(sh)
    ensures SectionText(Render(sh), "## Description", NextHeader) == Some(Doc(sh.parts[0].body))
    ensures SectionText(Render(sh), "## Acceptance Criteria", NextHeader) == Some(Doc(sh.parts[1].body))
    ensures SectionText(Render(sh), "## Subtasks", NextHeaderOrEnd) == Some(Doc(sh.parts[2].body))
  {
    DescriptionSection(sh);
    CriteriaSection(sh);
    SubtasksSection(sh);
  }

  /** The text of the section at `k`, looked up by its heading. */
  lemma SectionAt(sh: Sheet, k: nat, stop: Stop, heading: string)
    requires WellFormed(sh) && k < |sh.parts| && Outline.Closes(sh, k, stop) && StartsWith(StopPrefix(stop), "##")
    requires heading == "## " + sh.parts[k].name
    ensures SectionText(Render(sh), heading, stop) == Some(Doc(sh.parts[k].body))
  {
    PartSection(sh, k, stop);
  }

  lemma Headings()
    ensures "## " + "Description" == "## Description"
    ensures "## " + "Acceptance Criteria" == "## Acceptance Criteria"
    ensures "## " + "Subtasks" == "## Subtasks"
  {
  }

  lemma DescriptionSection(sh: Sheet)
    requires TaskShaped(sh)
    ensures SectionText(Render(sh), "## Description", NextHeader) == Some(Doc(sh.parts[0].body))
  {
    assert Names(sh.parts)[0] == sh.parts[0].name == "Description";
    assert Names(sh.parts)[1] == sh.parts[1].name == "Acceptance Criteria";
    Headings();
    assert StartsWith("## " + sh.parts[1].name, "## ");
    SectionAt(sh, 0, NextHeader, "## Description");
  }

  lemma CriteriaSection(sh: Sheet)
    requires TaskShaped(sh)
    ensures SectionText(Render(sh), "## Acceptance Criteria", NextHeader) == Some(Doc(sh.parts[1].body))
  {
    assert Names(sh.parts)[1] == sh.parts[1].name == "Acceptance Criteria";
    assert Names(sh.parts)[2] == sh.parts[2].name == "Subtasks";
    Headings();
    assert StartsWith("## " + sh.parts[2].name, "## ");
    SectionAt(sh, 1, NextHeader, "## Acceptance Criteria");
  }

  lemma SubtasksSection(sh: Sheet)
    requires TaskShaped(sh)
    ensures SectionText(Render(sh), "## Subtasks", NextHeaderOrEnd) == Some(Doc(sh.parts[2].body))
  {
    assert Names(sh.parts)[2] == sh.parts[2].name == "Subtasks";
    Headings();
    SectionAt(sh, 2, NextHeaderOrEnd, "## Subtasks");
  }

  /** The metadata of a sheet written from fields with distinct names, field `i` fitting its
      pattern. */
  predicate EntryReadable(sh: Sheet, fs: seq<Field>, i: nat) {
    && WellFormed(sh) && sh.meta == MetaOf(fs) && i < |fs| && FieldFits(fs[i])
    && (forall j :: 0 <= j < |fs| && j != i ==> fs[j].name != fs[i].name)
    && (forall r :: r in sh.head ==> !r.Meta?)
  }

  /** The key line of a field, among metadata entries written from distinct fields. */
  lemma ReadEntry(sh: Sheet, fs: seq<Field>, i: nat)
    requires EntryReadable(sh, fs, i)
    ensures Value(Render(sh), fs[i].name) == Read(fs[i])
  {
    LookupMetaOf(fs, i);
    assert HeadFree(sh, fs[i].name) by {
      assert forall k :: 0 <= k < |sh.head| ==> sh.head[k] in sh.head;
    }
    ExtractEntry(sh, fs[i].name, KindOf(fs[i].name));
  }

  lemma SheetShaped(t: Task, today: string)
    requires Writable(t, today)
    ensures TaskShaped(TaskSheet(t, today))
  {
    SheetWellFormed(t, today);
  }

  lemma FieldsDistinct(t: Task, today: string)
    ensures forall i, j :: 0 <= i < |Fields(t, today)| && 0 <= j < |Fields(t, today)| && i != j ==>
      Fields(t, today)[i].name != Fields(t, today)[j].name
  {
    FieldsNamed(t, today);
    FieldNamesDistinct();
  }

  // ---------------------------------------------------------------------------------------
  // Reading the metadata.

  /** Each metadata line reads back as the value the generator wrote (the hours without `h`). */
  lemma ReadField(t: Task, today: string, i: nat)
    requires Writable(t, today) && i < |Fields(t, today)|
    ensures Value(GenerateTaskContent(t, today), Fields(t, today)[i].name) == Read(Fields(t, today)[i])
  {
    GenerateSheet(t, today);
    TaskEntryReadable(t, today, i);
    ReadEntry(TaskSheet(t, today), Fields(t, today), i);
  }

  lemma TaskEntryReadable(t: Task, today: string, i: nat)
    requires Writable(t, today) && i < |Fields(t, today)|
    ensures EntryReadable(TaskSheet(t, today), Fields(t, today), i)
  {
    SheetWellFormed(t, today);
    FieldsFit(t, today);
    FieldsDistinct(t, today);
  }

  lemma ReadTitle(t: Task, today: string)
    requires Writable(t, today)
    ensures Extract(TitlePat(TaskRef), GenerateTaskContent(t, today)) == t.title
  {
    GenerateSheet(t, today);
    SheetWellFormed(t, today);
    HeadTitle(TaskSheet(t, today), TaskRef);
  }

  /** `parseInt` of the hours the generator wrote, without the `h`. */
  lemma HoursBack(x: Option<int>)
    requires x.Some? ==> x.value >= 0
    ensures AsInt(Read(Field("Estimate", IfHours(x)))) == if TruthyNum(x) then x else None
    ensures AsInt(Read(Field("Actual", IfHours(x)))) == if TruthyNum(x) then x else None
  {
    if TruthyNum(x) {
      var s := NatToString(x.value);
      assert HoursText(x.value) == s + "h";
      assert Captured(Hours, s + "h") == s;
      RunEndIs(s, 0, DigitChars, |s|);
      assert s[..|s|] == s;
      ParseNatToString(x.value);
    }
  }

  lemma ListBack(x: Option<seq<string>>, name: string)
    requires (x.Some? ==> ListItems(x.value)) && KindOf(name) == Rest
    ensures AsList(Read(Field(name, IfList(x)))) == if NonEmpty(x) then x else None
  {
    if NonEmpty(x) {
      ListRoundTrip(x.value);
    }
  }

  // ---------------------------------------------------------------------------------------
  // Reading the sections.

  lemma BodyLines(ls: seq<string>)
    requires PlainRows(TextRows(ls) + [Text("")])
    ensures Lines(Doc(TextRows(ls) + [Text("")])) == ls + [""]
  {
    var body := TextRows(ls) + [Text("")];
    DocLines(body);
    RenderedConcat(TextRows(ls), [Text("")]);
    RenderedText(ls);
    assert Rendered([Text("")]) == [""] by {
      assert Rendered([Text("")])[0] == "";
    }
  }

  /** The trimmed text of a prose body is the prose. */
  lemma ProseBack(d: string)
    requires PlainText(d) && Trimmed(d) && d != ""
    ensures Trim(Doc(TextRows(Lines(d)) + [Text("")])) == d
  {
    TrimProse(d, 1);
    assert Blanks(1) == [Text("")];
  }

  lemma ReadDescription(t: Task, today: string)
    requires Writable(t, today)
    ensures AsTrimmed(SectionText(GenerateTaskContent(t, today), "## Description", NextHeader)) == Some(DescriptionText(t))
  {
    GenerateSheet(t, today);
    SheetShaped(t, today);
    TaskSections(TaskSheet(t, today));
    DescriptionPlain(t);
    ProseBack(DescriptionText(t));
  }

  lemma {:induction false} ParseCriteriaAppend(a: seq<string>, b: seq<string>)
    ensures ParseCriteria(a + b) == ParseCriteria(a) + ParseCriteria(b)
    decreases |a|
  {
    if |a| > 0 {
      assert (a + b)[1..] == a[1..] + b;
      ParseCriteriaAppend(a[1..], b);
    } else {
      assert a + b == b;
    }
  }

  /** A box written unchecked holds `[x]` only where its text does. */
  lemma UncheckedLine(x: string)
    requires !Contains(x, "[x]")
    ensures !Contains("- [ ] " + x, "[x]")
  {
    var l := "- [ ] " + x;
    assert l[..6] == "- [ ] ";
    forall p: nat | p <= |l| ensures !OccursAt(l, p, "[x]") {
      if p >= 6 && p + 3 <= |l| {
        assert l[p..p + 3] == x[p - 6..p - 3];
        assert !OccursAt(x, p - 6, "[x]");
      } else if p + 3 <= |l| {
        assert l[p..p + 3][0] == l[p] && l[p..p + 3][1] == l[p + 1];
        assert l[p] == l[..6][p];
        assert p < 5 ==> l[p + 1] == l[..6][p + 1];
      }
    }
  }

  lemma CriterionBack(c: Criterion)
    requires CriterionFits(c)
    ensures IsBoxLine(CriterionLine(c)) && CriterionOf(CriterionLine(c)) == c
  {
    var l := CriterionLine(c);
    assert l[6..] == c.text;
    if c.checked {
      assert OccursAt(l, 2, "[x]");
    } else {
      UncheckedLine(c.text);
    }
  }

  lemma {:induction false} CriteriaBack(cs: seq<Criterion>)
    requires forall i :: 0 <= i < |cs| ==> CriterionFits(cs[i])
    ensures ParseCriteria(MapLines(cs, CriterionLine)) == cs
    decreases |cs|
  {
    if |cs| > 0 {
      var ls := MapLines(cs, CriterionLine);
      assert ls[1..] == MapLines(cs[1..], CriterionLine);
      CriteriaBack(cs[1..]);
      CriterionBack(cs[0]);
    }
  }

  /** Text without `[` holds no `[x]`. */
  lemma NoBracket(x: string)
    requires '[' !in x
    ensures !Contains(x, "[x]")
  {
    forall p: nat | p <= |x| ensures !OccursAt(x, p, "[x]") {
      if p + 3 <= |x| {
        assert x[p..p + 3][0] == x[p];
      }
    }
  }

  /** The placeholder line of the criteria reads as one unchecked criterion. */
  lemma CriteriaPlaceholder()
    ensures ParseCriteria(["- [ ] _Add criteria_"]) == [Criterion("_Add criteria_", false)]
  {
    var c := Criterion("_Add criteria_", false);
    var l := "- [ ] _Add criteria_";
    WordsInert(c.text);
    NoBracket(c.text);
    CriterionBack(c);
    assert Box(false) == "- [ ] ";
    assert l[..6] == "- [ ] " && l[6..] == c.text;
    assert l == l[..6] + l[6..];
    assert CriterionLine(c) == l;
  }

  lemma CriteriaRead(t: Task)
    requires t.criteria.Some? ==> forall i :: 0 <= i < |t.criteria.value| ==> CriterionFits(t.criteria.value[i])
    ensures ParseCriteria(CriteriaLines(t) + [""])
      == if NonEmpty(t.criteria) then t.criteria.value else [Criterion("_Add criteria_", false)]
  {
    ParseCriteriaAppend(CriteriaLines(t), [""]);
    if NonEmpty(t.criteria) {
      CriteriaBack(t.criteria.value);
    } else {
      CriteriaPlaceholder();
    }
  }

  lemma ReadCriteria(t: Task, today: string)
    requires Writable(t, today)
    ensures AsCriteria(SectionText(GenerateTaskContent(t, today), "## Acceptance Criteria", NextHeader))
      == Some(if NonEmpty(t.criteria) then t.criteria.value else [Criterion("_Add criteria_", false)])
  {
    GenerateSheet(t, today);
    SheetShaped(t, today);
    TaskSections(TaskSheet(t, today));
    BodyLines(CriteriaLines(t));
    CriteriaRead(t);
  }

  lemma {:induction false} ParseSubtasksAppend(a: seq<string>, b: seq<string>)
    ensures ParseSubtasks(a + b) == ParseSubtasks(a) + ParseSubtasks(b)
    decreases |a|
  {
    if |a| > 0 {
      assert (a + b)[1..] == a[1..] + b;
      ParseSubtasksAppend(a[1..], b);
    } else {
      assert a + b == b;
    }
  }

  lemma SubtaskBack(st: Subtask)
    requires Full(TaskRef, st.id)
    ensures SubtaskOf(SubtaskLine(st)) == Some(st)
  {
    var l := SubtaskLine(st);
    assert l == Box(st.completed) + st.id;
    assert forall j :: 6 <= j < 6 + |st.id| ==> l[j] == st.id[j - 6];
    TaskRefFull(l, 6, st.id);
    assert l[6..6 + |st.id|] == st.id;
    assert l[..3] == "- [" && l[4..6] == "] ";
    assert l[3] == (if st.completed then 'x' else ' ');
  }

  lemma {:induction false} SubtasksBack(ss: seq<Subtask>)
    requires forall i :: 0 <= i < |ss| ==> Full(TaskRef, ss[i].id)
    ensures ParseSubtasks(MapLines(ss, SubtaskLine)) == ss
    decreases |ss|
  {
    if |ss| > 0 {
      var ls := MapLines(ss, SubtaskLine);
      assert ls[1..] == MapLines(ss[1..], SubtaskLine);
      SubtasksBack(ss[1..]);
      SubtaskBack(ss[0]);
    }
  }

  lemma SubtasksPlaceholder()
    ensures ParseSubtasks(["_No subtasks_", ""]) == []
  {
    assert "_No subtasks_"[..3][0] == '_';
  }

  lemma SubtasksRead(t: Task)
    requires t.subtasks.Some? ==> forall i :: 0 <= i < |t.subtasks.value| ==> Full(TaskRef, t.subtasks.value[i].id)
    ensures ParseSubtasks(SubtaskLines(t) + [""]) == if NonEmpty(t.subtasks) then t.subtasks.value else []
  {
    ParseSubtasksAppend(SubtaskLines(t), [""]);
    if NonEmpty(t.subtasks) {
      SubtasksBack(t.subtasks.value);
    } else {
      SubtasksPlaceholder();
      ParseSubtasksAppend(["_No subtasks_"], [""]);
    }
  }

  lemma ReadSubtasks(t: Task, today: string)
    requires Writable(t, today)
    ensures AsSubtasks(SectionText(GenerateTaskContent(t, today), "## Subtasks", NextHeaderOrEnd))
      == Some(if NonEmpty(t.subtasks) then t.subtasks.value else [])
  {
    SubtasksBody(t, today);
    BodyLines(SubtaskLines(t));
    SubtasksRead(t);
  }

  /** The subtasks section of the generated text, as rows. */
  lemma SubtasksBody(t: Task, today: string)
    requires Writable(t, today)
    ensures var body := TextRows(SubtaskLines(t)) + [Text("")];
      SectionText(GenerateTaskContent(t, today), "## Subtasks", NextHeaderOrEnd) == Some(Doc(body)) && PlainRows(body)
  {
    var sh := TaskSheet(t, today);
    GenerateSheet(t, today);
    SheetShaped(t, today);
    ShapedSubtasks(sh, TextRows(SubtaskLines(t)) + [Text("")]);
  }

  lemma ShapedSubtasks(sh: Sheet, body: seq<Row>)
    requires TaskShaped(sh) && sh.parts[2].body == body
    ensures SectionText(Render(sh), "## Subtasks", NextHeaderOrEnd) == Some(Doc(body)) && PlainRows(body)
  {
    SubtasksSection(sh);
    PartPlain(sh, 2);
  }

  lemma PartPlain(sh: Sheet, k: nat)
    requires WellFormed(sh) && k < |sh.parts|
    ensures PlainRows(sh.parts[k].body)
  {
    assert GoodPart(sh.parts[k]);
  }

  // ---------------------------------------------------------------------------------------
  // The round trip.

  lemma ReadNamed(t: Task, today: string, i: nat, name: string, x: Option<string>)
    requires Writable(t, today) && i < |Fields(t, today)| && Fields(t, today)[i] == Field(name, x)
    ensures Value(GenerateTaskContent(t, today), name) == Read(Field(name, x))
  {
    ReadField(t, today, i);
  }

  lemma ReadStatus(t: Task, today: string)
    requires Writable(t, today)
    ensures var c := GenerateTaskContent(t, today); Value(c, "Status") == Some(OrElse(t.status, "backlog"))
  {
    ReadNamed(t, today, 0, "Status", Some(OrElse(t.status, "backlog")));
  }

  lemma ReadPriority(t: Task, today: string)
    requires Writable(t, today)
    ensures var c := GenerateTaskContent(t, today); Value(c, "Priority") == Some(OrElse(t.priority, "P2"))
  {
    ReadNamed(t, today, 1, "Priority", Some(OrElse(t.priority, "P2")));
  }

  lemma ReadCreated(t: Task, today: string)
    requires Writable(t, today)
    ensures var c := GenerateTaskContent(t, today); Value(c, "Created") == Some(OrElse(t.created, today))
  {
    ReadNamed(t, today, 2, "Created", Some(OrElse(t.created, today)));
  }

  lemma ReadUpdated(t: Task, today: string)
    requires Writable(t, today)
    ensures var c := GenerateTaskContent(t, today); Value(c, "Updated") == Some(today)
  {
    ReadNamed(t, today, 3, "Updated", Some(today));
  }

  lemma ReadCompleted(t: Task, today: string)
    requires Writable(t, today)
    ensures var c := GenerateTaskContent(t, today); Value(c, "Completed") == IfTruthy(t.completed)
  {
    ReadNamed(t, today, 4, "Completed", IfTruthy(t.completed));
  }

  lemma ReadBlockedBy(t: Task, today: string)
    requires Writable(t, today)
    ensures var c := GenerateTaskContent(t, today); Value(c, "Blocked By") == IfTruthy(t.blockedBy)
  {
    ReadNamed(t, today, 5, "Blocked By", IfTruthy(t.blockedBy));
  }

  lemma ReadRepos(t: Task, today: string)
    requires Writable(t, today)
    ensures var c := GenerateTaskContent(t, today); AsList(Value(c, "Repos")) == (if NonEmpty(t.repos) then t.repos else None)
  {
    ReadNamed(t, today, 6, "Repos", IfList(t.repos));
    ListBack(t.repos, "Repos");
  }

  lemma ReadParent(t: Task, today: string)
    requires Writable(t, today)
    ensures var c := GenerateTaskContent(t, today); Value(c, "Parent") == IfTruthy(t.parent)
  {
    ReadNamed(t, today, 7, "Parent", IfTruthy(t.parent));
  }

  lemma ReadWorktree(t: Task, today: string)
    requires Writable(t, today)
    ensures var c := GenerateTaskContent(t, today); Value(c, "Worktree") == IfTruthy(t.worktree)
  {
    ReadNamed(t, today, 8, "Worktree", IfTruthy(t.worktree));
  }

  lemma ReadEstimate(t: Task, today: string)
    requires Writable(t, today)
    ensures var c := GenerateTaskContent(t, today); AsInt(Value(c, "Estimate")) == (if TruthyNum(t.estimate) then t.estimate else None)
  {
    ReadNamed(t, today, 9, "Estimate", IfHours(t.estimate));
    HoursBack(t.estimate);
  }

  lemma ReadActual(t: Task, today: string)
    requires Writable(t, today)
    ensures var c := GenerateTaskContent(t, today); AsInt(Value(c, "Actual")) == (if TruthyNum(t.actual) then t.actual else None)
  {
    ReadNamed(t, today, 10, "Actual", IfHours(t.actual));
    HoursBack(t.actual);
  }

  lemma ReadLabels(t: Task, today: string)
    requires Writable(t, today)
    ensures var c := GenerateTaskContent(t, today); AsList(Value(c, "Labels")) == (if NonEmpty(t.labels) then t.labels else None)
  {
    ReadNamed(t, today, 11, "Labels", IfList(t.labels));
    ListBack(t.labels, "Labels");
  }

  /** `parseTaskFile(generateTaskContent(task), filename)` is the task as the generator
      completed it: every property written is read back, `updated` is the day of writing, and
      the placeholders come back as an empty subtask list and one unchecked criterion. */
  lemma TaskRoundTrip(t: Task, today: string, filename: string)
    requires Writable(t, today)
    ensures ParseTask(GenerateTaskContent(t, today), filename) == Canon(t, today, filename)
  {
    ReadTitle(t, today);
    ReadStatus(t, today);
    ReadPriority(t, today);
    ReadCreated(t, today);
    ReadUpdated(t, today);
    ReadCompleted(t, today);
    ReadBlockedBy(t, today);
    ReadRepos(t, today);
    ReadParent(t, today);
    ReadWorktree(t, today);
    ReadEstimate(t, today);
    ReadActual(t, today);
    ReadLabels(t, today);
    ReadDescription(t, today);
    ReadCriteria(t, today);
    ReadSubtasks(t, today);
  }

  // ---------------------------------------------------------------------------------------
  // The placeholders.

  /** A task written without subtasks reads back with an empty subtask list. */
  lemma NoSubtasksRead(t: Task, today: string, filename: string)
    requires Writable(t, today) && !NonEmpty(t.subtasks)
    ensures ParseTask(GenerateTaskContent(t, today), filename).subtasks == Some([])
  {
    TaskRoundTrip(t, today, filename);
  }

  /** A task written without criteria does not read back without them: the placeholder line is
      read as one unchecked criterion. */
  lemma NoCriteriaRead(t: Task, today: string, filename: string)
    requires Writable(t, today) && !NonEmpty(t.criteria)
    ensures ParseTask(GenerateTaskContent(t, today), filename).criteria == Some([Criterion("_Add criteria_", false)])
  {
    TaskRoundTrip(t, today, filename);
  }

  /** A field left out has no key line at all. */
  lemma AbsentEntry(sh: Sheet, fs: seq<Field>, i: nat)
    requires EntryReadable(sh, fs, i) && fs[i].value.None?
    ensures !HasLit(Render(sh), Bold(fs[i].name) + ":")
  {
    LookupMetaOf(fs, i);
    assert HeadFree(sh, fs[i].name) by {
      assert forall k :: 0 <= k < |sh.head| ==> sh.head[k] in sh.head;
    }
    HasValue(sh, fs[i].name);
  }

  /** An estimate of 0 hours is falsy: no estimate line is written and none is read. */
  lemma ZeroEstimateOmitted(t: Task, today: string)
    requires Writable(t, today) && t.estimate == Some(0)
    ensures !HasLit(GenerateTaskContent(t, today), "**Estimate**:")
  {
    assert Fields(t, today)[9].value.None?;
    assert Bold(Fields(t, today)[9].name) + ":" == "**Estimate**:";
    GenerateSheet(t, today);
    TaskEntryReadable(t, today, 9);
    AbsentEntry(TaskSheet(t, today), Fields(t, today), 9);
  }
}

=== FILE: taskstats.dfy ===
/** task_stats: counts over the documents of the four working folders (the archive is not
    counted) — in total, per folder, per priority and per label — and the sums of the estimated
    and actual hours. */
module TaskStats {
  import opened Common
  import opened Store
  import opened TaskDoc
  import opened TaskQuery

  /** The folders counted, and the priorities the counter starts with. */
  const COUNTED: seq<string> := ["backlog", "in-progress", "completed", "blocked"]
  const PRIORITIES: seq<string> := ["P0", "P1", "P2", "P3"]

  /** A JavaScript number as a counter holds it: a count, or NaN once `undefined` was
      incremented. */
  datatype Tally = Num(n: int) | NaN

  datatype Stats = Stats(total: nat, byStatus: map<string, int>, byPriority: map<string, Tally>,
                         byLabel: map<string, int>, estimatedHours: int, actualHours: int)

  const Initial: Stats := Stats(0, map["backlog" := 0, "in-progress" := 0, "completed" := 0, "blocked" := 0],
                                map["P0" := Num(0), "P1" := Num(0), "P2" := Num(0), "P3" := Num(0)],
                                map[], 0, 0)

  /** `m[k] = (m[k] || 0) + 1`. */
  function Count(m: map<string, int>, k: string): (r: map<string, int>)
    ensures r.Keys == m.Keys + {k}
  {
    m[k := (if k in m then m[k] else 0) + 1]
  }

  /** `stats.byPriority[p]++` as written: a priority the counter does not start with gets
      `undefined + 1`, which is NaN, and stays NaN. */
  function BumpAsWritten(m: map<string, Tally>, k: string): (r: map<string, Tally>)
    ensures r.Keys == m.Keys + {k}
  {
    m[k := if k in m && m[k].Num? then Num(m[k].n + 1) else NaN]
  }

  /** The increment evidently intended, as the label counter does it: `(m[k] || 0) + 1`. */
  function Bump(m: map<string, Tally>, k: string): (r: map<string, Tally>)
    ensures r.Keys == m.Keys + {k}
    ensures r[k].Num?
  {
    m[k := Num((if k in m && m[k].Num? then m[k].n else 0) + 1)]
  }

  /** Each label of one task counted in turn. */
  function CountLabels(m: map<string, int>, labels: seq<string>): (r: map<string, int>)
    ensures r.Keys == m.Keys + set i | 0 <= i < |labels| :: labels[i]
    decreases |labels|
  {
    if |labels| == 0 then m else CountLabels(Count(m, labels[0]), labels[1..])
  }

  /** One counted document: its folder and the task it parses to. `fixed` selects the
      corrected priority increment. */
  function Step(st: Stats, d: string, t: Task, fixed: bool): Stats {
    st.(total := st.total + 1,
        byStatus := Count(st.byStatus, d),
        byPriority := if !Truthy(t.priority) then st.byPriority
                      else if fixed then Bump(st.byPriority, t.priority.value)
                      else BumpAsWritten(st.byPriority, t.priority.value),
        estimatedHours := st.estimatedHours + (if TruthyNum(t.estimate) then t.estimate.value else 0),
        actualHours := st.actualHours + (if TruthyNum(t.actual) then t.actual.value else 0),
        byLabel := if t.labels.Some? then CountLabels(st.byLabel, t.labels.value) else st.byLabel)
  }

  /** The documents counted in order; every counter the handler starts with is kept. */
  function Tallied(ts: seq<(string, Task)>, fixed: bool): (r: Stats)
    ensures forall d :: d in COUNTED ==> d in r.byStatus
    ensures forall p :: p in PRIORITIES ==> p in r.byPriority
  {
    if |ts| == 0 then Initial
    else Step(Tallied(ts[..|ts| - 1], fixed), ts[|ts| - 1].0, ts[|ts| - 1].1, fixed)
  }

  /** The statistics of the store, with the corrected priority counter. */
  function Statistics(s: Store): Stats {
    Tallied(Parsed(Listing(s, COUNTED), Reading), true)
  }

  /** The statistics as the handler computes them. */
  function StatisticsAsWritten(s: Store): Stats {
    Tallied(Parsed(Listing(s, COUNTED), Reading), false)
  }

  // ---------------------------------------------------------------------------------------
  // Reference counts.

  /** How many entries sit in folder `d`. */
  function InFolder<X>(ts: seq<(string, X)>, d: string): nat {
    if |ts| == 0 then 0 else InFolder(ts[..|ts| - 1], d) + (if ts[|ts| - 1].0 == d then 1 else 0)
  }

  /** How many tasks carry priority `p`. */
  function WithPriority(ts: seq<(string, Task)>, p: string): nat {
    if |ts| == 0 then 0
    else WithPriority(ts[..|ts| - 1], p) + (if ts[|ts| - 1].1.priority == Some(p) && p != "" then 1 else 0)
  }

  /** How many times `l` occurs in a list. */
  function Occurrences(xs: seq<string>, l: string): nat {
    if |xs| == 0 then 0 else (if xs[0] == l then 1 else 0) + Occurrences(xs[1..], l)
  }

  /** How many times label `l` is given, over all tasks. */
  function WithLabel(ts: seq<(string, Task)>, l: string): nat {
    if |ts| == 0 then 0
    else WithLabel(ts[..|ts| - 1], l) + (if ts[|ts| - 1].1.labels.Some? then Occurrences(ts[|ts| - 1].1.labels.value, l) else 0)
  }

  /** The estimate and the actual hours of a task. */
  function Estimate(t: Task): Option<int> { t.estimate }
  function Actual(t: Task): Option<int> { t.actual }

  /** The hours of each task that has a truthy number of them, added up in listing order. */
  function HoursSum(ts: seq<(string, Task)>, hours: Task -> Option<int>): int {
    if |ts| == 0 then 0
    else (if TruthyNum(hours(ts[0].1)) then hours(ts[0].1).value else 0) + HoursSum(ts[1..], hours)
  }

  lemma {:induction false} HoursSumLast(ts: seq<(string, Task)>, hours: Task -> Option<int>)
    requires |ts| > 0
    ensures var e := ts[|ts| - 1].1;
      HoursSum(ts, hours) == HoursSum(ts[..|ts| - 1], hours) + (if TruthyNum(hours(e)) then hours(e).value else 0)
    decreases |ts|
  {
    if |ts| > 1 {
      var t := ts[1..];
      HoursSumLast(t, hours);
      assert t[..|t| - 1] == ts[..|ts| - 1][1..];
      assert t[|t| - 1] == ts[|ts| - 1];
    }
  }

  /** The two hour counters are the sums of the truthy estimates and actual hours. */
  lemma {:induction false} TalliedHours(ts: seq<(string, Task)>, fixed: bool)
    ensures var st := Tallied(ts, fixed);
      st.estimatedHours == HoursSum(ts, Estimate) && st.actualHours == HoursSum(ts, Actual)
    decreases |ts|
  {
    if |ts| > 0 {
      TalliedHours(ts[..|ts| - 1], fixed);
      HoursSumLast(ts, Estimate);
      HoursSumLast(ts, Actual);
    }
  }

  lemma {:induction false} CountLabelsCounts(m: map<string, int>, labels: seq<string>, l: string)
    ensures l in CountLabels(m, labels) <==> l in m || Occurrences(labels, l) > 0
    ensures l in CountLabels(m, labels) ==>
      CountLabels(m, labels)[l] == (if l in m then m[l] else 0) + Occurrences(labels, l)
    decreases |labels|
  {
    if |labels| > 0 {
      CountLabelsCounts(Count(m, labels[0]), labels[1..], l);
    }
  }

  /** The total is the number of documents and each folder counter the number in its folder. */
  lemma {:induction false} TalliedFolders(ts: seq<(string, Task)>, fixed: bool)
    ensures var st := Tallied(ts, fixed);
      && st.total == |ts|
      && (forall d :: d in COUNTED ==> st.byStatus[d] == InFolder(ts, d))
    decreases |ts|
  {
    if |ts| > 0 {
      TalliedFolders(ts[..|ts| - 1], fixed);
    }
  }

  /** Each label counter holds the number of uses of its label, and a counter exists for
      exactly the labels in use; the priority counter does not change this. */
  lemma {:induction false} TalliedLabels(ts: seq<(string, Task)>, fixed: bool)
    ensures var st := Tallied(ts, fixed);
      && (forall l :: l in st.byLabel <==> WithLabel(ts, l) > 0)
      && (forall l :: l in st.byLabel ==> st.byLabel[l] == WithLabel(ts, l))
    decreases |ts|
  {
    if |ts| > 0 {
      var ts' := ts[..|ts| - 1];
      var e := ts[|ts| - 1];
      TalliedLabels(ts', fixed);
      var st := Tallied(ts', fixed);
      forall l ensures l in Tallied(ts, fixed).byLabel <==> WithLabel(ts, l) > 0
        ensures l in Tallied(ts, fixed).byLabel ==> Tallied(ts, fixed).byLabel[l] == WithLabel(ts, l)
      {
        if e.1.labels.Some? {
          CountLabelsCounts(st.byLabel, e.1.labels.value, l);
        }
      }
    }
  }

  /** With the corrected counter, each priority counter holds the number of documents of that
      priority, and a counter exists for exactly the four starting priorities and the
      priorities in use. */
  lemma {:induction false} TalliedCounts(ts: seq<(string, Task)>)
    ensures var st := Tallied(ts, true);
      && (forall p :: p in st.byPriority <==> p in PRIORITIES || WithPriority(ts, p) > 0)
      && (forall p :: p in st.byPriority ==> st.byPriority[p] == Num(WithPriority(ts, p)))
    decreases |ts|
  {
    if |ts| > 0 {
      TalliedCounts(ts[..|ts| - 1]);
    }
  }

  /** As written, the four starting priorities are counted, and any other priority in use has
      a NaN counter. */
  lemma {:induction false} TalliedAsWritten(ts: seq<(string, Task)>)
    ensures var st := Tallied(ts, false);
      && (forall p :: p in st.byPriority <==> p in PRIORITIES || WithPriority(ts, p) > 0)
      && (forall p :: p in PRIORITIES ==> st.byPriority[p] == Num(WithPriority(ts, p)))
      && (forall p :: p in st.byPriority && p !in PRIORITIES ==> st.byPriority[p] == NaN)
    decreases |ts|
  {
    if |ts| > 0 {
      TalliedAsWritten(ts[..|ts| - 1]);
    }
  }

  /** A single backlog task of priority `P4`: the handler reports NaN, the corrected counter 1. */
  lemma PriorityNaN()
    ensures var ts := [("backlog", Blank.(priority := Some("P4")))];
      Tallied(ts, false).byPriority["P4"] == NaN && Tallied(ts, true).byPriority["P4"] == Num(1)
  {
    var ts := [("backlog", Blank.(priority := Some("P4")))];
    assert ts[..0] == [];
  }

  /** The folder counters add up to the total when every document sits in a counted folder. */
  lemma {:induction false} FoldersSum<X>(ts: seq<(string, X)>)
    requires forall k :: 0 <= k < |ts| ==> ts[k].0 in COUNTED
    ensures |ts| == InFolder(ts, "backlog") + InFolder(ts, "in-progress") + InFolder(ts, "completed") + InFolder(ts, "blocked")
    decreases |ts|
  {
    if |ts| > 0 {
      FoldersSum(ts[..|ts| - 1]);
    }
  }

  lemma {:induction false} ParsedFolders(es: seq<(string, File)>, read: File -> Task, d: string)
    ensures InFolder(Parsed(es, read), d) == InFolder(es, d)
    decreases |es|
  {
    if |es| > 0 {
      ParsedFolders(es[..|es| - 1], read, d);
      assert Parsed(es[..|es| - 1], read) == Parsed(es, read)[..|es| - 1];
    }
  }

  lemma {:induction false} InFolderAppend<X>(a: seq<(string, X)>, b: seq<(string, X)>, d: string)
    ensures InFolder(a + b, d) == InFolder(a, d) + InFolder(b, d)
    decreases |b|
  {
    if |b| > 0 {
      InFolderAppend(a, b[..|b| - 1], d);
      assert (a + b)[..|a + b| - 1] == a + b[..|b| - 1];
    } else {
      assert a + b == a;
    }
  }

  lemma {:induction false} DocsFolder(d: string, files: seq<File>, d': string)
    ensures InFolder(Docs(d, files), d') == if d == d' then |Docs(d, files)| else 0
    decreases |files|
  {
    if |files| > 0 {
      var head: seq<(string, File)> := if IsDoc(files[0].name) then [(d, files[0])] else [];
      DocsFolder(d, files[1..], d');
      InFolderAppend(head, Docs(d, files[1..]), d');
      if |head| == 1 {
        assert head[..0] == [];
      }
    }
  }

  lemma {:induction false} ListingFolder(s: Store, dirs: seq<string>, d: string)
    requires forall i, j :: 0 <= i < j < |dirs| ==> dirs[i] != dirs[j]
    ensures InFolder(Listing(s, dirs), d) == if d in dirs && d in s then |Docs(d, s[d])| else 0
    decreases |dirs|
  {
    if |dirs| > 0 {
      var head := if dirs[0] in s then Docs(dirs[0], s[dirs[0]]) else [];
      var rest := dirs[1..];
      assert Listing(s, dirs) == head + Listing(s, rest);
      DirsApart(dirs, d);
      ListingFolder(s, rest, d);
      InFolderAppend(head, Listing(s, rest), d);
      if dirs[0] in s {
        DocsFolder(dirs[0], s[dirs[0]], d);
      }
    }
  }

  /** Of distinct folder names, the first is not among the rest, and the rest are distinct. */
  lemma DirsApart(dirs: seq<string>, d: string)
    requires |dirs| > 0 && forall i, j :: 0 <= i < j < |dirs| ==> dirs[i] != dirs[j]
    ensures d in dirs <==> d == dirs[0] || d in dirs[1..]
    ensures d == dirs[0] ==> d !in dirs[1..]
    ensures forall i, j :: 0 <= i < j < |dirs[1..]| ==> dirs[1..][i] != dirs[1..][j]
  {
    assert dirs == [dirs[0]] + dirs[1..];
    if d == dirs[0] {
      forall j | 0 <= j < |dirs[1..]| ensures dirs[1..][j] != d {
        assert dirs[1..][j] == dirs[j + 1];
      }
    }
  }

  lemma ListedFolders(s: Store, read: File -> Task)
    ensures var ts := Parsed(Listing(s, COUNTED), read);
      && (forall d :: d in COUNTED ==> InFolder(ts, d) == if d in s then |Docs(d, s[d])| else 0)
      && |ts| == InFolder(ts, "backlog") + InFolder(ts, "in-progress") + InFolder(ts, "completed") + InFolder(ts, "blocked")
  {
    var es := Listing(s, COUNTED);
    var ts := Parsed(es, read);
    assert forall i, j :: 0 <= i < j < |COUNTED| ==> COUNTED[i] != COUNTED[j];
    forall d | d in COUNTED ensures InFolder(ts, d) == if d in s then |Docs(d, s[d])| else 0 {
      ParsedFolders(es, read, d);
      ListingFolder(s, COUNTED, d);
    }
    assert forall k :: 0 <= k < |ts| ==> ts[k].0 == es[k].0;
    FoldersSum(ts);
  }

  /** Each folder counter is the number of documents in that folder of `s`, and the folder
      counters add up to the total. */
  ghost predicate FolderCounts(s: Store, st: Stats) {
    && (forall d :: d in COUNTED ==> d in st.byStatus && st.byStatus[d] == if d in s then |Docs(d, s[d])| else 0)
    && st.total == st.byStatus["backlog"] + st.byStatus["in-progress"] + st.byStatus["completed"] + st.byStatus["blocked"]
  }

  /** Each label counter is the number of uses of its label over `ts`, and a counter exists
      for exactly the labels in use. */
  ghost predicate LabelCounts(ts: seq<(string, Task)>, st: Stats) {
    && (forall l :: l in st.byLabel <==> WithLabel(ts, l) > 0)
    && (forall l :: l in st.byLabel ==> st.byLabel[l] == WithLabel(ts, l))
  }

  /** A counter exists for exactly the four starting priorities and the priorities in use,
      and each holds the number of documents of its priority. */
  ghost predicate PriorityCounts(ts: seq<(string, Task)>, st: Stats) {
    && (forall p :: p in st.byPriority <==> p in PRIORITIES || WithPriority(ts, p) > 0)
    && (forall p :: p in st.byPriority ==> st.byPriority[p] == Num(WithPriority(ts, p)))
  }

  /** The same counters exist, but only the four starting priorities hold their counts; any
      other priority in use holds NaN. */
  ghost predicate PriorityCountsAsWritten(ts: seq<(string, Task)>, st: Stats) {
    && (forall p :: p in st.byPriority <==> p in PRIORITIES || WithPriority(ts, p) > 0)
    && (forall p :: p in PRIORITIES ==> p in st.byPriority && st.byPriority[p] == Num(WithPriority(ts, p)))
    && (forall p :: p in st.byPriority && p !in PRIORITIES ==> st.byPriority[p] == NaN)
  }

  /** On a store, whatever each document reads as, the folder counters count the folders. */
  lemma FoldersCounted(s: Store, read: File -> Task, fixed: bool)
    ensures FolderCounts(s, Tallied(Parsed(Listing(s, COUNTED), read), fixed))
  {
    var ts := Parsed(Listing(s, COUNTED), read);
    TalliedFolders(ts, fixed);
    ListedFolders(s, read);
    FolderSums(s, ts, Tallied(ts, fixed));
  }

  lemma FolderSums(s: Store, ts: seq<(string, Task)>, st: Stats)
    requires st.total == |ts| && forall d :: d in COUNTED ==> d in st.byStatus && st.byStatus[d] == InFolder(ts, d)
    requires forall d :: d in COUNTED ==> InFolder(ts, d) == if d in s then |Docs(d, s[d])| else 0
    requires |ts| == InFolder(ts, "backlog") + InFolder(ts, "in-progress") + InFolder(ts, "completed") + InFolder(ts, "blocked")
    ensures FolderCounts(s, st)
  {
  }

  /** The hour counters are the sums, over the documents, of the truthy estimates and of the
      truthy actual hours. */
  ghost predicate HourSums(ts: seq<(string, Task)>, st: Stats) {
    st.estimatedHours == HoursSum(ts, Estimate) && st.actualHours == HoursSum(ts, Actual)
  }

  /** task_stats as the handler computes it (tasks.js:729-766): folders and labels counted,
      the hours summed, and the four starting priorities counted, but any other priority in
      use has a NaN counter. */
  lemma StatisticsAsWrittenSpec(s: Store)
    ensures var ts := Parsed(Listing(s, COUNTED), Reading); var st := StatisticsAsWritten(s);
      FolderCounts(s, st) && LabelCounts(ts, st) && PriorityCountsAsWritten(ts, st) && HourSums(ts, st)
  {
    var ts := Parsed(Listing(s, COUNTED), Reading);
    FoldersCounted(s, Reading, false);
    TalliedLabels(ts, false);
    TalliedAsWritten(ts);
    TalliedHours(ts, false);
  }

  /** The statistics evidently intended: folders, labels and hours as the handler counts
      them, and every priority counter the number of documents of that priority. */
  lemma StatisticsSpec(s: Store)
    ensures var ts := Parsed(Listing(s, COUNTED), Reading); var st := Statistics(s);
      FolderCounts(s, st) && LabelCounts(ts, st) && PriorityCounts(ts, st) && HourSums(ts, st)
  {
    var ts := Parsed(Listing(s, COUNTED), Reading);
    FoldersCounted(s, Reading, true);
    TalliedLabels(ts, true);
    TalliedCounts(ts);
    TalliedHours(ts, true);
  }
}

=== FILE: text.dfy ===
/** Character classes, substring tests, splitting and joining, trimming and lower-casing,
    with the JavaScript meaning of each (`\d`, `\w`, `.`, `String.prototype.split/join/trim`). */
module Text {

  /** `\d`: an ASCII digit. */
  predicate IsDigit(c: char) { '0' <= c <= '9' }

  predicate IsUpper(c: char) { 'A' <= c <= 'Z' }

  predicate IsLower(c: char) { 'a' <= c <= 'z' }

  /** `\w`: `[A-Za-z0-9_]`. */
  predicate IsWordChar(c: char) { IsDigit(c) || IsUpper(c) || IsLower(c) || c == '_' }

  /** The characters `.` does not match and after which a multi-line `^` matches. */
  predicate IsLineTerminator(c: char) {
    c == '\n' || c == '\r' || c == '\U{2028}' || c == '\U{2029}'
  }

  /** What `String.prototype.trim` removes: white space and line terminators. */
  predicate IsSpace(c: char) {
    || c == '\t' || c == '\n' || c == '\U{000B}' || c == '\U{000C}' || c == '\r' || c == ' '
    || c == '\U{00A0}' || c == '\U{1680}' || ('\U{2000}' <= c <= '\U{200A}')
    || c == '\U{2028}' || c == '\U{2029}' || c == '\U{202F}' || c == '\U{205F}'
    || c == '\U{3000}' || c == '\U{FEFF}'
  }

  predicate StartsWith(s: string, p: string) { |p| <= |s| && s[..|p|] == p }

  predicate EndsWith(s: string, p: string) { |p| <= |s| && s[|s| - |p|..] == p }

  /** `k` occurs in `s` starting at index `p`. */
  predicate OccursAt(s: string, p: nat, k: string) { p + |k| <= |s| && s[p..p + |k|] == k }

  /** `s.includes(k)`. */
  predicate Contains(s: string, k: string) {
    exists p: nat | p <= |s| :: OccursAt(s, p, k)
  }

  /** `s.split(sep)` for a one-character separator: the pieces between separators, in order. */
  function Split(s: string, sep: char): (r: seq<string>)
    ensures |r| >= 1
    ensures forall i :: 0 <= i < |r| ==> sep !in r[i]
  {
    if |s| == 0 then [""]
    else
      var rest := Split(s[1..], sep);
      if s[0] == sep then [""] + rest else [[s[0]] + rest[0]] + rest[1..]
  }

  /** `ls.join(sep)`. */
  function Join(ls: seq<string>, sep: string): string {
    if |ls| == 0 then ""
    else if |ls| == 1 then ls[0]
    else ls[0] + sep + Join(ls[1..], sep)
  }

  /** The `\n`-separated lines of a text (`t.split("\n")`). */
  function Lines(t: string): seq<string> { Split(t, '\n') }

  /** The text whose lines these are (`lines.join("\n")`). */
  function Unlines(ls: seq<string>): string { Join(ls, "\n") }

  /** No line holds a newline of its own, so the sequence is what splitting its text yields. */
  predicate FlatLines(ls: seq<string>) { forall i :: 0 <= i < |ls| ==> '\n' !in ls[i] }

  lemma {:induction false} SplitPrefix(x: string, y: string, sep: char)
    requires sep !in x
    ensures Split(x + y, sep) == [x + Split(y, sep)[0]] + Split(y, sep)[1..]
    decreases |x|
  {
    if |x| == 0 {
      assert x + y == y;
      var r := Split(y, sep);
      assert x + r[0] == r[0];
      assert r == [r[0]] + r[1..];
    } else {
      assert (x + y)[1..] == x[1..] + y;
      SplitPrefix(x[1..], y, sep);
      assert [x[0]] + (x[1..] + Split(y, sep)[0]) == x + Split(y, sep)[0];
    }
  }

  /** Splitting the joined pieces gives the pieces back, provided none holds the separator. */
  lemma {:induction false} SplitJoin(ls: seq<string>, sep: char)
    requires |ls| >= 1
    requires forall i :: 0 <= i < |ls| ==> sep !in ls[i]
    ensures Split(Join(ls, [sep]), sep) == ls
    decreases |ls|
  {
    if |ls| == 1 {
      SplitPrefix(ls[0], "", sep);
      assert ls[0] + "" == ls[0];
    } else {
      var rest := Join(ls[1..], [sep]);
      SplitJoin(ls[1..], sep);
      assert Join(ls, [sep]) == ls[0] + ([sep] + rest);
      SplitPrefix(ls[0], [sep] + rest, sep);
      assert ([sep] + rest)[1..] == rest;
      assert Split([sep] + rest, sep) == [""] + ls[1..];
      assert ls[0] + "" == ls[0];
      assert [ls[0]] + ls[1..] == ls;
    }
  }

  /** Joining the pieces of a split gives the text back. */
  lemma {:induction false} JoinSplit(s: string, sep: char)
    ensures Join(Split(s, sep), [sep]) == s
    decreases |s|
  {
    if |s| > 0 {
      var rest := Split(s[1..], sep);
      JoinSplit(s[1..], sep);
      if s[0] == sep {
        assert Join([""] + rest, [sep]) == "" + [sep] + Join(rest, [sep]);
        assert s == [s[0]] + s[1..];
      } else {
        if |rest| == 1 {
          assert s == [s[0]] + rest[0];
        } else {
          var r := [[s[0]] + rest[0]] + rest[1..];
          assert r[1..] == rest[1..];
          assert Join(rest, [sep]) == rest[0] + [sep] + Join(rest[1..], [sep]);
          assert s == [s[0]] + s[1..];
        }
      }
    }
  }

  lemma LinesUnlines(ls: seq<string>)
    requires |ls| >= 1 && FlatLines(ls)
    ensures Lines(Unlines(ls)) == ls
  {
    SplitJoin(ls, '\n');
  }

  lemma UnlinesLines(t: string)
    ensures Unlines(Lines(t)) == t
    ensures |Lines(t)| >= 1 && FlatLines(Lines(t))
  {
    JoinSplit(t, '\n');
  }

  /** Joining two non-empty runs of lines puts one newline between them. */
  lemma {:induction false} JoinAppend(a: seq<string>, b: seq<string>, sep: string)
    requires |a| >= 1 && |b| >= 1
    ensures Join(a + b, sep) == Join(a, sep) + sep + Join(b, sep)
    decreases |a|
  {
    if |a| == 1 {
      assert (a + b)[1..] == b;
    } else {
      assert (a + b)[1..] == a[1..] + b;
      JoinAppend(a[1..], b, sep);
    }
  }

  /** A piece of a concatenation occurs where it was put. */
  lemma OccursIn(a: string, k: string, b: string)
    ensures OccursAt(a + k + b, |a|, k)
  {
    assert (a + k + b)[|a|..|a| + |k|] == k;
  }

  lemma CatAssoc(a: string, b: string, c: string)
    ensures (a + b) + c == a + (b + c)
  {
  }

  /** A piece put in front of the first item is put in front of the whole join. */
  lemma JoinHead(t: seq<string>, p: string, sep: string)
    requires |t| >= 1
    ensures Join([p + t[0]] + t[1..], sep) == p + Join(t, sep)
  {
    var u := [p + t[0]] + t[1..];
    if |t| == 1 {
      assert u == [p + t[0]];
    } else {
      assert u[0] == p + t[0] && u[1..] == t[1..];
      var c := sep + Join(t[1..], sep);
      assert Join(u, sep) == (p + t[0]) + c;
      assert Join(t, sep) == t[0] + c;
      CatAssoc(p, t[0], c);
    }
  }

  /** Putting a separator inside one piece splits that piece in two. */
  lemma {:induction false} JoinBreak(ls: seq<string>, i: nat, a: string, b: string, sep: string)
    requires i < |ls|
    ensures Join(ls[i := a + sep + b], sep) == Join(ls[..i] + [a, b] + ls[i + 1..], sep)
    decreases i
  {
    if i == 0 {
      var r := ls[1..];
      assert ls[i := a + sep + b] == [a + sep + b] + r;
      assert ls[..i] + [a, b] + ls[i + 1..] == [a] + ([b] + r);
      assert ([a] + ([b] + r))[1..] == [b] + r;
      if |r| > 0 {
        assert ([a + sep + b] + r)[1..] == r;
        assert ([b] + r)[1..] == r;
      }
    } else {
      var t := ls[1..];
      JoinBreak(t, i - 1, a, b, sep);
      assert ls[i := a + sep + b] == [ls[0]] + t[i - 1 := a + sep + b];
      assert ls[..i] + [a, b] + ls[i + 1..] == [ls[0]] + (t[..i - 1] + [a, b] + t[i..]);
      assert ([ls[0]] + t[i - 1 := a + sep + b])[1..] == t[i - 1 := a + sep + b];
      assert ([ls[0]] + (t[..i - 1] + [a, b] + t[i..]))[1..] == t[..i - 1] + [a, b] + t[i..];
    }
  }

  function TrimStart(s: string): (r: string)
    ensures |r| <= |s| && r == s[|s| - |r|..]
    ensures forall i :: 0 <= i < |s| - |r| ==> IsSpace(s[i])
    ensures |r| == 0 || !IsSpace(r[0])
  {
    if |s| > 0 && IsSpace(s[0]) then TrimStart(s[1..]) else s
  }

  function TrimEnd(s: string): (r: string)
    ensures |r| <= |s| && r == s[..|r|]
    ensures forall i :: |r| <= i < |s| ==> IsSpace(s[i])
    ensures |r| == 0 || !IsSpace(r[|r| - 1])
  {
    if |s| > 0 && IsSpace(s[|s| - 1]) then TrimEnd(s[..|s| - 1]) else s
  }

  /** `s.trim()`. */
  function Trim(s: string): string { TrimEnd(TrimStart(s)) }

  /** A value with no leading or trailing white space, which `trim` leaves alone. */
  predicate Trimmed(s: string) {
    |s| == 0 || (!IsSpace(s[0]) && !IsSpace(s[|s| - 1]))
  }

  lemma TrimTrimmed(s: string)
    requires Trimmed(s)
    ensures Trim(s) == s
  {
  }

  /** Trailing white space added after a trimmed value is trimmed away again. */
  lemma {:induction false} TrimPadded(s: string, pad: string)
    requires Trimmed(s)
    requires forall i :: 0 <= i < |pad| ==> IsSpace(pad[i])
    requires |s| > 0
    ensures Trim(s + pad) == s
    decreases |pad|
  {
    assert TrimStart(s + pad) == s + pad;
    if |pad| > 0 {
      var p' := pad[..|pad| - 1];
      assert (s + pad)[..|s + pad| - 1] == s + p';
      TrimPadded(s, p');
      assert TrimStart(s + p') == s + p';
    }
  }

  /** Lower-casing as far as it can turn a character into one of `[a-z0-9]`: ASCII capitals,
      the Kelvin sign (to `k`) and the dotted capital I (to `i` and a combining dot). */
  function LowerChar(c: char): string {
    if IsUpper(c) then [(c as int + 32) as char]
    else if c == '\U{212A}' then "k"
    else if c == '\U{0130}' then "i\U{0307}"
    else [c]
  }

  /** `s.toLowerCase()` (see LowerChar for the characters it covers). */
  function ToLower(s: string): string {
    if |s| == 0 then "" else LowerChar(s[0]) + ToLower(s[1..])
  }

  /** `a < b` on JavaScript strings, and the order `localeCompare` is taken to follow: by
      character code, a proper prefix first. */
  predicate LexLess(a: string, b: string)
    decreases |a|
  {
    if |a| == 0 then |b| > 0
    else if |b| == 0 then false
    else if a[0] != b[0] then a[0] < b[0]
    else LexLess(a[1..], b[1..])
  }
}
